=== FILE: README.md ===
# A Dafny model of the cfields3/projects course exercises

The repository is a set of independent C and Java course exercises. This
project models the sequential logic at the heart of ten of them and proves
properties of that model. There is one Dafny module per component, each in
its own file, and no module depends on I/O.

- **Word-placement board** (`board.dfy`, `board_session.dfy`,
  `words_file.dfy`). This is the board of the C word server
  (`scrabbleServer.c`) and the Java one (`Server.java`).
  - `across` and `down` place a word all or nothing.
  - An optional words file switches on a dictionary check of every run
    of two or more letters.
  - `board` draws the grid with a border.
  - A client session is modelled one command at a time. The two servers
    differ in three places, and each difference is stated as a lemma:
    - the letter test;
    - the format of the words file;
    - the reply to a placement that succeeds.
- **Base64** (`state24.dfy`, `encode.dfy`, `decode.dfy`,
  `filebuffer.dfy`). This covers:
  - the 24-bit state;
  - the `encode` and `decode` programs of section 4 of RFC 4648, with
    optional padding and optional line breaks after 76 characters;
  - the growable byte buffer.
- **Calculator** (`operation.dfy`, `numerals.dfy`, `calc.dfy`). This
  covers:
  - the checked `long` arithmetic;
  - the base-10 and base-25 number readers and printers;
  - the two-level expression loop.
- **Wordle** (`lexicon.dfy`, `feedback.dfy`, `wordle.dfy`,
  `history.dfy`). This covers:
  - reading the word file;
  - merge sort, the duplicate check, binary search and seeded word choice;
  - the green and yellow colouring;
  - the guessing loop;
  - the score history.
- **Temp agency** (`employees.dfy`, `agency.dfy`, `ctokens.dfy`,
  `input_line.dfy`). This covers:
  - reading employee files;
  - listing sorted and filtered employees;
  - assignment commands;
  - the dynamic line reader.
- **Hash map** (`hashmap.dfy`, `text.dfy`). This covers:
  - the chained table that doubles as it fills;
  - the quoted text value;
  - Jenkins' one-at-a-time hash.
- **Lights out** (`lightsout.dfy`). There are three variants: a
  message-queue server, and two programs over shared memory, the second
  with a bounds-checked move and a `test` command.
- **Hall allocation** (`hall.dfy`). This is the sequential part of the
  hall monitor: first-fit search, allocation, freeing and the
  allocation report.
- **Maximum contiguous sum** (`maxsum.dfy`). This covers:
  - the strided workers of the process and thread versions, with the
    parent's maximum clamped at 0;
  - the semaphore version's hand-out counter and suffix-sum workers.
- **Text utilities** (`exclude.dfy`, `stash.dfy`). `exclude` copies a
  file without one line. `stash` is a toy shell that splits a command at
  spaces.
- Shared definitions:
  - `common.dfy` holds integer ranges, C `isspace` and truncating
    division;
  - `cscan.dfy` holds the `scanf` conversions `%Ns` and `%d`;
  - `javatext.dfy` holds `String.split(" ")` and `Integer.parseInt`.

C integer types are modelled with explicit ranges, and Dafny's unbounded
`int` never stands in for them silently:
- Java `int` arithmetic wraps, and the model writes the wrap out.
- In C, signed overflow and writes past a buffer are undefined behaviour.
  The model either excludes them with a precondition or makes them an
  explicit outcome.

Where the code as written misbehaves, the model holds two members:
- one that follows the code as written, together with a lemma that
  exhibits the bad input;
- one with the evidently intended behaviour, which the rest of the model
  uses.

These pairs are listed under "## Findings".

The word servers are modelled as their code behaves, not as a generic
word server would. Two places matter:
- The Java server reads the words file one whole line per word. The C
  server reads white-space separated tokens of at most 26 characters.
- A negative coordinate is not simply rejected. In C it is undefined
  behaviour once it passes the bounds test and the letter test. In Java,
  the index exception it raises is answered with `Invalid command`.

## Model

| member | source | states |
|---|---|---|
| Board.EmptyGrid | OS-Projects/assignment5/scrabbleServer.c:393-397 | a new board has the requested number of rows, each `cols` cells long, and every cell is empty |
| Board.JavaAcceptsMoreLetters | OS-Projects/assignment6/Server.java:203-204 | every character the C server's `a`..`z` test accepts passes Java's `isLowerCase` too, but `é` passes only the Java test |
| Board.ScanFindsRuns | OS-Projects/assignment5/scrabbleServer.c:90-107 | scanning a line from a given cell accepts exactly when every maximal letter run starting there or later, of two or more letters, is a dictionary word |
| Board.LineScanMatchesRuns | OS-Projects/assignment5/scrabbleServer.c:90-107 | a whole line passes the scan exactly when all its maximal runs of two or more letters are listed; single letters are never checked |
| Board.BoardValidIffRunsListed | OS-Projects/assignment5/scrabbleServer.c:88-130 | `checkBoardValid` (rows, then columns) holds exactly when every maximal horizontal and vertical run of two or more letters is a dictionary word |
| Board.LineVerdictScan | OS-Projects/assignment5/scrabbleServer.c:91-107 | the C scan of one line, with its 27-byte run buffer, agrees with the unbounded scan unless it overruns, and it overruns only on meeting a maximal run of more than 26 letters |
| Board.LinesVerdictScan | OS-Projects/assignment5/scrabbleServer.c:88-130 | the scan of lines in order, stopping at the first unlisted run or overrun, is clean exactly when every line scans clean, and cannot overrun when no line does |
| Board.BoardVerdictValid | OS-Projects/assignment5/scrabbleServer.c:88-130 | short of an overrun, the C scan with its early `return false` accepts exactly the boards `checkBoardValid` is meant to accept; a board with no run over 26 letters never overruns |
| Board.WriteFrom | OS-Projects/assignment5/scrabbleServer.c:163-176 | the letter loop succeeds exactly when every remaining letter passes the dialect's letter test and lands on an empty cell or one holding that letter, and then yields the board with those letters written |
| Board.Place | OS-Projects/assignment5/scrabbleServer.c:143-205 | a placement succeeds exactly when the length is 1..26, the word fits, every letter passes the test, no different letter is in the way and (with a words file) every run on the candidate board is listed; on success the board is the candidate, otherwise nothing is produced |
| Board.PlaceKeepsLetters | OS-Projects/assignment5/scrabbleServer.c:169-174 | after a successful placement the word's cells hold its letters, every other cell is unchanged, and no letter already on the board is changed or erased |
| Board.PlaceIdempotent | OS-Projects/assignment6/Server.java:207-211 | placing the same word at the same spot a second time succeeds and leaves the board as it was |
| Board.RenderLayout | OS-Projects/assignment5/scrabbleServer.c:266-299 | the picture is rows + 2 lines of `cols + 3` characters: the `+`/`-` border first and last, and row `i` between two bars in line `i + 1` |
| Board.Picture | OS-Projects/assignment6/Server.java:291-323 | the rendered text cut into lines gives rows + 2 lines, each the border or a row shown with a space for every empty cell |
| Board.RowLine | OS-Projects/assignment5/scrabbleServer.c:278-290 | a row line is a bar, each cell shown as its letter or a space, a bar and a newline |
| BoardSession.PlaceOutcome | OS-Projects/assignment6/Server.java:183-237 | the reply flag holds exactly when the placement is accepted, and the board is the candidate then and unchanged otherwise |
| BoardSession.CBoundsAgree | OS-Projects/assignment5/scrabbleServer.c:149-150 | the C bound test, done in `size_t` arithmetic modulo 2^64, rejects exactly what the mathematical bound test rejects, except that a word whose last column (or row) is still negative passes it |
| BoardSession.CPlaceStep | OS-Projects/assignment5/scrabbleServer.c:346-363 | after `across`/`down`, `%d%d%27s` is read and the placement made; a reply is `Invalid command` with the board unchanged or silence, and reading past what the buffers hold, or a write at a negative index, is undefined |
| BoardSession.CStep | OS-Projects/assignment5/scrabbleServer.c:340-373 | one command: the session closes exactly at end of input or `quit`; otherwise the reply is silence, `Invalid command` or the picture, and any non-silent reply leaves the board unchanged |
| BoardSession.CSession | OS-Projects/assignment5/scrabbleServer.c:329-375 | a whole session's output starts with the `cmd> ` prompt and the board keeps its shape |
| BoardSession.CBoardThen | OS-Projects/assignment5/scrabbleServer.c:364-371 | a `board` command writes the picture and the next prompt, and the loop carries on with the same board |
| BoardSession.CPlaceCommand | OS-Projects/assignment5/scrabbleServer.c:346-363 | a written `across r c word` or `down r c word` command with non-negative coordinates, on whose candidate board the run scan reaches its verdict before any run overflows the 27-byte run buffer, replies silence with the candidate board exactly when the placement is accepted, and `Invalid command` with the board unchanged otherwise |
| BoardSession.NegativeArgs | OS-Projects/assignment5/scrabbleServer.c:149-150 | with a negative row or column the step is `Invalid command` or undefined behaviour, never a silent success |
| BoardSession.FarLeftIsInvalid | OS-Projects/assignment5/scrabbleServer.c:149-150 | a word placed across so far left that it ends before column 0 wraps the unsigned sum past the column count and is answered `Invalid command` |
| BoardSession.CBoardStep | OS-Projects/assignment5/scrabbleServer.c:364-365 | `board` replies with the rendered picture and leaves the board as it is |
| BoardSession.JavaRequest | OS-Projects/assignment6/Server.java:410-454 | one Java request: it closes exactly on `quit`; otherwise the reply is `No Output`, `Invalid command` or the picture, and the board changes only with `No Output` |
| BoardSession.JavaPlacementRequest | OS-Projects/assignment6/Server.java:417-429 | a four-token placement request replies `No Output` with the candidate board exactly when the placement is accepted, and `Invalid command` with the board unchanged otherwise, negative coordinates included |
| BoardSession.JavaSession | OS-Projects/assignment6/Server.java:410-460 | a run of requests gives at most one reply per request and a board of the same shape |
| WordsFile.CWordsTokens | OS-Projects/assignment5/scrabbleServer.c:316-324 | every word the C loader stores has 1 to 26 characters and no white space |
| WordsFile.CWordsRoundTrip | OS-Projects/assignment5/scrabbleServer.c:316-324 | a file of short space-free words, each followed by white space, loads as exactly those words |
| WordsFile.CLongWordSplits | OS-Projects/assignment5/scrabbleServer.c:316 | a 27- to 52-character word loads as two words, its first 26 characters and the rest |
| WordsFile.JavaLinesRoundTrip | OS-Projects/assignment6/Server.java:330-341 | a file of lines each ended by a newline loads as exactly those lines, empty ones and spaces included |
| WordsFile.CDictionary | OS-Projects/assignment5/scrabbleServer.c:306-327 | no words file means no run checking; otherwise the dictionary is the list of stored tokens |
| WordsFile.JavaDictionary | OS-Projects/assignment6/Server.java:330-341 | no words file means no run checking; otherwise the dictionary is the list of lines |
| WordsFile.LoadersDisagreeOn | OS-Projects/assignment6/Server.java:337-338 | a line holding two words separated by a space is two dictionary words to the C server and one to the Java server |
| WordsFile.JavaLines | OS-Projects/assignment6/Server.java:330-341 | the lines of the words file hold no line separator, and there are none exactly for an empty file |
| State24.InitState | C-Projects/p5/state24.c:69-75 | a fresh state holds three zero bytes and no bits |
| State24.ConvertChar | C-Projects/p5/state24.c:101-114 | every character maps to a 6-bit value, and `/` and every character outside the alphabet map to 63 |
| State24.ConvertByte | C-Projects/p5/state24.c:160-173 | every value maps to a character of the alphabet (`isalnum`, `+` or `/`) |
| State24.ConvertInverse | C-Projects/p5/state24.c:101-114 | the two conversions are inverse bijections between the values 0..63 and the 64 alphabet characters of Table 1 in section 4 of RFC 4648 |
| State24.AddByte | C-Projects/p5/state24.c:86-91 | with at most 16 bits loaded, the byte lands in byte `bitCount / 8`, the other bytes are kept and 8 more bits are counted |
| State24.AddCharGroups | C-Projects/p5/state24.c:116-139 | seen as four 6-bit groups, adding a character ors its value into group `bitCount / 6`, leaves the other groups alone and counts 6 more bits |
| State24.GetBytes | C-Projects/p5/state24.c:141-151 | `getBytes` gives the first `bitCount / 8` bytes of the state and leaves a fresh state |
| State24.GetChars | C-Projects/p5/state24.c:175-211 | `getChars` gives one alphabet character per started group of 6 bits, each the character of that group, and leaves a fresh state |
| State24.AddCharsSextets | C-Projects/p5/state24.c:116-139 | characters added to a fresh state fill its first 6-bit groups with their values, and the groups after them stay zero |
| State24.StateRoundTrip | C-Projects/p5/state24.c:86-211 | one to three bytes make one more character than bytes, and those characters added back to a fresh state give the same bytes |
| State24.GetBytesAdded | C-Projects/p5/state24.c:141-151 | a fresh state loaded with up to three bytes gives those bytes back |
| Encode.GroupChars | C-Projects/p5/encode.c:115-124 | a group of one to three bytes makes one more character than it has bytes, all from the alphabet |
| Encode.Padding | C-Projects/p5/encode.c:134-140 | with padding on, a last group of 2 characters gets `==` and one of 3 gets `=`; otherwise nothing is added |
| Encode.EncodeChars | C-Projects/p5/encode.c:108-127 | the byte loop with its final `getChars` writes the characters of every three-byte group followed by the last group's, and the last group has one more character than bytes |
| Encode.EncodeFile | C-Projects/p5/encode.c:104-144 | the output is the encoding characters, the padding and one newline, written through the line breaker, and nothing at all for an empty file |
| Encode.EncodeText | C-Projects/p5/encode.c:104-144 | the output is empty exactly for empty input, and otherwise ends in exactly one newline |
| Encode.BodyLength | C-Projects/p5/encode.c:113-127 | `n` bytes make four characters per whole group of three and one more than the bytes of the last group |
| Encode.PaddedLength | C-Projects/p5/encode.c:126-140 | with padding on, the characters and their `=` signs fill whole groups of four (section 4 of RFC 4648) |
| Encode.EmitNoBreaks | C-Projects/p5/encode.c:47-55 | with `-b`, `outputCharacter` writes the characters as they are |
| Encode.EmitLines | C-Projects/p5/encode.c:47-55 | with breaks on, a newline comes exactly after every 76 characters, so every line holds 76 characters except possibly the last (section 6.8 of RFC 2045) |
| Encode.Flags | C-Projects/p5/encode.c:85-94 | the flag arguments are accepted exactly when each is `-p` or `-b`; `-p` turns padding off and `-b` line breaks |
| Encode.EncodeArgs | C-Projects/p5/encode.c:71-94 | fewer than three arguments, or a flag other than `-p`/`-b`, is the usage error; otherwise the last two arguments name the files |
| Decode.DecodeFile | C-Projects/p5/decode.c:59-110 | the two loops and the final `getBytes` give exactly the bytes of the encoding characters read before the first `=`, or the invalid-file error |
| Decode.RejectChar | C-Projects/p5/decode.c:80-85 | a character that is not white space and not in the alphabet, before the first `=`, makes the file invalid |
| Decode.ScanNoStop | C-Projects/p5/decode.c:71-91 | before any `=`, white space is skipped and encoding characters are kept in order; any other character rejects the input |
| Decode.TrailerRejects | C-Projects/p5/decode.c:94-103 | a character other than `=` after the `=` signs and before white space makes the file invalid |
| Decode.TrailerIgnoresRest | C-Projects/p5/decode.c:94-103 | once white space follows the `=` signs, whatever comes after it is not read |
| Decode.BytesOfLength | C-Projects/p5/decode.c:73-78 | `k` characters decode to `floor(6k / 8)` bytes: three per group of four and `floor(6k / 8)` for a last group of `k` |
| Decode.RoundTrip | C-Projects/p5/decode.c:59-110 | decoding what `encode` writes (encode.c:104-144), with or without padding and line breaks, gives back the original bytes |
| Decode.DecodeArgs | C-Projects/p5/decode.c:22-49 | fewer than three arguments is the usage error; otherwise `argv[1]` names the input file and `argv[2]` the output file |
| Decode.DecodeIgnoresExtra | C-Projects/p5/decode.c:43-49 | arguments after the output file name change nothing, so the last argument is not the output file as it is for `encode` |
| FileBuffer.Make | C-Projects/p5/filebuffer.c:23-31 | a new buffer holds nothing and has room for one byte |
| FileBuffer.Append | C-Projects/p5/filebuffer.c:39-49 | an append keeps the contents, adds the byte at the old size, and doubles the room exactly when the buffer was full, so the size never exceeds the room |
| FileBuffer.AppendAllContents | C-Projects/p5/filebuffer.c:39-49 | bytes appended one by one follow the existing contents in order |
| FileBuffer.MadeBuffer | C-Projects/p5/filebuffer.c:23-49 | a buffer filled from `makeFileBuffer` holds exactly the appended bytes, in less than twice their room |
| Operation.Wrap | C-Projects/p2/operation.c:20 | the unchecked sum wraps to the `long` that is congruent to the exact value modulo 2^64, and leaves a `long` alone |
| Operation.PlusAsWritten | C-Projects/p2/operation.c:18-33 | outside the case `LONG_MIN + LONG_MIN`, `plus` returns the exact sum when it is a `long` and exits with status 100 otherwise |
| Operation.PlusMissesMinMin | C-Projects/p2/operation.c:20-32 | `plus(LONG_MIN, LONG_MIN)` returns 0 although -2^64 is no `long` |
| Operation.Plus | C-Projects/p2/operation.c:18-33 | the corrected `plus` returns the exact sum exactly when it is a `long`, and exits with status 100 otherwise |
| Operation.MinusAsWritten | C-Projects/p2/operation.c:35-50 | outside the case `0 - LONG_MIN`, `minus` returns the exact difference when it is a `long` and exits with status 100 otherwise |
| Operation.MinusMissesZeroMin | C-Projects/p2/operation.c:37-49 | `minus(0, LONG_MIN)` returns `LONG_MIN` although 2^63 is no `long` |
| Operation.Minus | C-Projects/p2/operation.c:35-50 | the corrected `minus` returns the exact difference exactly when it is a `long`, and exits with status 100 otherwise |
| Operation.TimesAsWritten | C-Projects/p2/operation.c:52-75 | `times` dies of `SIGFPE` exactly when a positive value is multiplied by -1; any value it returns is the exact product |
| Operation.TimesMinusOneTraps | C-Projects/p2/operation.c:68-72 | every positive value times -1 kills `times`, though the product is a `long` |
| Operation.Times | C-Projects/p2/operation.c:52-75 | the corrected `times` returns the exact product exactly when it is a `long`, and exits with status 100 otherwise |
| Operation.TimesAgree | C-Projects/p2/operation.c:52-75 | apart from the trap, `times` as written and corrected give the same outcome |
| Operation.Divide | C-Projects/p2/operation.c:77-90 | a zero divisor exits with status 101; otherwise the quotient truncated toward zero is returned when it is a `long`, and status 100 is the exit otherwise |
| Operation.QuotientInRange | C-Projects/p2/operation.c:77-90 | the truncated quotient of two `long`s is a `long` except for `LONG_MIN / -1` |
| Numerals.SkipSpace | C-Projects/p2/number10.c:22-29 | `skipSpace` leaves input that is empty or starts with something other than a blank |
| Numerals.SkipSpaceDropsBlanks | C-Projects/p2/number10.c:22-29 | what `skipSpace` drops is exactly a run of blanks at the front, and the rest is left as it was |
| Numerals.DigitCharValue | C-Projects/p2/number25.c:94-118 | the digit a value prints as reads back as that value |
| Numerals.Accumulate | C-Projects/p2/number25.c:56-76 | the digit loop stops at a character that is no digit of the build and returns a `long`; only the checked loop can exit, with status 100 |
| Numerals.ParseWith | C-Projects/p2/number25.c:37-86 | `parseValue` returns a `long`, or exits with status 102 for input that is not a number, or with 100 when the checked loop overflows |
| Numerals.NotANumber | C-Projects/p2/number10.c:46-48 | input that after its blanks and optional `-` starts with anything other than `0`-`9` or `A`-`O` ends the program with status 102 |
| Numerals.LetterReadsAsZero | C-Projects/p2/number10.c:46-65 | in base 10 a letter `A`-`O` passes the first check, is no digit, reads as 0 and stays unread |
| Numerals.BlanksAfterDigits | C-Projects/p2/number10.c:51-65 | blanks between digits are skipped, so `1 2` reads as 12 |
| Numerals.ParseNumeral | C-Projects/p2/number25.c:37-86 | a numeral whose value is a `long` (and not the magnitude of `LONG_MIN`) reads as its value, signed, with what follows unread |
| Numerals.ParseNumeralOverflows | C-Projects/p2/number25.c:56-76 | with checked arithmetic a numeral whose value is no `long` ends the program with status 100 |
| Numerals.PrintValue | C-Projects/p2/number10.c:104-126 | apart from `LONG_MIN`, the text ends in a newline and starts with `-` exactly for a negative value |
| Numerals.DigitsValue | C-Projects/p2/number10.c:83-102 | the digits `printDigit` writes, read back, are worth the value printed |
| Numerals.PrintMagnitude | C-Projects/p2/number25.c:120-142 | both builds print a `-` and then the digits of the magnitude for a negative value |
| Numerals.PrintParse | C-Projects/p2/number25.c:37-142 | every `long` other than `LONG_MIN` that `printValue` writes reads back through `parseValue` as itself |
| Numerals.LongMinNotReadBack | C-Projects/p2/number25.c:122-126 | the base-25 text printed for `LONG_MIN` does not read back: the checked loop overflows on its magnitude |
| Numerals.ParseValue10AsWritten | C-Projects/p2/number10.c:31-75 | the base-10 `parseValue` as written never exits for overflow: it returns a value or exits with status 102 |
| Numerals.ParseValue10Wraps | C-Projects/p2/number10.c:58-61 | `9223372036854775808` reads as `LONG_MIN` in the base-10 `parseValue` as written, and ends with status 100 in the corrected one |
| Numerals.ParseValue10 | C-Projects/p2/number10.c:31-75 | the corrected base-10 `parseValue` folds digits in through `times` and `plus` and returns only `long`s |
| Numerals.ParseValue25 | C-Projects/p2/number25.c:37-86 | the base-25 `parseValue` returns only `long`s |
| Numerals.Base25DigitsOfMin | C-Projects/p2/number25.c:122-126 | the constant text `printValue` writes for `LONG_MIN` is the base-25 numeral of 2^63 |
| Calc.ReadValue | C-Projects/p2/calc.c:30-31 | the calculator reads a `long` or exits with status 100 or 102 |
| Calc.TermLoop | C-Projects/p2/calc.c:33-51 | the term loop returns a `long` and leaves `+`, `-` or a newline unread, or exits with one of the calculator's failure statuses |
| Calc.ParseTerm | C-Projects/p2/calc.c:28-52 | `parseTerm` returns a `long` and stops before `+`, `-` or a newline, or ends the program with a failure status |
| Calc.Calc | C-Projects/p2/calc.c:64-87 | a run of the calculator writes text or exits with one of its failure statuses |
| Calc.CorrectedIsExact | C-Projects/p2/operation.c:18-90 | the corrected operations give the exact result when it is a `long`, and otherwise exit with status 100, or 101 for a zero divisor |
| Calc.AsWrittenAgrees | C-Projects/p2/operation.c:18-90 | the operations as written differ from the corrected ones exactly on `LONG_MIN + LONG_MIN`, `0 - LONG_MIN` and a positive value times -1 |
| Calc.LiteralParse | C-Projects/p2/calc.c:30-31 | a numeral followed by an operator or newline reads as its value and leaves the operator unread |
| Calc.TermRun | C-Projects/p2/calc.c:28-52 | `parseTerm` over a written term evaluates its products and quotients from left to right |
| Calc.TermsRun | C-Projects/p2/calc.c:70-86 | the loop of `main` over written terms evaluates the sums and differences from left to right |
| Calc.CalcEvaluates | C-Projects/p2/calc.c:64-87 | the calculator on the text of an expression writes the value of its tree, with `*` and `/` binding tighter and everything associating to the left, or exits with that tree's failure |
| Calc.UnknownOperator | C-Projects/p2/calc.c:33-51 | a character after a value that is not an operator or newline ends the program with status 102 |
| Calc.EndInsideTerm | C-Projects/p2/calc.c:33-51 | input that ends where an operator is expected ends the program with status 102 |
| Calc.BlankInput | C-Projects/p2/calc.c:64-87 | input with nothing but blanks ends the program with status 102 |
| Calc.NegatedTermKills | C-Projects/p2/calc.c:40-44 | `a*-1` with `a > 0` kills the calculator as written, and the corrected one writes `-a` |
| Calc.DoubleMinWrapsToZero | C-Projects/p2/calc.c:75-78 | an expression worth -2^64 writes 0 in the calculator as written and exits with status 100 in the corrected one |
| Numerals.DigitChar | C-Projects/p2/number25.c:98-105 | the character `printDigit` writes for a digit value is a digit character that `parseValue` reads back as the same value, and a decimal digit exactly for values below 10 |
| Lexicon.SortedOrdered | C-Projects/p3/lexicon.c:178-190 | a list without adjacent equal words that is sorted by `strcmp` is strictly ordered |
| Lexicon.Merge | C-Projects/p3/lexicon.c:121-135 | `merge` is a permutation of the two halves, and takes the right half's first word first only when the left one is not smaller |
| Lexicon.MergeSorted | C-Projects/p3/lexicon.c:121-135 | merging two sorted halves gives a sorted list |
| Lexicon.MergeSort | C-Projects/p3/lexicon.c:148-176 | `mergeSort` gives a sorted permutation of the list |
| Lexicon.DistinctCounts | C-Projects/p3/lexicon.c:183-189 | a list has no repeated word exactly when no word occurs in it more than once |
| Lexicon.SortedDuplicates | C-Projects/p3/lexicon.c:183-189 | in a sorted list two adjacent words are equal exactly when some word is repeated |
| Lexicon.Sort | C-Projects/p3/lexicon.c:178-190 | `sort` rejects the word file exactly when a word is repeated, and otherwise leaves a strictly ordered permutation of the words |
| Lexicon.BinarySearch | C-Projects/p3/lexicon.c:79-94 | `binarySearch` returns -1 or an index between `min` and `max` that holds the word |
| Lexicon.BinarySearchFinds | C-Projects/p3/lexicon.c:79-94 | on an ordered list, `binarySearch` returns -1 exactly when the word is not between `min` and `max` |
| Lexicon.InListAsWritten | C-Projects/p3/lexicon.c:96-103 | `inList` as written searches up to index `numWords`, so a word it accepts is a listed word or the one in the slot after the list |
| Lexicon.InListAcceptsSpare | C-Projects/p3/lexicon.c:96-103 | `inList` as written accepts the unlisted word in the slot after the list |
| Lexicon.InListSpareAgrees | C-Projects/p3/lexicon.c:96-103 | on every word other than that slot's, `inList` as written answers exactly whether the word is listed |
| Lexicon.InList | C-Projects/p3/lexicon.c:96-103 | the corrected `inList` on an ordered list answers exactly whether the word is listed |
| Lexicon.ChooseIndexAsWritten | C-Projects/p3/lexicon.c:60-63 | the index `chooseWord` computes is below `numWords`, and is not negative for a seed that is not negative |
| Lexicon.NegativeSeedIndex | C-Projects/p3/lexicon.c:60-63 | the seed -1 with two words gives the index -1, outside the word list |
| Lexicon.ChooseIndex | C-Projects/p3/lexicon.c:60-63 | the corrected index is always a valid position in the word list |
| Lexicon.ChooseIndexAgrees | C-Projects/p3/lexicon.c:60-63 | for a seed that is not negative the corrected index is the one `chooseWord` computes |
| Lexicon.LastLineHangs | C-Projects/p3/io.c:31-33 | `readLine` as written never returns on a last word with no newline after it, because `fgetc` keeps returning `EOF` |
| Lexicon.ReadLine | C-Projects/p3/io.c:16-37 | the corrected `readLine` reads exactly `n` lower-case letters from the front and drops the rest of the line, reports the end of input within the first `n` characters, and always returns |
| Lexicon.ReadLineAgrees | C-Projects/p3/io.c:16-37 | wherever `readLine` as written returns, the corrected one gives the same result |
| Lexicon.ReadLineWord | C-Projects/p3/io.c:16-37 | five letters and a newline read as that word, and what follows stays unread |
| Lexicon.ReadFrom | C-Projects/p3/lexicon.c:41-56 | the loop of `readWords` keeps the words already read in front, holds at least one word and at most `WORD_LIMIT`, and leaves an unfinished last line in the next slot |
| Lexicon.ReadWordFile | C-Projects/p3/lexicon.c:31-58 | a file of words, each followed by a newline, loads exactly those words in file order |
| Lexicon.TooManyWords | C-Projects/p3/lexicon.c:43-47 | a file with more than `WORD_LIMIT` words is rejected as invalid |
| Feedback.NextIndexIn | C-Projects/p3/wordle.c:47-55 | `nextIndexIn` returns the first index from `start` holding the character, or -1 exactly when there is none |
| Feedback.MarkedBound | C-Projects/p3/wordle.c:121-164 | no letter is marked green or yellow more often than it occurs in the target |
| Feedback.GreenCountsUnused | C-Projects/p3/wordle.c:130-135 | after the green pass, the positions still available for a letter are exactly its occurrences that the guess did not match in place |
| Feedback.FindUnused | C-Projects/p3/wordle.c:145-156 | the inner search returns the first occurrence of the letter still available, or -1 exactly when every occurrence is used up |
| Feedback.Colour | C-Projects/p3/wordle.c:121-170 | the colours printed for a guess are those of the reference colouring: green for a letter in place, yellow for one of the letter's occurrences still unused from the left, plain otherwise |
| Feedback.ColourAt | C-Projects/p3/wordle.c:138-163 | one letter's turn of the loop prints its reference colour and keeps the bookkeeping of used occurrences |
| Wordle.ColourLine | C-Projects/p3/wordle.c:126-170 | a listed guess prints as its own letters in its reference colours |
| Wordle.RoundAsWrittenSpec | C-Projects/p3/wordle.c:87-174 | a round as written overflows the `guess` array exactly when the word read does not fit with its terminator (with the declared six bytes: every word of six or seven characters); otherwise it ends the game, or prints one line: a counted line is coloured or garbled, an uncounted one says invalid, and a garbled one shows the unlisted word after the list |
| Wordle.RoundSpec | C-Projects/p3/wordle.c:93-174 | a corrected round ends the game, or prints one line: a counted guess is a listed word other than the target in its colours, anything else is an invalid guess |
| Wordle.Round | C-Projects/p3/wordle.c:93-174 | every corrected round that goes on consumes input |
| Wordle.Play | C-Projects/p3/wordle.c:93-182 | the corrected game always ends, solved or with the word revealed |
| Wordle.PlayCounts | C-Projects/p3/wordle.c:99-177 | a solved game reports one guess per coloured line plus the winning one; invalid guesses are not counted |
| Wordle.PlayColours | C-Projects/p3/wordle.c:126-170 | every coloured line of a game is a listed word other than the target, coloured against the target |
| Wordle.RoundAgrees | C-Projects/p3/wordle.c:93-174 | on input without over-long words or the word after the list, a round as written, with a `guess` array of at least the declared size, does what the corrected round does |
| Wordle.PlayAgrees | C-Projects/p3/wordle.c:93-182 | on such input the game as written, given enough rounds, plays exactly as the corrected game |
| Wordle.StaleGuessHangs | C-Projects/p3/wordle.c:95-111 | with a `guess` array of the eight bytes `%7s` needs, at the end of input after an over-long guess the loop as written sees that guess again and prints "Invalid guess" forever |
| Wordle.EndOfInputReveals | C-Projects/p3/wordle.c:115-119 | the corrected game reveals the word at the end of input |
| Wordle.OverlongLastWordHangs | C-Projects/p3/wordle.c:95-111 | with a `guess` array of eight bytes, an over-long last word keeps the loop as written going without end |
| Wordle.OverlongOverflows | C-Projects/p3/wordle.c:87-111 | with the declared six-byte `guess` array, a word of six or seven characters overflows it and the game as written has no defined outcome; with eight bytes the round goes on, and the corrected round rejects the word without counting it |
| Wordle.SevenLetterWordSkipsNext | C-Projects/p3/wordle.c:105-111 | with a `guess` array of eight bytes, a word of exactly seven characters makes `%*s` throw away the next word as written, and the corrected round keeps it |
| Wordle.SpareGuessAccepted | C-Projects/p3/wordle.c:126-172 | the unlisted word after the list is counted as a guess and prints garbled as written, and is an invalid guess in the corrected round |
| History.NoScores | C-Projects/p3/history.c:27-33 | with no file, all ten counters start at zero |
| History.Update | C-Projects/p3/history.c:41-46 | a game adds one to the counter of its guess count, or to the last counter for ten guesses or more, and changes no other counter |
| History.RecordCounts | C-Projects/p3/history.c:41-46 | starting from zeros, each counter holds the number of games recorded in its bucket |
| History.ReadScores | C-Projects/p3/history.c:24-33 | a missing file reads as ten zeros, and a file that reads gives ten `int` counters |
| History.FileRoundTrip | C-Projects/p3/history.c:27-63 | the counters written to the file read back as the same counters |
| History.PadLeft | C-Projects/p3/history.c:50 | a padded field is at least its width, ends with the text and starts with spaces |
| History.ReportLineReads | C-Projects/p3/history.c:49-51 | a line of the table starts with its guess count, two characters wide, followed by `+` on the last line and a space on the others |
| History.ReportLineCount | C-Projects/p3/history.c:49-51 | after the guess count and ` : `, a line of the table reads back as exactly its counter |
| History.UpdateScore | C-Projects/p3/history.c:17-67 | `updateScore` always succeeds without a file; when it succeeds, the file it writes reads back as the updated counters and the table printed shows them |
| Employees.MakeDatabase | C-Projects/p4/database.c:25-33 | a new database holds no employee and has room for five |
| Employees.FindFrom | C-Projects/p4/agency.c:145-153 | the search returns the first position holding the id, or nothing exactly when no employee has it |
| Employees.ParseEmployee | C-Projects/p4/database.c:59-82 | a line gives an employee exactly when it has four words with an id of four characters and names and skill of at most fifteen, and that employee is `Available`; a line with fewer words is rejected |
| Employees.ParseEmployeeLine | C-Projects/p4/database.c:59-82 | an employee's four fields written on a line read back as that employee, `Available` |
| Employees.ParseEmployeeAsWritten | C-Projects/p4/database.c:59-82 | wherever no word overflows its buffer, the line as written gives what the corrected check gives |
| Employees.LongIdOverflows | C-Projects/p4/database.c:59-60 | an id of six characters or more is written past its buffer as written, while the corrected check rejects the line |
| Employees.LongNameOverflows | C-Projects/p4/database.c:59-60 | a first name of seventeen characters or more is written past its buffer as written, while the corrected check rejects the line |
| Employees.AddLine | C-Projects/p4/database.c:56-104 | a line that is accepted adds one employee at the end, keeps the others, and keeps every id unique and the count within the capacity, which doubles when full |
| Employees.ParseAll | C-Projects/p4/database.c:59-82 | all lines parse exactly when each of them gives an employee, and then in order |
| Employees.AddLinesIff | C-Projects/p4/database.c:55-105 | a file's lines load exactly when every line parses and no id repeats one already loaded or earlier in the file, and the employees are appended in file order |
| Employees.DuplicateRejected | C-Projects/p4/database.c:84-93 | a line repeating an id already in the database makes the file invalid |
| Employees.ReadEmployees | C-Projects/p4/database.c:45-108 | a file that cannot be opened ends the program with `Can't open file:` and its name; a loaded file leaves a valid database |
| Employees.ReadEmployeeFile | C-Projects/p4/database.c:45-108 | a file holding the lines of valid employees with new ids loads exactly those employees after the existing ones |
| Employees.BeforeOrder | C-Projects/p4/agency.c:49-82 | both comparators are strict orders, and total on employees with different ids |
| Employees.SortBy | C-Projects/p4/database.c:113-114 | the sort is a permutation of the list |
| Employees.SortBySorted | C-Projects/p4/database.c:113-114 | the sorted list is ordered by the comparator |
| Employees.SortedUnique | C-Projects/p4/agency.c:49-82 | two orderings of the same employees with unique ids are the same list, so the unstable `qsort` gives one result |
| Employees.Filtered | C-Projects/p4/agency.c:93-134 | the employees listed are exactly those that pass the test |
| Employees.ListEmployees | C-Projects/p4/database.c:110-129 | `listEmployees` leaves the list sorted and a permutation of what it was, and prints the header and one row for each employee that passes the test, in the new order |
| Employees.RowFields | C-Projects/p4/database.c:121-126 | a row reads back as the employee's five fields |
| Employees.RowLength | C-Projects/p4/database.c:121-126 | every row is 74 characters, the last a newline |
| CTokens.Tokens | C-Projects/p4/agency.c:193 | the words `%s` reads are nonempty and hold no white space |
| CTokens.Matches | C-Projects/p4/agency.c:193 | `sscanf` returns `EOF` exactly for a line of white space, and otherwise the number of words read, at most the number of conversions |
| CTokens.TokensOfJoin | C-Projects/p4/agency.c:193 | words joined by single spaces read back as those words |
| InputLine.ReadLine | C-Projects/p4/input.c:19-49 | `readLine` gives nothing exactly at the end of input; otherwise the characters up to the next newline or the end, without it, in a buffer that doubles when full, and the position after the newline |
| InputLine.LinesOfUnlines | C-Projects/p4/input.c:19-49 | lines written each with a newline read back as the same lines |
| Agency.ParseCommand | C-Projects/p4/agency.c:193-248 | a command is `quit` exactly when the line is the single word `quit`; a blank line and a line of four or more words are invalid |
| Agency.ParseCommandAsWritten | C-Projects/p4/agency.c:188-193 | wherever the line as written has a defined meaning, it is the corrected command |
| Agency.FourthWordOverflows | C-Projects/p4/agency.c:191-193 | a line of four words writes past the one-byte buffer as written, and is an invalid command when corrected |
| Agency.BlankLineUndefined | C-Projects/p4/agency.c:193-199 | a blank line leaves the command buffer unset before it is compared as written, and is an invalid command when corrected |
| Agency.ParseCommandText | C-Projects/p4/agency.c:193-248 | every command a user can type reads back as itself, as written and corrected |
| Agency.SetAssignment | C-Projects/p4/agency.c:221 | setting one employee's assignment changes nothing else |
| Agency.Execute | C-Projects/p4/agency.c:199-248 | a command keeps the database valid, quits exactly for `quit`, leaves the database unchanged when it prints `Invalid command`, and an invalid command prints just that |
| Agency.AssignSucceeds | C-Projects/p4/agency.c:213-225 | `assign` succeeds exactly when an employee has the id and is `Available`, and then changes only that employee's assignment |
| Agency.UnassignSucceeds | C-Projects/p4/agency.c:226-238 | `unassign` succeeds exactly when an employee has the id and is not `Available`, and then makes only that employee `Available` |
| Agency.AssignThenUnassign | C-Projects/p4/agency.c:213-238 | unassigning an employee just assigned restores the database |
| Agency.UnassignThenAssign | C-Projects/p4/agency.c:213-238 | assigning an employee just unassigned their old assignment restores the database |
| Agency.Commands | C-Projects/p4/agency.c:185-193 | each line of input gives its command |
| Agency.QuitStops | C-Projects/p4/agency.c:239-242 | nothing after `quit` is read or printed |
| Agency.SessionQuits | C-Projects/p4/agency.c:185-253 | the loop ends with `quit` exactly when some line is the single word `quit` |
| Agency.LoadAll | C-Projects/p4/agency.c:180-182 | loading every file leaves a valid database only when every file could be opened |
| Agency.Run | C-Projects/p4/agency.c:168-257 | the program ends with status 0 exactly when files are named and all load, and then prints the first prompt and no error; otherwise it ends with status 1 and prints nothing on standard output |
| HashMap.Slot | C-Projects/p6/map.c:119 | a key's bucket index is always inside the table |
| HashMap.MakeMapEmpty | C-Projects/p6/map.c:43-56 | a new map of `len` buckets is valid, has size 0 and finds no key |
| HashMap.Contents | C-Projects/p6/map.c:58-61 | in a valid map no key is stored twice, `mapSize` is the number of nodes, and a key is found with a value exactly when that pair is stored |
| HashMap.GetSpec | C-Projects/p6/map.c:143-155 | `mapGet` returns a value only when the key is stored with it, and `NULL` exactly when the key is stored with no value |
| HashMap.ExpandKeeps | C-Projects/p6/map.c:71-113 | `expandMap` doubles the table, keeps the size and the invariant, and every key finds the same value as before |
| HashMap.SetSpec | C-Projects/p6/map.c:115-141 | `mapSet` keeps the map valid, makes the key find the new value, leaves every other key alone, grows the size exactly when the key was new, and doubles the table exactly when it was full |
| HashMap.StoreGet | C-Projects/p6/map.c:119-140 | after storing, the key finds the new value and every other key what it found before |
| HashMap.RemoveSpec | C-Projects/p6/map.c:157-175 | `mapRemove` returns true exactly when the key was stored, leaves the map valid with the key gone and every other key alone, shrinks the size by one exactly when it returns true, and otherwise changes nothing |
| HashMap.FindDelete | C-Projects/p6/map.c:158-166 | unlinking the first node with the key loses that key and keeps every other |
| HashMap.FindReplace | C-Projects/p6/map.c:121-127 | replacing the value at the first node with the key changes what that key finds and nothing else |
| Text.ParseTextAsWritten | C-Projects/p6/text.c:75-145 | a value read as written ends just past a closing quote inside the string |
| Text.NoQuoteNull | C-Projects/p6/text.c:123-126 | `parseText` returns `NULL` exactly when the string holds no quote |
| Text.UnclosedQuote | C-Projects/p6/text.c:83-129 | an opening quote that is never closed leaves the value unterminated before `strlen` as written, and gives no value when corrected |
| Text.ParseText | C-Projects/p6/text.c:75-145 | the corrected `parseText` gives a value exactly where the code as written scans a closed quote, and the same value and length |
| Text.EscapeCodeInverse | C-Projects/p6/text.c:94-115 | each escape reads back as the character it stands for |
| Text.ParseQuoted | C-Projects/p6/text.c:75-145 | a string written with quotes and escapes reads back as itself, with the length used just past the closing quote |
| Text.SkipsPrefix | C-Projects/p6/text.c:83-92 | text without quotes in front of a value is skipped, and only moves where the value ends |
| Text.Hash | C-Projects/p6/text.c:40-60 | `hash` computes Jenkins' one-at-a-time hash in 32-bit unsigned arithmetic, each `char` widened as a signed byte |
| Text.EqualsHash | C-Projects/p6/text.c:24-60 | on texts without a NUL, the `strcmp` test in `equals` holds exactly when the strings are the same; such texts hash alike, and `equals` is symmetric on them |
| LightsOut.Invert | OS-Projects/assignment1/server.c:53-59 | `invertLight` always leaves a light, and turns a cell on exactly when it was off |
| LightsOut.InvertTwice | OS-Projects/assignment1/server.c:53-59 | inverting twice restores a cell exactly when it holds a light |
| LightsOut.InvertLight | OS-Projects/assignment1/server.c:53-59 | `invertLight` changes the one cell at the coordinates and nothing else |
| LightsOut.InvertStepsToggle | OS-Projects/assignment1/server.c:70-83 | the five guarded `invertLight` calls of `move` flip exactly the cell and its neighbours on the board |
| LightsOut.ToggleKeepsLights | OS-Projects/assignment1/server.c:70-83 | a move keeps a board of lights a board of lights |
| LightsOut.ToggleTwice | OS-Projects/assignment1/server.c:70-83 | the same move twice restores the board |
| LightsOut.ToggleCommutes | OS-Projects/assignment1/server.c:70-83 | two moves give the same board in either order |
| LightsOut.Move | OS-Projects/assignment1/server.c:70-83 | `move` saves the board for undo, allows an undo, and changes no cell outside the cross it flips |
| LightsOut.Undo | OS-Projects/assignment1/server.c:92-100 | `undo` never allows a second undo, and a refused undo changes nothing |
| LightsOut.UndoAllowed | OS-Projects/assignment1/server.c:35-100 | from the start, where `canUndo` is false, an undo succeeds after a history of requests exactly when some move came after the last undo, whatever reports came in between |
| LightsOut.MoveThenUndo | OS-Projects/assignment1/server.c:70-100 | an undo after a move restores the board, and a second undo is refused |
| LightsOut.Report | OS-Projects/assignment1/server.c:110-122 | `report` writes 30 characters: each row's five cells followed by a newline |
| LightsOut.ReadBoardFile | OS-Projects/assignment1/server.c:174-189 | a board file is accepted exactly when each of its first five lines is five lights and a newline, and the board holds those lights |
| LightsOut.ReportIsBoardFile | OS-Projects/assignment1/server.c:110-189 | a board's report is a board file that reads back as that board |
| LightsOut.BoardFileIsReport | OS-Projects/assignment1/server.c:110-189 | an accepted board file starts with exactly the report of the board it gives |
| LightsOut.ReportOverflowsCommand | OS-Projects/assignment1/server.c:220-223 | the request `report` does not fit the six-byte command buffer as written, and fits a buffer of seven |
| LightsOut.Serve | OS-Projects/assignment1/server.c:210-245 | the reply is empty exactly for an unknown command; only `move` and `undo` change the game; `report` replies with the board and `undo` replies `success` exactly when it may undo |
| LightsOut.ServeMove | OS-Projects/assignment1/server.c:223-231 | the request `move r c` on the board moves at `(r, c)` and replies `success` |
| LightsOut.Command2 | OS-Projects/assignment2/lightsout.c:137-200 | the second variant accepts `move` only with two coordinates whose first characters are `0`-`4`, `undo` exactly when it may undo, and rejects every other command; with no command at all, `strcmp` reads the missing `argv[1]` (undefined behaviour) |
| LightsOut.Command2FirstCharacter | OS-Projects/assignment2/lightsout.c:159-176 | only the first character of a coordinate is read, so `move 3x 41` moves at `(3, 4)` |
| LightsOut.CheckedMove | OS-Projects/assignment3/lightsout.c:75-100 | the third variant's `move` is refused exactly off the board, and then changes nothing |
| LightsOut.RepeatParity | OS-Projects/assignment3/lightsout.c:165-173 | `n` moves at one cell leave the board flipped once when `n` is odd and unchanged when even |
| LightsOut.Test | OS-Projects/assignment3/lightsout.c:165-173 | `test` is refused exactly off the board, and then, as for a count of zero or less, changes nothing |
| LightsOut.Command3 | OS-Projects/assignment3/lightsout.c:187-246 | the third variant fails with usage exactly when no command is given; `move` and `test` succeed exactly with the right number of arguments and a cell on the board; other commands fail |
| LightsOut.TestCountIsCharacterCode | OS-Projects/assignment3/lightsout.c:231-237 | `test d r c` makes as many moves as the character code of `d`, which leaves the board as `d` moves would |
| Hall.InitHall | OS-Projects/assignment4/hall.c:42-47 | a new hall of `n` spaces is all free |
| Hall.FirstFitFrom | OS-Projects/assignment4/hall.c:68-82 | the search returns the first start of a free run of the width, or -1 exactly when there is none |
| Hall.FindSpace | OS-Projects/assignment4/hall.c:68-82 | `findSpace` returns the leftmost start of `width` free spaces, or -1 when there is none; a negative width finds nothing, and width 0 returns one past the first occupied space |
| Hall.Allocate | OS-Projects/assignment4/hall.c:186-223 | with the name copied into a block that fits it, an organization waits exactly when no free run of its width exists; otherwise it takes the leftmost one, marked with its first letter, and nothing else changes |
| Hall.AllocateAsWritten | OS-Projects/assignment4/hall.c:114-117 | every call first copies the name into `malloc(sizeof(name))`, 8 bytes; a name that does not fit with its terminator overflows the block, and any other name is allocated as `Allocate` states |
| Hall.LongNameOverflows | OS-Projects/assignment4/hall.c:114-117 | whatever the hall holds, the name copy overflows exactly for names of eight or more characters; a shorter name is allocated whenever a free run of its width exists |
| Hall.FreeSpace | OS-Projects/assignment4/hall.c:225-240 | `freeSpace` frees exactly the spaces of the range and leaves the rest |
| Hall.AllocateThenFree | OS-Projects/assignment4/hall.c:186-240 | freeing an allocation restores the hall, for the allocation with the name copy corrected |
| Hall.AllocationReport | OS-Projects/assignment4/hall.c:94-105 | the report shows `*` for a free space and the organization's letter for a taken one |
| Hall.ReportAfterAllocate | OS-Projects/assignment4/hall.c:207-213 | after an allocation with the name copy corrected, the report shows the letter over the allocated spaces and is unchanged elsewhere |
| Exclude.ParseLineNumber | OS-Projects/assignment0/exclude.c:44-60 | `parseLineNumber` accepts exactly a string of digits, and gives its decimal value |
| Exclude.ExcludedStep | OS-Projects/assignment0/exclude.c:103-117 | at each newline the line is written unless it is the line to skip, and counting goes on with the next line |
| Exclude.NothingExcluded | OS-Projects/assignment0/exclude.c:103-124 | with a line number no line has, the output is the whole input |
| Exclude.ExcludesThatLine | OS-Projects/assignment0/exclude.c:103-124 | the output is the input with exactly the numbered line and its newline removed |
| Exclude.LastSegmentKept | OS-Projects/assignment0/exclude.c:122-124 | a last line without a newline is always written, even when it is the line to skip |
| Exclude.CopyExcept | OS-Projects/assignment0/exclude.c:94-124 | the copy loop, block by block and character by character, writes exactly the input without the skipped line |
| Exclude.ExcludeMain | OS-Projects/assignment0/exclude.c:72-130 | the usage error comes before the output is touched exactly for a wrong argument count or a file that does not open, and after it is truncated exactly for a line number with a non-digit; otherwise the output is the input without that line |
| LightsOut.ReportRows | OS-Projects/assignment1/server.c:110-122 | each reported row is the board row's five cells followed by a newline, at a fixed position |
| LightsOut.ReadRows | OS-Projects/assignment1/server.c:174-189 | the first rows of a board file are read exactly when each is five lights followed by a newline, and then they are those rows |
| Stash.Fgets | OS-Projects/assignment0/stash.c:177-182 | the line read is a prefix of the input of at most 1023 characters |
| Stash.FgetsNewline | OS-Projects/assignment0/stash.c:177-182 | the line read holds a newline exactly when the input has one within the first 1023 characters |
| Stash.ParseCommand | OS-Projects/assignment0/stash.c:31-62 | the word count is one more than the number of spaces before the newline, no word holds a space, and the words joined by single spaces give back the line up to the newline |
| Stash.JoinNewWord | OS-Projects/assignment0/stash.c:37-43 | a space in the line starts a new, empty word |
| Stash.JoinExtend | OS-Projects/assignment0/stash.c:37-43 | any other character extends the last word |
| Stash.SplittingIsWords | OS-Projects/assignment0/stash.c:37-59 | the words the splitting loop builds are the line's words, whatever order the loop reaches them in |
| Stash.RunExit | OS-Projects/assignment0/stash.c:72-88 | `exit` ends the shell exactly when it has one argument that starts with a decimal integer, with that integer as status; otherwise the reply is the invalid-command message |
| Stash.RunCd | OS-Projects/assignment0/stash.c:98-109 | `cd` changes to its argument exactly when it has one argument; otherwise the command is invalid |
| Stash.RunCommand | OS-Projects/assignment0/stash.c:121-130 | a command runs in the background exactly when its last word is `&`, and the argument vector is the words with that `&` taken off |
| Stash.Dispatch | OS-Projects/assignment0/stash.c:189-197 | a line is ignored exactly when its first word is empty |
| Stash.Step | OS-Projects/assignment0/stash.c:174-197 | one pass of the prompt loop acts on the words of the line read, and an exit status always fits in an `int` |
| Stash.Reply | OS-Projects/assignment0/stash.c:82-156 | the shell prints the invalid-command message exactly for an invalid built-in or a `cd` whose `chdir` fails, and nothing else for a built-in; a background launch prints `[pid]`, and a foreground launch prints one `[p done]` line per other child `wait` returned first |
| Stash.DoneLines | OS-Projects/assignment0/stash.c:146-153 | the lines for the children reaped before the foreground one: none exactly when there are none, one newline per child |
| Stash.IgnoredLine | OS-Projects/assignment0/stash.c:189-194 | a line is ignored exactly when it is empty or starts with a space |
| Stash.LineOfWords | OS-Projects/assignment0/stash.c:31-62 | typing words separated by single spaces gives back exactly those words |
| Stash.ExitLine | OS-Projects/assignment0/stash.c:72-80 | `exit` followed by the decimal text of any `int` ends the shell with that status |
| Stash.ExitArity | OS-Projects/assignment0/stash.c:75-87 | `exit` with any number of arguments other than one is invalid |
| Stash.ExitIgnoresTrailingText | OS-Projects/assignment0/stash.c:78-80 | `exit 3x` still exits with status 3, since `%d` stops at the first non-digit |
| Stash.CdArity | OS-Projects/assignment0/stash.c:98-108 | `cd` acts exactly when it has one argument |
| Stash.BackgroundLine | OS-Projects/assignment0/stash.c:121-130 | a typed command ending in ` &` runs in the background without the `&` |
| Stash.TrailingSpaceForeground | OS-Projects/assignment0/stash.c:121-130 | a trailing space adds an empty last word, so the command runs in the foreground with that empty argument |
| Stash.StepAsWritten | OS-Projects/assignment0/stash.c:49 | as written, a line with more words than the pointers allocated in `main` leaves `main` reading a freed array; otherwise it acts like the corrected step |
| Stash.GrownArrayIsStale | OS-Projects/assignment0/stash.c:178-189 | any typed line with more words than the pointers `main` allocated (so any line of two words, since `main` allocates one) reaches the freed array, although the corrected step acts on exactly those words |
| Maxsum.MaxSumUnique | OS-Projects/assignment3/maxsum-sem.c:122-126 | the maximum contiguous sum is a single number: two values that both bound every sum and are both attained are equal |
| Maxsum.ClampedIsMaxOfZero | OS-Projects/assignment1/maxsum.c:144-154 | a parent that starts from 0 reports exactly the larger of 0 and the maximum contiguous sum |
| Maxsum.Minimum | OS-Projects/assignment1/maxsum.c:107-112 | the starting value of every worker is an element of the list no larger than any other |
| Maxsum.SmallestValue | OS-Projects/assignment1/maxsum.c:107-112 | the workers' first loop finds the smallest element |
| Maxsum.WrapInt | OS-Projects/assignment2/Maxsum.java:96-100 | Java's `int` addition keeps every result in the 32-bit range and leaves an in-range value unchanged |
| Maxsum.WrapAdd | OS-Projects/assignment2/Maxsum.java:96-100 | wrapping after every addition of the running sum gives the same value as wrapping the exact sum once |
| Maxsum.ExactWorkerMax | OS-Projects/assignment2/Maxsum.java:93-102 | when no subarray sum overflows, the maximum of the sums the workers compute is the true clamped maximum |
| Maxsum.JavaWrapsPastIntMax | OS-Projects/assignment2/Maxsum.java:96-100 | on the list `2147483647 1` the Java workers' maximum is 2147483647, although the list's maximum sum is one more |
| Maxsum.SumsFrom | OS-Projects/assignment1/maxsum.c:117-122 | the inner loop leaves the largest of the incoming maximum and every sum of a subarray starting at `i` |
| Maxsum.StridedWorker | OS-Projects/assignment1/maxsum.c:103-123 | worker `w` reports the larger of the list minimum and every sum of a subarray whose start index is `w` modulo the worker count |
| Maxsum.JavaWorker | OS-Projects/assignment2/Maxsum.java:84-102 | the same for a thread, whose result stays 0 when `vList.get(0)` throws on an empty list |
| Maxsum.CombineStrided | OS-Projects/assignment1/maxsum.c:103-154 | since the start residues of the workers cover every index, the parent's maximum from 0 is the largest of 0 and every subarray sum as the workers compute it; it is also the largest of 0 and the maxima the workers report, each of which is that worker's strided maximum |
| Maxsum.ScanValuesText | OS-Projects/assignment1/maxsum.c:49-60 | integers written one per line are read back by the `scanf("%d")` loop as the same list |
| Maxsum.ReadList | OS-Projects/assignment1/maxsum.c:44-61 | values are stored in input order; the capacity starts at 5, only doubles, always holds the values and is never more than twice what they need |
| Maxsum.CArgs | OS-Projects/assignment1/maxsum.c:67-80 | the C programs accept one or two arguments, the first starting with a positive `int` and the second, if present, exactly `report` |
| Maxsum.JavaArgs | OS-Projects/assignment2/Maxsum.java:120-141 | the Java program accepts the same shapes, but the whole first argument must be an `int` |
| Maxsum.ConfigArgsRoundTrip | OS-Projects/assignment2/Maxsum.java:120-141 | writing any valid setting as arguments is read back to the same setting by both the C and the Java parser |
| Maxsum.TrailingTextDialects | OS-Projects/assignment1/maxsum.c:71-73 | `4x` selects four workers in C, whose `%d` stops at the first non-digit, but is a usage error in Java |
| Maxsum.MaxsumProcesses | OS-Projects/assignment1/maxsum.c:63-160 | the process version prints usage exactly for bad arguments and otherwise the larger of 0 and the maximum contiguous sum; with `report`, one line per worker with the maximum it found, and none without |
| Maxsum.MaxsumThreads | OS-Projects/assignment2/Maxsum.java:119-168 | the thread version prints usage exactly for bad arguments, otherwise the clamped maximum of the wrapped sums, which is the true clamped maximum when no sum overflows; with `report`, one line per thread with the maximum it found, none without and none on an empty list, where every thread throws first |
| Maxsum.GetWork | OS-Projects/assignment3/maxsum-sem.c:83-100 | `getWork` ends the work exactly when the input is read and every index handed out, blocks exactly when it is not read yet and every stored index is handed out, and otherwise hands out the next index and advances the counter by one |
| Maxsum.StoreValue | OS-Projects/assignment3/maxsum-sem.c:74-77 | storing a value adds one to the count and leaves the hand-out counter alone |
| Maxsum.DrainInOrder | OS-Projects/assignment3/maxsum-sem.c:83-100 | once the input is read, repeated calls hand out every remaining index once, in increasing order |
| Maxsum.HandOutIsFresh | OS-Projects/assignment3/maxsum-sem.c:93-99 | an index handed out was never handed out before and is stored, and afterwards exactly the indices below the counter have been handed out |
| Maxsum.EndsOf | OS-Projects/assignment3/maxsum-sem.c:104-117 | the end indices one worker receives, in increasing order, each exactly once |
| Maxsum.SuffixSums | OS-Projects/assignment3/maxsum-sem.c:109-114 | the backwards loop leaves the largest of the incoming maximum and every sum of a subarray ending at `endIndex` |
| Maxsum.SuffixWorker | OS-Projects/assignment3/maxsum-sem.c:103-117 | a worker reports the largest sum of a subarray ending at one of its indices, or `INT_MIN` when it had none |
| Maxsum.ReadValuesAsWritten | OS-Projects/assignment3/maxsum-sem.c:66-80 | as written, the size check accepts up to 500001 values, one more than the array holds |
| Maxsum.GuardLetsOneTooMany | OS-Projects/assignment3/maxsum-sem.c:71-75 | with 500001 values the check passes and the last value is stored at index 500000, past the end of `vList` |
| Maxsum.ReadValues | OS-Projects/assignment3/maxsum-sem.c:66-80 | with the corrected check the values are stored in order exactly when there are at most 500000 of them |
| Maxsum.StoredIndicesFit | OS-Projects/assignment3/maxsum-sem.c:44-45 | every stored index lies inside the 500000-element array |
| Maxsum.SemWorkers | OS-Projects/assignment3/maxsum-sem.c:103-126 | whichever worker each end index went to, the global maximum from `INT_MIN` bounds every subarray sum and is attained, or stays `INT_MIN` on an empty list; it is the largest of `INT_MIN` and the workers' own maxima, each the best sum ending at one of that worker's indices |
| Maxsum.MaxsumSemaphores | OS-Projects/assignment3/maxsum-sem.c:131-177 | the semaphore version prints usage exactly for bad arguments, fails exactly for more than 500000 values, and otherwise prints the exact maximum contiguous sum, `INT_MIN` for no values; with `report`, one line per worker with the best sum ending at one of the indices it was handed, and none without |
| CScan.SkipSpace | OS-Projects/assignment5/scrabbleServer.c:344-351 | what every `scanf` conversion skips first: the longest prefix of white space, and only that |
| CScan.ScanWord | OS-Projects/assignment5/scrabbleServer.c:344-351 | `%Ns` fails exactly on input that is all white space, and otherwise reads between 1 and N characters |
| CScan.ScanIntText | OS-Projects/assignment1/maxsum.c:51 | `%d` reads back the decimal text of any integer and stops at the first character that is not a digit |
| JavaText.Fields | OS-Projects/assignment6/Server.java:410 | the fields between single spaces, none of which holds a space |
| JavaText.FieldsRoundTrip | OS-Projects/assignment6/Server.java:410 | joining the fields with single spaces gives the text back |
| JavaText.Split | OS-Projects/assignment6/Server.java:410 | `split(" ")` gives the whole text when it has no space, and otherwise the fields with the trailing empty ones removed |
| JavaText.SplitJoined | OS-Projects/assignment6/Server.java:410 | non-empty words without spaces, joined by single spaces, split back into the same words |
| JavaText.ParseInt | OS-Projects/assignment6/Server.java:421-422 | `Integer.parseInt` accepts only an optional sign followed by digits, with a value in the `int` range |
| JavaText.ParseIntText | OS-Projects/assignment6/Server.java:421-422 | `Integer.parseInt` reads back the decimal text of every `int` |

## Left out

- Sockets, the accept loop and thread creation in both word servers are not modelled. So are the C server's semaphore and Java's `synchronized`. Each command is one atomic step on the board instead.
- The Java server's RSA/AES challenge, the Base64 key decoding and the length-prefixed framing are not modelled. They are foreign library calls and I/O.
- POSIX message queues in the lights-out server and client are not modelled. Each request is one step from a game state to a reply and a new state.
- Shared-memory setup (`reset.c` and the `common.h` headers) is not modelled. The only logic it holds is the board-file check, which `LightsOut.ReadBoardFile` models.
- The lights-out server's `SIGINT` handler, which prints the board on exit, is not modelled. Signals are outside a sequential model.
- The named semaphore of the third lights-out program is not modelled. `test` repeats `move`, and each `move` takes the semaphore on its own. The model runs the repetitions as consecutive steps.
- `fork`, `execvp`, `wait`, `pipe` and `lockf` in `stash.c` and `maxsum.c` are not modelled.
- Maxsum.MaxsumProcesses: the `report` lines are the workers' maxima in worker order. The `getpid()` each line shows is an operating-system value, and the order of the lines depends on the schedule; neither is modelled.
- Maxsum.MaxsumThreads: the `report` lines are the threads' maxima in worker order. The `getId()` each line shows and the order of the lines, which depends on the schedule, are not modelled.
- Maxsum.MaxsumSemaphores: the `report` lines are the workers' maxima in worker order. The thread id from `gettid` each line shows and the order of the lines, which depends on the schedule, are not modelled. Neither are the threads of `Maxsum.java` and `maxsum-sem.c`. The workers run one after another. The order in which `getWork` hands out indices is a parameter (`who`).
- The semaphores of `maxsum-sem.c` are not modelled. One consequence is lost: a worker that finds no index yet calls `sem_wait(&readCount)` while holding `workLock`. If the input then ends, no `sem_post` follows, so that worker and every worker after it stay blocked, and the program does not finish. `Maxsum.GetWork` models that case only as `Blocked`.
- The hall monitor's waiting list, ageing and condition-variable waits are not modelled. They are concurrency-bound. An allocation that finds no room is reported as `MustWait` and changes nothing. With the list left out, so is a fault in `removeWaitingThread` (hall.c:146-150): it frees a node that is not first in the list and then reads that node's `next`.
- Hall.AllocateThenFree: stated for `Allocate`, where the name copy fits. As written, a name of eight or more characters overflows its heap block first, which `Hall.AllocateAsWritten` reports as `NameOverflow`.
- Hall.ReportAfterAllocate: stated for `Allocate`, where the name copy fits, for the same reason.
- `Kitchen.java`, `Global.java` and `TakeAll.java` are not modelled. Their whole point is lock ordering.
- File and stream I/O is not modelled. Each file is its text or byte sequence, and each missing file is a flag or `None`. This covers:
  - the words files;
  - `loadFileBuffer` and `saveFileBuffer`;
  - `scores.txt`;
  - the employee files;
  - the board file;
  - standard input.
- Memory management is not modelled: `malloc`, `realloc` and `free`, `freeDatabase`, `freeMap` and `destroy`. Only the size and capacity invariants are kept. Bytes that `realloc` adds are zeros in the model, and no operation reads them.
- The hash map's and text value's `print` callbacks are not modelled.
- `vtype.h` is not part of this model. A key is any type with equality, which stands in for `equals`. The hash is a function parameter, so equal keys hash equally by construction.
- The terminal colour escapes of `io.c` are not modelled. A coloured line is its letters and their colours.
- The time-based default seed of `wordle.c` is not modelled. The seed is a parameter.
- The JavaScript applications (Howler and PackProducer) are not modelled. They are web plumbing over unseen libraries.
- Board.JavaIsLowerCase: models `Character.isLowerCase` only on the Latin-1 range, U+0000 to U+00FF. Java's full Unicode lower-case table is not reproduced, so a placement with a letter beyond U+00FF is treated as rejected.
- JavaText.ParseInt: accepts only the ASCII digits `0` to `9`. `Integer.parseInt` also accepts other Unicode decimal digits, which the model rejects.
- Text.Hash: treats `char` as signed, as on the usual x86 and ARM Linux ABIs. An unsigned `char` would hash bytes above 127 differently.
- Operation.Wrap: the as-written `plus`, `minus` and `number10.c`'s `value *= BASE; value += digit` overflow `long`, which is undefined behaviour in C. The model gives these the two's-complement wrap-around that the code's sign tests assume and that common compilers produce.
- History.UpdateScore: a `scores.txt` that `%d` cannot read ten counters from leaves `scores` partly unset in the code, which is undefined behaviour. A counter at `INT_MAX` overflows on increment, also undefined behaviour. The model reports both as outcomes (`Unreadable`, `Overflow`) rather than guessing what the program prints.
- Text.ParseTextAsWritten: an opening quote without a closing one leaves the value without its terminator, and `strlen` reads past the buffer. The model reports `Unterminated` rather than the bytes that follow.
- Wordle.PlayAsWritten: runs at most `fuel` rounds. The loop as written can run forever, and the lemmas state that it is still running after any number of rounds.
- Wordle.PlayAsWritten: starts at the first `scanf`. The first loop test at `wordle.c:93` compares the uninitialised `guess` with the target; that read is undefined and is not modelled.
- Wordle.PlayAsWritten: once a word overflows `guess`, the game is `Overflowed` and nothing after it is modelled, since the C behaviour is undefined from there.
- Wordle.StaleGuessHangs: states the loop with an eight-byte `guess` array, the size `%7s` needs. With the declared six bytes the over-long guess overflows the array first, as Wordle.OverlongOverflows states.
- Wordle.OverlongLastWordHangs: states the loop with an eight-byte `guess` array. With the declared six bytes the over-long last word overflows the array first, as Wordle.OverlongOverflows states.
- Wordle.SevenLetterWordSkipsNext: states the round with an eight-byte `guess` array. With the declared six bytes the seven-character word overflows the array first, as Wordle.OverlongOverflows states.
- Wordle.RoundAsWritten: a guess taken from the slot after the word list is `Garbled`, its letters only. The stale bytes the colouring loop prints after them are not modelled.
- Maxsum.MaxsumProcesses: requires that no subarray sum overflows an `int`, because C's signed overflow is undefined behaviour. It also requires a non-empty list, because the workers start from the never-written `vList[0]`.
- Maxsum.CombineStrided: in the C build requires that no subarray sum overflows an `int`, for the same reason. The Java build wraps, and `Maxsum.JavaWrapsPastIntMax` shows the difference.
- Maxsum.MaxsumSemaphores: requires that no subarray sum overflows an `int` when the values fit the array, for the same reason.
- Exclude.ParseLineNumber: requires at most nine digits, leading zeros included. After the tenth digit the place value `digit` is multiplied up to 10^10, which overflows `int` whatever the digits are; that is undefined behaviour.
- Exclude.ExcludeMain: requires every line to fit the 64-byte `line` array, as `LinesFit` states. A longer line is written past the array's end in the code.
- Lexicon.ReadWords: a file with more than `WORD_LIMIT` words makes `readWords` store the extra word at `wordList[WORD_LIMIT]` before its check. The model reports such a file as `InvalidFile` without that write.
- Stash.Reply: the pid of a background launch and the children `wait` reaps are parameters, chosen by `fork` and `wait`. What a launched program prints, and `Can't run command` from a child whose `execvp` fails, belong to the process part, which is not modelled.
- Stash.StepAsWritten: assumes the allocator returns a new block whenever the word array grows beyond `capacity` pointers, which makes `main`'s pointer stale. An allocator that grows a block in place would hide the fault.
- Stash.Step: requires that the line read contains a newline and no NUL before it. Without a newline, `parseCommand` runs past the buffer.
- LightsOut.Serve: requires a request that `sscanf("%s")` can read a command from, a command that fits the command buffer with its terminator, and for `move` two coordinates that `%d` reads and that lie on the board. A blank request leaves `cmd` unset, a `move` whose `%d` conversions fail leaves the row or column unset, and the server's `move` has no bounds check, so each of these reads undefined values.
- HashMap.MakeMap: requires a table length of at least 1. With length 0, the first `mapSet` or `mapGet` takes a remainder modulo 0.
- BoardSession.CPlaceStep: with a negative coordinate that passes the bounds test and the letter test, the C server writes before the board. A run longer than 26 letters overflows the 27-byte run buffer when the scan of `checkBoardValid` reaches it before any unlisted run; an unlisted run met first still gives `Invalid command`. Both overflows are `Undefined` in the model, not a board.
- BoardSession.CStep: the widths `%10s` and `%27s` are counted in characters, one byte each. A multi-byte character in a command (UTF-8 `é` is two bytes) is not modelled: the C server would fill its buffers sooner.
- BoardSession.CPlaceStep: the `%27s` width and the 27-byte run buffer are counted in characters, one byte each, so a word or run with multi-byte characters fills them sooner in the C server than in the model.
- BoardSession.CPlaceCommand: its condition on the 27-byte run buffer and the `%27s` width are counted in characters, one byte each; multi-byte characters are not modelled.
- WordsFile.CDictionary: the `%26s` width of the word loader is counted in characters, one byte each. A word file with multi-byte characters would split its words at other places than the model says.
- WordsFile.CLongWordSplits: the split after 26 is counted in characters, one byte each. `%26s` splits a word with multi-byte characters after 26 bytes.
- Numerals.PrintValue: `printValue(LONG_MIN)` in `number10.c` prints the digits without a newline. The model keeps that text (`LongMinText`) instead of the newline form used for every other value.

## Findings

| source | as written | input that shows it | evidently intended | confidence | as-written member | corrected member |
|---|---|---|---|---|---|---|
| C-Projects/p2/operation.c:20-32 | `plus` adds first, then looks for a sign change; `LONG_MIN + LONG_MIN` wraps to 0, which is not negative, so neither test fires | `plus(LONG_MIN, LONG_MIN)` returns 0; the expression `-4611686018427387904*2+-4611686018427387904*2` prints 0 | exit with status 100 on every overflow | not executed | Operation.PlusAsWritten, Operation.PlusMissesMinMin, Calc.DoubleMinWrapsToZero | Operation.Plus |
| C-Projects/p2/operation.c:37-49 | `minus` tests for overflow only when `a` is non-zero, but `0 - LONG_MIN` wraps to `LONG_MIN` | `minus(0, LONG_MIN)` returns `LONG_MIN` | exit with status 100 | not executed | Operation.MinusAsWritten, Operation.MinusMissesZeroMin | Operation.Minus |
| C-Projects/p2/operation.c:68-72 | for a positive `a` and a negative `b`, `times` computes `LONG_MIN / b`, which traps when `b` is -1 | `times(5, -1)` kills the program with `SIGFPE`; so does the expression `5*-1` | return -5 | not executed | Operation.TimesAsWritten, Operation.TimesMinusOneTraps, Calc.NegatedTermKills | Operation.Times |
| C-Projects/p2/number10.c:50-64 | the base-10 reader accumulates with plain `*=` and `+=`, so a value past `LONG_MAX` wraps | the input `9223372036854775808` reads as `LONG_MIN` | exit with status 100, as the base-25 reader does | not executed | Numerals.ParseValue10AsWritten, Numerals.ParseValue10Wraps | Numerals.ParseValue10 |
| C-Projects/p3/lexicon.c:96-103 | `inList` searches up to index `numWords`, one past the last word | a word file whose last line is an unfinished word sorting after every word; that word is accepted as a guess | search indices 0 to `numWords - 1` | not executed | Lexicon.InListAsWritten, Lexicon.InListAcceptsSpare, Wordle.SpareGuessAccepted | Lexicon.InList |
| C-Projects/p3/lexicon.c:60-63 | C's `%` keeps the sign of a negative seed | seed -1 with two words picks index -1 | an index of the list for every seed | not executed | Lexicon.ChooseIndexAsWritten, Lexicon.NegativeSeedIndex | Lexicon.ChooseIndex |
| C-Projects/p3/io.c:31-33 | the loop dropping the rest of a line stops only at a newline, and `fgetc` returns `EOF` forever | a word file whose last line is five letters with no newline makes the program hang | stop at `EOF` too | not executed | Lexicon.LastLineHangs | Lexicon.ReadLine |
| C-Projects/p3/wordle.c:87-95 | `guess` holds six bytes, but `scanf("%7s", guess)` stores up to eight | the guess `crane1` writes its terminator past the array | declare `guess` with `GUESS_WIDTH + 1` bytes | not executed | Wordle.RoundAsWritten, Wordle.RoundAsWrittenSpec, Wordle.OverlongOverflows | Wordle.Round |
| C-Projects/p3/wordle.c:93-115 | at end of input `scanf` leaves `guess` unchanged, and the length test runs before the end-of-input test | once `guess` has eight bytes, an over-long last guess followed by end of input prints `Invalid guess` forever | reveal the word at end of input | not executed | Wordle.PlayAsWritten, Wordle.StaleGuessHangs, Wordle.OverlongLastWordHangs | Wordle.Play |
| C-Projects/p3/wordle.c:106-110 | a guess of exactly seven characters also triggers `scanf("%*s")`, which discards the next word | once `guess` has eight bytes, `abcdefg crane` never reads `crane` | discard the rest of an over-long word only | not executed | Wordle.RoundAsWrittenSpec, Wordle.SevenLetterWordSkipsNext | Wordle.Round |
| OS-Projects/assignment3/maxsum-sem.c:71-75 | the size check `vCount > MAX_VALUES` runs before the store, so `vCount == MAX_VALUES` is stored | 500001 values store the last at `vList[500000]`, past the array | fail on the 500001st value | not executed | Maxsum.ReadValuesAsWritten, Maxsum.GuardLetsOneTooMany | Maxsum.ReadValues |
| C-Projects/p4/database.c:59-60 | `%s` has no width, so a field longer than its buffer is written past it before the length check | an employee line whose id has six characters | reject the line as an invalid employee file | not executed | Employees.ParseEmployeeAsWritten, Employees.LongIdOverflows, Employees.LongNameOverflows | Employees.ParseEmployee |
| C-Projects/p4/agency.c:188-193 | `paramInvalid` has one byte, so a fourth word overflows it; a blank line leaves `command` unset before it is compared | `list skill Java x`; an empty line | answer `Invalid command` | not executed | Agency.ParseCommandAsWritten, Agency.FourthWordOverflows, Agency.BlankLineUndefined | Agency.ParseCommand |
| OS-Projects/assignment1/server.c:220-223 | `command` has room for 6 bytes, and `report` needs 7 with its terminator | the request `report` | a buffer of at least 7 bytes | not executed | LightsOut.ReportOverflowsCommand | LightsOut.Serve |
| C-Projects/p6/text.c:83-129 | with an opening quote and no closing one, the loop ends without writing the terminator | the text `"abc` | reject the value, as a missing opening quote is rejected | not executed | Text.ParseTextAsWritten, Text.UnclosedQuote | Text.ParseText |
| OS-Projects/assignment0/stash.c:49 | `parseCommand` reallocates its own copy of `words`, and `main` keeps using the old pointer | any command of two words, such as `cd /tmp` | return the grown array to `main` | not executed | Stash.StepAsWritten, Stash.GrownArrayIsStale | Stash.Step |
| OS-Projects/assignment4/hall.c:114-117 | `addWaitingThread` allocates `sizeof(name)` bytes, the size of a pointer, and copies the whole name into them | any organization name of eight or more characters, such as `Rotary Club`, on every `allocateSpace` call | allocate `strlen(name) + 1` bytes | not executed | Hall.AllocateAsWritten, Hall.LongNameOverflows | Hall.Allocate |

=== FILE: agency.dfy ===
/**
 * The temp agency program: it loads the employee files named on its
 * command line, then reads commands (`list`, `assign`, `unassign`,
 * `quit`) one line at a time, echoing each and printing its result.
 */
module Agency {
  import opened Common
  import opened CTokens
  import opened Employees
  import InputLine
  import JavaText

  /** The longest command word, first parameter and second parameter. */
  const COMMAND_MAX_LENGTH: nat := 8
  const PARAM1_MAX_LENGTH: nat := 10
  const PARAM2_MAX_LENGTH: nat := 20

  /** The reply to a command that cannot be carried out. */
  const INVALID: string := "Invalid command\n"
  /** The prompt printed before each command is read. */
  const PROMPT: string := "cmd> "
  /** The message for a missing employee file argument. */
  const USAGE: string := "usage: agency <employee-file>*\n"

  /** What a command line asks for. */
  datatype Command =
    | List(order: Order, filter: Filter)
    | Assign(id: string, assignment: string)
    | Unassign(id: string)
    | Quit
    | Invalid

  /** A new assignment is a word that fits an employee's assignment field. */
  predicate WellFormed(c: Command) {
    c.Assign? ==> Word(c.assignment) && |c.assignment| <= ASSIGNMENT_MAX_LENGTH
  }

  /**
   * The words of the line fit the buffers `sscanf` stores them in: the
   * command, the two parameters, and no fourth word at all.
   */
  predicate WordsFit(ts: seq<string>) {
    && |ts| <= 3
    && (|ts| >= 1 ==> |ts[0]| <= COMMAND_MAX_LENGTH)
    && (|ts| >= 2 ==> |ts[1]| <= PARAM1_MAX_LENGTH)
    && (|ts| >= 3 ==> |ts[2]| <= PARAM2_MAX_LENGTH)
  }

  /** The branches of the command loop, given the words read (their number is what `sscanf` returns). */
  function Interpret(ts: seq<string>): (c: Command)
    requires 1 <= |ts| <= 3
  {
    var matches := |ts|;
    if ts[0] == "list" then
      if matches == 1 then List(ById, All)
      else if matches == 3 then
        if ts[1] == "skill" then List(ById, SkillIs(ts[2]))
        else if ts[1] == "assignment" then List(BySkill, AssignmentIs(ts[2]))
        else Invalid
      else Invalid
    else if ts[0] == "assign" then
      if matches == 3 then Assign(ts[1], ts[2]) else Invalid
    else if ts[0] == "unassign" then
      if matches == 2 then Unassign(ts[1]) else Invalid
    else if ts[0] == "quit" then
      if matches == 1 then Quit else Invalid
    else Invalid
  }

  /**
   * The command line as the code reads it: `None` where it is undefined,
   * which is a line of white space only (the command buffer is never
   * written before it is compared), a fourth word (its one-byte buffer has
   * no room even for a one-character word and its terminator) and a word
   * longer than its buffer.
   */
  function ParseCommandAsWritten(line: string): (r: Option<Command>)
    ensures r.Some? ==> r.value == ParseCommand(line)
  {
    var ts := Tokens(line);
    if ts == [] || !WordsFit(ts) then None else Some(Interpret(ts))
  }

  /**
   * A command line as intended: a blank line, an extra word and a word
   * too long for its buffer all make the command invalid.
   */
  function ParseCommand(line: string): (c: Command)
    ensures WellFormed(c)
    ensures c.Quit? <==> Tokens(line) == ["quit"]
    ensures |Tokens(line)| == 0 || |Tokens(line)| > 3 ==> c == Invalid
  {
    var ts := Tokens(line);
    if ts == [] || !WordsFit(ts) then Invalid else Interpret(ts)
  }

  /** Any line of four words or more is undefined as written; as intended it is an invalid command. */
  lemma FourthWordOverflows(line: string)
    requires |Tokens(line)| >= 4
    ensures ParseCommandAsWritten(line).None?
    ensures ParseCommand(line) == Invalid
  {
  }

  /** A blank line is undefined as written; as intended it is an invalid command. */
  lemma BlankLineUndefined(line: string)
    requires forall i :: 0 <= i < |line| ==> IsCSpace(line[i])
    ensures ParseCommandAsWritten(line).None?
    ensures ParseCommand(line) == Invalid
  {
    BlankTokens(line);
  }

  /** White space alone holds no words. */
  lemma {:induction false} BlankTokens(s: string)
    requires forall i :: 0 <= i < |s| ==> IsCSpace(s[i])
    ensures Tokens(s) == []
    decreases |s|
  {
    if s != [] {
      BlankTokens(s[1..]);
    }
  }

  /** The commands a user can type, with words that fit their buffers. */
  predicate Typeable(c: Command) {
    match c
    case List(o, f) =>
      (o == ById && f == All)
      || (o == ById && f.SkillIs? && Word(f.skill) && |f.skill| <= PARAM2_MAX_LENGTH)
      || (o == BySkill && f.AssignmentIs? && Word(f.assignment) && |f.assignment| <= PARAM2_MAX_LENGTH)
    case Assign(id, a) => Word(id) && |id| <= PARAM1_MAX_LENGTH && Word(a) && |a| <= PARAM2_MAX_LENGTH
    case Unassign(id) => Word(id) && |id| <= PARAM1_MAX_LENGTH
    case Quit => true
    case Invalid => false
  }

  /** The words of a typeable command. */
  function CommandWords(c: Command): (ws: seq<string>)
    requires Typeable(c)
    ensures forall i :: 0 <= i < |ws| ==> Word(ws[i])
  {
    match c
    case List(o, f) =>
      if f.All? then ["list"]
      else if f.SkillIs? then ["list", "skill", f.skill]
      else ["list", "assignment", f.assignment]
    case Assign(id, a) => ["assign", id, a]
    case Unassign(id) => ["unassign", id]
    case Quit => ["quit"]
  }

  /** A typeable command, typed as its words separated by single spaces, is read back as itself. */
  lemma ParseCommandText(c: Command)
    requires Typeable(c)
    ensures ParseCommand(JavaText.JoinSpaces(CommandWords(c))) == c
    ensures ParseCommandAsWritten(JavaText.JoinSpaces(CommandWords(c))) == Some(c)
  {
    var ws := CommandWords(c);
    forall i | 0 <= i < |ws|
      ensures |ws[i]| >= 1 && NoSpace(ws[i])
    {
    }
    TokensOfJoin(ws);
  }

  // ---------------------------------------------------------------------
  // Carrying out a command
  // ---------------------------------------------------------------------

  /** The database after a command, what it printed, and whether the program ends. */
  datatype Outcome = Outcome(db: Database, output: string, quit: bool)

  /** Employee `i` given a new assignment, every other field and employee kept. */
  function SetAssignment(db: Database, i: nat, a: string): (r: Database)
    requires i < |db.list|
    ensures |r.list| == |db.list| && r.capacity == db.capacity
    ensures forall k :: 0 <= k < |db.list| && k != i ==> r.list[k] == db.list[k]
    ensures r.list[i] == db.list[i].(assignment := a)
  {
    db.(list := db.list[i := db.list[i].(assignment := a)])
  }

  /**
   * One command. `list` sorts the database in place and prints the table;
   * `assign` needs an employee with the id who is `Available`, `unassign`
   * one who is not; a command that cannot be carried out prints
   * `Invalid command` and changes nothing; `quit` ends the program.
   */
  function Execute(db: Database, c: Command): (r: Outcome)
    requires Valid(db) && WellFormed(c)
    ensures Valid(r.db)
    ensures r.quit <==> c.Quit?
    ensures r.output == INVALID || r.quit ==> r.db == db
    ensures c.Invalid? ==> r == Outcome(db, INVALID, false)
  {
    match c
    case List(o, f) =>
      var l := ListEmployees(db, o, f);
      assert l.text[..|HEADER|] == HEADER;
      Outcome(l.db, l.text, false)
    case Assign(id, a) =>
      var found := FindEmployee(db.list, id);
      if found.None? || db.list[found.value].assignment != AVAILABLE then Outcome(db, INVALID, false)
      else Outcome(Reassigned(db, found.value, a), "", false)
    case Unassign(id) =>
      var found := FindEmployee(db.list, id);
      if found.None? || db.list[found.value].assignment == AVAILABLE then Outcome(db, INVALID, false)
      else Outcome(Reassigned(db, found.value, AVAILABLE), "", false)
    case Quit => Outcome(db, "", true)
    case Invalid => Outcome(db, INVALID, false)
  }

  /** A valid assignment given to one employee keeps the database valid. */
  function Reassigned(db: Database, i: nat, a: string): (r: Database)
    requires Valid(db) && i < |db.list| && Word(a) && |a| <= ASSIGNMENT_MAX_LENGTH
    ensures Valid(r) && r == SetAssignment(db, i, a)
  {
    SetAssignment(db, i, a)
  }

  /**
   * `assign` succeeds exactly when some employee has the id and is
   * `Available`, and then changes that employee's assignment alone.
   */
  lemma AssignSucceeds(db: Database, id: string, a: string)
    requires Valid(db) && Word(a) && |a| <= ASSIGNMENT_MAX_LENGTH
    ensures var r := Execute(db, Assign(id, a));
      r.output == "" <==> exists k :: 0 <= k < |db.list| && db.list[k].id == id && db.list[k].assignment == AVAILABLE
    ensures var r := Execute(db, Assign(id, a));
      r.output == "" ==> forall k :: 0 <= k < |db.list| ==>
        r.db.list[k] == if db.list[k].id == id then db.list[k].(assignment := a) else db.list[k]
  {
    var r := Execute(db, Assign(id, a));
    if r.output == "" {
      var i := FindEmployee(db.list, id).value;
      assert db.list[i].id == id && db.list[i].assignment == AVAILABLE;
    }
  }

  /**
   * `unassign` succeeds exactly when some employee has the id and is not
   * `Available`, and then makes that employee alone `Available`.
   */
  lemma UnassignSucceeds(db: Database, id: string)
    requires Valid(db)
    ensures var r := Execute(db, Unassign(id));
      r.output == "" <==> exists k :: 0 <= k < |db.list| && db.list[k].id == id && db.list[k].assignment != AVAILABLE
    ensures var r := Execute(db, Unassign(id));
      r.output == "" ==> forall k :: 0 <= k < |db.list| ==>
        r.db.list[k] == if db.list[k].id == id then db.list[k].(assignment := AVAILABLE) else db.list[k]
  {
    var r := Execute(db, Unassign(id));
    if r.output == "" {
      var i := FindEmployee(db.list, id).value;
      assert db.list[i].id == id && db.list[i].assignment != AVAILABLE;
    }
  }

  /** Unassigning an employee just assigned restores the database. */
  lemma AssignThenUnassign(db: Database, id: string, a: string)
    requires Valid(db) && Word(a) && |a| <= ASSIGNMENT_MAX_LENGTH && a != AVAILABLE
    requires Execute(db, Assign(id, a)).output == ""
    ensures Execute(Execute(db, Assign(id, a)).db, Unassign(id)) == Outcome(db, "", false)
  {
    var i := FindEmployee(db.list, id).value;
    var db' := Execute(db, Assign(id, a)).db;
    assert FindEmployee(db'.list, id) == Some(i);
    assert db'.list[i := db.list[i]] == db.list;
  }

  /** Assigning an employee just unassigned their old assignment restores the database. */
  lemma UnassignThenAssign(db: Database, id: string)
    requires Valid(db) && Execute(db, Unassign(id)).output == ""
    ensures var a := db.list[FindEmployee(db.list, id).value].assignment;
      Execute(Execute(db, Unassign(id)).db, Assign(id, a)) == Outcome(db, "", false)
  {
    var i := FindEmployee(db.list, id).value;
    var db' := Execute(db, Unassign(id)).db;
    assert FindEmployee(db'.list, id) == Some(i);
    assert db'.list[i := db.list[i]] == db.list;
  }

  // ---------------------------------------------------------------------
  // The program
  // ---------------------------------------------------------------------

  /** What the command loop prints after the first prompt, and whether it ended with `quit`. */
  datatype Transcript = Transcript(output: string, quit: bool)

  /** The command each line asks for. */
  function Commands(lines: seq<string>): (cs: seq<Command>)
    ensures |cs| == |lines|
    ensures forall i :: 0 <= i < |lines| ==> cs[i] == ParseCommand(lines[i]) && WellFormed(cs[i])
  {
    seq(|lines|, i requires 0 <= i < |lines| => ParseCommand(lines[i]))
  }

  /**
   * The command loop over the lines read and the commands they ask for:
   * each line is echoed, its command carried out, then a blank line and
   * the next prompt follow; `quit` ends the loop right after its echo,
   * and so does the end of the input.
   */
  function Session(db: Database, lines: seq<string>, cmds: seq<Command>): (t: Transcript)
    requires Valid(db) && |cmds| == |lines|
    requires forall i :: 0 <= i < |cmds| ==> WellFormed(cmds[i])
    decreases |lines|
  {
    if lines == [] then Transcript("", false)
    else
      var r := Execute(db, cmds[0]);
      if r.quit then Transcript(lines[0] + "\n", true)
      else
        var rest := Session(r.db, lines[1..], cmds[1..]);
        Transcript(lines[0] + "\n" + (r.output + "\n" + PROMPT + rest.output), rest.quit)
  }

  /** Nothing after a `quit` is read: lines that follow it change nothing. */
  lemma {:induction false} QuitStops(db: Database, lines: seq<string>, cmds: seq<Command>, more: seq<string>, moreCmds: seq<Command>)
    requires Valid(db) && |cmds| == |lines| && |moreCmds| == |more|
    requires forall i :: 0 <= i < |cmds| ==> WellFormed(cmds[i])
    requires forall i :: 0 <= i < |moreCmds| ==> WellFormed(moreCmds[i])
    requires Session(db, lines, cmds).quit
    ensures Session(db, lines + more, cmds + moreCmds) == Session(db, lines, cmds)
    decreases |lines|
  {
    var r := Execute(db, cmds[0]);
    if !r.quit {
      QuitStops(r.db, lines[1..], cmds[1..], more, moreCmds);
      SessionAppend(db, lines, cmds, more, moreCmds);
    } else {
      assert (lines + more)[0] == lines[0] && (cmds + moreCmds)[0] == cmds[0];
    }
  }

  /** The lines after the first of a longer session are the rest of the first session's lines, then the new ones. */
  lemma SessionAppend(db: Database, lines: seq<string>, cmds: seq<Command>, more: seq<string>, moreCmds: seq<Command>)
    requires Valid(db) && |cmds| == |lines| && |moreCmds| == |more| && lines != []
    requires forall i :: 0 <= i < |cmds| ==> WellFormed(cmds[i])
    requires forall i :: 0 <= i < |moreCmds| ==> WellFormed(moreCmds[i])
    requires !Execute(db, cmds[0]).quit
    ensures var r := Execute(db, cmds[0]);
      Session(db, lines + more, cmds + moreCmds) ==
        Transcript(lines[0] + "\n" + (r.output + "\n" + PROMPT + Session(r.db, lines[1..] + more, cmds[1..] + moreCmds).output),
                   Session(r.db, lines[1..] + more, cmds[1..] + moreCmds).quit)
  {
    var allLines, allCmds := lines + more, cmds + moreCmds;
    assert forall i :: 0 <= i < |allCmds| ==> WellFormed(allCmds[i]) by {
      forall i | 0 <= i < |allCmds| ensures WellFormed(allCmds[i]) {
        if i >= |cmds| {
          assert allCmds[i] == moreCmds[i - |cmds|];
        }
      }
    }
    assert allLines[0] == lines[0] && allCmds[0] == cmds[0];
    assert allLines[1..] == lines[1..] + more;
    assert allCmds[1..] == cmds[1..] + moreCmds;
    SessionStep(db, allLines, allCmds);
  }

  /** A session whose first command does not quit echoes its first line, then that command's output and a prompt, then the rest of the session. */
  lemma SessionStep(db: Database, lines: seq<string>, cmds: seq<Command>)
    requires Valid(db) && |cmds| == |lines| && lines != []
    requires forall i :: 0 <= i < |cmds| ==> WellFormed(cmds[i])
    requires !Execute(db, cmds[0]).quit
    ensures var r := Execute(db, cmds[0]);
      Session(db, lines, cmds) ==
        Transcript(lines[0] + "\n" + (r.output + "\n" + PROMPT + Session(r.db, lines[1..], cmds[1..]).output),
                   Session(r.db, lines[1..], cmds[1..]).quit)
  {
  }

  /** A session ends with `quit` exactly when one of its commands is `quit`. */
  lemma {:induction false} SessionQuitsAt(db: Database, lines: seq<string>, cmds: seq<Command>)
    requires Valid(db) && |cmds| == |lines|
    requires forall i :: 0 <= i < |cmds| ==> WellFormed(cmds[i])
    ensures Session(db, lines, cmds).quit <==> exists i :: 0 <= i < |cmds| && cmds[i].Quit?
    decreases |lines|
  {
    if lines != [] {
      var r := Execute(db, cmds[0]);
      if !r.quit {
        SessionQuitsAt(r.db, lines[1..], cmds[1..]);
        if exists i :: 0 <= i < |cmds| && cmds[i].Quit? {
          var i :| 0 <= i < |cmds| && cmds[i].Quit?;
          assert cmds[1..][i - 1] == cmds[i];
        }
      }
    }
  }

  /** The loop of the program ends with `quit` exactly when some line holds the single word `quit`. */
  lemma SessionQuits(db: Database, lines: seq<string>)
    requires Valid(db)
    ensures Session(db, lines, Commands(lines)).quit <==> exists i :: 0 <= i < |lines| && Tokens(lines[i]) == ["quit"]
  {
    var cmds := Commands(lines);
    SessionQuitsAt(db, lines, cmds);
    assert forall i :: 0 <= i < |lines| ==> (cmds[i].Quit? <==> Tokens(lines[i]) == ["quit"]);
  }

  /** The employee files read one after the other into one database. */
  function LoadAll(db: Database, filenames: seq<string>, files: seq<Option<string>>): (r: Loaded)
    requires Valid(db) && |files| == |filenames|
    ensures r.Loaded? ==> Valid(r.db)
    ensures r.Loaded? ==> forall i :: 0 <= i < |files| ==> files[i].Some?
    decreases |files|
  {
    if files == [] then Loaded(db)
    else
      match ReadEmployees(db, filenames[0], files[0])
      case Failed(m) => Failed(m)
      case Loaded(db') =>
        var r := LoadAll(db', filenames[1..], files[1..]);
        assert r.Loaded? ==> forall i :: 1 <= i < |files| ==> files[i] == files[1..][i - 1];
        r
  }

  /** How the program ends: its exit status and what it wrote to standard output and standard error. */
  datatype Exit = Exit(status: int, stdout: string, stderr: string)

  /**
   * `agency file...`: `filenames` are the arguments after the program
   * name and `files[i]` the content of `filenames[i]`, `None` when it
   * cannot be opened; `input` is standard input. With no file, the usage
   * message; a file that cannot be loaded ends the program with its
   * message; otherwise the first prompt and the command loop, ending with
   * status 0 on `quit` or at the end of the input.
   */
  function Run(filenames: seq<string>, files: seq<Option<string>>, input: string): (x: Exit)
    requires |files| == |filenames|
    ensures x.status == 0 <==> filenames != [] && LoadAll(MakeDatabase(), filenames, files).Loaded?
    ensures x.status == 0 ==> x.stderr == "" && |PROMPT| <= |x.stdout| && x.stdout[..|PROMPT|] == PROMPT
    ensures x.status != 0 ==> x.stdout == "" && x.status == 1
  {
    if filenames == [] then Exit(1, "", USAGE)
    else
      match LoadAll(MakeDatabase(), filenames, files)
      case Failed(m) => Exit(1, "", m)
      case Loaded(db) =>
        var lines := InputLine.Lines(input);
        var t := Session(db, lines, Commands(lines));
        Exit(0, PROMPT + t.output, "")
  }
}

=== FILE: board.dfy ===
/**
 * The word-placement board shared by the C and the Java word server.
 *
 * A board is a grid of `rows` x `cols` cells; an empty cell holds the
 * character 0. `across`/`down` place a word of 1..26 lower-case letters on
 * it, all or nothing: the word must fit inside the board, may only land on
 * empty cells or on cells already holding the same letter, and, when a
 * words file was loaded, every maximal horizontal and vertical run of two or
 * more letters on the resulting board must be a dictionary word.
 *
 * The two servers differ in the letter test (ASCII `a`..`z` in C,
 * `Character.isLowerCase` in Java) and in how negative coordinates end: in
 * C the bounds test or the first letter can still reject the word, and
 * otherwise the copy loop writes before the board (undefined behaviour,
 * see `BoardSession.CPlaceStep`); in Java an index exception is reported
 * as a failure. `Place` covers C placements with non-negative coordinates.
 */
module Board {
  import opened Common

  /** Longest word a client may place. */
  const WORD_LIMIT: nat := 26

  /** The content of a cell that holds no letter. */
  const EMPTY: char := NUL

  type Grid = seq<seq<char>>

  /** At least one row, at least one column, every row `cols` cells long. */
  predicate Shape(g: Grid, cols: nat) {
    |g| >= 1 && cols >= 1 && forall i :: 0 <= i < |g| ==> |g[i]| == cols
  }

  /** The board a server starts with: every cell empty. */
  function EmptyGrid(rows: nat, cols: nat): (g: Grid)
    requires rows >= 1 && cols >= 1
    ensures Shape(g, cols) && |g| == rows
    ensures forall i, j :: 0 <= i < rows && 0 <= j < cols ==> g[i][j] == EMPTY
  {
    seq(rows, i => seq(cols, j => EMPTY))
  }

  datatype Dialect = CServer | JavaServer
  datatype Orientation = Across | Down

  /** The words file: missing (no run checking) or its list of words. */
  datatype Dictionary = NoWordsFile | Words(list: seq<string>)

  /**
   * Java's `Character.isLowerCase` on the Latin-1 range: `a`..`z`, the
   * feminine and masculine ordinals, the micro sign and the lower-case
   * accented letters U+00DF..U+00FF except the division sign.
   */
  predicate JavaIsLowerCase(ch: char) {
    ('a' <= ch <= 'z') || ch == 'ª' || ch == 'µ' || ch == 'º'
    || ('ß' <= ch <= 'ö') || ('ø' <= ch <= 'ÿ')
  }

  /** The letter test each server applies to every character of the word. */
  predicate LetterOk(d: Dialect, ch: char) {
    match d
    case CServer => 'a' <= ch <= 'z'
    case JavaServer => JavaIsLowerCase(ch)
  }

  /** Every letter the C server accepts the Java server accepts too, but not the converse. */
  lemma JavaAcceptsMoreLetters()
    ensures forall ch :: LetterOk(CServer, ch) ==> LetterOk(JavaServer, ch)
    ensures LetterOk(JavaServer, 'é') && !LetterOk(CServer, 'é')
  {
  }

  // ---------------------------------------------------------------------
  // Geometry of a placement

  /** Row of the `k`-th letter of a word placed at (r, c). */
  function RowOf(o: Orientation, r: int, k: int): int {
    if o == Across then r else r + k
  }

  /** Column of the `k`-th letter of a word placed at (r, c). */
  function ColOf(o: Orientation, c: int, k: int): int {
    if o == Across then c + k else c
  }

  /**
   * The bounds test of the source: across fails when `c + len > cols` or
   * `r >= rows`, down when `r + len > rows` or `c >= cols`. Negative
   * coordinates pass it.
   */
  predicate BoundsReject(o: Orientation, r: int, c: int, len: nat, rows: nat, cols: nat) {
    match o
    case Across => c + len > cols || r >= rows
    case Down => r + len > rows || c >= cols
  }

  /** The word lies entirely on the board. */
  predicate Fits(g: Grid, cols: nat, o: Orientation, r: int, c: int, len: nat) {
    r >= 0 && c >= 0 && !BoundsReject(o, r, c, len, |g|, cols)
  }

  /**
   * The `k`-th letter may go to its cell: the cell exists and is empty or
   * already holds `ch`. False for a cell off the board.
   */
  predicate Writable(g: Grid, o: Orientation, r: int, c: int, k: int, ch: char) {
    var x := RowOf(o, r, k);
    var y := ColOf(o, c, k);
    0 <= x < |g| && 0 <= y < |g[x]| && (g[x][y] == EMPTY || g[x][y] == ch)
  }

  /** Letters `from..` of the word pass the letter test and land on writable cells. */
  predicate CompatibleFrom(d: Dialect, g: Grid, o: Orientation, r: int, c: int, word: string, from: nat) {
    forall k :: from <= k < |word| ==> LetterOk(d, word[k]) && Writable(g, o, r, c, k, word[k])
  }

  /** Cell (x, y) receives letter `k >= from` of a word of length `len` placed at (r, c). */
  predicate OnPath(o: Orientation, r: int, c: int, len: nat, from: nat, x: int, y: int) {
    match o
    case Across => x == r && c + from <= y < c + len
    case Down => y == c && r + from <= x < r + len
  }

  /** Index into the word of the letter that lands on (x, y). */
  function PathIndex(o: Orientation, r: int, c: int, x: int, y: int): int {
    if o == Across then y - c else x - r
  }

  /**
   * The board with letters `from..` of the word written on their cells and
   * every other cell as it was.
   */
  function OverlayFrom(g: Grid, cols: nat, o: Orientation, r: int, c: int, word: string, from: nat): (h: Grid)
    requires Shape(g, cols)
    ensures Shape(h, cols) && |h| == |g|
  {
    seq(|g|, x requires 0 <= x < |g| =>
      seq(cols, y requires 0 <= y < cols =>
        if OnPath(o, r, c, |word|, from, x, y) && 0 <= PathIndex(o, r, c, x, y) < |word|
        then word[PathIndex(o, r, c, x, y)] else g[x][y]))
  }

  /** The candidate board of a placement: the whole word written over `g`. */
  function Overlay(g: Grid, cols: nat, o: Orientation, r: int, c: int, word: string): (h: Grid)
    requires Shape(g, cols)
    ensures Shape(h, cols) && |h| == |g|
  {
    OverlayFrom(g, cols, o, r, c, word, 0)
  }

  // ---------------------------------------------------------------------
  // Runs of letters

  /** Column `j` of the board read top to bottom. */
  function Column(g: Grid, cols: nat, j: nat): (s: seq<char>)
    requires Shape(g, cols) && j < cols
    ensures |s| == |g| && forall i :: 0 <= i < |g| ==> s[i] == g[i][j]
  {
    seq(|g|, i requires 0 <= i < |g| => g[i][j])
  }

  /** `s[a..b]` is a maximal run of letters: non-empty cells bounded by empty cells or the edge. */
  predicate MaximalRun(s: seq<char>, a: int, b: int) {
    0 <= a < b <= |s|
    && (forall m :: a <= m < b ==> s[m] != EMPTY)
    && (a == 0 || s[a - 1] == EMPTY)
    && (b == |s| || s[b] == EMPTY)
  }

  /** Every maximal run of two or more letters in the line is a dictionary word. */
  predicate LineRunsListed(s: seq<char>, words: seq<string>) {
    forall a, b :: 0 <= a < b <= |s| && MaximalRun(s, a, b) && b - a >= 2 ==> s[a..b] in words
  }

  /** Every row and every column passes `LineRunsListed`. */
  predicate AllRunsListed(g: Grid, cols: nat, words: seq<string>)
    requires Shape(g, cols)
  {
    (forall i :: 0 <= i < |g| ==> LineRunsListed(g[i], words))
    && (forall j :: 0 <= j < cols ==> LineRunsListed(Column(g, cols, j), words))
  }

  /** No maximal run in the line is longer than `n`. */
  predicate LineRunsAtMost(s: seq<char>, n: nat) {
    forall a, b :: 0 <= a < b <= |s| && MaximalRun(s, a, b) ==> b - a <= n
  }

  predicate GridRunsAtMost(g: Grid, cols: nat, n: nat)
    requires Shape(g, cols)
  {
    (forall i :: 0 <= i < |g| ==> LineRunsAtMost(g[i], n))
    && (forall j :: 0 <= j < cols ==> LineRunsAtMost(Column(g, cols, j), n))
  }

  /** First index at or after `j` that is empty, or the end of the line. */
  function RunEnd(s: seq<char>, j: nat): (k: nat)
    requires j <= |s|
    ensures j <= k <= |s|
    ensures forall m :: j <= m < k ==> s[m] != EMPTY
    ensures k == |s| || s[k] == EMPTY
    decreases |s| - j
  {
    if j == |s| || s[j] == EMPTY then j else RunEnd(s, j + 1)
  }

  /**
   * The inner scan of `checkBoardValid` over one line from index `j`: skip
   * empty cells; at a letter collect the run up to the next empty cell, check
   * it when it has two or more letters, and resume one past the empty cell
   * that ended it.
   */
  predicate ScanOk(s: seq<char>, words: seq<string>, j: nat)
    requires j <= |s| + 1
    decreases |s| + 1 - j
  {
    if j >= |s| then true
    else if s[j] == EMPTY then ScanOk(s, words, j + 1)
    else
      var k := RunEnd(s, j);
      (k - j < 2 || s[j..k] in words) && ScanOk(s, words, k + 1)
  }

  /** A run starting at a cell that follows an empty cell ends exactly where `RunEnd` says. */
  lemma MaximalRunEnd(s: seq<char>, a: nat, b: int)
    requires a < |s| && MaximalRun(s, a, b)
    ensures b == RunEnd(s, a)
  {
    var k := RunEnd(s, a);
    if b < |s| {
      assert s[b] == EMPTY;
    }
    if k < |s| {
      assert s[k] == EMPTY;
    }
  }

  /** The scan from `j` accepts exactly when every maximal run starting at or after `j` is listed. */
  lemma {:induction false} ScanFindsRuns(s: seq<char>, words: seq<string>, j: nat)
    requires j <= |s| + 1
    requires j == 0 || j > |s| || s[j - 1] == EMPTY
    ensures ScanOk(s, words, j) <==>
      (forall a, b :: j <= a && MaximalRun(s, a, b) && b - a >= 2 ==> s[a..b] in words)
    decreases |s| + 1 - j
  {
    if j >= |s| {
    } else if s[j] == EMPTY {
      ScanFindsRuns(s, words, j + 1);
      forall a, b | j <= a && MaximalRun(s, a, b) ensures j + 1 <= a {
        assert s[a] != EMPTY;
      }
    } else {
      var k := RunEnd(s, j);
      assert MaximalRun(s, j, k);
      ScanFindsRuns(s, words, k + 1);
      forall a, b | j <= a && MaximalRun(s, a, b) ensures a == j || k + 1 <= a {
        assert s[a] != EMPTY;
        if a != j {
          assert s[a - 1] == EMPTY;
        }
      }
      forall b | MaximalRun(s, j, b) ensures b == k {
        MaximalRunEnd(s, j, b);
      }
    }
  }

  /** A whole line scans clean exactly when all its maximal runs of two or more letters are listed. */
  lemma LineScanMatchesRuns(s: seq<char>, words: seq<string>)
    ensures ScanOk(s, words, 0) <==> LineRunsListed(s, words)
  {
    ScanFindsRuns(s, words, 0);
  }

  /** `checkBoardValid`: the scan of every row, then of every column. */
  predicate BoardValid(g: Grid, cols: nat, words: seq<string>)
    requires Shape(g, cols)
  {
    (forall i :: 0 <= i < |g| ==> ScanOk(g[i], words, 0))
    && (forall j :: 0 <= j < cols ==> ScanOk(Column(g, cols, j), words, 0))
  }

  /** The scanning check and the declarative run condition agree on every board. */
  lemma BoardValidIffRunsListed(g: Grid, cols: nat, words: seq<string>)
    requires Shape(g, cols)
    ensures BoardValid(g, cols, words) <==> AllRunsListed(g, cols, words)
  {
    forall i | 0 <= i < |g| ensures ScanOk(g[i], words, 0) <==> LineRunsListed(g[i], words) {
      LineScanMatchesRuns(g[i], words);
    }
    forall j | 0 <= j < cols
      ensures ScanOk(Column(g, cols, j), words, 0) <==> LineRunsListed(Column(g, cols, j), words)
    {
      LineScanMatchesRuns(Column(g, cols, j), words);
    }
  }

  /**
   * How the C scan of `checkBoardValid` ends: every run checked, an unlisted
   * run found (it returns `false` at once), or a run too long for its
   * 27-byte buffer met first (undefined from there).
   */
  datatype Verdict = Clean | Unlisted | Overrun

  /**
   * The C scan of one line from index `j`, in the order of `ScanOk`: the
   * copy of a run overflows the buffer before the run is looked up.
   */
  function LineVerdict(s: seq<char>, words: seq<string>, j: nat): Verdict
    requires j <= |s| + 1
    decreases |s| + 1 - j
  {
    if j >= |s| then Clean
    else if s[j] == EMPTY then LineVerdict(s, words, j + 1)
    else
      var k := RunEnd(s, j);
      if k - j > WORD_LIMIT then Overrun
      else if k - j >= 2 && s[j..k] !in words then Unlisted
      else LineVerdict(s, words, k + 1)
  }

  /** The lines in the order the C scan visits them: every row, then every column. */
  function ScanLines(g: Grid, cols: nat): (lines: seq<seq<char>>)
    requires Shape(g, cols)
    ensures |lines| == |g| + cols
    ensures forall i :: 0 <= i < |g| ==> lines[i] == g[i]
    ensures forall j :: 0 <= j < cols ==> lines[|g| + j] == Column(g, cols, j)
  {
    g + seq(cols, j requires 0 <= j < cols => Column(g, cols, j))
  }

  /** The verdict of the first line whose scan does not come out clean. */
  function LinesVerdict(lines: seq<seq<char>>, words: seq<string>): Verdict
  {
    if lines == [] then Clean
    else
      var v := LineVerdict(lines[0], words, 0);
      if v != Clean then v else LinesVerdict(lines[1..], words)
  }

  function BoardVerdict(g: Grid, cols: nat, words: seq<string>): Verdict
    requires Shape(g, cols)
  {
    LinesVerdict(ScanLines(g, cols), words)
  }

  /**
   * A line scan that does not overrun agrees with `ScanOk`; one that
   * overruns has met a maximal run longer than 26 letters.
   */
  lemma {:induction false} LineVerdictScan(s: seq<char>, words: seq<string>, j: nat)
    requires j <= |s| + 1
    requires j == 0 || j > |s| || s[j - 1] == EMPTY
    ensures LineVerdict(s, words, j) != Overrun ==> (LineVerdict(s, words, j) == Clean <==> ScanOk(s, words, j))
    ensures LineVerdict(s, words, j) == Overrun ==>
      exists a, b :: j <= a && MaximalRun(s, a, b) && b - a > WORD_LIMIT
    decreases |s| + 1 - j
  {
    if j >= |s| {
    } else if s[j] == EMPTY {
      LineVerdictScan(s, words, j + 1);
    } else {
      var k := RunEnd(s, j);
      assert MaximalRun(s, j, k);
      if k - j <= WORD_LIMIT && !(k - j >= 2 && s[j..k] !in words) {
        LineVerdictScan(s, words, k + 1);
      }
    }
  }

  /** A line with no run longer than 26 letters never overruns the buffer. */
  lemma ShortLineNeverOverruns(s: seq<char>, words: seq<string>)
    requires LineRunsAtMost(s, WORD_LIMIT)
    ensures LineVerdict(s, words, 0) != Overrun
  {
    LineVerdictScan(s, words, 0);
  }

  /** The scan of a list of lines, short of an overrun, is clean exactly when every line scans clean. */
  lemma {:induction false} LinesVerdictScan(lines: seq<seq<char>>, words: seq<string>)
    ensures LinesVerdict(lines, words) != Overrun ==>
      (LinesVerdict(lines, words) == Clean <==> forall i :: 0 <= i < |lines| ==> ScanOk(lines[i], words, 0))
    ensures (forall i :: 0 <= i < |lines| ==> LineVerdict(lines[i], words, 0) != Overrun) ==> LinesVerdict(lines, words) != Overrun
  {
    if lines != [] {
      LineVerdictScan(lines[0], words, 0);
      LinesVerdictScan(lines[1..], words);
      assert forall i :: 1 <= i < |lines| ==> lines[1..][i - 1] == lines[i];
    }
  }

  /**
   * Short of an overrun, the C scan with its early return decides exactly
   * what `checkBoardValid` promises: the board is accepted when every row
   * and column scans clean. A board with no run longer than 26 letters
   * never overruns.
   */
  lemma BoardVerdictValid(g: Grid, cols: nat, words: seq<string>)
    requires Shape(g, cols)
    ensures BoardVerdict(g, cols, words) != Overrun ==>
      (BoardVerdict(g, cols, words) == Clean <==> BoardValid(g, cols, words))
    ensures GridRunsAtMost(g, cols, WORD_LIMIT) ==> BoardVerdict(g, cols, words) != Overrun
  {
    var lines := ScanLines(g, cols);
    LinesVerdictScan(lines, words);
    forall i | 0 <= i < |lines| ensures ScanOk(lines[i], words, 0) <==>
      if i < |g| then ScanOk(g[i], words, 0) else ScanOk(Column(g, cols, i - |g|), words, 0)
    {
      if i >= |g| {
        assert lines[|g| + (i - |g|)] == Column(g, cols, i - |g|);
      }
    }
    forall j | 0 <= j < cols ensures ScanOk(lines[|g| + j], words, 0) == ScanOk(Column(g, cols, j), words, 0) {
    }
    if GridRunsAtMost(g, cols, WORD_LIMIT) {
      forall i | 0 <= i < |lines| ensures LineVerdict(lines[i], words, 0) != Overrun {
        if i < |g| {
          ShortLineNeverOverruns(g[i], words);
        } else {
          assert lines[|g| + (i - |g|)] == Column(g, cols, i - |g|);
          ShortLineNeverOverruns(Column(g, cols, i - |g|), words);
        }
      }
    }
  }

  // ---------------------------------------------------------------------
  // Placement

  /**
   * The copy loop of `across`/`down` from letter `k`: test the letter, touch
   * its cell (an index exception in Java when the cell is off the board),
   * then write it if the cell is empty or holds the same letter.
   */
  function WriteFrom(d: Dialect, g: Grid, cols: nat, o: Orientation, r: int, c: int, word: string, k: nat): (res: Option<Grid>)
    requires Shape(g, cols) && k <= |word|
    requires !BoundsReject(o, r, c, |word|, |g|, cols)
    ensures res.Some? <==> CompatibleFrom(d, g, o, r, c, word, k)
    ensures res.Some? ==> res.value == OverlayFrom(g, cols, o, r, c, word, k)
    decreases |word| - k
  {
    if k == |word| then
      OverlayPastEnd(g, cols, o, r, c, word);
      Some(g)
    else if !LetterOk(d, word[k]) then None
    else
      var x := RowOf(o, r, k);
      var y := ColOf(o, c, k);
      if x < 0 || y < 0 then None
      else if g[x][y] == EMPTY || g[x][y] == word[k] then
        var g1 := g[x := g[x][y := word[k]]];
        var res := WriteFrom(d, g1, cols, o, r, c, word, k + 1);
        assert forall m :: k + 1 <= m < |word| ==>
          (Writable(g1, o, r, c, m, word[m]) <==> Writable(g, o, r, c, m, word[m]));
        assert res.Some? ==> res.value == OverlayFrom(g, cols, o, r, c, word, k) by {
          if res.Some? {
            OverlayStep(g, cols, o, r, c, word, k);
          }
        }
        res
      else None
  }

  /** Writing no letters leaves the board as it is. */
  lemma OverlayPastEnd(g: Grid, cols: nat, o: Orientation, r: int, c: int, word: string)
    requires Shape(g, cols)
    ensures OverlayFrom(g, cols, o, r, c, word, |word|) == g
  {
    var h := OverlayFrom(g, cols, o, r, c, word, |word|);
    forall x | 0 <= x < |g| ensures h[x] == g[x] {
      assert forall y :: 0 <= y < cols ==> h[x][y] == g[x][y];
    }
  }

  /** Writing letter `k` and then the letters after it gives the overlay from `k`. */
  lemma OverlayStep(g: Grid, cols: nat, o: Orientation, r: int, c: int, word: string, k: nat)
    requires Shape(g, cols) && k < |word|
    requires 0 <= RowOf(o, r, k) < |g| && 0 <= ColOf(o, c, k) < cols
    ensures
      var x := RowOf(o, r, k);
      var y := ColOf(o, c, k);
      var g1 := g[x := g[x][y := word[k]]];
      Shape(g1, cols) && OverlayFrom(g1, cols, o, r, c, word, k + 1) == OverlayFrom(g, cols, o, r, c, word, k)
  {
    var x := RowOf(o, r, k);
    var y := ColOf(o, c, k);
    var g1 := g[x := g[x][y := word[k]]];
    var lhs := OverlayFrom(g1, cols, o, r, c, word, k + 1);
    var rhs := OverlayFrom(g, cols, o, r, c, word, k);
    forall i | 0 <= i < |g| ensures lhs[i] == rhs[i] {
      assert forall j :: 0 <= j < cols ==> lhs[i][j] == rhs[i][j];
    }
  }

  /**
   * The condition under which the C server's run scan stays inside its
   * 27-byte run buffer: whenever the scan runs, it reaches a verdict on the
   * candidate board before it meets a run longer than 26 letters.
   */
  predicate CRunBufferSafe(g: Grid, cols: nat, dict: Dictionary, o: Orientation, r: int, c: int, word: string)
    requires Shape(g, cols)
  {
    (dict.Words? && 1 <= |word| <= WORD_LIMIT && Fits(g, cols, o, r, c, |word|)
      && CompatibleFrom(CServer, g, o, r, c, word, 0))
    ==> BoardVerdict(Overlay(g, cols, o, r, c, word), cols, dict.list) != Overrun
  }

  /** What a successful placement demands, stated without reference to the order of the checks. */
  predicate Accepted(d: Dialect, g: Grid, cols: nat, dict: Dictionary, o: Orientation, r: int, c: int, word: string)
    requires Shape(g, cols)
  {
    1 <= |word| <= WORD_LIMIT
    && Fits(g, cols, o, r, c, |word|)
    && (forall k :: 0 <= k < |word| ==> LetterOk(d, word[k]))
    && (forall k :: 0 <= k < |word| ==> Writable(g, o, r, c, k, word[k]))
    && (dict.Words? ==> AllRunsListed(Overlay(g, cols, o, r, c, word), cols, dict.list))
  }

  /**
   * `across` (o = Across) and `down` (o = Down): length check, bounds check,
   * letter-by-letter copy into a candidate board, run check when a words
   * file exists, then commit. `None` is a failed placement; the live board
   * is then left as it was.
   */
  function Place(d: Dialect, g: Grid, cols: nat, dict: Dictionary, o: Orientation, r: int, c: int, word: string): (res: Option<Grid>)
    requires Shape(g, cols)
    requires d == CServer ==> r >= 0 && c >= 0
    requires d == CServer ==> CRunBufferSafe(g, cols, dict, o, r, c, word)
    ensures res.Some? <==> Accepted(d, g, cols, dict, o, r, c, word)
    ensures res.Some? ==> res.value == Overlay(g, cols, o, r, c, word)
  {
    if |word| > WORD_LIMIT || |word| < 1 then None
    else if BoundsReject(o, r, c, |word|, |g|, cols) then None
    else
      match WriteFrom(d, g, cols, o, r, c, word, 0)
      case None => None
      case Some(cand) =>
        assert Writable(g, o, r, c, 0, word[0]);
        BoardValidIffRunsListed(cand, cols, if dict.Words? then dict.list else []);
        if dict.Words? && !BoardValid(cand, cols, dict.list) then None
        else Some(cand)
  }

  /** A placement writes exactly the word's cells and never changes or erases a letter already there. */
  lemma PlaceKeepsLetters(d: Dialect, g: Grid, cols: nat, dict: Dictionary, o: Orientation, r: int, c: int, word: string)
    requires Shape(g, cols)
    requires d == CServer ==> r >= 0 && c >= 0
    requires d == CServer ==> CRunBufferSafe(g, cols, dict, o, r, c, word)
    requires Place(d, g, cols, dict, o, r, c, word).Some?
    ensures var h := Place(d, g, cols, dict, o, r, c, word).value;
      Shape(h, cols) && |h| == |g|
      && (forall k :: 0 <= k < |word| ==> h[RowOf(o, r, k)][ColOf(o, c, k)] == word[k])
      && (forall x, y :: 0 <= x < |g| && 0 <= y < cols && g[x][y] != EMPTY ==> h[x][y] == g[x][y])
      && (forall x, y :: 0 <= x < |g| && 0 <= y < cols && !OnPath(o, r, c, |word|, 0, x, y) ==> h[x][y] == g[x][y])
  {
    OverlayKeepsLetters(g, cols, o, r, c, word);
  }

  /** The overlay of a word whose letters all land on writable cells writes them and keeps every other cell and every letter. */
  lemma OverlayKeepsLetters(g: Grid, cols: nat, o: Orientation, r: int, c: int, word: string)
    requires Shape(g, cols) && Fits(g, cols, o, r, c, |word|)
    requires forall k :: 0 <= k < |word| ==> Writable(g, o, r, c, k, word[k])
    ensures var h := Overlay(g, cols, o, r, c, word);
      Shape(h, cols) && |h| == |g|
      && (forall k :: 0 <= k < |word| ==> h[RowOf(o, r, k)][ColOf(o, c, k)] == word[k])
      && (forall x, y :: 0 <= x < |g| && 0 <= y < cols && g[x][y] != EMPTY ==> h[x][y] == g[x][y])
      && (forall x, y :: 0 <= x < |g| && 0 <= y < cols && !OnPath(o, r, c, |word|, 0, x, y) ==> h[x][y] == g[x][y])
  {
    var h := Overlay(g, cols, o, r, c, word);
    forall x, y | 0 <= x < |g| && 0 <= y < cols && g[x][y] != EMPTY ensures h[x][y] == g[x][y] {
      if OnPath(o, r, c, |word|, 0, x, y) {
        var k := PathIndex(o, r, c, x, y);
        assert Writable(g, o, r, c, k, word[k]);
      }
    }
  }

  /** Placing the same word at the same spot again succeeds and changes nothing. */
  lemma PlaceIdempotent(d: Dialect, g: Grid, cols: nat, dict: Dictionary, o: Orientation, r: int, c: int, word: string)
    requires Shape(g, cols)
    requires d == CServer ==> r >= 0 && c >= 0
    requires d == CServer ==> CRunBufferSafe(g, cols, dict, o, r, c, word)
    requires Place(d, g, cols, dict, o, r, c, word).Some?
    ensures var h := Place(d, g, cols, dict, o, r, c, word).value;
      Shape(h, cols)
      && (d == CServer ==> CRunBufferSafe(h, cols, dict, o, r, c, word))
      && Place(d, h, cols, dict, o, r, c, word) == Some(h)
  {
    OverlayIdempotent(g, cols, o, r, c, word);
  }

  /** Overlaying a word on its own overlay changes nothing, and its letters stay writable there. */
  lemma OverlayIdempotent(g: Grid, cols: nat, o: Orientation, r: int, c: int, word: string)
    requires Shape(g, cols) && Fits(g, cols, o, r, c, |word|)
    requires forall k :: 0 <= k < |word| ==> Writable(g, o, r, c, k, word[k])
    ensures var h := Overlay(g, cols, o, r, c, word);
      Overlay(h, cols, o, r, c, word) == h && forall k :: 0 <= k < |word| ==> Writable(h, o, r, c, k, word[k])
  {
    var h := Overlay(g, cols, o, r, c, word);
    OverlayKeepsLetters(g, cols, o, r, c, word);
    var h2 := Overlay(h, cols, o, r, c, word);
    forall x | 0 <= x < |h| ensures h2[x] == h[x] {
      forall y | 0 <= y < cols ensures h2[x][y] == h[x][y] {
        if OnPath(o, r, c, |word|, 0, x, y) {
          assert h[x][y] == word[PathIndex(o, r, c, x, y)];
        }
      }
    }
    assert h2 == h;
    forall k | 0 <= k < |word| ensures Writable(h, o, r, c, k, word[k]) {
      assert Writable(g, o, r, c, k, word[k]);
    }
  }

  // ---------------------------------------------------------------------
  // Rendering

  /** How a cell is shown: a space for an empty cell, its letter otherwise. */
  function Show(ch: char): char { if ch == EMPTY then ' ' else ch }

  function Repeat(ch: char, n: nat): (s: string)
    ensures |s| == n && forall i :: 0 <= i < n ==> s[i] == ch
  {
    if n == 0 then [] else Repeat(ch, n - 1) + [ch]
  }

  /** The top and bottom border: `+`, one `-` per column, `+`, newline. */
  function BorderLine(cols: nat): string {
    "+" + Repeat('-', cols) + "+\n"
  }

  /** One row between `|` bars. */
  function RowLine(row: seq<char>): (line: string)
    ensures |line| == |row| + 3
    ensures line[0] == '|' && line[|row| + 1] == '|' && line[|row| + 2] == '\n'
    ensures forall j :: 0 <= j < |row| ==> line[j + 1] == Show(row[j])
  {
    "|" + seq(|row|, j requires 0 <= j < |row| => Show(row[j])) + "|\n"
  }

  /** Line `i` of the picture: the border first and last, row `i - 1` in between. */
  function LineAt(g: Grid, cols: nat, i: nat): (line: string)
    requires Shape(g, cols) && i < |g| + 2
    ensures |line| == cols + 3
  {
    if i == 0 || i == |g| + 1 then BorderLine(cols) else RowLine(g[i - 1])
  }

  /**
   * `board`: the bordered picture of the grid, `rows + 2` lines of
   * `cols + 3` characters each; `RenderLayout` says which line is where.
   */
  function Render(g: Grid, cols: nat): (out: string)
    requires Shape(g, cols)
    ensures |out| == (|g| + 2) * (cols + 3)
  {
    ConcatChunks(Picture(g, cols), cols + 3);
    Concat(Picture(g, cols))
  }

  /**
   * Cut into blocks of `cols + 3` characters, the picture reads line by
   * line: the top border, the rows in order, the bottom border.
   */
  lemma RenderLayout(g: Grid, cols: nat)
    requires Shape(g, cols)
    ensures forall i :: 0 <= i < |g| + 2 ==> Chunk(Render(g, cols), cols + 3, i) == LineAt(g, cols, i)
  {
    ConcatChunks(Picture(g, cols), cols + 3);
  }

  /** The lines of the picture, top to bottom. */
  function Picture(g: Grid, cols: nat): (lines: seq<string>)
    requires Shape(g, cols)
    ensures |lines| == |g| + 2
    ensures forall i :: 0 <= i < |g| + 2 ==> lines[i] == LineAt(g, cols, i) && |lines[i]| == cols + 3
  {
    seq(|g| + 2, i requires 0 <= i < |g| + 2 => LineAt(g, cols, i))
  }
}

=== FILE: board_session.dfy ===
/**
 * One client's conversation with a word server, each command taken as one
 * atomic step on the shared board.
 *
 * The C server reads white-space separated tokens from the connection and
 * writes its replies to it; the Java server receives whole request strings
 * and sends one reply per request.
 */
module BoardSession {
  import opened Common
  import opened Board
  import CScan
  import JavaText

  const PROMPT: string := "cmd> "
  const INVALID: string := "Invalid command\n"
  /** The Java server's reply to a successful placement. */
  const NO_OUTPUT: string := "No Output"

  /** Widths of the C server's `%10s` command and `%27s` word conversions. */
  const CMD_WIDTH: nat := 10
  const WORD_WIDTH: nat := 27

  /** What one command did: its reply and the board after it. */
  datatype Step =
    | Reply(reply: string, board: Grid, rest: string)
    | Close
    | Undefined

  /** A placement request as both servers understand it. */
  function PlaceOutcome(d: Dialect, g: Grid, cols: nat, dict: Dictionary, o: Orientation, r: int, c: int, w: string): (res: (bool, Grid))
    requires Shape(g, cols)
    requires d == CServer ==> r >= 0 && c >= 0
    requires d == CServer ==> CRunBufferSafe(g, cols, dict, o, r, c, w)
    ensures res.0 <==> Accepted(d, g, cols, dict, o, r, c, w)
    ensures res.1 == (if res.0 then Overlay(g, cols, o, r, c, w) else g)
  {
    match Place(d, g, cols, dict, o, r, c, w)
    case Some(h) => (true, h)
    case None => (false, g)
  }

  /** 2^64: `size_t` arithmetic is modulo this. */
  const SIZE_MODULUS: int := 0x1_0000_0000_0000_0000

  /**
   * The bounds test of the C server. `c + strlen(word)` (across) and
   * `r + strlen(word)` (down) are computed in `size_t`, where a negative
   * `int` wraps around to 2^64 plus its value; `r >= rows` (across) and
   * `c >= columns` (down) compare signed `int`s.
   */
  predicate CBoundsReject(o: Orientation, r: int, c: int, len: nat, rows: nat, cols: nat) {
    match o
    case Across => (c + len) % SIZE_MODULUS > cols || r >= rows
    case Down => (r + len) % SIZE_MODULUS > rows || c >= cols
  }

  /**
   * The `size_t` test rejects what the plain test rejects, and besides a
   * word whose far end is still left of (across) or above (down) the
   * board's first cell; a negative start whose word reaches onto the
   * board's range passes it.
   */
  lemma CBoundsAgree(o: Orientation, r: int, c: int, len: nat, rows: nat, cols: nat)
    requires InInt(r) && InInt(c) && len <= WORD_LIMIT && rows <= INT_MAX && cols <= INT_MAX
    ensures CBoundsReject(o, r, c, len, rows, cols) <==>
      BoundsReject(o, r, c, len, rows, cols) || (o == Across && c + len < 0) || (o == Down && r + len < 0)
  {
  }

  /**
   * The C server's arguments of `across`/`down`: `%d%d%27s`. Any conversion
   * that fails leaves a variable uninitialised, a 27-character word
   * overflows the 27-byte buffer and a value outside `int` overflows `%d`:
   * undefined behaviour, `Undefined`. With a negative coordinate the word
   * is rejected by the `size_t` bounds test or by the letter test of its
   * first character; otherwise the copy loop writes that character before
   * the board, which is undefined behaviour too.
   */
  function CPlaceStep(g: Grid, cols: nat, dict: Dictionary, o: Orientation, input: string): (res: Step)
    requires Shape(g, cols)
    ensures res.Reply? ==> |res.rest| < |input| && Shape(res.board, cols) && |res.board| == |g|
    ensures res.Reply? ==> res.reply == "" || (res.reply == INVALID && res.board == g)
  {
    match CScan.ScanInt(input)
    case None => Undefined
    case Some((r, rest1)) =>
      match CScan.ScanInt(rest1)
      case None => Undefined
      case Some((c, rest2)) =>
        match CScan.ScanWord(rest2, WORD_WIDTH)
        case None => Undefined
        case Some((w, rest3)) =>
          if !InInt(r) || !InInt(c) || |w| == WORD_WIDTH then Undefined
          else if r < 0 || c < 0 then
            if CBoundsReject(o, r, c, |w|, |g|, cols) || !LetterOk(CServer, w[0]) then Reply(INVALID, g, rest3)
            else Undefined
          else if !CRunBufferSafe(g, cols, dict, o, r, c, w) then Undefined
          else
            var (ok, h) := PlaceOutcome(CServer, g, cols, dict, o, r, c, w);
            Reply(if ok then "" else INVALID, h, rest3)
  }

  /**
   * One pass of the C server's command loop: read a command with `%10s`;
   * end of input or `quit` closes, `across`/`down` place a word (silent on
   * success), `board` prints the board, anything else is invalid.
   */
  function CStep(g: Grid, cols: nat, dict: Dictionary, input: string): (res: Step)
    requires Shape(g, cols)
    ensures res.Close? <==>
      (CScan.ScanWord(input, CMD_WIDTH).None? || CScan.ScanWord(input, CMD_WIDTH).value.0 == "quit")
    ensures res.Reply? ==> |res.rest| < |input| && Shape(res.board, cols) && |res.board| == |g|
    ensures res.Reply? && res.reply != "" ==> res.board == g
    ensures res.Reply? ==> res.reply == "" || res.reply == INVALID || res.reply == Render(g, cols)
  {
    var scanned := CScan.ScanWord(input, CMD_WIDTH);
    assert scanned.Some? ==> |scanned.value.1| < |input|;
    CCommand(g, cols, dict, scanned)
  }

  /** The command loop's dispatch on the command word read by `%10s` (`None` at end of input). */
  function CCommand(g: Grid, cols: nat, dict: Dictionary, scanned: Option<(string, string)>): (res: Step)
    requires Shape(g, cols)
    ensures res.Close? <==> (scanned.None? || scanned.value.0 == "quit")
    ensures res.Reply? ==> |res.rest| <= |scanned.value.1| && Shape(res.board, cols) && |res.board| == |g|
    ensures res.Reply? && res.reply != "" ==> res.board == g
    ensures res.Reply? ==> res.reply == "" || res.reply == INVALID || res.reply == Render(g, cols)
  {
    match scanned
    case None => Close
    case Some((cmd, rest)) =>
      if cmd == "quit" then Close
      else if cmd == "across" then CPlaceStep(g, cols, dict, Across, rest)
      else if cmd == "down" then CPlaceStep(g, cols, dict, Down, rest)
      else if cmd == "board" then Reply(Render(g, cols), g, rest)
      else Reply(INVALID, g, rest)
  }

  /** What a whole session left behind: everything written and the final board, or undefined behaviour. */
  datatype Outcome = Done(output: string, board: Grid) | Crashed

  /** The command loop after a prompt has been written. */
  function CLoop(g: Grid, cols: nat, dict: Dictionary, input: string): (res: Outcome)
    requires Shape(g, cols)
    ensures res.Done? ==> Shape(res.board, cols) && |res.board| == |g|
    decreases |input|
  {
    match CStep(g, cols, dict, input)
    case Close => Done("", g)
    case Undefined => Crashed
    case Reply(reply, h, rest) =>
      match CLoop(h, cols, dict, rest)
      case Crashed => Crashed
      case Done(out, last) => Done(reply + PROMPT + out, last)
  }

  /** `handleClient` of the C server: a first prompt, then the command loop. */
  function CSession(g: Grid, cols: nat, dict: Dictionary, input: string): (res: Outcome)
    requires Shape(g, cols)
    ensures res.Done? ==> |res.output| >= |PROMPT| && res.output[..|PROMPT|] == PROMPT
    ensures res.Done? ==> Shape(res.board, cols) && |res.board| == |g|
  {
    match CLoop(g, cols, dict, input)
    case Crashed => Crashed
    case Done(out, last) => Done(PROMPT + out, last)
  }

  /** A `board` command prints the board and the loop carries on with the same board. */
  lemma CBoardThen(g: Grid, cols: nat, dict: Dictionary, rest: string)
    requires Shape(g, cols)
    ensures CLoop(g, cols, dict, "board\n" + rest) ==
      match CLoop(g, cols, dict, rest)
      case Crashed => Crashed
      case Done(out, last) => Done(Render(g, cols) + PROMPT + out, last)
  {
    CBoardStep(g, cols, dict, rest);
    CLoopSkipsSpace(g, cols, dict, '\n', rest);
  }

  /** The command word of a placement. */
  function Verb(o: Orientation): string {
    if o == Across then "across" else "down"
  }

  /** `%d` reads an integer written after a space and before white space or the end. */
  lemma SpacedIntScan(v: int, tail: string)
    requires tail == [] || IsCSpace(tail[0])
    ensures CScan.ScanInt([' '] + (CScan.IntText(v) + tail)) == Some((v, tail))
  {
    CScan.SkipSpaceThenInt(' ', CScan.IntText(v) + tail);
    CScan.ScanIntText(v, tail);
  }

  /** `%27s` reads a word written after a space and before white space or the end. */
  lemma SpacedWordScan(w: string, rest: string)
    requires 1 <= |w| < WORD_WIDTH && forall i :: 0 <= i < |w| ==> !IsCSpace(w[i])
    requires rest == [] || IsCSpace(rest[0])
    ensures CScan.ScanWord([' '] + (w + rest), WORD_WIDTH) == Some((w, rest))
  {
    CScan.ScanWordSkipsSpace(' ', w + rest, WORD_WIDTH);
    assert CScan.SkipSpace(w + rest) == w + rest;
    CScan.TakeWordExact(w, rest, WORD_WIDTH);
    assert (w + rest)[|w|..] == rest;
  }

  /** The verb of a placement command is read whole by `%10s`. */
  lemma VerbScan(o: Orientation, after: string)
    requires |after| > 0 && IsCSpace(after[0])
    ensures CScan.ScanWord(Verb(o) + after, CMD_WIDTH) == Some((Verb(o), after))
  {
    var v := Verb(o);
    assert forall i :: 0 <= i < |v| ==> !IsCSpace(v[i]);
    CScan.ScanWordReads([], v, after, CMD_WIDTH);
    assert [] + v + after == v + after;
  }

  /** `across` and `down` dispatch to the placement with their orientation. */
  lemma CommandPlace(g: Grid, cols: nat, dict: Dictionary, o: Orientation, after: string)
    requires Shape(g, cols)
    ensures CCommand(g, cols, dict, Some((Verb(o), after))) == CPlaceStep(g, cols, dict, o, after)
  {
    assert Verb(o) != "quit" by {
      assert Verb(o)[0] != 'q';
    }
    if o == Down {
      assert Verb(o) != "across" by {
        assert |Verb(o)| != 6;
      }
    }
  }

  /** Arguments that scan as `r`, `c` and `w` make the placement of `w` at (`r`, `c`). */
  lemma PlaceArgs(g: Grid, cols: nat, dict: Dictionary, o: Orientation, r: int, c: int, w: string,
                  input: string, afterR: string, afterC: string, rest: string)
    requires Shape(g, cols)
    requires 0 <= r && 0 <= c && InInt(r) && InInt(c)
    requires |w| <= WORD_LIMIT
    requires CRunBufferSafe(g, cols, dict, o, r, c, w)
    requires CScan.ScanInt(input) == Some((r, afterR))
    requires CScan.ScanInt(afterR) == Some((c, afterC))
    requires CScan.ScanWord(afterC, WORD_WIDTH) == Some((w, rest))
    ensures CPlaceStep(g, cols, dict, o, input)
      == if Accepted(CServer, g, cols, dict, o, r, c, w)
         then Reply("", Overlay(g, cols, o, r, c, w), rest)
         else Reply(INVALID, g, rest)
  {
  }

  /**
   * Arguments with a negative coordinate: the reply is `Invalid command`
   * when the `size_t` bounds test or the first letter rejects the word, and
   * the behaviour is undefined otherwise.
   */
  lemma NegativeArgs(g: Grid, cols: nat, dict: Dictionary, o: Orientation, r: int, c: int, w: string,
                     input: string, afterR: string, afterC: string, rest: string)
    requires Shape(g, cols)
    requires (r < 0 || c < 0) && InInt(r) && InInt(c)
    requires |w| <= WORD_LIMIT
    requires CScan.ScanInt(input) == Some((r, afterR))
    requires CScan.ScanInt(afterR) == Some((c, afterC))
    requires CScan.ScanWord(afterC, WORD_WIDTH) == Some((w, rest))
    ensures CPlaceStep(g, cols, dict, o, input)
      == if CBoundsReject(o, r, c, |w|, |g|, cols) || !('a' <= w[0] <= 'z') then Reply(INVALID, g, rest) else Undefined
  {
  }

  /** The text of a placement command: `across r c word` or `down r c word`. */
  function PlaceLine(o: Orientation, r: int, c: int, w: string): string {
    Verb(o) + " " + CScan.IntText(r) + " " + CScan.IntText(c) + " " + w
  }

  /** A placement command followed by more input, cut at the separating spaces. */
  lemma PlaceLineParts(o: Orientation, r: int, c: int, w: string, rest: string)
    ensures PlaceLine(o, r, c, w) + rest
      == Verb(o) + ([' '] + (CScan.IntText(r) + ([' '] + (CScan.IntText(c) + ([' '] + (w + rest))))))
  {
    var a, b, e := Verb(o), CScan.IntText(r), CScan.IntText(c);
    var t := [' '] + (w + rest);
    assert " " + w + rest == t;
    var u := [' '] + (e + t);
    assert " " + e + " " + w + rest == u by {
      Append3(" ", e, " " + w + rest);
    }
    assert PlaceLine(o, r, c, w) + rest == a + ([' '] + (b + u)) by {
      assert PlaceLine(o, r, c, w) + rest == a + " " + b + (" " + e + " " + w + rest);
      Append3(a + " ", b, u);
      Append3(a, " ", b + u);
    }
  }

  /** Concatenation is associative. */
  lemma Append3(a: string, b: string, c: string)
    ensures a + b + c == a + (b + c)
  {
  }

  /**
   * A well-formed placement command, `across r c word` or `down r c word`,
   * is silent when the placement is accepted and then leaves the overlay,
   * and otherwise replies `Invalid command` and leaves the board as it was.
   */
  lemma CPlaceCommand(g: Grid, cols: nat, dict: Dictionary, o: Orientation, r: int, c: int, w: string, rest: string)
    requires Shape(g, cols)
    requires 0 <= r && 0 <= c && InInt(r) && InInt(c)
    requires 1 <= |w| <= WORD_LIMIT && forall i :: 0 <= i < |w| ==> !IsCSpace(w[i])
    requires CRunBufferSafe(g, cols, dict, o, r, c, w)
    requires rest == [] || IsCSpace(rest[0])
    ensures CStep(g, cols, dict, PlaceLine(o, r, c, w) + rest)
      == if Accepted(CServer, g, cols, dict, o, r, c, w)
         then Reply("", Overlay(g, cols, o, r, c, w), rest)
         else Reply(INVALID, g, rest)
  {
    var afterC := [' '] + (w + rest);
    var afterR := [' '] + (CScan.IntText(c) + afterC);
    var afterVerb := [' '] + (CScan.IntText(r) + afterR);
    PlaceLineParts(o, r, c, w, rest);
    VerbScan(o, afterVerb);
    CommandPlace(g, cols, dict, o, afterVerb);
    SpacedWordScan(w, rest);
    SpacedIntScan(c, afterC);
    SpacedIntScan(r, afterR);
    PlaceArgs(g, cols, dict, o, r, c, w, afterVerb, afterR, afterC, rest);
  }

  /**
   * `across r c word` with a column so far left that the word ends before
   * the board (`across 0 -30 ab`, say) is a well-defined `Invalid command`:
   * the `size_t` sum wraps to a huge value and fails the bounds test before
   * the board is touched.
   */
  lemma FarLeftIsInvalid(g: Grid, cols: nat, dict: Dictionary, r: int, c: int, w: string, rest: string)
    requires Shape(g, cols) && |g| <= INT_MAX && cols <= INT_MAX
    requires InInt(r) && InInt(c) && c + |w| < 0
    requires 1 <= |w| <= WORD_LIMIT && forall i :: 0 <= i < |w| ==> !IsCSpace(w[i])
    requires rest == [] || IsCSpace(rest[0])
    ensures CStep(g, cols, dict, PlaceLine(Across, r, c, w) + rest) == Reply(INVALID, g, rest)
  {
    var afterC := [' '] + (w + rest);
    var afterR := [' '] + (CScan.IntText(c) + afterC);
    var afterVerb := [' '] + (CScan.IntText(r) + afterR);
    PlaceLineParts(Across, r, c, w, rest);
    VerbScan(Across, afterVerb);
    CommandPlace(g, cols, dict, Across, afterVerb);
    SpacedWordScan(w, rest);
    SpacedIntScan(c, afterC);
    SpacedIntScan(r, afterR);
    CBoundsAgree(Across, r, c, |w|, |g|, cols);
    NegativeArgs(g, cols, dict, Across, r, c, w, afterVerb, afterR, afterC, rest);
  }

  /** White space between commands is skipped. */
  lemma CLoopSkipsSpace(g: Grid, cols: nat, dict: Dictionary, ch: char, rest: string)
    requires Shape(g, cols) && IsCSpace(ch)
    ensures CLoop(g, cols, dict, [ch] + rest) == CLoop(g, cols, dict, rest)
  {
    CScan.ScanWordSkipsSpace(ch, rest, CMD_WIDTH);
    assert CStep(g, cols, dict, [ch] + rest) == CStep(g, cols, dict, rest);
  }

  /** `quit` closes the session. */
  lemma CQuitStep(g: Grid, cols: nat, dict: Dictionary)
    requires Shape(g, cols)
    ensures CStep(g, cols, dict, "quit\n") == Close
  {
    assert "quit\n" == "quit" + "\n";
    assert CScan.SkipSpace("quit\n") == "quit\n";
    CScan.TakeWordExact("quit", "\n", CMD_WIDTH);
  }

  /** `board` replies with the picture of the board and leaves it as it is. */
  lemma CBoardStep(g: Grid, cols: nat, dict: Dictionary, rest: string)
    requires Shape(g, cols)
    ensures CStep(g, cols, dict, "board\n" + rest) == Reply(Render(g, cols), g, "\n" + rest)
  {
    var input := "board\n" + rest;
    assert input == "board" + ("\n" + rest);
    assert CScan.SkipSpace(input) == input;
    CScan.TakeWordExact("board", "\n" + rest, CMD_WIDTH);
    assert input[|"board"|..] == "\n" + rest;
  }

  // ---------------------------------------------------------------------
  // The Java server

  /** What one Java request did. */
  datatype JavaStep = JavaReply(reply: string, board: Grid) | JavaClose

  /**
   * One request of the Java server's loop. The request is split on single
   * spaces; a request of spaces only has no verb, the lookup of element 0
   * throws, and the connection closes. `across`/`down` need exactly four
   * fields with two integers; a failed placement and a negative coordinate
   * (an index exception caught by the handler) both reply `INVALID`.
   */
  function JavaRequest(g: Grid, cols: nat, dict: Dictionary, request: string): (res: JavaStep)
    requires Shape(g, cols)
    ensures res.JavaClose? <==> |JavaText.Split(request)| == 0 || JavaText.Split(request)[0] == "quit"
    ensures res.JavaReply? ==> Shape(res.board, cols) && |res.board| == |g|
    ensures res.JavaReply? ==> res.reply == NO_OUTPUT || res.board == g
    ensures res.JavaReply? ==> res.reply in {NO_OUTPUT, INVALID, Render(g, cols)}
  {
    var fs := JavaText.Split(request);
    if |fs| == 0 || fs[0] == "quit" then JavaClose
    else if fs[0] == "across" || fs[0] == "down" then
      if |fs| != 4 then JavaReply(INVALID, g)
      else
        match (JavaText.ParseInt(fs[1]), JavaText.ParseInt(fs[2]))
        case (Some(r), Some(c)) =>
          var (ok, h) := PlaceOutcome(JavaServer, g, cols, dict, if fs[0] == "across" then Across else Down, r, c, fs[3]);
          JavaReply(if ok then NO_OUTPUT else INVALID, h)
        case _ => JavaReply(INVALID, g)
    else if fs[0] == "board" then
      JavaReply(if |fs| == 1 then Render(g, cols) else INVALID, g)
    else JavaReply(INVALID, g)
  }

  /** The replies to a sequence of requests and the board they leave, up to the request that closes. */
  function JavaSession(g: Grid, cols: nat, dict: Dictionary, requests: seq<string>): (res: (seq<string>, Grid))
    requires Shape(g, cols)
    ensures |res.0| <= |requests| && Shape(res.1, cols) && |res.1| == |g|
    decreases |requests|
  {
    if |requests| == 0 then ([], g)
    else
      match JavaRequest(g, cols, dict, requests[0])
      case JavaClose => ([], g)
      case JavaReply(reply, h) =>
        var (more, last) := JavaSession(h, cols, dict, requests[1..]);
        ([reply] + more, last)
  }

  /** A well-formed placement request gets "No Output" exactly when the placement succeeds, and then the board is the overlay. */
  lemma JavaPlacementRequest(g: Grid, cols: nat, dict: Dictionary, o: Orientation, r: int, c: int, w: string)
    requires Shape(g, cols) && InInt(r) && InInt(c)
    requires |w| >= 1 && ' ' !in w
    ensures var verb := if o == Across then "across" else "down";
      var res := JavaRequest(g, cols, dict, JavaText.JoinSpaces([verb, CScan.IntText(r), CScan.IntText(c), w]));
      res.JavaReply?
      && (res.reply == NO_OUTPUT <==> Accepted(JavaServer, g, cols, dict, o, r, c, w))
      && res.board == (if res.reply == NO_OUTPUT then Overlay(g, cols, o, r, c, w) else g)
  {
    var verb := if o == Across then "across" else "down";
    var ws := [verb, CScan.IntText(r), CScan.IntText(c), w];
    forall i | 0 <= i < 4 ensures |ws[i]| >= 1 && ' ' !in ws[i] {
      if i == 1 || i == 2 {
        var v := if i == 1 then r else c;
        assert ws[i] == CScan.IntText(v);
        IntTextNoSpace(v);
      }
    }
    JavaText.SplitJoined(ws);
    JavaText.ParseIntText(r);
    JavaText.ParseIntText(c);
    JavaPlacementFields(g, cols, dict, o, r, c, w, JavaText.JoinSpaces(ws));
  }

  /** A request whose four fields are a verb, two integers and a word is that placement. */
  lemma JavaPlacementFields(g: Grid, cols: nat, dict: Dictionary, o: Orientation, r: int, c: int, w: string, request: string)
    requires Shape(g, cols)
    requires var fs := JavaText.Split(request);
      && |fs| == 4 && fs[0] == Verb(o) && fs[3] == w
      && JavaText.ParseInt(fs[1]) == Some(r) && JavaText.ParseInt(fs[2]) == Some(c)
    ensures var res := JavaRequest(g, cols, dict, request);
      res.JavaReply?
      && (res.reply == NO_OUTPUT <==> Accepted(JavaServer, g, cols, dict, o, r, c, w))
      && res.board == (if res.reply == NO_OUTPUT then Overlay(g, cols, o, r, c, w) else g)
  {
  }

  lemma IntTextNoSpace(v: int)
    ensures ' ' !in CScan.IntText(v)
  {
    var s := CScan.IntText(v);
    var digits := NatToDecimal(Abs(v));
    assert forall i :: 0 <= i < |digits| ==> digits[i] != ' ';
    if v < 0 {
      assert s == "-" + digits;
      assert forall i :: 0 <= i < |s| ==> s[i] != ' ';
    }
  }
}

=== FILE: calc.dfy ===
/**
 * The calculator's expression loop (`calc.c`): an expression is a sum of
 * terms, each term a product or quotient of values, read left to right up
 * to the first newline and then written with `printValue`. `+` and `-` bind
 * looser than `*` and `/`, and every operator associates to the left.
 */
module Calc {
  import opened Common
  import opened Operation
  import opened Numerals

  /** How a run ends: the text written, with exit status 0, or an exit with a failure status and nothing written. */
  datatype Outcome = Printed(text: string) | Exited(code: nat)

  /**
   * The two programs: `AsWritten` is the calculator as its sources are
   * written; `Corrected` has `plus`, `minus` and `times` fixed and reads
   * base-10 numerals with the checked arithmetic `number25.c` uses.
   */
  datatype Build = AsWritten | Corrected

  /** A calculator: the number base it was built for, and which of the two programs. */
  datatype Calculator = Calculator(base: Base, build: Build)

  /** The base-10 `parseValue` as written folds digits in with unchecked arithmetic; the base-25 one checks. */
  predicate Wrapping(k: Calculator) {
    k.build == AsWritten && k.base == Ten
  }

  /** `parseValue` of the calculator's build: a `long`, or an exit with status 100 or 102. */
  function ReadValue(k: Calculator, s: string): (r: Parse)
    ensures r.Parsed? ==> InLong(r.value) && |r.rest| <= |s|
    ensures r.Failed? ==> r.code == FAIL_INPUT || r.code == FAIL_OVERFLOW
  {
    ParseWith(k.base, Wrapping(k), s)
  }

  /** The characters that end a term: `parseTerm` puts them back for `main`. */
  predicate EndsTerm(c: char) {
    c == '+' || c == '-' || c == '\n'
  }

  /** The exit statuses the calculator uses for a failure, and the status of its death by `SIGFPE`. */
  predicate FailureCode(code: nat) {
    code == FAIL_OVERFLOW || code == FAIL_DIVIDE_BY_ZERO || code == FAIL_INPUT || code == KILLED_BY_SIGFPE
  }

  /**
   * The loop of `parseTerm` with the term's value so far. The operator is
   * the first character after the blanks (or the end of the input). A term
   * ends before `+`, `-` or `\n`, which stays unread. Any other operator
   * (the end of the input too) is consumed and the value after it read
   * first. Only then is the operator applied with `divide` or `times`, or
   * rejected with status 102.
   */
  function TermLoop(k: Calculator, s: string, term: int): (r: Parse)
    requires InLong(term)
    ensures r.Parsed? ==> InLong(r.value) && |r.rest| <= |s| && r.rest != [] && EndsTerm(r.rest[0])
    ensures r.Failed? ==> FailureCode(r.code)
    decreases |s|
  {
    var t := SkipSpace(s);
    if t != [] && EndsTerm(t[0]) then Parsed(term, t)
    else
      var after := if t == [] then [] else t[1..];
      match ReadValue(k, after)
      case Failed(c) => Failed(c)
      case Parsed(v, rest) =>
        var next :=
          if t != [] && (t[0] == '/' || t[0] == '*') then Apply(k.build, t[0], term, v)
          else Exit(FAIL_INPUT);
        match next
        case Exit(c) => Failed(c)
        case Value(x) => TermLoop(k, rest, x)
  }

  /** `parseTerm`: a value, then the term loop from it. */
  function ParseTerm(k: Calculator, s: string): (r: Parse)
    ensures r.Parsed? ==> InLong(r.value) && |r.rest| <= |s| && r.rest != [] && EndsTerm(r.rest[0])
    ensures r.Failed? ==> FailureCode(r.code)
  {
    match ReadValue(k, s)
    case Failed(c) => Failed(c)
    case Parsed(v, rest) => TermLoop(k, rest, v)
  }

  /**
   * The loop of `main` with the result so far. At a newline the result is
   * written and the program ends with success. Any other operator (the end
   * of the input too) is consumed and the term after it read first. Only
   * then is the operator applied with `plus` or `minus`, or rejected with
   * status 102.
   */
  function SumLoop(k: Calculator, s: string, result: int): (r: Outcome)
    requires InLong(result)
    ensures r.Exited? ==> FailureCode(r.code)
    decreases |s|
  {
    var t := SkipSpace(s);
    if t != [] && t[0] == '\n' then Printed(PrintValue(k.base, result))
    else
      var after := if t == [] then [] else t[1..];
      match ParseTerm(k, after)
      case Failed(c) => Exited(c)
      case Parsed(v, rest) =>
        var next :=
          if t != [] && (t[0] == '+' || t[0] == '-') then Apply(k.build, t[0], result, v)
          else Exit(FAIL_INPUT);
        match next
        case Exit(c) => Exited(c)
        case Value(x) => SumLoop(k, rest, x)
  }

  /** `main`: the first term, then the loop over the rest of the expression. */
  function Calc(k: Calculator, s: string): (r: Outcome)
    ensures r.Exited? ==> FailureCode(r.code)
  {
    match ParseTerm(k, s)
    case Failed(c) => Exited(c)
    case Parsed(v, rest) => SumLoop(k, rest, v)
  }

  // ---------------------------------------------------------------------
  // Reference semantics
  // ---------------------------------------------------------------------

  /** The four operators of the calculator. */
  predicate IsOperator(c: char) {
    c == '+' || c == '-' || c == '*' || c == '/'
  }

  /** An arithmetic expression over `long` literals. */
  datatype Expr = Lit(v: int) | Binary(op: char, left: Expr, right: Expr)

  predicate WellFormed(e: Expr) {
    match e
    case Lit(v) => InLong(v)
    case Binary(op, l, r) => IsOperator(op) && WellFormed(l) && WellFormed(r)
  }

  /** One operator applied with the operation of `operation.c` that implements it, as written or corrected. */
  function Apply(build: Build, op: char, a: int, b: int): (r: Checked)
    requires IsOperator(op) && InLong(a) && InLong(b)
    ensures r.Value? ==> InLong(r.v)
    ensures r.Exit? ==> r.code == FAIL_OVERFLOW || r.code == FAIL_DIVIDE_BY_ZERO || r.code == KILLED_BY_SIGFPE
  {
    match build
    case AsWritten =>
      if op == '+' then PlusAsWritten(a, b)
      else if op == '-' then MinusAsWritten(a, b)
      else if op == '*' then
        if a > 0 && b == -1 then TimesAsWritten(a, b) else TimesAgree(a, b); TimesAsWritten(a, b)
      else Divide(a, b)
    case Corrected =>
      if op == '+' then Plus(a, b)
      else if op == '-' then Minus(a, b)
      else if op == '*' then Times(a, b)
      else Divide(a, b)
  }

  /**
   * The exact result of an operator, `/` truncating toward zero: `None` for
   * a zero divisor.
   */
  function Exact(op: char, a: int, b: int): Option<int> {
    if op == '+' then Some(a + b)
    else if op == '-' then Some(a - b)
    else if op == '*' then Some(a * b)
    else if b == 0 then None
    else Some(TruncDiv(a, b))
  }

  /**
   * The corrected operations give the exact result whenever it is a `long`,
   * exit with status 101 for a zero divisor and 100 otherwise.
   */
  lemma CorrectedIsExact(op: char, a: int, b: int)
    requires IsOperator(op) && InLong(a) && InLong(b)
    ensures var x := Exact(op, a, b);
      Apply(Corrected, op, a, b) == if x.None? then Exit(FAIL_DIVIDE_BY_ZERO) else if InLong(x.value) then Value(x.value) else Exit(FAIL_OVERFLOW)
  {
    if op == '/' && b != 0 {
      QuotientInRange(a, b);
    }
  }

  /**
   * The operations as written agree with the corrected ones on every pair
   * of `long` values except three: `LONG_MIN + LONG_MIN` (0), `0 - LONG_MIN`
   * (`LONG_MIN`) and a positive value times -1 (killed by `SIGFPE`).
   */
  lemma AsWrittenAgrees(op: char, a: int, b: int)
    requires IsOperator(op) && InLong(a) && InLong(b)
    ensures Apply(AsWritten, op, a, b) != Apply(Corrected, op, a, b) <==>
      (op == '+' && a == LONG_MIN && b == LONG_MIN) || (op == '-' && a == 0 && b == LONG_MIN) || (op == '*' && a > 0 && b == -1)
  {
    if op == '+' && a == LONG_MIN && b == LONG_MIN {
      PlusMissesMinMin();
    } else if op == '-' && a == 0 && b == LONG_MIN {
      MinusMissesZeroMin();
    } else if op == '*' {
      if a > 0 && b == -1 {
        TimesMinusOneTraps(a);
      } else {
        TimesAgree(a, b);
      }
    }
  }

  /**
   * Strict evaluation: the left operand, then the right one, then the
   * operator. The first failure decides the exit status, and only
   * arithmetic can fail.
   */
  function Eval(build: Build, e: Expr): (r: Checked)
    requires WellFormed(e)
    ensures r.Value? ==> InLong(r.v)
    ensures r.Exit? ==> r.code == FAIL_OVERFLOW || r.code == FAIL_DIVIDE_BY_ZERO || r.code == KILLED_BY_SIGFPE
  {
    match e
    case Lit(v) => Value(v)
    case Binary(op, l, r) =>
      match Eval(build, l)
      case Exit(c) => Exit(c)
      case Value(a) =>
        match Eval(build, r)
        case Exit(c) => Exit(c)
        case Value(b) => Apply(build, op, a, b)
  }

  // ---------------------------------------------------------------------
  // Expressions as written
  // ---------------------------------------------------------------------

  /** A term as written: a first value, then values each after `*` or `/`. */
  datatype Term = Term(first: int, factors: seq<(char, int)>)

  /** An expression as written: a first term, then terms each after `+` or `-`. */
  datatype Sum = Sum(first: Term, terms: seq<(char, Term)>)

  /** The values a numeral can denote: every `long` but `LONG_MIN`, whose magnitude is no `long`. */
  predicate Writable(v: int) {
    InLong(v) && v != LONG_MIN
  }

  predicate ValidFactors(fs: seq<(char, int)>) {
    fs == [] || ((fs[0].0 == '*' || fs[0].0 == '/') && Writable(fs[0].1) && ValidFactors(fs[1..]))
  }

  predicate ValidTerm(t: Term) {
    Writable(t.first) && ValidFactors(t.factors)
  }

  predicate ValidTerms(ts: seq<(char, Term)>) {
    ts == [] || ((ts[0].0 == '+' || ts[0].0 == '-') && ValidTerm(ts[0].1) && ValidTerms(ts[1..]))
  }

  predicate ValidSum(e: Sum) {
    ValidTerm(e.first) && ValidTerms(e.terms)
  }

  /** A value written as a numeral of the build, with a `-` when it is negative. */
  function Literal(base: Base, v: int): (text: string)
    requires Writable(v)
    ensures text != [] && (v < 0 <==> text[0] == '-')
  {
    Signed(v < 0, Numeral(base, Abs(v)))
  }

  function FactorsText(base: Base, fs: seq<(char, int)>): string
    requires ValidFactors(fs)
  {
    if fs == [] then [] else [fs[0].0] + Literal(base, fs[0].1) + FactorsText(base, fs[1..])
  }

  function TermText(base: Base, t: Term): string
    requires ValidTerm(t)
  {
    Literal(base, t.first) + FactorsText(base, t.factors)
  }

  function TermsText(base: Base, ts: seq<(char, Term)>): string
    requires ValidTerms(ts)
  {
    if ts == [] then [] else [ts[0].0] + TermText(base, ts[0].1) + TermsText(base, ts[1..])
  }

  /** The text of an expression, ended by its newline. */
  function SumText(base: Base, e: Sum): string
    requires ValidSum(e)
  {
    TermText(base, e.first) + TermsText(base, e.terms) + "\n"
  }

  /** The factors of a term folded onto `acc` to the left: `((acc op1 v1) op2 v2) ...`. */
  function FoldFactors(acc: Expr, fs: seq<(char, int)>): (e: Expr)
    requires WellFormed(acc) && ValidFactors(fs)
    ensures WellFormed(e)
    decreases |fs|
  {
    if fs == [] then acc else FoldFactors(Binary(fs[0].0, acc, Lit(fs[0].1)), fs[1..])
  }

  /** The tree of a term: its values combined left to right. */
  function TermExpr(t: Term): (e: Expr)
    requires ValidTerm(t)
    ensures WellFormed(e)
  {
    FoldFactors(Lit(t.first), t.factors)
  }

  /** The terms of an expression folded onto `acc` to the left, each term a subtree. */
  function FoldTerms(acc: Expr, ts: seq<(char, Term)>): (e: Expr)
    requires WellFormed(acc) && ValidTerms(ts)
    ensures WellFormed(e)
    decreases |ts|
  {
    if ts == [] then acc else FoldTerms(Binary(ts[0].0, acc, TermExpr(ts[0].1)), ts[1..])
  }

  /** The tree of an expression: products and quotients bind tighter, and everything associates to the left. */
  function SumExpr(e: Sum): (x: Expr)
    requires ValidSum(e)
    ensures WellFormed(x)
  {
    FoldTerms(TermExpr(e.first), e.terms)
  }

  /** A checked value as the outcome of a term read before `rest`. */
  function AsParse(c: Checked, rest: string): Parse {
    match c
    case Value(v) => Parsed(v, rest)
    case Exit(code) => Failed(code)
  }

  /** A checked value as the outcome of the program: the value written, or the exit. */
  function AsOutcome(k: Calculator, c: Checked): Outcome
    requires c.Value? ==> InLong(c.v)
  {
    match c
    case Value(v) => Printed(PrintValue(k.base, v))
    case Exit(code) => Exited(code)
  }

  // ---------------------------------------------------------------------
  // The loops compute the reference semantics
  // ---------------------------------------------------------------------

  /** A failure on the left ends a fold of factors with that failure. */
  lemma {:induction false} FactorsExit(build: Build, acc: Expr, fs: seq<(char, int)>)
    requires WellFormed(acc) && ValidFactors(fs) && Eval(build, acc).Exit?
    ensures Eval(build, FoldFactors(acc, fs)) == Eval(build, acc)
    decreases |fs|
  {
    if fs != [] {
      FactorsExit(build, Binary(fs[0].0, acc, Lit(fs[0].1)), fs[1..]);
    }
  }

  /** A failure on the left ends a fold of terms with that failure. */
  lemma {:induction false} TermsExit(build: Build, acc: Expr, ts: seq<(char, Term)>)
    requires WellFormed(acc) && ValidTerms(ts) && Eval(build, acc).Exit?
    ensures Eval(build, FoldTerms(acc, ts)) == Eval(build, acc)
    decreases |ts|
  {
    if ts != [] {
      TermsExit(build, Binary(ts[0].0, acc, TermExpr(ts[0].1)), ts[1..]);
    }
  }

  /** A `-` in front of a text stays in front when more text follows. */
  lemma SignedAppend(negative: bool, u: string, tail: string)
    ensures Signed(negative, u) + tail == Signed(negative, u + tail)
  {
    if negative {
      assert "-" + u + tail == "-" + (u + tail);
    }
  }

  /** A numeral followed by an operator or a newline reads as its value, and the operator stays unread. */
  lemma LiteralParse(k: Calculator, v: int, tail: string)
    requires Writable(v) && tail != [] && (IsOperator(tail[0]) || tail[0] == '\n')
    ensures ReadValue(k, Literal(k.base, v) + tail) == Parsed(v, tail)
  {
    var ds := Numeral(k.base, Abs(v));
    NumeralValue(k.base, Abs(v));
    ParseNumeral(k.base, Wrapping(k), v < 0, ds, tail);
    SignedAppend(v < 0, ds, tail);
  }

  /** The term loop stops before `+`, `-` or a newline and leaves it unread. */
  lemma TermLoopEnd(k: Calculator, s: string, term: int)
    requires InLong(term) && s != [] && EndsTerm(s[0])
    ensures TermLoop(k, s, term) == Parsed(term, s)
  {
    SkipNone(s);
  }

  /** The term loop after the operator `op`: the value after it, then the operation. */
  function TermRound(k: Calculator, op: char, u: string, term: int): Parse
    requires InLong(term) && IsOperator(op)
  {
    match ReadValue(k, u)
    case Failed(c) => Failed(c)
    case Parsed(v, rest) =>
      match Apply(k.build, op, term, v)
      case Exit(c) => Failed(c)
      case Value(x) => TermLoop(k, rest, x)
  }

  /** One round of the term loop at `*` or `/`. */
  lemma TermLoopStep(k: Calculator, op: char, u: string, term: int)
    requires InLong(term) && (op == '*' || op == '/')
    ensures TermLoop(k, [op] + u, term) == TermRound(k, op, u, term)
  {
    SkipNone([op] + u);
    assert ([op] + u)[1..] == u;
  }

  /** The loop of `main` ends at a newline by writing the result. */
  lemma SumLoopEnd(k: Calculator, s: string, result: int)
    requires InLong(result) && s != [] && s[0] == '\n'
    ensures SumLoop(k, s, result) == Printed(PrintValue(k.base, result))
  {
    SkipNone(s);
  }

  /** The loop of `main` after the operator `op`: the term after it, then the operation. */
  function SumRound(k: Calculator, op: char, u: string, result: int): Outcome
    requires InLong(result) && IsOperator(op)
  {
    match ParseTerm(k, u)
    case Failed(c) => Exited(c)
    case Parsed(v, rest) =>
      match Apply(k.build, op, result, v)
      case Exit(c) => Exited(c)
      case Value(x) => SumLoop(k, rest, x)
  }

  /** One round of the loop of `main` at `+` or `-`. */
  lemma SumLoopStep(k: Calculator, op: char, u: string, result: int)
    requires InLong(result) && (op == '+' || op == '-')
    ensures SumLoop(k, [op] + u, result) == SumRound(k, op, u, result)
  {
    SkipNone([op] + u);
    assert ([op] + u)[1..] == u;
  }

  /** Text after the factors of a term starts with the next operator, or with what follows the term. */
  lemma FactorsTextStart(base: Base, fs: seq<(char, int)>, tail: string)
    requires ValidFactors(fs) && tail != [] && (IsOperator(tail[0]) || tail[0] == '\n')
    ensures var s := FactorsText(base, fs) + tail; s != [] && (IsOperator(s[0]) || s[0] == '\n')
  {
  }

  /** Text after the terms of an expression starts with the next operator, or with what follows them. */
  lemma TermsTextStart(base: Base, ts: seq<(char, Term)>, tail: string)
    requires ValidTerms(ts) && tail != [] && tail[0] == '\n'
    ensures var s := TermsText(base, ts) + tail; s != [] && EndsTerm(s[0])
  {
  }

  /**
   * The term loop over written factors computes their left fold: from a
   * tree `acc` worth `term`, it ends with the value of the folded tree, or
   * with its first failure, and leaves what follows the term unread.
   */
  lemma {:induction false} FactorsRun(k: Calculator, acc: Expr, term: int, fs: seq<(char, int)>, tail: string)
    requires WellFormed(acc) && Eval(k.build, acc) == Value(term) && ValidFactors(fs)
    requires tail != [] && EndsTerm(tail[0])
    ensures TermLoop(k, FactorsText(k.base, fs) + tail, term) == AsParse(Eval(k.build, FoldFactors(acc, fs)), tail)
    decreases |fs|
  {
    if fs == [] {
      assert FactorsText(k.base, fs) + tail == tail;
      TermLoopEnd(k, tail, term);
    } else {
      var op, v := fs[0].0, fs[0].1;
      var rest := FactorsText(k.base, fs[1..]) + tail;
      assert FactorsText(k.base, fs) + tail == [op] + (Literal(k.base, v) + rest);
      TermLoopStep(k, op, Literal(k.base, v) + rest, term);
      FactorsTextStart(k.base, fs[1..], tail);
      LiteralParse(k, v, rest);
      var next := Binary(op, acc, Lit(v));
      assert Eval(k.build, next) == Apply(k.build, op, term, v);
      match Apply(k.build, op, term, v)
      case Exit(c) =>
        FactorsExit(k.build, next, fs[1..]);
      case Value(x) =>
        FactorsRun(k, next, x, fs[1..], tail);
    }
  }

  /** `parseTerm` over a written term computes the value of its tree, and leaves what follows the term unread. */
  lemma TermRun(k: Calculator, t: Term, tail: string)
    requires ValidTerm(t) && tail != [] && EndsTerm(tail[0])
    ensures ParseTerm(k, TermText(k.base, t) + tail) == AsParse(Eval(k.build, TermExpr(t)), tail)
  {
    var rest := FactorsText(k.base, t.factors) + tail;
    assert TermText(k.base, t) + tail == Literal(k.base, t.first) + rest;
    FactorsTextStart(k.base, t.factors, tail);
    LiteralParse(k, t.first, rest);
    FactorsRun(k, Lit(t.first), t.first, t.factors, tail);
  }

  /**
   * The loop of `main` over written terms computes their left fold: from a
   * tree `acc` worth `result`, the program writes the value of the folded
   * tree, or ends with its first failure, and reads nothing after the
   * newline.
   */
  lemma {:induction false} TermsRun(k: Calculator, acc: Expr, result: int, ts: seq<(char, Term)>, tail: string)
    requires WellFormed(acc) && Eval(k.build, acc) == Value(result) && ValidTerms(ts)
    requires tail != [] && tail[0] == '\n'
    ensures SumLoop(k, TermsText(k.base, ts) + tail, result) == AsOutcome(k, Eval(k.build, FoldTerms(acc, ts)))
    decreases |ts|
  {
    if ts == [] {
      assert TermsText(k.base, ts) + tail == tail;
      SumLoopEnd(k, tail, result);
    } else {
      var op, t := ts[0].0, ts[0].1;
      var rest := TermsText(k.base, ts[1..]) + tail;
      TermsTextCons(k.base, ts, tail);
      SumRoundTerm(k, op, t, rest, result, acc);
      var next := Binary(op, acc, TermExpr(t));
      match Eval(k.build, next)
      case Exit(c) =>
        TermsExit(k.build, next, ts[1..]);
      case Value(x) =>
        TermsRun(k, next, x, ts[1..], tail);
    }
  }

  /**
   * An operator other than `+`, `-`, `*`, `/` or a newline inside a term
   * ends the program with status 102, but only after the value that follows
   * it has been read: when that value is itself bad, its own status wins.
   */
  lemma UnknownOperator(k: Calculator, c: char, u: string, term: int)
    requires InLong(term) && !IsBlank(c) && !EndsTerm(c) && c != '*' && c != '/'
    ensures var p := ReadValue(k, u);
      TermLoop(k, [c] + u, term) == if p.Failed? then Failed(p.code) else Failed(FAIL_INPUT)
  {
    SkipNone([c] + u);
    assert ([c] + u)[1..] == u;
  }

  /** The end of the input where a term expects its operator ends the program with status 102. */
  lemma EndInsideTerm(k: Calculator, b: string, term: int)
    requires InLong(term) && AllBlank(b)
    ensures TermLoop(k, b, term) == Failed(FAIL_INPUT)
  {
    SkipBlanks(b, []);
    assert b + [] == b;
  }

  /** Input with nothing but blanks ends the program with status 102. */
  lemma BlankInput(k: Calculator, b: string)
    requires AllBlank(b)
    ensures Calc(k, b) == Exited(FAIL_INPUT)
  {
    SkipBlanks(b, []);
    assert b + [] == b;
  }

  /** The text of terms splits into the first operator, its term, and the text of the other terms. */
  lemma TermsTextCons(base: Base, ts: seq<(char, Term)>, tail: string)
    requires ValidTerms(ts) && ts != [] && tail != [] && tail[0] == '\n'
    ensures var rest := TermsText(base, ts[1..]) + tail;
      TermsText(base, ts) + tail == [ts[0].0] + (TermText(base, ts[0].1) + rest) && rest != [] && EndsTerm(rest[0])
  {
    TermsTextStart(base, ts[1..], tail);
  }

  /** A round of the loop of `main` at `+` or `-` over a written term: the tree `acc op term` decides how the loop goes on. */
  lemma SumRoundTerm(k: Calculator, op: char, t: Term, rest: string, result: int, acc: Expr)
    requires (op == '+' || op == '-') && ValidTerm(t) && WellFormed(acc) && Eval(k.build, acc) == Value(result)
    requires rest != [] && EndsTerm(rest[0])
    ensures var e := Eval(k.build, Binary(op, acc, TermExpr(t)));
      SumLoop(k, [op] + (TermText(k.base, t) + rest), result) == if e.Exit? then Exited(e.code) else SumLoop(k, rest, e.v)
  {
    SumLoopStep(k, op, TermText(k.base, t) + rest, result);
    TermRun(k, t, rest);
    SumRoundEval(k, op, TermText(k.base, t) + rest, rest, result, acc, TermExpr(t));
  }

  /** A round of the loop of `main` over a term worth the tree `right` goes on with the value of `acc op right`, or ends with its failure. */
  lemma SumRoundEval(k: Calculator, op: char, u: string, rest: string, result: int, acc: Expr, right: Expr)
    requires (op == '+' || op == '-') && WellFormed(acc) && WellFormed(right) && Eval(k.build, acc) == Value(result)
    requires ParseTerm(k, u) == AsParse(Eval(k.build, right), rest)
    ensures var e := Eval(k.build, Binary(op, acc, right));
      SumRound(k, op, u, result) == if e.Exit? then Exited(e.code) else SumLoop(k, rest, e.v)
  {
  }

  /**
   * The calculator evaluates what it reads: for every expression written
   * with numerals of its base, `+`, `-`, `*`, `/` and a newline, in either
   * base and either build, the program writes the value of the
   * expression's tree under that build's operations, or exits with the
   * status of the first failing operation in left-to-right evaluation
   * order. Whatever follows the newline is never read.
   */
  lemma CalcEvaluates(k: Calculator, e: Sum, rest: string)
    requires ValidSum(e)
    ensures Calc(k, SumText(k.base, e) + rest) == AsOutcome(k, Eval(k.build, SumExpr(e)))
  {
    var tail := "\n" + rest;
    var after := TermsText(k.base, e.terms) + tail;
    SumTextSplit(k.base, e, rest);
    CalcFirstTerm(k, e.first, after);
    match Eval(k.build, TermExpr(e.first))
    case Exit(c) =>
      TermsExit(k.build, TermExpr(e.first), e.terms);
    case Value(v) =>
      TermsRun(k, TermExpr(e.first), v, e.terms, tail);
  }

  /** The text of an expression splits into its first term and the text after it, which starts with `+`, `-` or the newline. */
  lemma SumTextSplit(base: Base, e: Sum, rest: string)
    requires ValidSum(e)
    ensures var after := TermsText(base, e.terms) + ("\n" + rest);
      SumText(base, e) + rest == TermText(base, e.first) + after && after != [] && EndsTerm(after[0])
  {
    TermsTextStart(base, e.terms, "\n" + rest);
  }

  /** `main` starts with the value of the first term's tree, or ends with its failure. */
  lemma CalcFirstTerm(k: Calculator, t: Term, after: string)
    requires ValidTerm(t) && after != [] && EndsTerm(after[0])
    ensures var x := Eval(k.build, TermExpr(t));
      Calc(k, TermText(k.base, t) + after) == if x.Exit? then Exited(x.code) else SumLoop(k, after, x.v)
  {
    TermRun(k, t, after);
  }

  // ---------------------------------------------------------------------
  // Where the two builds part
  // ---------------------------------------------------------------------

  /** The expression `a*-1`. */
  function NegatedTerm(a: int): (e: Sum)
    requires 0 < a <= LONG_MAX
    ensures ValidSum(e)
  {
    Sum(Term(a, [('*', -1)]), [])
  }

  /**
   * `a*-1` for a positive `a`: the calculator as written is killed by
   * `SIGFPE` inside `times`, the corrected one writes `-a`.
   */
  lemma NegatedTermKills(base: Base, a: int, rest: string)
    requires 0 < a <= LONG_MAX
    ensures Calc(Calculator(base, AsWritten), SumText(base, NegatedTerm(a)) + rest) == Exited(KILLED_BY_SIGFPE)
    ensures Calc(Calculator(base, Corrected), SumText(base, NegatedTerm(a)) + rest) == Printed(PrintValue(base, -a))
  {
    var e := NegatedTerm(a);
    var x := Binary('*', Lit(a), Lit(-1));
    assert SumExpr(e) == x;
    TimesMinusOneTraps(a);
    CalcEvaluates(Calculator(base, AsWritten), e, rest);
    CalcEvaluates(Calculator(base, Corrected), e, rest);
  }

  /** Half of `LONG_MIN`, written as a numeral. */
  const HALF_MIN: int := -0x4000_0000_0000_0000

  /** The expression `HALF_MIN*2+HALF_MIN*2`, whose value is -2^64. */
  function DoubleMin(): (e: Sum)
    ensures ValidSum(e)
  {
    Sum(Term(HALF_MIN, [('*', 2)]), [('+', Term(HALF_MIN, [('*', 2)]))])
  }

  /**
   * `HALF_MIN*2+HALF_MIN*2` adds `LONG_MIN` to itself: the calculator as
   * written writes 0, the corrected one exits with status 100.
   */
  lemma DoubleMinWrapsToZero(base: Base, rest: string)
    ensures Calc(Calculator(base, AsWritten), SumText(base, DoubleMin()) + rest) == Printed(PrintValue(base, 0))
    ensures Calc(Calculator(base, Corrected), SumText(base, DoubleMin()) + rest) == Exited(FAIL_OVERFLOW)
  {
    DoubleMinEval();
    CalcEvaluates(Calculator(base, AsWritten), DoubleMin(), rest);
    CalcEvaluates(Calculator(base, Corrected), DoubleMin(), rest);
  }

  /** `HALF_MIN*2+HALF_MIN*2` evaluates to 0 as written and to the overflow exit when corrected. */
  lemma DoubleMinEval()
    ensures Eval(AsWritten, SumExpr(DoubleMin())) == Value(0)
    ensures Eval(Corrected, SumExpr(DoubleMin())) == Exit(FAIL_OVERFLOW)
  {
    var t := Binary('*', Lit(HALF_MIN), Lit(2));
    assert SumExpr(DoubleMin()) == Binary('+', t, t);
    PlusMissesMinMin();
  }
}

=== FILE: common.dfy ===
/**
 * Definitions shared by every component of the model: an optional value,
 * the C and Java integer ranges, the C `isspace` character class and C's
 * truncating division.
 */
module Common {

  /** A value that may be missing (a NULL pointer, a failed parse). */
  datatype Option<T> = None | Some(value: T)

  /** Range of a 64-bit signed C `long`. */
  const LONG_MIN: int := -0x8000_0000_0000_0000
  const LONG_MAX: int := 0x7FFF_FFFF_FFFF_FFFF

  /** Range of a 32-bit signed C `int` / Java `int`. */
  const INT_MIN: int := -0x8000_0000
  const INT_MAX: int := 0x7FFF_FFFF

  predicate InLong(x: int) { LONG_MIN <= x <= LONG_MAX }
  predicate InInt(x: int) { INT_MIN <= x <= INT_MAX }

  /** The vertical tab and form feed characters. */
  const VT: char := '\U{0B}'
  const FF: char := '\U{0C}'
  /** The NUL character that ends a C string. */
  const NUL: char := '\U{00}'

  /** C `isspace` in the "C" locale. */
  predicate IsCSpace(c: char) {
    c == ' ' || c == '\t' || c == '\n' || c == VT || c == FF || c == '\r'
  }

  predicate IsDigit(c: char) { '0' <= c <= '9' }
  predicate IsAsciiLower(c: char) { 'a' <= c <= 'z' }
  predicate IsAsciiUpper(c: char) { 'A' <= c <= 'Z' }

  function Abs(x: int): nat { if x < 0 then -x else x }

  /** Euclid's identity for natural numbers. */
  lemma DivModNat(x: nat, y: nat)
    requires y > 0
    ensures x == (x / y) * y + x % y
    ensures 0 <= x % y < y
    ensures x / y >= 0
    ensures x / y > 0 ==> x > 0
  {
  }

  /** C division on integers: the quotient truncated toward zero. */
  function TruncDiv(a: int, b: int): (q: int)
    requires b != 0
    ensures Abs(q) == Abs(a) / Abs(b)
    ensures q != 0 ==> ((q > 0) == ((a > 0) == (b > 0)))
  {
    var x: nat := Abs(a);
    var y: nat := Abs(b);
    DivModNat(x, y);
    var m: int := x / y;
    if (a < 0) == (b < 0) then m else -m
  }

  /** C remainder `a % b`: what is left after the truncating quotient; it takes the sign of `a`. */
  function TruncRem(a: int, b: int): (r: int)
    requires b != 0
    ensures Abs(r) == Abs(a) % Abs(b)
    ensures r != 0 ==> ((r > 0) == (a > 0))
  {
    var x: nat := Abs(a);
    var y: nat := Abs(b);
    DivModNat(x, y);
    var m: int := x / y;
    var p: int := m * y;
    var q := TruncDiv(a, b);
    assert q * b == (if a < 0 then -p else p) by {
      if a < 0 && b < 0 { assert q == m; assert q * b == m * -(y as int); }
      else if a < 0 { assert q == -m; assert q * b == -m * y; }
      else if b < 0 { assert q == -m; assert q * b == -m * -(y as int); }
      else { assert q == m; }
    }
    a - q * b
  }

  /** The decimal digits of a natural number, most significant first ("0" for zero). */
  function NatToDecimal(n: nat): (s: string)
    ensures |s| >= 1
    ensures forall i :: 0 <= i < |s| ==> IsDigit(s[i])
    decreases n
  {
    if n < 10 then [('0' as int + n) as char]
    else NatToDecimal(n / 10) + [('0' as int + n % 10) as char]
  }

  /** The value of a string of decimal digits (0 for the empty string). */
  function DecimalValue(s: string): nat
    requires forall i :: 0 <= i < |s| ==> IsDigit(s[i])
  {
    if |s| == 0 then 0
    else
      assert IsDigit(s[|s| - 1]);
      DecimalValue(s[..|s| - 1]) * 10 + (s[|s| - 1] as int - '0' as int)
  }

  lemma {:induction false} DecimalRoundTrip(n: nat)
    ensures DecimalValue(NatToDecimal(n)) == n
    decreases n
  {
    if n >= 10 {
      var s := NatToDecimal(n);
      assert s[..|s| - 1] == NatToDecimal(n / 10);
      DecimalRoundTrip(n / 10);
    }
  }

  /** The index of the first newline of `s` at or after `i`, or `|s|` when there is none. */
  function LineEnd(s: string, i: nat): (k: nat)
    requires i <= |s|
    ensures i <= k <= |s|
    ensures k < |s| ==> s[k] == '\n'
    decreases |s| - i
  {
    if i == |s| || s[i] == '\n' then i else LineEnd(s, i + 1)
  }

  /** No newline comes between `i` and the end of its line. */
  lemma {:induction false} LineEndFirst(s: string, i: nat, j: nat)
    requires i <= j < |s| && j < LineEnd(s, i)
    ensures s[j] != '\n'
    decreases j - i
  {
    if i < j {
      LineEndFirst(s, i + 1, j);
    }
  }

  /** A newline (or the end) at `k` with none between `i` and `k` is where the line from `i` ends. */
  lemma {:induction false} LineEndIs(s: string, i: nat, k: nat)
    requires i <= k <= |s| && (k < |s| ==> s[k] == '\n')
    requires forall j :: i <= j < k ==> s[j] != '\n'
    ensures LineEnd(s, i) == k
    decreases k - i
  {
    if i < k {
      LineEndIs(s, i + 1, k);
    }
  }

  /** The strings of `ls` one after the other. */
  function Concat(ls: seq<string>): (s: string)
  {
    if |ls| == 0 then [] else ls[0] + Concat(ls[1..])
  }

  /** The `i`-th block of `w` characters of `s` (empty once `s` runs out). */
  function Chunk(s: string, w: nat, i: nat): string
    decreases i
  {
    if |s| < w then []
    else if i == 0 then s[..w]
    else Chunk(s[w..], w, i - 1)
  }

  /** Concatenating strings of width `w` and cutting the result into blocks of `w` gives them back. */
  lemma {:induction false} ConcatChunks(ls: seq<string>, w: nat)
    requires forall i :: 0 <= i < |ls| ==> |ls[i]| == w
    ensures |Concat(ls)| == |ls| * w
    ensures forall i :: 0 <= i < |ls| ==> Chunk(Concat(ls), w, i) == ls[i]
    decreases |ls|
  {
    if |ls| > 0 {
      var rest := ls[1..];
      ConcatChunks(rest, w);
      assert Concat(ls) == ls[0] + Concat(rest);
      assert Concat(ls)[w..] == Concat(rest);
      forall i | 0 <= i < |ls| ensures Chunk(Concat(ls), w, i) == ls[i] {
        if i > 0 {
          assert rest[i - 1] == ls[i];
        }
      }
    }
  }

  /** A slice one element longer ends with that element. */
  lemma SliceSnoc<T>(s: seq<T>, a: nat, i: nat)
    requires a <= i < |s|
    ensures s[a..i + 1] == s[a..i] + [s[i]]
  {
  }

  /** Two adjacent slices make the slice that spans both. */
  lemma SliceJoin<T>(s: seq<T>, a: nat, b: nat, c: nat)
    requires a <= b <= c <= |s|
    ensures s[a..b] + s[b..c] == s[a..c]
  {
  }

  /** Appending the first element of `s`, then the rest, appends `s`. */
  lemma AppendFirst<T>(acc: seq<T>, s: seq<T>)
    requires s != []
    ensures acc + [s[0]] + s[1..] == acc + s
  {
    assert [s[0]] + s[1..] == s;
  }

  /** Dropping the first element of a suffix gives the next suffix. */
  lemma SliceTail<T>(s: seq<T>, i: nat)
    requires i < |s|
    ensures s[i..][1..] == s[i + 1..]
  {
  }

  /** No string of the sequence holds a newline. */
  predicate NoNewlines(ss: seq<string>) {
    forall i :: 0 <= i < |ss| ==> '\n' !in ss[i]
  }

  // ---------------------------------------------------------------------
  // The order of strcmp
  // ---------------------------------------------------------------------

  /**
   * `strcmp(a, b) < 0`: the first differing character decides (compared as
   * unsigned codes), and a proper prefix comes first.
   */
  predicate Less(a: string, b: string)
    decreases |a|
  {
    if a == [] then b != []
    else if b == [] then false
    else if a[0] != b[0] then a[0] < b[0]
    else Less(a[1..], b[1..])
  }

  lemma {:induction false} LessIrreflexive(a: string)
    ensures !Less(a, a)
    decreases |a|
  {
    if a != [] {
      LessIrreflexive(a[1..]);
    }
  }

  lemma {:induction false} LessTransitive(a: string, b: string, c: string)
    requires Less(a, b) && Less(b, c)
    ensures Less(a, c)
    decreases |a|
  {
    if a != [] && b != [] && c != [] && a[0] == b[0] && b[0] == c[0] {
      LessTransitive(a[1..], b[1..], c[1..]);
    }
  }

  /** `strcmp` is a total order: two strings are equal or one comes first, never both ways. */
  lemma {:induction false} LessTotal(a: string, b: string)
    ensures a == b || Less(a, b) || Less(b, a)
    ensures !(Less(a, b) && Less(b, a))
    decreases |a|
  {
    if a != [] && b != [] && a[0] == b[0] {
      LessTotal(a[1..], b[1..]);
      if a[1..] == b[1..] {
        assert a == [a[0]] + a[1..] && b == [b[0]] + b[1..];
      }
    }
  }
}

=== FILE: cscan.dfy ===
/**
 * The `scanf` conversions the C programs read their input with: `%Ns`
 * (skip white space, then read at most N non-space characters) and `%d`
 * (skip white space, an optional sign, then one or more decimal digits).
 */
module CScan {
  import opened Common

  /** What is left of `s` after its leading white space. */
  function SkipSpace(s: string): (rest: string)
    ensures |rest| <= |s| && rest == s[|s| - |rest|..]
    ensures forall i :: 0 <= i < |s| - |rest| ==> IsCSpace(s[i])
    ensures rest == [] || !IsCSpace(rest[0])
  {
    if |s| > 0 && IsCSpace(s[0]) then SkipSpace(s[1..]) else s
  }

  /** The longest prefix of `s`, at most `width` long, that holds no white space. */
  function TakeWord(s: string, width: nat): (w: string)
    ensures |w| <= width && |w| <= |s| && w == s[..|w|]
    ensures forall i :: 0 <= i < |w| ==> !IsCSpace(w[i])
    ensures |w| == width || |w| == |s| || IsCSpace(s[|w|])
  {
    if width == 0 || |s| == 0 || IsCSpace(s[0]) then [] else [s[0]] + TakeWord(s[1..], width - 1)
  }

  /**
   * `%Ns` with N = `width`: `None` when only white space remains (the
   * conversion fails at end of input), otherwise the word read and the
   * unread rest of the input.
   */
  function ScanWord(s: string, width: nat): (res: Option<(string, string)>)
    requires width >= 1
    ensures res.None? <==> forall i :: 0 <= i < |s| ==> IsCSpace(s[i])
    ensures res.Some? ==> 1 <= |res.value.0| <= width && |res.value.0| + |res.value.1| <= |s|
  {
    if s == [] then None
    else if IsCSpace(s[0]) then
      var r := ScanWord(s[1..], width);
      assert forall i :: 1 <= i < |s| ==> s[i] == s[1..][i - 1];
      r
    else
      var w := TakeWord(s, width);
      Some((w, s[|w|..]))
  }

  /** `%Ns` reads the word that `TakeWord` finds after the leading white space. */
  lemma {:induction false} ScanWordAfterSpace(s: string, width: nat)
    requires width >= 1
    ensures var t := SkipSpace(s);
      ScanWord(s, width) == if t == [] then None else Some((TakeWord(t, width), t[|TakeWord(t, width)|..]))
  {
    if s != [] && IsCSpace(s[0]) {
      ScanWordAfterSpace(s[1..], width);
    }
  }

  /**
   * `%Ns` reads back a word of at most N characters that follows white
   * space and is followed by white space or the end of the input.
   */
  lemma {:induction false} ScanWordReads(sp: string, w: string, rest: string, width: nat)
    requires width >= 1 && 1 <= |w| <= width
    requires forall i :: 0 <= i < |sp| ==> IsCSpace(sp[i])
    requires forall i :: 0 <= i < |w| ==> !IsCSpace(w[i])
    requires rest == [] || IsCSpace(rest[0])
    ensures ScanWord(sp + w + rest, width) == Some((w, rest))
    decreases |sp|
  {
    if sp == [] {
      assert sp + w + rest == w + rest;
      TakeWordExact(w, rest, width);
      assert (w + rest)[|w|..] == rest;
    } else {
      assert (sp + w + rest)[1..] == sp[1..] + w + rest;
      ScanWordReads(sp[1..], w, rest, width);
    }
  }

  /** Leading white space does not change what `%Ns` reads. */
  lemma ScanWordSkipsSpace(ch: char, s: string, width: nat)
    requires IsCSpace(ch) && width >= 1
    ensures ScanWord([ch] + s, width) == ScanWord(s, width)
  {
    assert ([ch] + s)[1..] == s;
    assert SkipSpace([ch] + s) == SkipSpace(s);
  }

  /** Leading white space does not change what `%d` reads. */
  lemma SkipSpaceThenInt(ch: char, s: string)
    requires IsCSpace(ch)
    ensures ScanInt([ch] + s) == ScanInt(s)
  {
    assert ([ch] + s)[1..] == s;
  }

  /** A word followed by white space or the end of input is read whole when it fits the width. */
  lemma {:induction false} TakeWordExact(w: string, rest: string, width: nat)
    requires |w| <= width
    requires forall i :: 0 <= i < |w| ==> !IsCSpace(w[i])
    requires rest == [] || IsCSpace(rest[0])
    ensures TakeWord(w + rest, width) == w
    decreases |w|
  {
    if |w| > 0 {
      assert (w + rest)[1..] == w[1..] + rest;
      TakeWordExact(w[1..], rest, width - 1);
      assert [w[0]] + w[1..] == w;
    } else {
      assert w + rest == rest;
    }
  }

  /** The leading run of decimal digits of `s`. */
  function Digits(s: string): (d: string)
    ensures |d| <= |s| && d == s[..|d|]
    ensures forall i :: 0 <= i < |d| ==> IsDigit(d[i])
    ensures |d| == |s| || !IsDigit(s[|d|])
  {
    if |s| > 0 && IsDigit(s[0]) then [s[0]] + Digits(s[1..]) else []
  }

  /**
   * `%d` without the range check: skip white space, read an optional `+` or
   * `-` and then the longest run of digits. `None` when no digit follows
   * (a matching failure); the value is left unbounded so that callers can
   * treat a value outside the `int` range as the undefined behaviour it is.
   */
  function ScanInt(s: string): (res: Option<(int, string)>)
    ensures res.Some? ==> |res.value.1| < |s|
  {
    if s != [] && IsCSpace(s[0]) then ScanInt(s[1..]) else ReadInt(s)
  }

  /** `%d` once the white space is skipped: the sign and the digits. */
  function ReadInt(t: string): (res: Option<(int, string)>)
    ensures res.Some? ==> |res.value.1| < |t|
  {
    var neg := |t| > 0 && t[0] == '-';
    var u := if |t| > 0 && (t[0] == '-' || t[0] == '+') then t[1..] else t;
    var d := Digits(u);
    if d == [] then None
    else
      var v: int := DecimalValue(d);
      Some((if neg then -v else v, u[|d|..]))
  }

  /** The C text of an integer: a `-` for negatives, then the decimal digits. */
  function IntText(v: int): (s: string)
    ensures |s| >= 1
  {
    if v < 0 then "-" + NatToDecimal(-v) else NatToDecimal(v)
  }

  /** `%d` reads back what `IntText` writes, when the text is followed by a non-digit or nothing. */
  lemma ScanIntText(v: int, rest: string)
    requires rest == [] || !IsDigit(rest[0])
    ensures ScanInt(IntText(v) + rest) == Some((v, rest))
  {
    var s := IntText(v) + rest;
    assert s[0] == IntText(v)[0];
    assert !IsCSpace(s[0]);
    ReadIntText(v, rest);
  }

  /** Once the white space is skipped, the sign and digits of `IntText` read back as the value. */
  lemma ReadIntText(v: int, rest: string)
    requires rest == [] || !IsDigit(rest[0])
    ensures ReadInt(IntText(v) + rest) == Some((v, rest))
  {
    var digits := NatToDecimal(Abs(v));
    DecimalRoundTrip(Abs(v));
    var t := IntText(v) + rest;
    if v < 0 {
      assert t == "-" + (digits + rest);
      ReadNegative(t, digits, rest);
    } else {
      assert t == digits + rest;
      ReadUnsigned(t, digits, rest);
    }
  }

  /** A run of digits reads as its value. */
  lemma ReadUnsigned(t: string, d: string, rest: string)
    requires t == d + rest
    requires |d| >= 1 && forall i :: 0 <= i < |d| ==> IsDigit(d[i])
    requires rest == [] || !IsDigit(rest[0])
    ensures ReadInt(t) == Some((DecimalValue(d) as int, rest))
  {
    assert t[0] == d[0];
    DigitsPrefix(d, rest);
    assert t[|d|..] == rest;
  }

  /** A `-` and a run of digits read as the negated value. */
  lemma ReadNegative(t: string, d: string, rest: string)
    requires t == "-" + (d + rest)
    requires |d| >= 1 && forall i :: 0 <= i < |d| ==> IsDigit(d[i])
    requires rest == [] || !IsDigit(rest[0])
    ensures ReadInt(t) == Some((-(DecimalValue(d) as int), rest))
  {
    var u := d + rest;
    assert t[0] == '-' && t[1..] == u;
    DigitsPrefix(d, rest);
    assert u[|d|..] == rest;
    ReadMinus(t, d, rest);
  }

  /** After a `-`, `%d` reads the digits that follow and negates their value. */
  lemma ReadMinus(t: string, d: string, rest: string)
    requires |t| > 0 && t[0] == '-'
    requires Digits(t[1..]) == d && d != [] && t[1..][|d|..] == rest
    ensures ReadInt(t) == Some((-(DecimalValue(d) as int), rest))
  {
  }

  /** `Digits` stops exactly at the end of a digit string followed by a non-digit. */
  lemma {:induction false} DigitsPrefix(d: string, rest: string)
    requires forall i :: 0 <= i < |d| ==> IsDigit(d[i])
    requires rest == [] || !IsDigit(rest[0])
    ensures Digits(d + rest) == d
    decreases |d|
  {
    if |d| > 0 {
      assert (d + rest)[1..] == d[1..] + rest;
      DigitsPrefix(d[1..], rest);
    } else {
      assert d + rest == rest;
    }
  }
}

=== FILE: ctokens.dfy ===
/**
 * `sscanf(line, "%s%s%s%s", ...)` as the employee database reads its
 * lines: the white-space separated words of a line, of any length, and how
 * many of them a format of `n` conversions matches.
 */
module CTokens {
  import opened Common
  import opened CScan
  import JavaText

  /** A word as `%s` reads it: no C white space inside. */
  predicate NoSpace(w: string) {
    forall i :: 0 <= i < |w| ==> !IsCSpace(w[i])
  }

  /** The words that successive `%s` conversions read from `s`, in order: its maximal runs of non-space characters. */
  function Tokens(s: string): (ts: seq<string>)
    ensures forall i :: 0 <= i < |ts| ==> |ts[i]| >= 1 && NoSpace(ts[i])
    decreases |s|
  {
    if s == [] then []
    else if IsCSpace(s[0]) then Tokens(s[1..])
    else
      var w := TakeWord(s, |s|);
      assert |w| >= 1 && NoSpace(w);
      [w] + Tokens(s[|w|..])
  }

  /**
   * The value `sscanf` returns for a format of `n` plain `%s` conversions:
   * the number of words read, at most `n`, or `EOF` (-1) when the line
   * holds nothing but white space.
   */
  function Matches(s: string, n: nat): (m: int)
    ensures m == -1 <==> Tokens(s) == []
    ensures m != -1 ==> 1 <= m <= n || n == 0
  {
    var ts := Tokens(s);
    if ts == [] then -1 else if |ts| < n then |ts| else n
  }

  /** Leading white space is skipped. */
  lemma TokensSkipSpace(c: char, s: string)
    requires IsCSpace(c)
    ensures Tokens([c] + s) == Tokens(s)
  {
    assert ([c] + s)[1..] == s;
  }

  /** A word followed by white space or the end of the line is read whole, and reading goes on after it. */
  lemma TokensOfWord(w: string, rest: string)
    requires |w| >= 1 && NoSpace(w)
    requires rest == [] || IsCSpace(rest[0])
    ensures Tokens(w + rest) == [w] + Tokens(rest)
  {
    var s := w + rest;
    assert s[0] == w[0];
    TakeWordExact(w, rest, |s|);
    assert s[|w|..] == rest;
  }

  /** The words of a line made of words joined by single spaces are those words. */
  lemma {:induction false} TokensOfJoin(ws: seq<string>)
    requires forall i :: 0 <= i < |ws| ==> |ws[i]| >= 1 && NoSpace(ws[i])
    ensures Tokens(JavaText.JoinSpaces(ws)) == ws
    decreases |ws|
  {
    if |ws| == 1 {
      TokensOfWord(ws[0], []);
      assert ws[0] + [] == ws[0];
    } else if |ws| > 1 {
      var rest := JavaText.JoinSpaces(ws[1..]);
      TokensOfJoin(ws[1..]);
      TokensSkipSpace(' ', rest);
      assert ws[0] + " " + rest == ws[0] + ([' '] + rest);
      TokensOfWord(ws[0], [' '] + rest);
      assert [ws[0]] + ws[1..] == ws;
    }
  }
}

=== FILE: decode.dfy ===
/**
 * The `decode` program: the inverse of `encode`. The input text is read one
 * character at a time; white space is skipped, a `=` ends the encoding
 * characters, and a run of `=` after it must end in white space or the end
 * of the input. Anything else is an invalid input file. Opening, reading and
 * writing the files is left out.
 */
module Decode {
  import opened Common
  import opened State24
  import opened Encode

  /**
   * `decode` keeps `fgetc`'s result in a plain `char`, so the byte 0xFF reads
   * as `EOF` and ends the input.
   */
  const EOF_CHAR: char := '\U{FF}'

  /** An encoding character is neither white space, nor `=`, nor the end-of-input byte. */
  lemma ValidCharIsPlain(ch: char)
    requires ValidChar(ch)
    ensures !IsCSpace(ch) && ch != '=' && ch != EOF_CHAR
  {
  }

  /**
   * The second loop of `decode`, started on the `=` that ended the first:
   * `=` signs up to white space or the end of the input are accepted, any
   * other character is not. What follows the white space is never read.
   */
  predicate Trailer(s: string)
    decreases |s|
  {
    s == [] || s[0] == EOF_CHAR || IsCSpace(s[0]) || (s[0] == '=' && Trailer(s[1..]))
  }

  /**
   * The first loop of `decode` on the rest `s` of the input, having kept the
   * encoding characters `acc`: the characters it keeps in all, or `None`
   * when it rejects the input.
   */
  function Scan(s: string, acc: string): (r: Option<string>)
    decreases |s|
  {
    if s == [] || s[0] == EOF_CHAR then Some(acc)
    else if s[0] == '=' then (if Trailer(s) then Some(acc) else None)
    else if IsCSpace(s[0]) then Scan(s[1..], acc)
    else if !ValidChar(s[0]) then None
    else Scan(s[1..], acc + [s[0]])
  }

  /** The bytes `getBytes` makes of a group of up to four characters added to a fresh state. */
  function GroupBytes(g: string): (bs: seq<byte>)
    requires |g| <= STATE_CHARS
    ensures |bs| == (6 * |g|) / 8
  {
    GetBytes(AddChars(g)).0
  }

  /** The number of whole four-character groups before the last group of `n` characters, which keeps one to four. */
  function FrontQuads(n: nat): (q: nat)
    requires n >= 1
    ensures 4 * q < n <= 4 * q + 4
  {
    (n - 1) / 4
  }

  /**
   * Reference definition of the decoded bytes: the characters cut into
   * groups of four from the front (the last group possibly shorter), each
   * group decoded on its own.
   */
  function BytesOf(cs: string): (bs: seq<byte>)
    ensures cs == [] ==> bs == []
    decreases |cs|
  {
    if cs == [] then []
    else
      var k := 4 * FrontQuads(|cs|);
      BytesOf(cs[..k]) + GroupBytes(cs[k..])
  }

  /** Reference definition of `decode`: the bytes of the characters the first loop keeps, or `None` for an invalid input file. */
  function DecodeText(s: string): (r: Option<seq<byte>>)
  {
    match Scan(s, [])
    case None => None
    case Some(cs) => Some(BytesOf(cs))
  }

  // ---------------------------------------------------------------------
  // The loop of `decode`
  // ---------------------------------------------------------------------

  /**
   * What the first loop of `decode` keeps after reading `s[..i]`: the
   * encoding characters `acc` read so far, of which the bytes of the first
   * `q` whole groups are in the output and the rest in the state.
   */
  predicate Decoding(s: string, i: nat, acc: string, q: nat, out: seq<byte>, st: State) {
    i <= |s| && Scan(s, []) == Scan(s[i..], acc)
    && 4 * q <= |acc| <= 4 * q + 4
    && out == BytesOf(acc[..4 * q]) && st == AddChars(acc[4 * q..])
  }

  /** Adding one more character to a fresh state's characters is `addChar`. */
  lemma AddCharsSnoc(cs: string, ch: char)
    requires |cs| < STATE_CHARS
    ensures AddChars(cs + [ch]) == AddChar(AddChars(cs), ch)
  {
    assert (cs + [ch])[..|cs|] == cs;
  }

  /** The bytes of the first `q + 1` whole groups: those of the first `q`, then group `q`'s. */
  lemma FrontQuad(cs: string, q: nat)
    requires 4 * q + 4 <= |cs|
    ensures BytesOf(cs[..4 * (q + 1)]) == BytesOf(cs[..4 * q]) + GroupBytes(cs[4 * q..4 * q + 4])
  {
    var k := 4 * q;
    var d := cs[..k + 4];
    assert d[..k] == cs[..k] && d[k..] == cs[k..k + 4];
    assert FrontQuads(|d|) == q;
  }

  /** Emptying a full state appends the bytes of one more group. */
  lemma FlushKeeps(s: string, i: nat, acc: string, q: nat, out: seq<byte>, st: State)
    requires Decoding(s, i, acc, q, out, st) && st.bitCount / BITS_IN_CHAR >= STATE_CHARS
    ensures Decoding(s, i, acc, q + 1, out + GetBytes(st).0, GetBytes(st).1)
  {
    assert |acc| == 4 * q + 4;
    assert acc[4 * q..] == acc[4 * q..4 * q + 4];
    assert GetBytes(st).0 == GroupBytes(acc[4 * q..4 * q + 4]);
    FrontQuad(acc, q);
    assert acc[4 * (q + 1)..] == [];
  }

  /** White space is skipped. */
  lemma SkipKeeps(s: string, i: nat, acc: string, q: nat, out: seq<byte>, st: State)
    requires Decoding(s, i, acc, q, out, st) && i < |s| && s[i] != EOF_CHAR && s[i] != '=' && IsCSpace(s[i])
    ensures Decoding(s, i + 1, acc, q, out, st)
  {
    SliceTail(s, i);
  }

  /** A character that is not an encoding character makes the input invalid. */
  lemma RejectChar(s: string, i: nat, acc: string)
    requires i < |s| && Scan(s, []) == Scan(s[i..], acc)
    requires s[i] != EOF_CHAR && s[i] != '=' && !IsCSpace(s[i]) && !ValidChar(s[i])
    ensures DecodeText(s) == None
  {
  }

  /** An encoding character is added to a state that is not full. */
  lemma AddKeeps(s: string, i: nat, acc: string, q: nat, out: seq<byte>, st: State)
    requires Decoding(s, i, acc, q, out, st) && i < |s| && st.bitCount / BITS_IN_CHAR < STATE_CHARS
    requires s[i] != EOF_CHAR && s[i] != '=' && !IsCSpace(s[i]) && ValidChar(s[i])
    ensures st.bitCount + BITS_IN_CHAR <= 24
    ensures Decoding(s, i + 1, acc + [s[i]], q, out, AddChar(st, s[i]))
  {
    var acc' := acc + [s[i]];
    SliceTail(s, i);
    assert acc'[..4 * q] == acc[..4 * q];
    assert acc'[4 * q..] == acc[4 * q..] + [s[i]];
    AddCharsSnoc(acc[4 * q..], s[i]);
  }

  /**
   * One turn of `decode`'s first loop on a character that is not `EOF` or
   * `=`: skip white space; otherwise empty a full state into the output,
   * reject an invalid character or add it to the state.
   */
  method DecodeChar(s: string, i: nat, ghost acc: string, ghost q: nat, out: seq<byte>, st: State)
    returns (ok: bool, ghost acc': string, ghost q': nat, out': seq<byte>, st': State)
    requires Decoding(s, i, acc, q, out, st) && (acc == [] || 4 * q < |acc|)
    requires i < |s| && s[i] != EOF_CHAR && s[i] != '='
    ensures ok ==> Decoding(s, i + 1, acc', q', out', st') && (acc' == [] || 4 * q' < |acc'|)
    ensures !ok ==> DecodeText(s) == None
  {
    ok, acc', q', out', st' := true, acc, q, out, st;
    if IsCSpace(s[i]) {
      SkipKeeps(s, i, acc, q, out, st);
      return;
    }
    if st'.bitCount / BITS_IN_CHAR >= STATE_CHARS {
      FlushKeeps(s, i, acc', q', out', st');
      var got := GetBytes(st');
      out', st', q' := out' + got.0, got.1, q' + 1;
    }
    if !ValidChar(s[i]) {
      RejectChar(s, i, acc);
      ok := false;
      return;
    }
    AddKeeps(s, i, acc', q', out', st');
    acc', st' := acc' + [s[i]], AddChar(st', s[i]);
  }

  /** At the end of the first loop the last `getBytes` completes the bytes of the characters kept. */
  lemma DecodeEnd(acc: string, q: nat, out: seq<byte>, st: State)
    requires 4 * q <= |acc| <= 4 * q + 4 && (acc == [] || 4 * q < |acc|)
    requires out == BytesOf(acc[..4 * q]) && st == AddChars(acc[4 * q..])
    ensures st.bitCount <= 24
    ensures out + GetBytes(st).0 == BytesOf(acc)
  {
    if acc != [] {
      assert FrontQuads(|acc|) == q;
    } else {
      assert acc[..4 * q] == [] && acc[4 * q..] == [];
    }
  }

  /** One `=` of the trailer loop is accepted and the next character read. */
  lemma TrailerStep(s: string, i: nat)
    requires i < |s| && s[i] == '='
    ensures Trailer(s[i..]) == Trailer(s[i + 1..])
  {
    SliceTail(s, i);
  }

  /**
   * `decode` after its arguments are read: the loop over the encoding
   * characters, then the check of the `=` signs after them, then the last
   * `getBytes`. `None` stands for the "Invalid input file" exit, which
   * writes no output file.
   */
  method DecodeFile(s: string) returns (r: Option<seq<byte>>)
    ensures r == DecodeText(s)
  {
    var out: seq<byte> := [];
    var st := InitState();
    var i: nat := 0;
    ghost var acc: string := [];
    ghost var q: nat := 0;
    while i < |s| && s[i] != EOF_CHAR && s[i] != '='
      invariant Decoding(s, i, acc, q, out, st) && (acc == [] || 4 * q < |acc|)
      decreases |s| - i
    {
      var ok;
      ok, acc, q, out, st := DecodeChar(s, i, acc, q, out, st);
      if !ok {
        return None;
      }
      i := i + 1;
    }
    ghost var kept := Scan(s[i..], acc);
    assert kept == if Trailer(s[i..]) then Some(acc) else None;
    while i < |s| && s[i] != EOF_CHAR && !IsCSpace(s[i])
      invariant i <= |s| && Scan(s, []) == if Trailer(s[i..]) then Some(acc) else None
      decreases |s| - i
    {
      if s[i] != '=' {
        return None;
      }
      TrailerStep(s, i);
      i := i + 1;
    }
    DecodeEnd(acc, q, out, st);
    out := out + GetBytes(st).0;
    r := Some(out);
  }

  // ---------------------------------------------------------------------
  // What `decode` accepts
  // ---------------------------------------------------------------------

  /** Characters the first loop reads past: encoding characters and white space. */
  predicate Plain(u: string) {
    forall j :: 0 <= j < |u| ==> ValidChar(u[j]) || IsCSpace(u[j])
  }

  /** Characters that end the first loop: `=` and the end-of-input byte. */
  predicate NoStop(u: string) {
    forall j :: 0 <= j < |u| ==> u[j] != '=' && u[j] != EOF_CHAR
  }

  /** The characters of `u` that are not white space, in order. */
  function Strip(u: string): (v: string)
    ensures |v| <= |u|
    ensures forall j :: 0 <= j < |v| ==> !IsCSpace(v[j])
  {
    if u == [] then []
    else if IsCSpace(u[0]) then Strip(u[1..])
    else [u[0]] + Strip(u[1..])
  }

  /**
   * Text without `=` and without the end-of-input byte is accepted exactly
   * when every character in it is an encoding character or white space, and
   * then its encoding characters are kept in order.
   */
  lemma {:induction false} ScanNoStop(u: string, acc: string)
    requires NoStop(u)
    ensures Scan(u, acc) == if Plain(u) then Some(acc + Strip(u)) else None
    decreases |u|
  {
    if u == [] {
      assert acc + [] == acc;
    } else {
      ScanNoStop(u[1..], if IsCSpace(u[0]) then acc else acc + [u[0]]);
      assert Plain(u) <==> (ValidChar(u[0]) || IsCSpace(u[0])) && Plain(u[1..]) by {
        assert forall j :: 1 <= j < |u| ==> u[j] == u[1..][j - 1];
      }
      if !IsCSpace(u[0]) {
        assert acc + [u[0]] + Strip(u[1..]) == acc + Strip(u);
      }
    }
  }

  /** Encoding characters and white space are read past: what follows them is scanned with their encoding characters kept. */
  lemma {:induction false} ScanAppend(u: string, rest: string, acc: string)
    requires Plain(u)
    ensures Scan(u + rest, acc) == Scan(rest, acc + Strip(u))
    decreases |u|
  {
    if u == [] {
      assert u + rest == rest && acc + [] == acc;
    } else {
      assert (u + rest)[1..] == u[1..] + rest;
      assert Plain(u[1..]) by {
        assert forall j :: 1 <= j < |u| ==> u[j] == u[1..][j - 1];
      }
      if !IsCSpace(u[0]) {
        ValidCharIsPlain(u[0]);
      }
      var acc' := if IsCSpace(u[0]) then acc else acc + [u[0]];
      ScanAppend(u[1..], rest, acc');
      if !IsCSpace(u[0]) {
        assert acc + [u[0]] + Strip(u[1..]) == acc + Strip(u);
      }
    }
  }

  /** A run of `=` signs and line breaks ends the input well: it keeps nothing and rejects nothing. */
  lemma {:induction false} PadTail(w: string, acc: string)
    requires forall j :: 0 <= j < |w| ==> w[j] == '=' || w[j] == '\n'
    ensures Scan(w, acc) == Some(acc)
    decreases |w|
  {
    if w != [] {
      if w[0] == '=' {
        PadTrailer(w);
      } else {
        PadTail(w[1..], acc);
      }
    }
  }

  /** A run of `=` signs and line breaks passes the trailer loop. */
  lemma {:induction false} PadTrailer(w: string)
    requires forall j :: 0 <= j < |w| ==> w[j] == '=' || w[j] == '\n'
    ensures Trailer(w)
    decreases |w|
  {
    if w != [] && w[0] == '=' {
      PadTrailer(w[1..]);
    }
  }

  /**
   * After the first `=`, only `=` signs are checked up to the next white
   * space; whatever follows that white space is never read, so it can be
   * anything at all.
   */
  lemma TrailerIgnoresRest(ps: string, ch: char, rest: string, acc: string)
    requires ps != [] && (forall j :: 0 <= j < |ps| ==> ps[j] == '=') && IsCSpace(ch)
    ensures Scan(ps + [ch] + rest, acc) == Some(acc)
  {
    PadTrailerThen(ps, [ch] + rest);
    assert ps + [ch] + rest == ps + ([ch] + rest);
  }

  /** `=` signs followed by white space pass the trailer loop, whatever comes after. */
  lemma {:induction false} PadTrailerThen(ps: string, t: string)
    requires (forall j :: 0 <= j < |ps| ==> ps[j] == '=') && t != [] && IsCSpace(t[0])
    ensures Trailer(ps + t)
    decreases |ps|
  {
    if ps == [] {
      assert ps + t == t;
    } else {
      assert (ps + t)[1..] == ps[1..] + t;
      PadTrailerThen(ps[1..], t);
    }
  }

  /** An encoding character after the `=` signs, before any white space, makes the input invalid. */
  lemma TrailerRejects(ps: string, ch: char, rest: string, acc: string)
    requires ps != [] && (forall j :: 0 <= j < |ps| ==> ps[j] == '=') && ValidChar(ch)
    ensures Scan(ps + [ch] + rest, acc) == None
  {
    ValidCharIsPlain(ch);
    PadTrailerFails(ps, [ch] + rest);
    assert ps + [ch] + rest == ps + ([ch] + rest);
  }

  /** `=` signs followed by a character that is neither `=`, white space nor the end of the input fail the trailer loop. */
  lemma {:induction false} PadTrailerFails(ps: string, t: string)
    requires (forall j :: 0 <= j < |ps| ==> ps[j] == '=') && t != []
    requires !IsCSpace(t[0]) && t[0] != '=' && t[0] != EOF_CHAR
    ensures !Trailer(ps + t)
    decreases |ps|
  {
    if ps == [] {
      assert ps + t == t;
    } else {
      assert (ps + t)[1..] == ps[1..] + t;
      PadTrailerFails(ps[1..], t);
    }
  }

  // ---------------------------------------------------------------------
  // Decoding what `encode` wrote
  // ---------------------------------------------------------------------

  /** The bytes of `n` characters: three for each group of four and `floor(6k / 8)` for a last group of `k`. */
  lemma {:induction false} BytesOfLength(cs: string)
    ensures |BytesOf(cs)| == (6 * |cs|) / 8
    decreases |cs|
  {
    if cs != [] {
      var q := FrontQuads(|cs|);
      BytesOfLength(cs[..4 * q]);
      assert (6 * (4 * q)) / 8 == 3 * q;
      assert (6 * |cs|) / 8 == 3 * q + (6 * (|cs| - 4 * q)) / 8;
    }
  }

  /** Line breaks do not change the encoding characters. */
  lemma {:induction false} StripEmit(cs: string, n: nat, breaks: bool)
    ensures Strip(Emit(cs, n, breaks)) == Strip(cs)
    decreases |cs|
  {
    if cs != [] {
      var n' := if n == LINE_MAX && breaks then 1 else n + 1;
      StripEmit(cs[1..], n', breaks);
      var tail := Emit(cs[1..], n', breaks);
      assert ([cs[0]] + tail)[1..] == tail;
      if n == LINE_MAX && breaks {
        assert ("\n" + ([cs[0]] + tail))[1..] == [cs[0]] + tail;
      }
    }
  }

  /** Encoding characters have no white space to strip. */
  lemma {:induction false} StripValid(cs: string)
    requires forall j :: 0 <= j < |cs| ==> ValidChar(cs[j])
    ensures Strip(cs) == cs
    decreases |cs|
  {
    if cs != [] {
      ValidCharIsPlain(cs[0]);
      StripValid(cs[1..]);
    }
  }

  /** The characters of the whole groups of `q` groups' worth of bytes are four per group. */
  lemma WholeGroupsLength(data: seq<byte>, q: nat)
    requires 3 * q <= |data|
    ensures |BodyChars(data[..3 * q])| == 4 * q
  {
    if q > 0 {
      BodyLength(data[..3 * q]);
      assert FrontGroups(3 * q) == q - 1;
    }
  }

  /** The characters of some bytes split where `decode` splits them: after the whole groups, before the last group. */
  lemma BodySplit(data: seq<byte>, q: nat)
    requires data != [] && q == FrontGroups(|data|)
    ensures var cs := BodyChars(data);
      FrontQuads(|cs|) == q && cs[..4 * q] == BodyChars(data[..3 * q]) && cs[4 * q..] == GroupChars(data[3 * q..])
  {
    var a, b := BodyChars(data[..3 * q]), GroupChars(data[3 * q..]);
    WholeGroupsLength(data, q);
    assert (a + b)[..4 * q] == a && (a + b)[4 * q..] == b;
  }

  /** Decoding the characters of some bytes, grouped as `encode` groups them, gives the bytes back. */
  lemma {:induction false} BytesOfBody(data: seq<byte>)
    ensures BytesOf(BodyChars(data)) == data
    decreases |data|
  {
    if data != [] {
      var q := FrontGroups(|data|);
      var front, g := data[..3 * q], data[3 * q..];
      assert front + g == data;
      BodySplit(data, q);
      BytesOfBody(front);
      StateRoundTrip(g);
    }
  }

  /** The written characters of `encode` are read past, line breaks and all, and kept. */
  lemma ScanEmitted(chars: string, w: string, breaks: bool)
    requires forall j :: 0 <= j < |chars| ==> ValidChar(chars[j])
    ensures Scan(Emit(chars, 0, breaks) + w, []) == Scan(w, chars)
  {
    var u := Emit(chars, 0, breaks);
    EmitAll(chars, 0, breaks, c => ValidChar(c) || IsCSpace(c));
    ScanAppend(u, w, []);
    StripEmit(chars, 0, breaks);
    StripValid(chars);
    assert [] + chars == chars;
  }

  /** The written padding and the final line break end the input well. */
  lemma PadEmitted(ps: string, col: nat, breaks: bool, acc: string)
    requires forall j :: 0 <= j < |ps| ==> ps[j] == '='
    ensures Scan(Emit(ps, col, breaks) + "\n", acc) == Some(acc)
  {
    EmitAll(ps, col, breaks, c => c == '=' || c == '\n');
    PadTail(Emit(ps, col, breaks) + "\n", acc);
  }

  /**
   * `decode` gives back the bytes `encode` was given, with or without
   * padding and with or without line breaks.
   */
  lemma RoundTrip(data: seq<byte>, pad: bool, breaks: bool)
    ensures DecodeText(EncodeText(data, pad, breaks)) == Some(data)
  {
    if data != [] {
      var chars := BodyChars(data);
      var ps := Padding(|data| - 3 * FrontGroups(|data|) + 1, pad);
      var col := Column(chars, 0, breaks);
      var w := Emit(ps, col, breaks) + "\n";
      EmitAppend(chars, ps, 0, breaks);
      assert EncodeText(data, pad, breaks) == Emit(chars, 0, breaks) + w;
      ScanEmitted(chars, w, breaks);
      PadEmitted(ps, col, breaks, chars);
      BytesOfBody(data);
    }
  }

  /** What `decode`'s arguments select: the input and output file names. */
  datatype DecodeOptions = DecodeOptions(input: string, output: string)

  /** `decode`'s command line (`args[0]` is the program name): the first two arguments name the files; fewer than three arguments is the usage message. */
  function DecodeArgs(args: seq<string>): (r: Option<DecodeOptions>)
    ensures r.Some? <==> |args| >= 3
    ensures r.Some? ==> r.value.input == args[1] && r.value.output == args[2]
  {
    if |args| < 3 then None else Some(DecodeOptions(args[1], args[2]))
  }

  /** Unlike `encode`, which takes its files from the end, `decode` ignores every argument after the output file name. */
  lemma DecodeIgnoresExtra(args: seq<string>, extra: seq<string>)
    requires |args| >= 3
    ensures DecodeArgs(args + extra) == DecodeArgs(args)
    ensures |extra| > 0 && extra[|extra| - 1] != args[2] ==> DecodeArgs(args + extra).value.output != extra[|extra| - 1]
  {
    var all := args + extra;
    assert all[1] == args[1] && all[2] == args[2];
  }
}


=== FILE: employees.dfy ===
/**
 * The employee database of the temp agency: employees read from files of
 * one employee per line, kept in a growing list with unique ids, and
 * listed as a fixed-width table after sorting the list in place.
 */
module Employees {
  import opened Common
  import opened CTokens
  import JavaText
  import InputLine

  /** The length every id has. */
  const ID_LENGTH: nat := 4
  /** The longest first name, last name and skill a file may give. */
  const FIRST_NAME_MAX_LENGTH: nat := 15
  const LAST_NAME_MAX_LENGTH: nat := 15
  const SKILL_MAX_LENGTH: nat := 15
  /** The longest assignment. */
  const ASSIGNMENT_MAX_LENGTH: nat := 20
  /** The capacity of a new database's list. */
  const INIT_CAPACITY: nat := 5
  /** The words each line of an employee file must hold. */
  const NUM_FIELDS: nat := 4
  /** The assignment of an employee with no assignment. */
  const AVAILABLE: string := "Available"

  datatype Employee = Employee(id: string, firstName: string, lastName: string, skill: string, assignment: string)

  /** A word of at least one character, as `%s` reads one. */
  predicate Word(w: string) {
    |w| >= 1 && NoSpace(w)
  }

  /** Every field is a word that fits its buffer; the id has exactly four characters. */
  predicate ValidEmployee(e: Employee) {
    && Word(e.id) && |e.id| == ID_LENGTH
    && Word(e.firstName) && |e.firstName| <= FIRST_NAME_MAX_LENGTH
    && Word(e.lastName) && |e.lastName| <= LAST_NAME_MAX_LENGTH
    && Word(e.skill) && |e.skill| <= SKILL_MAX_LENGTH
    && Word(e.assignment) && |e.assignment| <= ASSIGNMENT_MAX_LENGTH
  }

  /** No two employees share an id. */
  predicate UniqueIds(list: seq<Employee>) {
    forall i, j :: 0 <= i < j < |list| ==> list[i].id != list[j].id
  }

  /** The list and the capacity of the array that holds it. */
  datatype Database = Database(list: seq<Employee>, capacity: nat)

  /** What every database keeps: a list within its capacity, of valid employees with unique ids. */
  predicate Valid(db: Database) {
    && INIT_CAPACITY <= db.capacity
    && |db.list| <= db.capacity
    && UniqueIds(db.list)
    && forall i :: 0 <= i < |db.list| ==> ValidEmployee(db.list[i])
  }

  /** `makeDatabase`: no employees, room for five. */
  function MakeDatabase(): (db: Database)
    ensures Valid(db) && db.list == [] && db.capacity == INIT_CAPACITY
  {
    Database([], INIT_CAPACITY)
  }

  // ---------------------------------------------------------------------
  // Finding an employee
  // ---------------------------------------------------------------------

  /** `findEmployee`: the index of the first employee from `i` on with the given id, if any. */
  function FindFrom(list: seq<Employee>, id: string, i: nat): (r: Option<nat>)
    requires i <= |list|
    ensures r.None? <==> forall k :: i <= k < |list| ==> list[k].id != id
    ensures r.Some? ==> i <= r.value < |list| && list[r.value].id == id
    ensures r.Some? ==> forall k :: i <= k < r.value ==> list[k].id != id
    decreases |list| - i
  {
    if i == |list| then None
    else if list[i].id == id then Some(i)
    else FindFrom(list, id, i + 1)
  }

  function FindEmployee(list: seq<Employee>, id: string): Option<nat> {
    FindFrom(list, id, 0)
  }

  // ---------------------------------------------------------------------
  // Reading an employee file
  // ---------------------------------------------------------------------

  /**
   * One line of an employee file: its first four words are the id, the
   * first and last name and the skill (later words are ignored). `None`
   * when there are fewer words, the id does not have four characters or
   * another field is too long. A new employee is `Available`.
   */
  function ParseEmployee(line: string): (e: Option<Employee>)
    ensures e.Some? ==> ValidEmployee(e.value) && e.value.assignment == AVAILABLE
    ensures Matches(line, NUM_FIELDS) != NUM_FIELDS ==> e.None?
  {
    var ts := Tokens(line);
    if |ts| < NUM_FIELDS then None
    else if |ts[0]| != ID_LENGTH || |ts[1]| > FIRST_NAME_MAX_LENGTH
      || |ts[2]| > LAST_NAME_MAX_LENGTH || |ts[3]| > SKILL_MAX_LENGTH then None
    else Some(Employee(ts[0], ts[1], ts[2], ts[3], AVAILABLE))
  }

  /** The line of an employee file that describes `e`: its four fields separated by single spaces. */
  function EmployeeLine(e: Employee): string {
    JavaText.JoinSpaces([e.id, e.firstName, e.lastName, e.skill])
  }

  /** Reading back the line of a valid employee gives that employee, `Available`. */
  lemma ParseEmployeeLine(e: Employee)
    requires ValidEmployee(e)
    ensures ParseEmployee(EmployeeLine(e)) == Some(e.(assignment := AVAILABLE))
  {
    TokensOfJoin([e.id, e.firstName, e.lastName, e.skill]);
  }

  /** The buffers `sscanf` stores the four fields in: room for one character more than allowed, and the terminator. */
  const FIELD_BUFFERS: seq<nat> := [ID_LENGTH + 2, FIRST_NAME_MAX_LENGTH + 2, LAST_NAME_MAX_LENGTH + 2, SKILL_MAX_LENGTH + 2]

  /** Every word `sscanf` stores fits its buffer with its terminator. */
  predicate StoredFit(ts: seq<string>) {
    forall i :: 0 <= i < |ts| && i < NUM_FIELDS ==> |ts[i]| < FIELD_BUFFERS[i]
  }

  /**
   * The line as the code reads it: `%s` has no width, so a word longer
   * than its buffer is written past the buffer's end before the length
   * check can see it. `None` is that undefined behaviour; otherwise the
   * outcome of the checks.
   */
  function ParseEmployeeAsWritten(line: string): (r: Option<Option<Employee>>)
    ensures r.Some? ==> r.value == ParseEmployee(line)
  {
    var ts := Tokens(line);
    if !StoredFit(ts) then None
    else if |ts| < NUM_FIELDS then Some(None)
    else if |ts[0]| != ID_LENGTH || |ts[1]| > FIRST_NAME_MAX_LENGTH
      || |ts[2]| > LAST_NAME_MAX_LENGTH || |ts[3]| > SKILL_MAX_LENGTH then Some(None)
    else Some(Some(Employee(ts[0], ts[1], ts[2], ts[3], AVAILABLE)))
  }

  /**
   * An id of six characters or more overflows the id buffer as written,
   * while the intended check rejects the line.
   */
  lemma LongIdOverflows(line: string)
    requires |Tokens(line)| >= 1 && |Tokens(line)[0]| >= ID_LENGTH + 2
    ensures ParseEmployeeAsWritten(line).None?
    ensures ParseEmployee(line).None?
  {
  }

  /** A first name of seventeen characters or more overflows its buffer as written, while the intended check rejects the line. */
  lemma LongNameOverflows(line: string)
    requires |Tokens(line)| >= 2 && |Tokens(line)[1]| >= FIRST_NAME_MAX_LENGTH + 2
    ensures ParseEmployeeAsWritten(line).None?
    ensures ParseEmployee(line).None?
  {
    assert !StoredFit(Tokens(line)) by {
      assert |Tokens(line)[1]| >= FIELD_BUFFERS[1];
    }
  }

  /**
   * One pass of the loop of `readEmployees`: the line's employee is added
   * at the end, the array doubling first when it is full; `None` (an
   * invalid file) when the line does not parse or its id is taken.
   */
  function AddLine(db: Database, line: string): (r: Option<Database>)
    requires Valid(db)
    ensures r.Some? ==> Valid(r.value)
    ensures r.Some? ==> |r.value.list| == |db.list| + 1 && r.value.list[..|db.list|] == db.list
  {
    match ParseEmployee(line)
    case None => None
    case Some(e) =>
      if FindEmployee(db.list, e.id).Some? then None
      else
        var capacity := if |db.list| >= db.capacity then 2 * db.capacity else db.capacity;
        assert (db.list + [e])[..|db.list|] == db.list;
        Some(Database(db.list + [e], capacity))
  }

  /** All the lines of a file, added one after the other; `None` at the first that fails. */
  function AddLines(db: Database, lines: seq<string>): (r: Option<Database>)
    requires Valid(db)
    ensures r.Some? ==> Valid(r.value)
    decreases |lines|
  {
    if lines == [] then Some(db)
    else
      match AddLine(db, lines[0])
      case None => None
      case Some(db') => AddLines(db', lines[1..])
  }

  /** The employees of the lines, when every line parses. */
  function ParseAll(lines: seq<string>): (r: Option<seq<Employee>>)
    ensures r.Some? ==> |r.value| == |lines|
    ensures r.Some? <==> forall i :: 0 <= i < |lines| ==> ParseEmployee(lines[i]).Some?
    ensures r.Some? ==> forall i :: 0 <= i < |lines| ==> Some(r.value[i]) == ParseEmployee(lines[i])
  {
    if lines == [] then Some([])
    else
      match ParseEmployee(lines[0])
      case None => None
      case Some(e) =>
        match ParseAll(lines[1..])
        case None => None
        case Some(es) => Some([e] + es)
  }

  /**
   * A file is accepted exactly when every line parses and no id occurs
   * twice, counting the employees already read; the employees are then
   * appended in file order.
   */
  lemma {:induction false} AddLinesIff(db: Database, lines: seq<string>)
    requires Valid(db)
    ensures AddLines(db, lines).Some? <==> ParseAll(lines).Some? && UniqueIds(db.list + ParseAll(lines).value)
    ensures AddLines(db, lines).Some? ==> AddLines(db, lines).value.list == db.list + ParseAll(lines).value
    decreases |lines|
  {
    if lines == [] {
      assert db.list + [] == db.list;
    } else if ParseEmployee(lines[0]).Some? {
      var e := ParseEmployee(lines[0]).value;
      if FindEmployee(db.list, e.id).Some? {
        DuplicateRejected(db, lines, e);
      } else {
        var db' := AddLine(db, lines[0]).value;
        AddLinesIff(db', lines[1..]);
        AddLinesStep(db, lines, e, db');
      }
    }
  }

  /** A line whose id is already in the database makes the file invalid. */
  lemma DuplicateRejected(db: Database, lines: seq<string>, e: Employee)
    requires Valid(db) && lines != [] && ParseEmployee(lines[0]) == Some(e)
    requires FindEmployee(db.list, e.id).Some?
    ensures AddLines(db, lines).None?
    ensures ParseAll(lines).Some? ==> !UniqueIds(db.list + ParseAll(lines).value)
  {
    var k := FindEmployee(db.list, e.id).value;
    if ParseAll(lines).Some? {
      var all := db.list + ParseAll(lines).value;
      assert all[k].id == all[|db.list|].id;
    }
  }

  /** The induction step of `AddLinesIff` for a line that is added. */
  lemma AddLinesStep(db: Database, lines: seq<string>, e: Employee, db': Database)
    requires Valid(db) && lines != [] && ParseEmployee(lines[0]) == Some(e)
    requires FindEmployee(db.list, e.id).None? && AddLine(db, lines[0]) == Some(db')
    requires AddLines(db', lines[1..]).Some? <==> ParseAll(lines[1..]).Some? && UniqueIds(db'.list + ParseAll(lines[1..]).value)
    requires AddLines(db', lines[1..]).Some? ==> AddLines(db', lines[1..]).value.list == db'.list + ParseAll(lines[1..]).value
    ensures AddLines(db, lines).Some? <==> ParseAll(lines).Some? && UniqueIds(db.list + ParseAll(lines).value)
    ensures AddLines(db, lines).Some? ==> AddLines(db, lines).value.list == db.list + ParseAll(lines).value
  {
    assert AddLines(db, lines) == AddLines(db', lines[1..]);
    if ParseAll(lines[1..]).Some? {
      var es := ParseAll(lines[1..]).value;
      assert ParseAll(lines) == Some([e] + es);
      assert db'.list == db.list + [e];
      UniqueAppend(db.list, e, es);
    }
  }

  /** Appending an employee whose id is new keeps ids unique. */
  lemma UniqueAppend(list: seq<Employee>, e: Employee, es: seq<Employee>)
    ensures list + [e] + es == list + ([e] + es)
  {
    assert list + [e] + es == list + ([e] + es);
  }

  /** What loading a file ends in: the database with its employees, or an error message and exit. */
  datatype Loaded = Loaded(db: Database) | Failed(message: string)

  /**
   * `readEmployees(filename, database)`: a file that cannot be opened
   * (`None`) and a file with an invalid line both end the program with a
   * message naming the file.
   */
  function ReadEmployees(db: Database, filename: string, file: Option<string>): (r: Loaded)
    requires Valid(db)
    ensures r.Loaded? ==> Valid(r.db) && file.Some?
    ensures file.None? ==> r == Failed("Can't open file: " + filename + "\n")
  {
    if file.None? then Failed("Can't open file: " + filename + "\n")
    else
      match AddLines(db, InputLine.Lines(file.value))
      case None => Failed("Invalid employee file: " + filename + "\n")
      case Some(db') => Loaded(db')
  }

  /** The text of a file describing the employees `es`, one per line. */
  function EmployeeFile(es: seq<Employee>): string {
    InputLine.Unlines(seq(|es|, i requires 0 <= i < |es| => EmployeeLine(es[i])))
  }

  /** A file written from valid employees with new ids reads back as those employees, appended. */
  lemma ReadEmployeeFile(db: Database, filename: string, es: seq<Employee>)
    requires Valid(db)
    requires forall i :: 0 <= i < |es| ==> ValidEmployee(es[i]) && es[i].assignment == AVAILABLE
    requires UniqueIds(db.list + es)
    ensures ReadEmployees(db, filename, Some(EmployeeFile(es))).Loaded?
    ensures ReadEmployees(db, filename, Some(EmployeeFile(es))).db.list == db.list + es
  {
    var lines := seq(|es|, i requires 0 <= i < |es| => EmployeeLine(es[i]));
    forall i | 0 <= i < |lines|
      ensures '\n' !in lines[i] && ParseEmployee(lines[i]) == Some(es[i])
    {
      ParseEmployeeLine(es[i]);
      assert es[i].(assignment := AVAILABLE) == es[i];
      LineHasNoNewline(es[i]);
    }
    InputLine.LinesOfUnlines(lines);
    assert ParseAll(lines).value == es;
    AddLinesIff(db, lines);
  }

  /** The line of a valid employee is a single line. */
  lemma LineHasNoNewline(e: Employee)
    requires ValidEmployee(e)
    ensures '\n' !in EmployeeLine(e)
  {
    var ws := [e.id, e.firstName, e.lastName, e.skill];
    forall i | 0 <= i < |ws|
      ensures '\n' !in ws[i]
    {
      assert IsCSpace('\n');
    }
    JavaText.JoinNoNewline(ws);
  }

  // ---------------------------------------------------------------------
  // Sorting
  // ---------------------------------------------------------------------

  /** The two comparators: `compareID` orders by id, `compareSkill` by skill and then by id. */
  datatype Order = ById | BySkill

  /** The comparator says `a` goes before `b`: it returns a negative value. */
  predicate Before(o: Order, a: Employee, b: Employee) {
    match o
    case ById => Less(a.id, b.id)
    case BySkill => Less(a.skill, b.skill) || (a.skill == b.skill && Less(a.id, b.id))
  }

  /**
   * Both comparators are strict orders, total on employees with different
   * ids, so that `qsort` has a single right answer on a database.
   */
  lemma BeforeOrder(o: Order, a: Employee, b: Employee, c: Employee)
    ensures !Before(o, a, a)
    ensures Before(o, a, b) ==> !Before(o, b, a)
    ensures Before(o, a, b) && Before(o, b, c) ==> Before(o, a, c)
    ensures a.id != b.id ==> Before(o, a, b) || Before(o, b, a)
  {
    LessIrreflexive(a.id);
    LessIrreflexive(a.skill);
    LessTotal(a.id, b.id);
    LessTotal(a.skill, b.skill);
    if Before(o, a, b) && Before(o, b, c) {
      if Less(a.id, b.id) && Less(b.id, c.id) {
        LessTransitive(a.id, b.id, c.id);
      }
      if Less(a.skill, b.skill) && Less(b.skill, c.skill) {
        LessTransitive(a.skill, b.skill, c.skill);
      }
    }
  }

  /** In strictly increasing order by the comparator. */
  predicate SortedBy(o: Order, s: seq<Employee>) {
    forall i, j :: 0 <= i < j < |s| ==> Before(o, s[i], s[j])
  }

  /** `e` inserted before the first element it goes before. */
  function Insert(o: Order, e: Employee, s: seq<Employee>): (r: seq<Employee>)
    ensures multiset(r) == multiset(s) + multiset{e}
  {
    if s == [] || Before(o, e, s[0]) then [e] + s
    else
      assert s == [s[0]] + s[1..];
      [s[0]] + Insert(o, e, s[1..])
  }

  /** The list sorted by the comparator. */
  function SortBy(o: Order, s: seq<Employee>): (r: seq<Employee>)
    ensures multiset(r) == multiset(s)
  {
    if s == [] then []
    else
      assert s == [s[0]] + s[1..];
      Insert(o, s[0], SortBy(o, s[1..]))
  }

  /** Inserting an employee whose id is new into a sorted list keeps it sorted. */
  lemma {:induction false} InsertSorted(o: Order, e: Employee, s: seq<Employee>)
    requires SortedBy(o, s)
    requires forall k :: 0 <= k < |s| ==> s[k].id != e.id
    ensures SortedBy(o, Insert(o, e, s))
    decreases |s|
  {
    if s == [] || Before(o, e, s[0]) {
      var r := [e] + s;
      forall i, j | 0 <= i < j < |r|
        ensures Before(o, r[i], r[j])
      {
        if i == 0 && j > 1 {
          BeforeOrder(o, e, s[0], s[j - 1]);
        }
      }
    } else {
      BeforeOrder(o, e, s[0], s[0]);
      InsertSorted(o, e, s[1..]);
      var t := Insert(o, e, s[1..]);
      var r := [s[0]] + t;
      forall k | 0 <= k < |t|
        ensures Before(o, s[0], t[k])
      {
        assert t[k] in multiset(s[1..]) + multiset{e};
        if t[k] != e {
          assert t[k] in s[1..];
          var m :| 0 <= m < |s[1..]| && s[1..][m] == t[k];
          assert s[m + 1] == t[k];
        }
      }
      assert SortedBy(o, r);
    }
  }

  /** Sorting a list with unique ids gives a sorted permutation of it. */
  lemma {:induction false} SortBySorted(o: Order, s: seq<Employee>)
    requires UniqueIds(s)
    ensures SortedBy(o, SortBy(o, s))
    decreases |s|
  {
    if s != [] {
      SortBySorted(o, s[1..]);
      var t := SortBy(o, s[1..]);
      forall k | 0 <= k < |t|
        ensures t[k].id != s[0].id
      {
        assert t[k] in multiset(s[1..]);
        var m :| 0 <= m < |s[1..]| && s[1..][m] == t[k];
        assert s[m + 1] == t[k];
      }
      InsertSorted(o, s[0], t);
    }
  }

  /**
   * Two sorted arrangements of the same employees are the same: whatever
   * order `qsort` works in, its result is `SortBy`.
   */
  lemma {:induction false} SortedUnique(o: Order, a: seq<Employee>, b: seq<Employee>)
    requires SortedBy(o, a) && SortedBy(o, b) && multiset(a) == multiset(b)
    ensures a == b
    decreases |a|
  {
    assert |a| == |multiset(a)| == |b|;
    if a != [] {
      SortedHead(o, a, b);
      assert multiset(a) == multiset{a[0]} + multiset(a[1..]) by {
        assert a == [a[0]] + a[1..];
      }
      assert multiset(b) == multiset{b[0]} + multiset(b[1..]) by {
        assert b == [b[0]] + b[1..];
      }
      assert multiset(a[1..]) == multiset(a) - multiset{a[0]};
      assert multiset(b[1..]) == multiset(b) - multiset{b[0]};
      SortedUnique(o, a[1..], b[1..]);
      assert a == [a[0]] + a[1..] && b == [b[0]] + b[1..];
    }
  }

  /** Two sorted arrangements of the same employees start with the same one. */
  lemma SortedHead(o: Order, a: seq<Employee>, b: seq<Employee>)
    requires SortedBy(o, a) && SortedBy(o, b) && multiset(a) == multiset(b) && a != [] && b != []
    ensures a[0] == b[0]
  {
    assert a[0] in multiset(b) && b[0] in multiset(a);
    var k :| 0 <= k < |b| && b[k] == a[0];
    var m :| 0 <= m < |a| && a[m] == b[0];
    if k != 0 {
      BeforeOrder(o, a[0], b[0], a[0]);
      assert false;
    }
  }

  // ---------------------------------------------------------------------
  // Listing
  // ---------------------------------------------------------------------

  /** The header line of every listing. */
  const HEADER: string := "ID   First Name      Last Name       Skill           Assignment\n"

  /** `width` spaces. */
  function Spaces(width: nat): (sp: string)
    ensures |sp| == width && forall i :: 0 <= i < width ==> sp[i] == ' '
  {
    seq(width, _ => ' ')
  }

  /** `%-Ns` with N = `width`: the string, padded on the right with spaces to `width`; never cut. */
  function Pad(s: string, width: nat): (r: string)
    ensures |r| == if |s| < width then width else |s|
  {
    if |s| < width then s + Spaces(width - |s|) else s
  }

  /** A padded field and the space after it. */
  function Cell(s: string, width: nat): string {
    Pad(s, width) + " "
  }

  /** One row of the table. */
  function Row(e: Employee): string {
    Cell(e.id, 4) + (Cell(e.firstName, 15) + (Cell(e.lastName, 15) + (Cell(e.skill, 15) + (Pad(e.assignment, 20) + "\n"))))
  }

  /** The three tests: every employee, those with a skill, those with an assignment. */
  datatype Filter = All | SkillIs(skill: string) | AssignmentIs(assignment: string)

  /** `testAll`, `testSkill`, `testAssignment`. */
  predicate Passes(f: Filter, e: Employee) {
    match f
    case All => true
    case SkillIs(s) => e.skill == s
    case AssignmentIs(a) => e.assignment == a
  }

  /** The employees that pass the test, in list order. */
  function Filtered(s: seq<Employee>, f: Filter): (r: seq<Employee>)
    ensures |r| <= |s|
    ensures forall e :: e in r <==> e in s && Passes(f, e)
  {
    if s == [] then []
    else if Passes(f, s[0]) then [s[0]] + Filtered(s[1..], f)
    else Filtered(s[1..], f)
  }

  /** The rows of the employees, one after the other. */
  function Rows(es: seq<Employee>): string {
    if es == [] then [] else Row(es[0]) + Rows(es[1..])
  }

  /** What a listing leaves: the database, sorted in place, and the printed table. */
  datatype Listing = Listing(db: Database, text: string)

  /**
   * `listEmployees(database, compare, test, str)`: the list is sorted in
   * place, then the header is printed and a row for each employee that
   * passes the test, in the new order.
   */
  function ListEmployees(db: Database, o: Order, f: Filter): (r: Listing)
    requires Valid(db)
    ensures Valid(r.db) && r.db.capacity == db.capacity
    ensures multiset(r.db.list) == multiset(db.list) && SortedBy(o, r.db.list)
    ensures r.text == HEADER + Rows(Filtered(r.db.list, f))
  {
    var sorted := SortBy(o, db.list);
    SortBySorted(o, db.list);
    SortedKeepsValid(db, sorted);
    Listing(Database(sorted, db.capacity), HEADER + Rows(Filtered(sorted, f)))
  }

  /** A permutation of a valid database's list is as valid. */
  lemma SortedKeepsValid(db: Database, s: seq<Employee>)
    requires Valid(db) && multiset(s) == multiset(db.list)
    ensures Valid(Database(s, db.capacity))
  {
    assert |s| == |multiset(s)| == |db.list|;
    forall i | 0 <= i < |s|
      ensures ValidEmployee(s[i])
    {
      assert s[i] in multiset(db.list);
    }
    forall i, j | 0 <= i < j < |s|
      ensures s[i].id != s[j].id
    {
      assert s[i] in multiset(db.list) && s[j] in multiset(db.list);
      var a :| 0 <= a < |db.list| && db.list[a] == s[i];
      var b :| 0 <= b < |db.list| && db.list[b] == s[j];
      if a == b {
        MultisetTwice(s, i, j);
        UniqueOnce(db.list, s[i]);
        assert false;
      }
    }
  }

  /** In a list of unique employees no employee occurs twice. */
  lemma MultisetTwice(s: seq<Employee>, i: nat, j: nat)
    requires 0 <= i < j < |s| && s[i] == s[j]
    ensures multiset(s)[s[i]] >= 2
  {
    assert s == s[..i] + [s[i]] + s[i + 1..j] + [s[j]] + s[j + 1..];
  }

  /** In a list with unique ids every employee occurs at most once. */
  lemma {:induction false} UniqueOnce(s: seq<Employee>, x: Employee)
    requires UniqueIds(s)
    ensures multiset(s)[x] <= 1
    decreases |s|
  {
    if s != [] {
      assert s == [s[0]] + s[1..];
      UniqueOnce(s[1..], x);
      if s[0] == x {
        assert x !in s[1..];
      }
    }
  }

  /** All-space text is skipped. */
  lemma {:induction false} TokensSkipSpaces(sp: string, rest: string)
    requires forall i :: 0 <= i < |sp| ==> IsCSpace(sp[i])
    ensures Tokens(sp + rest) == Tokens(rest)
    decreases |sp|
  {
    if sp != [] {
      TokensSkipSpaces(sp[1..], rest);
      assert sp + rest == [sp[0]] + (sp[1..] + rest);
      TokensSkipSpace(sp[0], sp[1..] + rest);
    } else {
      assert sp + rest == rest;
    }
  }

  /** A padded word and the white space after it read back as the word. */
  lemma TokensOfPadded(w: string, width: nat, sp: string, rest: string)
    requires Word(w) && |sp| >= 1
    requires forall i :: 0 <= i < |sp| ==> IsCSpace(sp[i])
    ensures Tokens(Pad(w, width) + sp + rest) == [w] + Tokens(rest)
  {
    var gap := (if |w| < width then Spaces(width - |w|) else []) + sp;
    assert Pad(w, width) + sp + rest == w + (gap + rest);
    TokensOfWord(w, gap + rest);
    TokensSkipSpaces(gap, rest);
  }

  /** A row reads back, word by word, as the five fields of the employee. */
  lemma RowFields(e: Employee)
    requires ValidEmployee(e)
    ensures Tokens(Row(e)) == [e.id, e.firstName, e.lastName, e.skill, e.assignment]
  {
    var t4 := Pad(e.assignment, 20) + "\n";
    assert Tokens(t4) == [e.assignment] by {
      TokensOfPadded(e.assignment, 20, "\n", []);
      assert t4 == Pad(e.assignment, 20) + "\n" + [];
    }
    var t3 := Cell(e.skill, 15) + t4;
    TokensOfCell(e.skill, 15, t4);
    var t2 := Cell(e.lastName, 15) + t3;
    TokensOfCell(e.lastName, 15, t3);
    var t1 := Cell(e.firstName, 15) + t2;
    TokensOfCell(e.firstName, 15, t2);
    TokensOfCell(e.id, 4, t1);
    FiveFields(e.id, e.firstName, e.lastName, e.skill, e.assignment);
  }

  /** Five fields read one after the other make the list of the five. */
  lemma FiveFields(a: string, b: string, c: string, d: string, e: string)
    ensures [a] + ([b] + ([c] + ([d] + [e]))) == [a, b, c, d, e]
  {
  }

  /** A cell reads back as its word, followed by what comes after the cell. */
  lemma TokensOfCell(w: string, width: nat, rest: string)
    requires Word(w)
    ensures Tokens(Cell(w, width) + rest) == [w] + Tokens(rest)
  {
    TokensOfPadded(w, width, " ", rest);
    assert Cell(w, width) + rest == Pad(w, width) + " " + rest;
  }

  /** Every row of a valid employee is 73 characters and a newline. */
  lemma RowLength(e: Employee)
    requires ValidEmployee(e)
    ensures |Row(e)| == 74 && Row(e)[73] == '\n'
  {
  }

  /** The table of valid employees has one 74-character row per employee. */
  lemma {:induction false} RowsLength(es: seq<Employee>)
    requires forall i :: 0 <= i < |es| ==> ValidEmployee(es[i])
    ensures |Rows(es)| == 74 * |es|
    decreases |es|
  {
    if es != [] {
      RowLength(es[0]);
      RowsLength(es[1..]);
    }
  }
}

=== FILE: encode.dfy ===
/**
 * The `encode` program: Base64 (section 4 of RFC 4648) with optional `=`
 * padding and optional line breaks after every 76 characters, built on the
 * 24-bit state. The input file is a byte sequence and the output text a
 * sequence of characters; opening, reading and writing the files is left
 * out.
 */
module Encode {
  import opened Common
  import opened State24

  /** Characters `outputCharacter` puts on one line before it breaks it. */
  const LINE_MAX: nat := 76

  /** The characters `getChars` makes of a group of up to three bytes loaded into a fresh state. */
  function GroupChars(g: seq<byte>): (cs: string)
    requires |g| <= STATE_CAPACITY
    ensures g == [] ==> cs == []
    ensures g != [] ==> |cs| == |g| + 1
    ensures forall i :: 0 <= i < |cs| ==> ValidChar(cs[i])
  {
    var cs := GetChars(AddBytes(g)).0;
    if g == [] then cs else CharCounts(|g|); cs
  }

  /** The number of whole three-byte groups before the last group of an `n`-byte input, which keeps one to three bytes. */
  function FrontGroups(n: nat): (q: nat)
    requires n >= 1
    ensures 3 * q < n <= 3 * q + 3
  {
    (n - 1) / 3
  }

  /**
   * Reference definition of the encoded characters: the data cut into groups
   * of three bytes from the front (the last group possibly shorter), each
   * group encoded on its own.
   */
  function BodyChars(data: seq<byte>): (cs: string)
    ensures forall i :: 0 <= i < |cs| ==> ValidChar(cs[i])
    ensures cs == [] <==> data == []
    decreases |data|
  {
    if data == [] then []
    else
      var k := 3 * FrontGroups(|data|);
      BodyChars(data[..k]) + GroupChars(data[k..])
  }

  /** The `=` characters written after `n` characters from the last `getChars`. */
  function Padding(n: nat, pad: bool): (ps: string)
    ensures forall i :: 0 <= i < |ps| ==> ps[i] == '='
    ensures pad && n == 2 ==> |ps| == 2
    ensures pad && n == 3 ==> |ps| == 1
    ensures !pad || (n != 2 && n != 3) ==> ps == []
  {
    if n == 2 && pad then "==" else if n == 3 && pad then "=" else ""
  }

  /**
   * `outputCharacter` applied to each character of `cs` in turn, with `n`
   * characters already on the current line: with breaks on, a line holding
   * 76 characters is ended by `\n` before the next character.
   */
  function Emit(cs: string, n: nat, breaks: bool): string
    decreases |cs|
  {
    if cs == [] then []
    else if n == LINE_MAX && breaks then "\n" + ([cs[0]] + Emit(cs[1..], 1, breaks))
    else [cs[0]] + Emit(cs[1..], n + 1, breaks)
  }

  /** The number of characters on the current line after `Emit(cs, n, breaks)`. */
  function Column(cs: string, n: nat, breaks: bool): nat
    decreases |cs|
  {
    if cs == [] then n
    else if n == LINE_MAX && breaks then Column(cs[1..], 1, breaks)
    else Column(cs[1..], n + 1, breaks)
  }

  /** Adding one more byte to a fresh state's bytes is `addByte`. */
  lemma AddBytesSnoc(bs: seq<byte>, b: byte)
    requires |bs| < STATE_CAPACITY
    ensures AddBytes(bs + [b]) == AddByte(AddBytes(bs), b)
  {
    assert (bs + [b])[..|bs|] == bs;
  }

  /** The loop's last group is the one `BodyChars` ends with, and gives one character more than it has bytes. */
  lemma LoopEnd(data: seq<byte>, q: nat, i: nat)
    requires 3 * q < |data| <= 3 * q + 3 && i == |data|
    ensures BodyChars(data[..3 * q]) + GetChars(AddBytes(data[3 * q..i])).0 == BodyChars(data)
    ensures FrontGroups(|data|) == q && |GetChars(AddBytes(data[3 * q..i])).0| == |data| - 3 * q + 1
  {
    assert data[3 * q..i] == data[3 * q..];
    assert FrontGroups(|data|) == q;
    CharCounts(|data| - 3 * q);
  }

  /** The characters of the first `q + 1` whole groups: those of the first `q`, then group `q`'s. */
  lemma FrontGroup(data: seq<byte>, q: nat)
    requires 3 * q + 3 <= |data|
    ensures BodyChars(data[..3 * (q + 1)]) == BodyChars(data[..3 * q]) + GroupChars(data[3 * q..3 * q + 3])
  {
    var k := 3 * q;
    var d := data[..k + 3];
    assert d[..k] == data[..k] && d[k..] == data[k..k + 3];
    assert FrontGroups(|d|) == q;
  }

  /**
   * What the byte loop of `encode` keeps: the characters written so far are
   * those of the first `q` whole groups, and the state holds the bytes read
   * since.
   */
  predicate Encoding(data: seq<byte>, q: nat, i: nat, chars: string, st: State) {
    3 * q <= i <= 3 * q + 3 && i <= |data| && chars == BodyChars(data[..3 * q]) && st == AddBytes(data[3 * q..i])
  }

  /** Emptying a full state writes the characters of one more group. */
  lemma FlushKeeps(data: seq<byte>, q: nat, i: nat, chars: string, st: State)
    requires Encoding(data, q, i, chars, st) && st.bitCount / BITS_IN_BYTE >= STATE_CAPACITY
    ensures Encoding(data, q + 1, i, chars + GetChars(st).0, GetChars(st).1)
  {
    assert i == 3 * q + 3;
    assert GetChars(st).0 == GroupChars(data[3 * q..3 * q + 3]);
    FrontGroup(data, q);
    assert data[3 * (q + 1)..i] == [];
  }

  /** Adding the next byte to a state that is not full keeps the bytes read since the last group. */
  lemma AddKeeps(data: seq<byte>, q: nat, i: nat, chars: string, st: State)
    requires Encoding(data, q, i, chars, st) && i < |data| && st.bitCount / BITS_IN_BYTE < STATE_CAPACITY
    ensures st.bitCount + BITS_IN_BYTE <= 24
    ensures Encoding(data, q, i + 1, chars, AddByte(st, data[i]))
  {
    SliceSnoc(data, 3 * q, i);
    AddBytesSnoc(data[3 * q..i], data[i]);
  }

  /** One turn of `encode`'s byte loop: empty a full state into the output, then add byte `i`. */
  method EncodeByte(data: seq<byte>, ghost q: nat, i: nat, chars: string, st: State)
    returns (chars': string, st': State, ghost q': nat)
    requires Encoding(data, q, i, chars, st) && i < |data| && (i == 0 || 3 * q < i)
    ensures Encoding(data, q', i + 1, chars', st') && 3 * q' < i + 1
  {
    chars', st', q' := chars, st, q;
    if st'.bitCount / BITS_IN_BYTE >= STATE_CAPACITY {
      FlushKeeps(data, q', i, chars', st');
      var out := GetChars(st');
      chars', st', q' := chars' + out.0, out.1, q' + 1;
    }
    AddKeeps(data, q', i, chars', st');
    st' := AddByte(st', data[i]);
  }

  /** At the end of the input the last `getChars` completes the characters, one more than the bytes of the last group. */
  lemma EncodeEnd(data: seq<byte>, q: nat, i: nat, chars: string, st: State)
    requires Encoding(data, q, i, chars, st) && i == |data| && (i == 0 || 3 * q < i)
    ensures chars + GetChars(st).0 == BodyChars(data)
    ensures data == [] ==> |GetChars(st).0| == 0
    ensures data != [] ==> |GetChars(st).0| == |data| - 3 * FrontGroups(|data|) + 1
  {
    if data != [] {
      LoopEnd(data, q, i);
    }
  }

  /**
   * The byte loop of `encode` and its final `getChars`: a full state is
   * emptied into four characters before the next byte is added, and what
   * is left at the end gives the last one to four characters.
   */
  method EncodeChars(data: seq<byte>) returns (chars: string, last: nat)
    ensures chars == BodyChars(data)
    ensures data == [] ==> last == 0
    ensures data != [] ==> last == |data| - 3 * FrontGroups(|data|) + 1
  {
    var st := InitState();
    chars := [];
    var i: nat := 0;
    ghost var q: nat := 0;
    while i < |data|
      invariant Encoding(data, q, i, chars, st) && (i == 0 || 3 * q < i)
    {
      chars, st, q := EncodeByte(data, q, i, chars, st);
      i := i + 1;
    }
    EncodeEnd(data, q, i, chars, st);
    var out := GetChars(st);
    chars, last := chars + out.0, |out.0|;
  }

  /**
   * Reference definition of `encode`'s output: nothing for an empty file;
   * otherwise the characters of the data and their padding, written through
   * `outputCharacter`, then one `\n`.
   */
  function EncodeText(data: seq<byte>, pad: bool, breaks: bool): (text: string)
    ensures text == [] <==> data == []
    ensures text != [] ==> text[|text| - 1] == '\n'
  {
    if data == [] then []
    else
      var last := |data| - 3 * FrontGroups(|data|) + 1;
      Emit(BodyChars(data) + Padding(last, pad), 0, breaks) + "\n"
  }

  /** The whole of `encode` after its arguments are read: the byte loop, the padding and the trailing line break. */
  method EncodeFile(data: seq<byte>, pad: bool, breaks: bool) returns (text: string)
    ensures text == EncodeText(data, pad, breaks)
  {
    var chars, last := EncodeChars(data);
    var emptyFile := chars == [];
    text := Emit(chars + Padding(last, pad), 0, breaks);
    if !emptyFile {
      text := text + "\n";
    }
  }

  /** The characters of `n` bytes: four for each group of three, and one more than the bytes of the last group. */
  lemma {:induction false} BodyLength(data: seq<byte>)
    requires data != []
    ensures |BodyChars(data)| == |data| + FrontGroups(|data|) + 1
    decreases |data|
  {
    var q := FrontGroups(|data|);
    if q > 0 {
      BodyLength(data[..3 * q]);
      assert FrontGroups(3 * q) == q - 1;
    }
  }

  /** With padding on, the characters and their `=` signs fill whole groups of four. */
  lemma PaddedLength(data: seq<byte>)
    requires data != []
    ensures var last := |data| - 3 * FrontGroups(|data|) + 1;
      |BodyChars(data) + Padding(last, true)| == 4 * (FrontGroups(|data|) + 1)
  {
    BodyLength(data);
  }

  /** Without breaks, `outputCharacter` writes the characters as they are. */
  lemma {:induction false} EmitNoBreaks(cs: string, n: nat)
    ensures Emit(cs, n, false) == cs
    decreases |cs|
  {
    if cs != [] {
      EmitNoBreaks(cs[1..], n + 1);
    }
  }

  /** Writing two strings in turn: the second starts on the column the first ends on. */
  lemma {:induction false} EmitAppend(a: string, b: string, n: nat, breaks: bool)
    ensures Emit(a + b, n, breaks) == Emit(a, n, breaks) + Emit(b, Column(a, n, breaks), breaks)
    decreases |a|
  {
    if a == [] {
      assert a + b == b;
    } else {
      assert (a + b)[1..] == a[1..] + b;
      var n' := if n == LINE_MAX && breaks then 1 else n + 1;
      EmitAppend(a[1..], b, n', breaks);
    }
  }

  /** A property every written character has, and `\n` too, holds of all of `outputCharacter`'s output. */
  lemma {:induction false} EmitAll(cs: string, n: nat, breaks: bool, p: char -> bool)
    requires p('\n') && forall j :: 0 <= j < |cs| ==> p(cs[j])
    ensures forall j :: 0 <= j < |Emit(cs, n, breaks)| ==> p(Emit(cs, n, breaks)[j])
    decreases |cs|
  {
    if cs != [] {
      var n' := if n == LINE_MAX && breaks then 1 else n + 1;
      EmitAll(cs[1..], n', breaks, p);
    }
  }

  /**
   * Lines of at most 76 characters, with `col` characters already on the
   * current one, where each `\n` comes after exactly 76.
   */
  predicate FullLines(t: string, col: nat)
    decreases |t|
  {
    t == [] || if t[0] == '\n' then col == LINE_MAX && FullLines(t[1..], 0) else col < LINE_MAX && FullLines(t[1..], col + 1)
  }

  /** With breaks on, `outputCharacter` breaks the characters into lines of exactly 76, the last one possibly shorter. */
  lemma {:induction false} EmitLines(cs: string, n: nat)
    requires n <= LINE_MAX && forall j :: 0 <= j < |cs| ==> cs[j] != '\n'
    ensures FullLines(Emit(cs, n, true), n)
    decreases |cs|
  {
    if cs != [] {
      if n == LINE_MAX {
        EmitLines(cs[1..], 1);
        assert ("\n" + ([cs[0]] + Emit(cs[1..], 1, true)))[1..] == [cs[0]] + Emit(cs[1..], 1, true);
      } else {
        EmitLines(cs[1..], n + 1);
      }
      assert ([cs[0]] + Emit(cs[1..], if n == LINE_MAX then 1 else n + 1, true))[1..] == Emit(cs[1..], if n == LINE_MAX then 1 else n + 1, true);
    }
  }

  /** What `encode`'s arguments select: padding and breaks (both on unless switched off) and the two file names. */
  datatype EncodeOptions = EncodeOptions(pad: bool, breaks: bool, input: string, output: string)

  /** Whether argument `j` of the flag range is `flag`. */
  predicate HasFlag(args: seq<string>, i: nat, flag: string) {
    exists j :: i <= j < |args| - 2 && args[j] == flag
  }

  /** The flag loop from argument `i` on: `-p` turns padding off, `-b` breaks, anything else is a usage error. */
  function Flags(args: seq<string>, i: nat, pad: bool, breaks: bool): (r: Option<(bool, bool)>)
    requires 1 <= i
    ensures r.Some? <==> forall j :: i <= j < |args| - 2 ==> args[j] == "-p" || args[j] == "-b"
    ensures r.Some? ==> r.value.0 == (pad && !HasFlag(args, i, "-p"))
    ensures r.Some? ==> r.value.1 == (breaks && !HasFlag(args, i, "-b"))
    decreases |args| - i
  {
    if i + 2 >= |args| then Some((pad, breaks))
    else if args[i] == "-p" then Flags(args, i + 1, false, breaks)
    else if args[i] == "-b" then Flags(args, i + 1, pad, false)
    else None
  }

  /**
   * `encode`'s command line (`args[0]` is the program name): at least the two
   * file names, which are always the last two arguments, and only `-p` and
   * `-b` before them; `None` is the usage message.
   */
  function EncodeArgs(args: seq<string>): (r: Option<EncodeOptions>)
    ensures r.Some? <==> |args| >= 3 && forall j :: 1 <= j < |args| - 2 ==> args[j] == "-p" || args[j] == "-b"
    ensures r.Some? ==> r.value.input == args[|args| - 2] && r.value.output == args[|args| - 1]
    ensures r.Some? ==> r.value.pad == !HasFlag(args, 1, "-p") && r.value.breaks == !HasFlag(args, 1, "-b")
  {
    if |args| < 3 then None
    else
      match Flags(args, 1, true, true)
      case None => None
      case Some((pad, breaks)) => Some(EncodeOptions(pad, breaks, args[|args| - 2], args[|args| - 1]))
  }
}


=== FILE: exclude.dfy ===
/**
 * `exclude`: copy a file without one of its lines. The line number comes
 * from the command line as a string of decimal digits; lines are numbered
 * from 1 and end with a newline, and a last segment without a newline is
 * always copied.
 *
 * The files are the parameters: the input is its whole text (the program
 * reads it in 64-byte blocks, but its line state carries over from block to
 * block, so the blocks do not change what is written), and whether each
 * file opens is a flag.
 */
module Exclude {
  import opened Common

  /** The size of the read buffer and of the line buffer. */
  const BUFFER_SIZE: nat := 64

  // ---------------------------------------------------------------------
  // parseLineNumber
  // ---------------------------------------------------------------------

  function Pow10(k: nat): (p: nat)
    ensures p >= 1
  {
    if k == 0 then 1 else 10 * Pow10(k - 1)
  }

  lemma {:induction false} Pow10Bound(k: nat)
    requires k <= 9
    ensures Pow10(k) <= 1_000_000_000
    decreases 9 - k
  {
    if k < 9 {
      Pow10Bound(k + 1);
    }
  }

  /** The value of a digit string, read from its most significant digit. */
  lemma {:induction false} DecimalFront(c: char, t: string)
    requires IsDigit(c) && forall i :: 0 <= i < |t| ==> IsDigit(t[i])
    ensures DecimalValue([c] + t) == (c as int - '0' as int) * Pow10(|t|) + DecimalValue(t)
    decreases |t|
  {
    if |t| > 0 {
      var u := t[..|t| - 1];
      var last := t[|t| - 1] as int - '0' as int;
      DecimalFront(c, u);
      assert ([c] + t)[..|t|] == [c] + u;
      assert DecimalValue([c] + t) == DecimalValue([c] + u) * 10 + last;
      assert DecimalValue(t) == DecimalValue(u) * 10 + last;
      ShiftDigit(c as int - '0' as int, Pow10(|u|), DecimalValue(u));
    }
  }

  /** Appending a digit multiplies the value of the digits before it by ten. */
  lemma ShiftDigit(d: int, p: int, v: int)
    ensures (d * p + v) * 10 == d * (10 * p) + v * 10
  {
  }

  /** A digit string of length `n` has a value below `10^n`. */
  lemma {:induction false} DecimalBelow(t: string)
    requires forall i :: 0 <= i < |t| ==> IsDigit(t[i])
    ensures DecimalValue(t) < Pow10(|t|)
    decreases |t|
  {
    if |t| > 0 {
      DecimalBelow(t[..|t| - 1]);
    }
  }

  /** The number of digits at the end of `s`. */
  function TrailingDigits(s: string): (n: nat)
    ensures n <= |s|
  {
    if s == [] || !IsDigit(s[|s| - 1]) then 0 else 1 + TrailingDigits(s[..|s| - 1])
  }

  lemma {:induction false} TrailingDigitsAtLeast(s: string, j: nat)
    requires j <= |s| && forall i :: j <= i < |s| ==> IsDigit(s[i])
    ensures TrailingDigits(s) >= |s| - j
    decreases |s|
  {
    if j < |s| {
      TrailingDigitsAtLeast(s[..|s| - 1], j);
    }
  }

  /** A command-line argument: no character of it is the terminator. */
  predicate CString(s: string) {
    forall i :: 0 <= i < |s| ==> s[i] != NUL
  }

  /**
   * `parseLineNumber`: the digits are read from the last to the first,
   * each weighted by a power of ten; the first non-digit met is a usage
   * error (`None`). An empty string is 0. The `int` arithmetic overflows
   * once ten digits have been read, so at most nine may end the string.
   */
  method ParseLineNumber(s: string) returns (r: Option<nat>)
    requires CString(s) && TrailingDigits(s) <= 9
    ensures r.Some? <==> forall i :: 0 <= i < |s| ==> IsDigit(s[i])
    ensures r.Some? ==> r.value == DecimalValue(s) && InInt(r.value)
  {
    var lineNumber := 0;
    var digit := 1;
    var i := |s| - 1;
    while i >= 0
      invariant -1 <= i < |s|
      invariant forall k :: i < k < |s| ==> IsDigit(s[k])
      invariant digit == Pow10(|s| - 1 - i)
      invariant lineNumber == DecimalValue(s[i + 1..])
    {
      if !IsDigit(s[i]) {
        return None;
      }
      TrailingDigitsAtLeast(s, i);
      Pow10Bound(|s| - i);
      DecimalFront(s[i], s[i + 1..]);
      assert s[i..] == [s[i]] + s[i + 1..];
      DecimalBelow(s[i..]);
      lineNumber := lineNumber + (s[i] as int - '0' as int) * digit;
      digit := digit * 10;
      assert InInt(lineNumber) && InInt(digit);
      i := i - 1;
    }
    assert s[0..] == s;
    TrailingDigitsAtLeast(s, 0);
    DecimalBelow(s);
    Pow10Bound(|s|);
    r := Some(lineNumber);
  }

  // ---------------------------------------------------------------------
  // The copy
  // ---------------------------------------------------------------------

  /** Index `i` starts a line: it is the beginning of the text or follows a newline. */
  predicate LineStart(text: string, i: nat)
    requires i <= |text|
  {
    i == 0 || text[i - 1] == '\n'
  }

  /** The number of newlines before index `i`: the number of the line holding `i`, less one. */
  function LinesBefore(text: string, i: nat): nat
    requires i <= |text|
  {
    if i == 0 then 0 else LinesBefore(text, i - 1) + (if text[i - 1] == '\n' then 1 else 0)
  }

  /** The number of newline-terminated lines of `text`. */
  function LineCount(text: string): nat {
    LinesBefore(text, |text|)
  }

  /**
   * The reference copy: the lines of `text` from line start `i`, numbered
   * from `n`, with line `skip` left out; a last segment without a newline
   * is always kept.
   */
  function ExcludedFrom(text: string, i: nat, skip: int, n: int): string
    requires i <= |text|
    decreases |text| - i
  {
    var k := LineEnd(text, i);
    if k == |text| then text[i..]
    else (if n == skip then [] else text[i..k + 1]) + ExcludedFrom(text, k + 1, skip, n + 1)
  }

  /** `text` without line `skip` (lines numbered from 1). */
  function Excluded(text: string, skip: int): string {
    ExcludedFrom(text, 0, skip, 1)
  }

  /** Characters other than newlines do not change the line count. */
  lemma {:induction false} LinesBeforeSame(text: string, i: nat, k: nat)
    requires i <= k <= |text| && forall j :: i <= j < k ==> text[j] != '\n'
    ensures LinesBefore(text, k) == LinesBefore(text, i)
    decreases k - i
  {
    if i < k {
      LinesBeforeSame(text, i, k - 1);
    }
  }

  /** A whole line from `i` to its newline at `k` adds one to the count. */
  lemma LinesBeforeLine(text: string, i: nat, k: nat)
    requires i <= k < |text| && text[k] == '\n' && forall j :: i <= j < k ==> text[j] != '\n'
    ensures LinesBefore(text, k + 1) == LinesBefore(text, i) + 1
  {
    LinesBeforeSame(text, i, k);
  }

  /** The count never falls as the index grows. */
  lemma {:induction false} LinesBeforeGrows(text: string, i: nat, k: nat)
    requires i <= k <= |text|
    ensures LinesBefore(text, i) <= LinesBefore(text, k)
    decreases k - i
  {
    if i < k {
      LinesBeforeGrows(text, i, k - 1);
    }
  }

  /** The line from `i` ends where `LineEnd` says, and its count is one more than at `i`. */
  lemma LineFrom(text: string, i: nat)
    requires i <= |text| && LineEnd(text, i) < |text|
    ensures LinesBefore(text, LineEnd(text, i) + 1) == LinesBefore(text, i) + 1
  {
    var k := LineEnd(text, i);
    forall j | i <= j < k
      ensures text[j] != '\n'
    {
      LineEndFirst(text, i, j);
    }
    LinesBeforeLine(text, i, k);
  }

  /** Lines numbered before `skip` or past the last line are never left out: the copy is the text itself. */
  lemma {:induction false} ExcludedNoMatch(text: string, i: nat, skip: int, n: int)
    requires i <= |text|
    requires skip < n || skip >= n + LineCount(text) - LinesBefore(text, i)
    ensures ExcludedFrom(text, i, skip, n) == text[i..]
    decreases |text| - i
  {
    var k := LineEnd(text, i);
    if k < |text| {
      assert n != skip && (skip < n + 1 || skip >= n + 1 + LineCount(text) - LinesBefore(text, k + 1)) by {
        LineFrom(text, i);
        LinesBeforeGrows(text, k + 1, |text|);
      }
      ExcludedNoMatch(text, k + 1, skip, n + 1);
      ExcludedStep(text, i, skip, n, k);
      calc {
        ExcludedFrom(text, i, skip, n);
        text[i..k + 1] + ExcludedFrom(text, k + 1, skip, n + 1);
        text[i..k + 1] + text[k + 1..];
        text[i..];
      }
    } else {
      assert ExcludedFrom(text, i, skip, n) == text[i..];
    }
  }

  /** The copy from a line start that ends in a newline at `k`: that line unless it is the one left out, then the rest. */
  lemma ExcludedStep(text: string, i: nat, skip: int, n: int, k: nat)
    requires i <= k < |text| && k == LineEnd(text, i)
    ensures ExcludedFrom(text, i, skip, n) == (if n == skip then [] else text[i..k + 1]) + ExcludedFrom(text, k + 1, skip, n + 1)
  {
  }

  /** With line number 0, or one past the last line, the output equals the input. */
  lemma NothingExcluded(text: string, skip: int)
    requires skip == 0 || skip > LineCount(text)
    ensures Excluded(text, skip) == text
  {
    ExcludedNoMatch(text, 0, skip, 1);
  }

  /** From each line start up to line `a`, the copy leaves out exactly the line starting at `a`. */
  lemma {:induction false} ExcludesLineFrom(text: string, i: nat, a: nat)
    requires i <= a <= |text| && LineStart(text, i) && LineStart(text, a)
    requires LineEnd(text, a) < |text|
    ensures ExcludedFrom(text, i, 1 + LinesBefore(text, a), 1 + LinesBefore(text, i))
      == text[i..a] + text[LineEnd(text, a) + 1..]
    decreases a - i
  {
    if i == a {
      ExcludesLineAt(text, a);
    } else {
      var k := LineEnd(text, i);
      assert k < a by {
        if k >= a {
          LineEndFirst(text, i, a - 1);
        }
      }
      ExcludesLineFrom(text, k + 1, a);
      ExcludesEarlierLine(text, i, k, a);
    }
  }

  /** At line `a` itself the line is dropped and the rest copied. */
  lemma ExcludesLineAt(text: string, a: nat)
    requires a <= |text| && LineEnd(text, a) < |text|
    ensures ExcludedFrom(text, a, 1 + LinesBefore(text, a), 1 + LinesBefore(text, a)) == text[LineEnd(text, a) + 1..]
  {
    var skip := 1 + LinesBefore(text, a);
    ExcludedNoMatch(text, LineEnd(text, a) + 1, skip, skip + 1);
  }

  /** The step of `ExcludesLineFrom` from the line after the one at `i` back to `i`. */
  lemma ExcludesEarlierLine(text: string, i: nat, k: nat, a: nat)
    requires i <= k < a <= |text| && k == LineEnd(text, i) && LineEnd(text, a) < |text|
    requires ExcludedFrom(text, k + 1, 1 + LinesBefore(text, a), 1 + LinesBefore(text, k + 1))
      == text[k + 1..a] + text[LineEnd(text, a) + 1..]
    ensures ExcludedFrom(text, i, 1 + LinesBefore(text, a), 1 + LinesBefore(text, i))
      == text[i..a] + text[LineEnd(text, a) + 1..]
  {
    LaterLineCount(text, i, k, a);
    ExcludesLineBefore(text, i, k, a, 1 + LinesBefore(text, a), 1 + LinesBefore(text, i),
      1 + LinesBefore(text, k + 1), text[LineEnd(text, a) + 1..]);
  }

  /** The line from `i` ends at `k`, so the next line is numbered one higher, and a later start `a` has a higher number. */
  lemma LaterLineCount(text: string, i: nat, k: nat, a: nat)
    requires i <= k < a <= |text| && k == LineEnd(text, i)
    ensures LinesBefore(text, k + 1) == LinesBefore(text, i) + 1
    ensures LinesBefore(text, i) < LinesBefore(text, a)
  {
    LineFrom(text, i);
    LinesBeforeGrows(text, k + 1, a);
  }

  /** A line before line `a` is copied whole, followed by what the copy from the next line gives. */
  lemma ExcludesLineBefore(text: string, i: nat, k: nat, a: nat, skip: int, n: int, n': int, tail: string)
    requires i <= k < a <= |text| && k == LineEnd(text, i) && n != skip && n' == n + 1
    requires ExcludedFrom(text, k + 1, skip, n') == text[k + 1..a] + tail
    ensures ExcludedFrom(text, i, skip, n) == text[i..a] + tail
  {
    ExcludedStep(text, i, skip, n, k);
    calc {
      ExcludedFrom(text, i, skip, n);
      text[i..k + 1] + ExcludedFrom(text, k + 1, skip, n + 1);
      text[i..k + 1] + (text[k + 1..a] + tail);
      { AppendAssoc(text[i..k + 1], text[k + 1..a], tail); }
      (text[i..k + 1] + text[k + 1..a]) + tail;
      { SliceJoin(text, i, k + 1, a); }
      text[i..a] + tail;
    }
  }

  /** Exactly the chosen complete line disappears: everything before and after it is copied. */
  lemma ExcludesThatLine(text: string, a: nat)
    requires a <= |text| && LineStart(text, a) && LineEnd(text, a) < |text|
    ensures Excluded(text, 1 + LinesBefore(text, a)) == text[..a] + text[LineEnd(text, a) + 1..]
  {
    ExcludesLineFrom(text, 0, a);
  }

  /** A last segment without a newline is copied even when its number is the one to leave out. */
  lemma LastSegmentKept(text: string, a: nat)
    requires a <= |text| && LineStart(text, a) && LineEnd(text, a) == |text|
    ensures Excluded(text, 1 + LinesBefore(text, a)) == text
  {
    forall j | a <= j < |text|
      ensures text[j] != '\n'
    {
      LineEndFirst(text, a, j);
    }
    LinesBeforeSame(text, a, |text|);
    NothingExcluded(text, 1 + LinesBefore(text, a));
  }

  lemma AppendAssoc<T>(a: seq<T>, b: seq<T>, c: seq<T>)
    ensures a + (b + c) == (a + b) + c
  {
  }

  /** The number of characters since the last newline before index `i`: where the next one goes in the line buffer. */
  function Column(text: string, i: nat): nat
    requires i <= |text|
  {
    if i == 0 || text[i - 1] == '\n' then 0 else Column(text, i - 1) + 1
  }

  /** Every character fits the 64-byte line buffer. */
  predicate LinesFit(text: string) {
    forall i :: 0 <= i < |text| ==> Column(text, i) < BUFFER_SIZE
  }

  /** At a newline that ends the line from `start`, the copy writes that line (unless skipped) and goes on after it. */
  lemma ExcludedAtNewline(text: string, start: nat, i: nat, skip: int, n: int)
    requires start <= i < |text| && text[i] == '\n'
    requires forall j :: start <= j < i ==> text[j] != '\n'
    ensures n == skip ==> ExcludedFrom(text, start, skip, n) == ExcludedFrom(text, i + 1, skip, n + 1)
    ensures n != skip ==> ExcludedFrom(text, start, skip, n) == (text[start..i] + "\n") + ExcludedFrom(text, i + 1, skip, n + 1)
  {
    LineEndIs(text, start, i);
    if n == skip {
      assert [] + ExcludedFrom(text, i + 1, skip, n + 1) == ExcludedFrom(text, i + 1, skip, n + 1);
    } else {
      assert text[start..i + 1] == text[start..i] + "\n";
    }
  }

  /**
   * The state of the copy loop after `i` characters: `line` holds the
   * characters since the last newline, line `n` is the current one, and
   * `out`, followed by the copy of the text from the start of `line`, is
   * `whole`.
   */
  predicate Copying(text: string, skip: int, i: nat, line: string, n: int, out: string, whole: string) {
    && i <= |text| && |line| <= i
    && line == text[i - |line|..i]
    && (forall j :: i - |line| <= j < i ==> text[j] != '\n')
    && |line| == Column(text, i)
    && out + ExcludedFrom(text, i - |line|, skip, n) == whole
  }

  /** A character other than a newline joins the line buffer. */
  lemma CharacterStep(text: string, skip: int, i: nat, line: string, n: int, out: string, whole: string)
    requires Copying(text, skip, i, line, n, out, whole) && i < |text| && text[i] != '\n'
    ensures Copying(text, skip, i + 1, line + [text[i]], n, out, whole)
  {
    assert text[i - |line|..i + 1] == line + [text[i]];
  }

  /** A newline writes the buffered line (unless it is the one to leave out) and starts the next line. */
  lemma NewlineStep(text: string, skip: int, i: nat, line: string, n: int, out: string, whole: string)
    requires Copying(text, skip, i, line, n, out, whole) && i < |text| && text[i] == '\n'
    ensures Copying(text, skip, i + 1, [], n + 1, if n == skip then out else out + (line + "\n"), whole)
  {
    ExcludedAtNewline(text, i - |line|, i, skip, n);
    if n != skip {
      AppendAssoc(out, line + "\n", ExcludedFrom(text, i + 1, skip, n + 1));
    }
  }

  /** Before the first character, nothing is written and the whole copy is still ahead. */
  lemma FirstStep(text: string, skip: int)
    ensures Copying(text, skip, 0, [], 1, [], Excluded(text, skip))
  {
    var whole := Excluded(text, skip);
    assert text[0..0] == [] && Column(text, 0) == 0;
    assert [] + ExcludedFrom(text, 0, skip, 1) == whole;
  }

  /** At the end, what is left in the buffer, if anything, completes the copy. */
  lemma LastStep(text: string, skip: int, line: string, n: int, out: string, whole: string)
    requires Copying(text, skip, |text|, line, n, out, whole)
    ensures (if |line| > 0 then out + line else out) == whole
  {
    LineEndIs(text, |text| - |line|, |text|);
    assert out + [] == out;
  }

  /**
   * One character of the copy loop: it goes into the line buffer; at a
   * newline the buffered line and its newline are written unless this is
   * line `skip`, and the next line begins.
   */
  method CopyCharacter(text: string, skip: int, i: nat, line: string, n: int, out: string, ghost whole: string)
    returns (line': string, n': int, out': string)
    requires LinesFit(text) && i < |text| && Copying(text, skip, i, line, n, out, whole)
    ensures Copying(text, skip, i + 1, line', n', out', whole)
  {
    assert |line| < BUFFER_SIZE;
    if text[i] != '\n' {
      CharacterStep(text, skip, i, line, n, out, whole);
      line', n', out' := line + [text[i]], n, out;
    } else {
      NewlineStep(text, skip, i, line, n, out, whole);
      out' := out;
      if n != skip {
        out' := out + (line + "\n");
      }
      line', n' := [], n + 1;
    }
  }

  /** After the loop, what is left in the line buffer, if anything, is written as it is. */
  method FlushLine(text: string, skip: int, line: string, n: int, out: string, ghost whole: string) returns (out': string)
    requires Copying(text, skip, |text|, line, n, out, whole)
    ensures out' == whole
  {
    LastStep(text, skip, line, n, out, whole);
    out' := out;
    if |line| > 0 {
      out' := out + line;
    }
  }

  /**
   * The copy loop of `main`, reading the whole text character by
   * character; what is left in the line buffer at the end is written as
   * it is.
   */
  method CopyExcept(text: string, skip: int) returns (out: string)
    requires LinesFit(text)
    ensures out == Excluded(text, skip)
  {
    out := [];
    var line: string := [];
    var currentLine := 1;
    var i := 0;
    ghost var whole := Excluded(text, skip);
    FirstStep(text, skip);
    while i < |text|
      invariant i <= |text|
      invariant Copying(text, skip, i, line, currentLine, out, whole)
    {
      line, currentLine, out := CopyCharacter(text, skip, i, line, currentLine, out, whole);
      i := i + 1;
    }
    out := FlushLine(text, skip, line, currentLine, out, whole);
  }

  // ---------------------------------------------------------------------
  // main
  // ---------------------------------------------------------------------

  /**
   * What a run does: the usage message (with the output file already
   * truncated when the files opened before the line number was found to
   * be bad), or the text written to the output file.
   */
  datatype Run = Usage(truncated: bool) | Copied(output: string)

  /** The conditions under which `main` is defined: the line number cannot overflow and every line fits its buffer. */
  predicate MainDefined(args: seq<string>, input: Option<string>) {
    && (|args| == 3 ==> CString(args[2]) && TrailingDigits(args[2]) <= 9)
    && (input.Some? ==> LinesFit(input.value))
  }

  /**
   * `main`: three arguments (input file, output file, line number), the
   * input file opened for reading (`input` is `None` when it cannot be),
   * the output file created or truncated (`outputOpens`), then the line
   * number parsed and the copy made.
   */
  method ExcludeMain(args: seq<string>, input: Option<string>, outputOpens: bool) returns (r: Run)
    requires MainDefined(args, input)
    ensures r.Usage? && !r.truncated <==> |args| != 3 || input.None? || !outputOpens
    ensures r.Usage? && r.truncated <==>
      |args| == 3 && input.Some? && outputOpens && exists i :: 0 <= i < |args[2]| && !IsDigit(args[2][i])
    ensures r.Copied? ==> |args| == 3 && input.Some? && (forall i :: 0 <= i < |args[2]| ==> IsDigit(args[2][i]))
    ensures r.Copied? ==> r.output == Excluded(input.value, DecimalValue(args[2]))
  {
    if |args| != 3 || input.None? || !outputOpens {
      return Usage(false);
    }
    var skip := ParseLineNumber(args[2]);
    if skip.None? {
      return Usage(true);
    }
    var out := CopyExcept(input.value, skip.value);
    r := Copied(out);
  }
}

=== FILE: feedback.dfy ===
/**
 * The colouring of a Wordle guess (`wordle.c`): letters in the right place
 * are green; every other letter is yellow when the target still has an
 * unused copy of it elsewhere, and plain otherwise. Greens use up their own
 * position first; yellows then use up the earliest free copy.
 */
module Feedback {
  datatype Color = Green | Yellow | Plain

  /** `nextIndexIn`: the first position at or after `start` holding `ch`, or -1. */
  function NextIndexIn(word: string, ch: char, start: nat): (i: int)
    ensures i == -1 ==> forall k :: start <= k < |word| ==> word[k] != ch
    ensures i != -1 ==> start <= i < |word| && word[i] == ch && forall k :: start <= k < i ==> word[k] != ch
    decreases |word| - start
  {
    if start >= |word| then -1
    else if word[start] == ch then start
    else NextIndexIn(word, ch, start + 1)
  }

  // ---------------------------------------------------------------------
  // Counting over the first n positions
  // ---------------------------------------------------------------------

  /** Guess and target of the same length. */
  predicate Pair(guess: string, word: string) {
    |guess| == |word|
  }

  /** Positions before `n` where the guess is not green and holds `ch`. */
  function MissedIn(guess: string, word: string, ch: char, n: nat): nat
    requires Pair(guess, word) && n <= |word|
  {
    if n == 0 then 0
    else MissedIn(guess, word, ch, n - 1) + (if guess[n - 1] != word[n - 1] && guess[n - 1] == ch then 1 else 0)
  }

  /** Positions before `n` where the guess is not green and the target holds `ch`. */
  function SpareIn(guess: string, word: string, ch: char, n: nat): nat
    requires Pair(guess, word) && n <= |word|
  {
    if n == 0 then 0
    else SpareIn(guess, word, ch, n - 1) + (if guess[n - 1] != word[n - 1] && word[n - 1] == ch then 1 else 0)
  }

  /** Green positions before `n` holding `ch`. */
  function GreensIn(guess: string, word: string, ch: char, n: nat): nat
    requires Pair(guess, word) && n <= |word|
  {
    if n == 0 then 0
    else GreensIn(guess, word, ch, n - 1) + (if guess[n - 1] == word[n - 1] && word[n - 1] == ch then 1 else 0)
  }

  /** Positions before `n` of the target holding `ch`. */
  function Occurrences(word: string, ch: char, n: nat): nat
    requires n <= |word|
  {
    if n == 0 then 0 else Occurrences(word, ch, n - 1) + (if word[n - 1] == ch then 1 else 0)
  }

  /** Positions before `n` of the target holding `ch` whose count is still 1. */
  function Unused(word: string, counts: seq<nat>, ch: char, n: nat): nat
    requires |counts| == |word| && n <= |word|
  {
    if n == 0 then 0 else Unused(word, counts, ch, n - 1) + (if counts[n - 1] != 0 && word[n - 1] == ch then 1 else 0)
  }

  // ---------------------------------------------------------------------
  // The reference colouring
  // ---------------------------------------------------------------------

  /**
   * The colour of position `i`: green on a match; otherwise yellow exactly
   * when fewer earlier non-green positions of the guess hold the same
   * letter than the target has copies of it at non-green positions.
   */
  function RefColor(guess: string, word: string, i: nat): Color
    requires Pair(guess, word) && i < |word|
  {
    if guess[i] == word[i] then Green
    else if MissedIn(guess, word, guess[i], i) < SpareIn(guess, word, guess[i], |word|) then Yellow
    else Plain
  }

  /** The colours of a whole guess. */
  function RefColors(guess: string, word: string): (cs: seq<Color>)
    requires Pair(guess, word)
    ensures |cs| == |word| && forall i :: 0 <= i < |cs| ==> cs[i] == RefColor(guess, word, i)
  {
    seq(|word|, i requires 0 <= i < |word| => RefColor(guess, word, i))
  }

  /** Positions before `n` coloured (green or yellow) holding `ch`. */
  function Marked(guess: string, word: string, ch: char, n: nat): nat
    requires Pair(guess, word) && n <= |word|
  {
    if n == 0 then 0
    else Marked(guess, word, ch, n - 1) + (if RefColor(guess, word, n - 1) != Plain && guess[n - 1] == ch then 1 else 0)
  }

  function Min(a: nat, b: nat): nat { if a <= b then a else b }

  /** Up to `n`, the coloured copies of a letter are its greens and as many yellows as the target has spare copies. */
  lemma {:induction false} MarkedSplit(guess: string, word: string, ch: char, n: nat)
    requires Pair(guess, word) && n <= |word|
    ensures Marked(guess, word, ch, n) ==
      GreensIn(guess, word, ch, n) + Min(MissedIn(guess, word, ch, n), SpareIn(guess, word, ch, |word|))
  {
    if n > 0 {
      MarkedSplit(guess, word, ch, n - 1);
    }
  }

  /** The target's copies of a letter are the green ones and the spare ones. */
  lemma {:induction false} OccurrencesSplit(guess: string, word: string, ch: char, n: nat)
    requires Pair(guess, word) && n <= |word|
    ensures Occurrences(word, ch, n) == GreensIn(guess, word, ch, n) + SpareIn(guess, word, ch, n)
  {
    if n > 0 {
      OccurrencesSplit(guess, word, ch, n - 1);
    }
  }

  /**
   * No letter is coloured more often than the target holds it: greens plus
   * yellows of each letter never exceed its occurrences in the target.
   */
  lemma MarkedBound(guess: string, word: string, ch: char)
    requires Pair(guess, word)
    ensures Marked(guess, word, ch, |word|) <= Occurrences(word, ch, |word|)
  {
    MarkedSplit(guess, word, ch, |word|);
    OccurrencesSplit(guess, word, ch, |word|);
  }

  // ---------------------------------------------------------------------
  // The algorithm of wordle.c
  // ---------------------------------------------------------------------

  /** The counts after the first loop: 0 at green positions, 1 elsewhere. */
  function GreenCounts(guess: string, word: string): (counts: seq<nat>)
    requires Pair(guess, word)
    ensures |counts| == |word|
  {
    seq(|word|, j requires 0 <= j < |word| => if guess[j] == word[j] then 0 else 1)
  }

  /** After the first loop, the unused copies of each letter are its copies at non-green positions. */
  lemma {:induction false} GreenCountsUnused(guess: string, word: string, ch: char, n: nat)
    requires Pair(guess, word) && n <= |word|
    ensures Unused(word, GreenCounts(guess, word), ch, n) == SpareIn(guess, word, ch, n)
  {
    if n > 0 {
      GreenCountsUnused(guess, word, ch, n - 1);
    }
  }

  /** Using up position `j` removes one unused copy of its letter and none of any other. */
  lemma {:induction false} UseUp(word: string, counts: seq<nat>, j: nat, ch: char, n: nat)
    requires |counts| == |word| && j < |word| && counts[j] == 1 && n <= |word|
    ensures Unused(word, counts[j := 0], ch, n) ==
      Unused(word, counts, ch, n) - (if j < n && word[j] == ch then 1 else 0)
    ensures j < n && word[j] == ch ==> Unused(word, counts, ch, n) >= 1
  {
    if n > 0 {
      UseUp(word, counts, j, ch, n - 1);
    }
  }

  /** A letter has an unused copy exactly when some position holds it with count 1. */
  lemma {:induction false} UnusedPositive(word: string, counts: seq<nat>, ch: char, n: nat)
    requires |counts| == |word| && n <= |word|
    ensures Unused(word, counts, ch, n) > 0 <==> exists j :: 0 <= j < n && counts[j] != 0 && word[j] == ch
  {
    if n > 0 {
      UnusedPositive(word, counts, ch, n - 1);
    }
  }

  /**
   * The inner loop: follow `nextIndexIn` through the copies of `ch` until
   * one with a non-zero count. It finds the earliest such copy, or -1 when
   * every copy is used up.
   */
  method FindUnused(word: string, counts: seq<nat>, ch: char) returns (index: int)
    requires |counts| == |word|
    ensures index == -1 <==> forall j :: 0 <= j < |word| && word[j] == ch ==> counts[j] == 0
    ensures index != -1 ==> 0 <= index < |word| && word[index] == ch && counts[index] != 0
    ensures index != -1 ==> forall j :: 0 <= j < index && word[j] == ch ==> counts[j] == 0
  {
    index := NextIndexIn(word, ch, 0);
    while index >= 0
      invariant -1 <= index < |word|
      invariant index >= 0 ==> word[index] == ch
      invariant forall j :: 0 <= j < (if index == -1 then |word| else index) && word[j] == ch ==> counts[j] == 0
      decreases if index == -1 then 0 else |word| - index
    {
      if counts[index] != 0 {
        return;
      }
      index := NextIndexIn(word, ch, index + 1);
    }
  }

  /** What the colouring loop keeps: the counts are 0 or 1, greens are used up, and each letter has as many unused copies as the reference leaves. */
  predicate Colouring(guess: string, word: string, counts: seq<nat>, i: nat)
    requires Pair(guess, word) && i <= |word|
  {
    |counts| == |word|
    && (forall j :: 0 <= j < |word| ==> counts[j] <= 1)
    && (forall j :: 0 <= j < |word| && guess[j] == word[j] ==> counts[j] == 0)
    && (forall ch :: Unused(word, counts, ch, |word|) ==
          SpareIn(guess, word, ch, |word|) - Min(MissedIn(guess, word, ch, i), SpareIn(guess, word, ch, |word|)))
  }

  /** A green position keeps the invariant. */
  lemma GreenKeeps(guess: string, word: string, counts: seq<nat>, i: nat)
    requires Pair(guess, word) && i < |word| && Colouring(guess, word, counts, i) && guess[i] == word[i]
    ensures RefColor(guess, word, i) == Green
    ensures Colouring(guess, word, counts, i + 1)
  {
    forall ch ensures MissedIn(guess, word, ch, i + 1) == MissedIn(guess, word, ch, i) {}
  }

  /** A position with no unused copy of its letter is plain, and it keeps the invariant. */
  lemma PlainKeeps(guess: string, word: string, counts: seq<nat>, i: nat)
    requires Pair(guess, word) && i < |word| && Colouring(guess, word, counts, i) && guess[i] != word[i]
    requires forall j :: 0 <= j < |word| && word[j] == guess[i] ==> counts[j] == 0
    ensures RefColor(guess, word, i) == Plain
    ensures Colouring(guess, word, counts, i + 1)
  {
    var ch := guess[i];
    UnusedPositive(word, counts, ch, |word|);
    forall c ensures Unused(word, counts, c, |word|) ==
      SpareIn(guess, word, c, |word|) - Min(MissedIn(guess, word, c, i + 1), SpareIn(guess, word, c, |word|))
    {
      assert MissedIn(guess, word, c, i + 1) == MissedIn(guess, word, c, i) + (if c == ch then 1 else 0);
    }
  }

  /** A position whose letter has an unused copy at `j` is yellow, and using `j` up keeps the invariant. */
  lemma YellowKeeps(guess: string, word: string, counts: seq<nat>, i: nat, j: nat)
    requires Pair(guess, word) && i < |word| && Colouring(guess, word, counts, i) && guess[i] != word[i]
    requires j < |word| && word[j] == guess[i] && counts[j] != 0
    ensures RefColor(guess, word, i) == Yellow
    ensures Colouring(guess, word, counts[j := 0], i + 1)
  {
    var ch := guess[i];
    var counts' := counts[j := 0];
    UseUp(word, counts, j, ch, |word|);
    forall c ensures Unused(word, counts', c, |word|) ==
      SpareIn(guess, word, c, |word|) - Min(MissedIn(guess, word, c, i + 1), SpareIn(guess, word, c, |word|))
    {
      UseUp(word, counts, j, c, |word|);
      assert MissedIn(guess, word, c, i + 1) == MissedIn(guess, word, c, i) + (if c == ch then 1 else 0);
    }
  }

  /** The invariant holds after the first loop, before any letter is coloured. */
  lemma ColouringStart(guess: string, word: string)
    requires Pair(guess, word)
    ensures Colouring(guess, word, GreenCounts(guess, word), 0)
  {
    forall ch ensures Unused(word, GreenCounts(guess, word), ch, |word|) == SpareIn(guess, word, ch, |word|) {
      GreenCountsUnused(guess, word, ch, |word|);
    }
  }

  /**
   * The colouring loops of `main`: zero the counts of green positions,
   * then colour each position in turn, using up the copy a yellow takes.
   * The colours are exactly the reference colours.
   */
  method Colour(guess: string, word: string) returns (colors: seq<Color>)
    requires Pair(guess, word)
    ensures colors == RefColors(guess, word)
  {
    var counts := ZeroGreens(guess, word);
    ColouringStart(guess, word);
    colors := [];
    var i := 0;
    while i < |word|
      invariant 0 <= i <= |word| && |colors| == i
      invariant forall k :: 0 <= k < i ==> colors[k] == RefColor(guess, word, k)
      invariant Colouring(guess, word, counts, i)
    {
      var c;
      c, counts := ColourAt(guess, word, counts, i);
      colors := colors + [c];
      i := i + 1;
    }
  }

  /** The first loop of `main`: one unused copy at every position except the green ones. */
  method ZeroGreens(guess: string, word: string) returns (counts: seq<nat>)
    requires Pair(guess, word)
    ensures counts == GreenCounts(guess, word)
  {
    counts := seq(|word|, _ => 1);
    var k := 0;
    while k < |word|
      invariant 0 <= k <= |word| && |counts| == |word|
      invariant forall j :: 0 <= j < |word| ==> counts[j] == if j < k && guess[j] == word[j] then 0 else 1
    {
      if guess[k] == word[k] {
        counts := counts[k := counts[k] - 1];
      }
      k := k + 1;
    }
  }

  /** One pass of the second loop: the colour of position `i`, and the counts after it. */
  method ColourAt(guess: string, word: string, counts: seq<nat>, i: nat) returns (c: Color, counts': seq<nat>)
    requires Pair(guess, word) && i < |word| && Colouring(guess, word, counts, i)
    ensures c == RefColor(guess, word, i)
    ensures Colouring(guess, word, counts', i + 1)
  {
    counts' := counts;
    if guess[i] == word[i] {
      GreenKeeps(guess, word, counts, i);
      c := Green;
    } else {
      var index := FindUnused(word, counts, guess[i]);
      if index >= 0 {
        YellowKeeps(guess, word, counts, i, index);
        c := Yellow;
        counts' := counts[index := counts[index] - 1];
      } else {
        PlainKeeps(guess, word, counts, i);
        c := Plain;
      }
    }
  }
}

=== FILE: filebuffer.dfy ===
/**
 * The growable byte array of the Base64 programs. The allocated block is
 * `mem` (its length is the capacity) and its first `size` bytes are the
 * contents. Memory `realloc` adds is uninitialised in C; it is modelled as
 * zero bytes, and no operation reads it.
 */
module FileBuffer {
  import opened State24

  /** Factor by which `appendFileBuffer` grows a full buffer. */
  const RESIZE_MULTIPLIER: nat := 2

  datatype FileBuffer = FileBuffer(mem: seq<byte>, size: nat)

  /** Powers of two: the capacities a buffer grown from 1 by doubling can have. */
  predicate IsPow2(n: nat)
    decreases n
  {
    n == 1 || (n >= 2 && n % 2 == 0 && IsPow2(n / 2))
  }

  /** A buffer's invariant: a non-empty power-of-two block holding at least the contents. */
  predicate Valid(b: FileBuffer) {
    IsPow2(|b.mem|) && b.size <= |b.mem|
  }

  /** The bytes stored so far. */
  function Contents(b: FileBuffer): (bs: seq<byte>)
    requires Valid(b)
    ensures |bs| == b.size
  {
    b.mem[..b.size]
  }

  /** `makeFileBuffer`: an empty buffer with room for one byte. */
  function Make(): (b: FileBuffer)
    ensures Valid(b) && Contents(b) == [] && |b.mem| == 1
  {
    FileBuffer([0], 0)
  }

  /** The block after `realloc` to `n` bytes: the old bytes kept, the new ones zero. */
  function Realloc(mem: seq<byte>, n: nat): (m: seq<byte>)
    requires |mem| <= n
    ensures |m| == n && m[..|mem|] == mem
  {
    mem + seq(n - |mem|, _ => 0)
  }

  /**
   * `appendFileBuffer`: double a full buffer, then store `val` after the
   * contents. The contents grow by exactly `val`, and the capacity only
   * changes when the buffer was full.
   */
  function Append(b: FileBuffer, val: byte): (r: FileBuffer)
    requires Valid(b)
    ensures Valid(r) && Contents(r) == Contents(b) + [val]
    ensures |r.mem| == if b.size >= |b.mem| then RESIZE_MULTIPLIER * |b.mem| else |b.mem|
  {
    var mem := if b.size >= |b.mem| then Realloc(b.mem, RESIZE_MULTIPLIER * |b.mem|) else b.mem;
    assert IsPow2(|mem|) by {
      if |mem| != |b.mem| {
        assert |mem| / 2 == |b.mem|;
      }
    }
    var r := FileBuffer(mem[b.size := val], b.size + 1);
    assert Contents(r) == mem[..b.size] + [val];
    r
  }

  /** The buffer after appending the bytes `bs` in order. */
  function AppendAll(b: FileBuffer, bs: seq<byte>): (r: FileBuffer)
    requires Valid(b)
    ensures Valid(r)
    decreases |bs|
  {
    if bs == [] then b else AppendAll(Append(b, bs[0]), bs[1..])
  }

  /** Appending bytes one by one stores them after the contents, in order. */
  lemma {:induction false} AppendAllContents(b: FileBuffer, bs: seq<byte>)
    requires Valid(b)
    ensures Contents(AppendAll(b, bs)) == Contents(b) + bs
    decreases |bs|
  {
    if bs == [] {
      assert Contents(b) + bs == Contents(b);
    } else {
      AppendAllContents(Append(b, bs[0]), bs[1..]);
      assert Contents(b) + [bs[0]] + bs[1..] == Contents(b) + bs;
    }
  }

  /**
   * A buffer grown from `makeFileBuffer` is never more than twice as large
   * as its contents: once it holds something, more than half of it is used.
   */
  lemma {:induction false} AppendAllTight(b: FileBuffer, bs: seq<byte>)
    requires Valid(b) && (b.size == 0 ==> |b.mem| == 1) && (b.size > 0 ==> |b.mem| < 2 * b.size)
    ensures var r := AppendAll(b, bs);
      (r.size == 0 ==> |r.mem| == 1) && (r.size > 0 ==> |r.mem| < 2 * r.size)
    decreases |bs|
  {
    if bs != [] {
      AppendAllTight(Append(b, bs[0]), bs[1..]);
    }
  }

  /** The buffer `decode` fills from `makeFileBuffer` holds exactly the bytes appended, in at most twice their room. */
  lemma MadeBuffer(bs: seq<byte>)
    ensures Contents(AppendAll(Make(), bs)) == bs
    ensures bs != [] ==> |AppendAll(Make(), bs).mem| < 2 * |bs|
  {
    AppendAllContents(Make(), bs);
    AppendAllTight(Make(), bs);
  }
}

=== FILE: hall.dfy ===
/**
 * The sequential part of the hall monitor: a row of `size` cells, each
 * free (the byte 0) or holding the first letter of the organization using
 * it. `findSpace` looks for the first run of free cells wide enough,
 * `allocateSpace` fills it with the organization's letter and `freeSpace`
 * clears it again; every change is followed by an allocation report.
 *
 * The mutex, the condition variable and the list of waiting organizations
 * with its ageing are left out: an allocation that finds no room is
 * reported as having to wait, and each operation is one atomic step.
 */
module Hall {
  import opened Common

  /** The content of a free cell. */
  const FREE: char := NUL

  /** `initMonitor(n)`: `n` free cells. */
  function InitHall(n: nat): (h: seq<char>)
    ensures |h| == n && forall k :: 0 <= k < n ==> h[k] == FREE
  {
    seq(n, _ => FREE)
  }

  /** Cells `[s, s + width)` lie in the hall and are all free. */
  predicate FreeRun(h: seq<char>, s: int, width: int) {
    0 <= s && s + width <= |h| && forall k :: s <= k < s + width ==> h[k] == FREE
  }

  /**
   * The reference answer of `findSpace`: the lowest start of `width` free
   * cells at or after `s`, or -1 when there is none.
   */
  function FirstFitFrom(h: seq<char>, width: nat, s: nat): (r: int)
    ensures r == -1 || (s <= r && FreeRun(h, r, width))
    ensures r == -1 ==> forall t :: s <= t ==> !FreeRun(h, t, width)
    ensures r != -1 ==> forall t :: s <= t < r ==> !FreeRun(h, t, width)
    decreases |h| - s
  {
    if s + width > |h| then -1
    else if FreeRun(h, s, width) then s
    else FirstFitFrom(h, width, s + 1)
  }

  function FirstFit(h: seq<char>, width: nat): int {
    FirstFitFrom(h, width, 0)
  }

  /** The number of free cells immediately before index `i`: the counter of `findSpace`. */
  function RunBefore(h: seq<char>, i: nat): (n: nat)
    requires i <= |h|
    ensures n <= i
  {
    if i == 0 then 0 else if h[i - 1] == FREE then RunBefore(h, i - 1) + 1 else 0
  }

  /** At least `w` free cells end just before `i` exactly when the `w` cells before `i` are free. */
  lemma {:induction false} RunBeforeFree(h: seq<char>, i: nat, w: nat)
    requires w <= i <= |h|
    ensures RunBefore(h, i) >= w <==> FreeRun(h, i - w, w)
    decreases w
  {
    if w > 0 {
      RunBeforeFree(h, i - 1, w - 1);
    }
  }

  /** Walking back through a run of free cells, the counter falls by one per cell. */
  lemma {:induction false} RunBeforeBack(h: seq<char>, i: nat, k: nat)
    requires i <= |h| && k <= RunBefore(h, i)
    ensures RunBefore(h, i - k) == RunBefore(h, i) - k
    decreases k
  {
    if k > 0 {
      RunBeforeBack(h, i - 1, k - 1);
    }
  }

  /**
   * If the counter never equalled `width` up to index `e`, no run of
   * `width` free cells ends by `e`.
   */
  lemma NoEarlierRun(h: seq<char>, width: nat, e: nat, s: int)
    requires width >= 1 && e <= |h|
    requires forall x :: 1 <= x <= e ==> RunBefore(h, x) != width
    requires 0 <= s && s + width <= e
    ensures !FreeRun(h, s, width)
  {
    if FreeRun(h, s, width) {
      var x := s + width;
      RunBeforeFree(h, x, width);
      var k := RunBefore(h, x) - width;
      RunBeforeBack(h, x, k);
      assert false;
    }
  }

  /**
   * `findSpace(width)`: one pass that counts the free cells in a row and
   * stops as soon as the count reaches `width`. For a positive width the
   * answer is the first fit; a width of 0 finds the cell after the first
   * used one, and a negative width finds nothing.
   */
  method FindSpace(h: seq<char>, width: int) returns (r: int)
    ensures width >= 1 ==> r == FirstFit(h, width)
    ensures width < 0 ==> r == -1
    ensures width == 0 ==> (r == -1 <==> forall k :: 0 <= k < |h| ==> h[k] == FREE)
    ensures width == 0 && r != -1 ==> 1 <= r <= |h| && h[r - 1] != FREE && forall k :: 0 <= k < r - 1 ==> h[k] == FREE
  {
    var count := 0;
    var i := 0;
    while i < |h|
      invariant 0 <= i <= |h|
      invariant count == RunBefore(h, i)
      invariant forall x :: 1 <= x <= i ==> RunBefore(h, x) != width
    {
      if h[i] == FREE {
        count := count + 1;
      } else {
        count := 0;
      }
      if count == width {
        r := i - count + 1;
        FoundFirst(h, width, i + 1);
        return;
      }
      i := i + 1;
    }
    r := -1;
    NotFound(h, width);
  }

  /** The counter first reaching `width` at index `e` marks the first fit (or, for width 0, the first used cell). */
  lemma FoundFirst(h: seq<char>, width: int, e: nat)
    requires 1 <= e <= |h| && RunBefore(h, e) == width
    requires forall x :: 1 <= x < e ==> RunBefore(h, x) != width
    ensures width >= 1 ==> e - width == FirstFit(h, width)
    ensures width == 0 ==> h[e - 1] != FREE && forall k :: 0 <= k < e - 1 ==> h[k] == FREE
  {
    if width >= 1 {
      RunBeforeFree(h, e, width);
      var s := e - width;
      forall t | 0 <= t < s
        ensures !FreeRun(h, t, width)
      {
        NoEarlierRun(h, width, e - 1, t);
      }
      FirstFitIs(h, width, s);
    } else {
      forall k | 0 <= k < e - 1
        ensures h[k] == FREE
      {
        assert RunBefore(h, k + 1) != 0;
      }
    }
  }

  /** A free run with no free run before it is what `FirstFit` finds. */
  lemma FirstFitIs(h: seq<char>, width: nat, s: nat)
    requires FreeRun(h, s, width) && forall t :: 0 <= t < s ==> !FreeRun(h, t, width)
    ensures FirstFit(h, width) == s
  {
  }

  /** A pass that never sees the counter reach `width` means there is no fit. */
  lemma NotFound(h: seq<char>, width: int)
    requires forall x :: 1 <= x <= |h| ==> RunBefore(h, x) != width
    ensures width >= 1 ==> FirstFit(h, width) == -1
    ensures width == 0 ==> forall k :: 0 <= k < |h| ==> h[k] == FREE
  {
    if width >= 1 {
      forall t | 0 <= t
        ensures !FreeRun(h, t, width)
      {
        if t + width <= |h| {
          NoEarlierRun(h, width, |h|, t);
        }
      }
    } else if width == 0 {
      forall k | 0 <= k < |h|
        ensures h[k] == FREE
      {
        assert RunBefore(h, k + 1) != 0;
      }
    }
  }

  /** Cells `[start, start + width)` set to `ch`, every other cell kept. */
  function Fill(h: seq<char>, start: int, width: int, ch: char): (r: seq<char>)
    requires 0 <= start && start + width <= |h|
    ensures |r| == |h|
    ensures forall k :: 0 <= k < |h| ==> r[k] == if start <= k < start + width then ch else h[k]
  {
    seq(|h|, k requires 0 <= k < |h| => if start <= k < start + width then ch else h[k])
  }

  /** The letter `name[0]` an organization writes into its cells; the terminator for an empty name. */
  function Letter(name: string): char {
    if name == [] then NUL else name[0]
  }

  /**
   * What an allocation request finds: room at `start`, none yet, or, as
   * written, a name copied past the end of its heap block (undefined
   * behaviour).
   */
  datatype Allocation = Allocated(start: int, hall: seq<char>) | MustWait | NameOverflow

  /**
   * The bytes `addWaitingThread` allocates for the name: `sizeof(name)` is
   * the size of a `char` pointer, 8 on a 64-bit target, not the length of
   * the name.
   */
  const NAME_BLOCK: nat := 8

  /**
   * `allocateSpace(name, width)` once the organization's turn has come:
   * the first fit is filled with the organization's letter and its start
   * returned; with no fit the organization waits.
   */
  function Allocate(h: seq<char>, name: string, width: nat): (r: Allocation)
    requires width >= 1
    ensures !r.NameOverflow?
    ensures r.MustWait? <==> forall s :: !FreeRun(h, s, width)
    ensures r.Allocated? ==> FreeRun(h, r.start, width) && forall t :: 0 <= t < r.start ==> !FreeRun(h, t, width)
    ensures r.Allocated? ==> |r.hall| == |h|
    ensures r.Allocated? ==> forall k :: 0 <= k < |h| ==> r.hall[k] == if r.start <= k < r.start + width then Letter(name) else h[k]
  {
    var s := FirstFit(h, width);
    if s == -1 then MustWait else Allocated(s, Fill(h, s, width, Letter(name)))
  }

  /**
   * `allocateSpace` as written: every call first copies the name, with its
   * terminator, into a block of `NAME_BLOCK` bytes; the search and the
   * filling follow only when it fits.
   */
  function AllocateAsWritten(h: seq<char>, name: string, width: nat): (r: Allocation)
    requires width >= 1
    ensures r.NameOverflow? <==> |name| + 1 > NAME_BLOCK
    ensures !r.NameOverflow? ==> r == Allocate(h, name, width)
  {
    if |name| + 1 > NAME_BLOCK then NameOverflow else Allocate(h, name, width)
  }

  /**
   * Whatever the hall holds, a name of eight or more characters overflows
   * the name block before any space is looked for, and a shorter one is
   * allocated as `Allocate` states.
   */
  lemma LongNameOverflows(h: seq<char>, name: string, width: nat)
    requires width >= 1
    ensures AllocateAsWritten(h, name, width).NameOverflow? <==> |name| >= NAME_BLOCK
    ensures |name| < NAME_BLOCK ==> AllocateAsWritten(h, name, width) == Allocate(h, name, width)
    ensures |name| < NAME_BLOCK && (exists s :: FreeRun(h, s, width)) ==> AllocateAsWritten(h, name, width).Allocated?
  {
  }

  /** `freeSpace(name, start, width)`: exactly the cells `[start, start + width)` become free. */
  function FreeSpace(h: seq<char>, start: int, width: int): (r: seq<char>)
    requires 0 <= start && start + width <= |h|
    ensures |r| == |h|
    ensures forall k :: 0 <= k < |h| ==> r[k] == if start <= k < start + width then FREE else h[k]
  {
    Fill(h, start, width, FREE)
  }

  /** Freeing what was just allocated restores the hall. */
  lemma AllocateThenFree(h: seq<char>, name: string, width: nat)
    requires width >= 1 && Allocate(h, name, width).Allocated?
    ensures FreeSpace(Allocate(h, name, width).hall, Allocate(h, name, width).start, width) == h
  {
    var a := Allocate(h, name, width);
    assert FreeRun(h, a.start, width);
    var r := FreeSpace(a.hall, a.start, width);
    assert forall k :: 0 <= k < |h| ==> r[k] == h[k];
  }

  /**
   * The allocation report: one character per cell, `*` for a free cell and
   * the stored letter otherwise.
   */
  function AllocationReport(h: seq<char>): (r: string)
    ensures |r| == |h|
    ensures forall k :: 0 <= k < |h| ==> (h[k] == FREE ==> r[k] == '*') && (h[k] != FREE ==> r[k] == h[k])
  {
    if h == [] then [] else [if h[0] == FREE then '*' else h[0]] + AllocationReport(h[1..])
  }

  /** After an allocation the report shows the letter over the allocated cells and nothing else changed. */
  lemma ReportAfterAllocate(h: seq<char>, name: string, width: nat)
    requires width >= 1 && Allocate(h, name, width).Allocated? && Letter(name) != FREE
    ensures var a := Allocate(h, name, width);
      forall k :: 0 <= k < |h| ==>
        (AllocationReport(a.hall)[k] == if a.start <= k < a.start + width then Letter(name) else AllocationReport(h)[k])
  {
  }
}

=== FILE: hashmap.dfy ===
/**
 * The chained hash map of the hash map program: a table of `tlen`
 * buckets, each a chain of key / value nodes with the most recently
 * inserted first, that doubles when it is as full as it is long. Keys are
 * any type with an `equals` (modelled as equality) and a `hash` (a
 * parameter, so that equal keys hash equally by construction).
 */
module HashMap {
  import opened Common

  /** By how much `expandMap` multiplies the table length. */
  const CAP_MULTIPLIER: nat := 2

  /** A chain: its nodes from the head. */
  type Chain<K, V> = seq<(K, V)>

  /** The map: its table of chains and its size counter. */
  datatype Map<K, V> = Map(table: seq<Chain<K, V>>, size: int)

  /** The bucket of a key: its hash modulo the table length. */
  function Slot<K>(hash: K -> nat, k: K, tlen: nat): (i: nat)
    requires tlen >= 1
    ensures i < tlen
  {
    hash(k) % tlen
  }

  /** The value of the first node of `c` whose key is `k`, walking from the head. */
  function Find<K(==), V>(c: Chain<K, V>, k: K): Option<V> {
    if c == [] then None
    else if c[0].0 == k then Some(c[0].1)
    else Find(c[1..], k)
  }

  /** No key occurs twice in a chain. */
  predicate Distinct<K(==), V>(c: Chain<K, V>) {
    c == [] || (Find(c[1..], c[0].0).None? && Distinct(c[1..]))
  }

  /** Every node sits in the bucket its key hashes to. */
  predicate Placed<K, V>(hash: K -> nat, table: seq<Chain<K, V>>)
    requires |table| >= 1
  {
    forall i, p :: 0 <= i < |table| && 0 <= p < |table[i]| ==> Slot(hash, table[i][p].0, |table|) == i
  }

  /** All the nodes of a table, bucket after bucket, each chain from its head: the order `expandMap` visits them. */
  function Flatten<K, V>(table: seq<Chain<K, V>>): Chain<K, V> {
    if table == [] then [] else Flatten(table[..|table| - 1]) + table[|table| - 1]
  }

  /** At least one bucket, every node in its bucket, no key twice in a chain, and `size` the number of nodes. */
  predicate WellFormed<K(==), V>(hash: K -> nat, m: Map<K, V>) {
    && |m.table| >= 1
    && Placed(hash, m.table)
    && (forall i :: 0 <= i < |m.table| ==> Distinct(m.table[i]))
    && m.size == |Flatten(m.table)|
  }

  /** The invariant the operations keep: well formed, and no more nodes than buckets. */
  predicate Valid<K(==), V>(hash: K -> nat, m: Map<K, V>) {
    WellFormed(hash, m) && m.size <= |m.table|
  }

  /** A table of `len` empty chains. */
  function EmptyTable<K, V>(len: nat): (t: seq<Chain<K, V>>)
    ensures |t| == len && forall i :: 0 <= i < len ==> t[i] == []
  {
    seq(len, _ => [])
  }

  // ---------------------------------------------------------------------
  // The operations
  // ---------------------------------------------------------------------

  /** `makeMap(len)`: size 0 and `len` empty buckets. */
  function MakeMap<K, V>(len: nat): (m: Map<K, V>)
    requires len >= 1
  {
    Map(EmptyTable(len), 0)
  }

  /** `mapSize`. */
  function Size<K, V>(m: Map<K, V>): int {
    m.size
  }

  /** `mapGet`: the value of the first node with the key in the key's bucket, `None` (`NULL`) when there is none. */
  function Get<K(==), V>(hash: K -> nat, m: Map<K, V>, k: K): Option<V>
    requires |m.table| >= 1
  {
    Find(m.table[Slot(hash, k, |m.table|)], k)
  }

  /** A node pushed on the front of the chain of its key's bucket. */
  function Push<K, V>(hash: K -> nat, t: seq<Chain<K, V>>, e: (K, V)): (t': seq<Chain<K, V>>)
    requires |t| >= 1
    ensures |t'| == |t|
  {
    var i := Slot(hash, e.0, |t|);
    t[i := [e] + t[i]]
  }

  /** The nodes of `es` pushed one after the other. */
  function PushAll<K, V>(hash: K -> nat, t: seq<Chain<K, V>>, es: Chain<K, V>): (t': seq<Chain<K, V>>)
    requires |t| >= 1
    ensures |t'| == |t|
    decreases |es|
  {
    if es == [] then t else PushAll(hash, Push(hash, t, es[0]), es[1..])
  }

  /**
   * `expandMap`: a table `CAP_MULTIPLIER` times as long, into which every
   * node is pushed again, bucket after bucket and each chain from its head.
   */
  function Expand<K, V>(hash: K -> nat, m: Map<K, V>): (m': Map<K, V>)
    requires |m.table| >= 1
  {
    Map(PushAll(hash, EmptyTable(CAP_MULTIPLIER * |m.table|), Flatten(m.table)), m.size)
  }

  /** The chain with the value of the first node whose key is `k` replaced by `v`. */
  function Replace<K(==), V>(c: Chain<K, V>, k: K, v: V): (c': Chain<K, V>)
    ensures |c'| == |c|
  {
    if c == [] then []
    else if c[0].0 == k then [(c[0].0, v)] + c[1..]
    else [c[0]] + Replace(c[1..], k, v)
  }

  /**
   * The second half of `mapSet`: a node with the key in its bucket gets the
   * new value, or else a new node goes on the front of the chain and the
   * size grows by one.
   */
  function Store<K(==), V>(hash: K -> nat, m: Map<K, V>, k: K, v: V): Map<K, V>
    requires |m.table| >= 1
  {
    var i := Slot(hash, k, |m.table|);
    if Find(m.table[i], k).Some? then Map(m.table[i := Replace(m.table[i], k, v)], m.size)
    else Map(m.table[i := [(k, v)] + m.table[i]], m.size + 1)
  }

  /** `mapSet`: the table first doubles when `size >= tlen`, then the pair is stored. */
  function Set<K(==), V>(hash: K -> nat, m: Map<K, V>, k: K, v: V): Map<K, V>
    requires |m.table| >= 1
  {
    Store(hash, if m.size >= |m.table| then Expand(hash, m) else m, k, v)
  }

  /** The chain without its first node whose key is `k`. */
  function Delete<K(==), V>(c: Chain<K, V>, k: K): Chain<K, V> {
    if c == [] then []
    else if c[0].0 == k then c[1..]
    else [c[0]] + Delete(c[1..], k)
  }

  /** `mapRemove`: unlinks the first node with the key from its bucket and returns whether there was one. */
  function Remove<K(==), V>(hash: K -> nat, m: Map<K, V>, k: K): (Map<K, V>, bool)
    requires |m.table| >= 1
  {
    var i := Slot(hash, k, |m.table|);
    if Find(m.table[i], k).Some? then (Map(m.table[i := Delete(m.table[i], k)], m.size - 1), true)
    else (m, false)
  }

  // ---------------------------------------------------------------------
  // Chains
  // ---------------------------------------------------------------------

  /** A chain has no node with a key exactly when `Find` finds nothing. */
  lemma {:induction false} FindNone<K, V>(c: Chain<K, V>, k: K)
    ensures Find(c, k).None? <==> forall p :: 0 <= p < |c| ==> c[p].0 != k
    decreases |c|
  {
    if c != [] {
      FindNone(c[1..], k);
      if c[0].0 != k {
        forall p | 1 <= p < |c|
          ensures c[p] == c[1..][p - 1]
        {
        }
      }
    }
  }

  /** What `Find` returns is the value of a node of the chain with that key. */
  lemma {:induction false} FindIn<K, V>(c: Chain<K, V>, k: K)
    requires Find(c, k).Some?
    ensures (k, Find(c, k).value) in c
    decreases |c|
  {
    if c[0].0 != k {
      FindIn(c[1..], k);
    }
  }

  /** In a chain without repeated keys, `Find` returns the value of the node with the key. */
  lemma {:induction false} FindDistinct<K, V>(c: Chain<K, V>, k: K, v: V)
    requires Distinct(c) && (k, v) in c
    ensures Find(c, k) == Some(v)
    decreases |c|
  {
    if c[0].0 != k {
      assert (k, v) in c[1..];
      FindDistinct(c[1..], k, v);
    } else if c[0].1 != v {
      assert (k, v) in c[1..];
      FindDistinct(c[1..], k, v);
      assert false;
    }
  }

  /** A new node on the front is found first. */
  lemma FindCons<K, V>(e: (K, V), c: Chain<K, V>, k: K)
    ensures Find([e] + c, k) == if e.0 == k then Some(e.1) else Find(c, k)
  {
    assert ([e] + c)[1..] == c;
  }

  /** Looking in one chain, then the next, is looking in both one after the other. */
  lemma {:induction false} FindAppend<K, V>(a: Chain<K, V>, b: Chain<K, V>, k: K)
    ensures Find(a + b, k) == if Find(a, k).Some? then Find(a, k) else Find(b, k)
    decreases |a|
  {
    if a == [] {
      assert a + b == b;
    } else {
      assert (a + b)[1..] == a[1..] + b;
      FindAppend(a[1..], b, k);
    }
  }

  /** Two chains without repeated keys and with no key in common make one. */
  lemma {:induction false} DistinctAppend<K, V>(a: Chain<K, V>, b: Chain<K, V>)
    requires Distinct(a) && Distinct(b)
    requires forall p :: 0 <= p < |b| ==> Find(a, b[p].0).None?
    ensures Distinct(a + b)
    decreases |a|
  {
    if a == [] {
      assert a + b == b;
    } else {
      var x := a[0];
      forall p | 0 <= p < |b|
        ensures Find(a[1..], b[p].0).None? && b[p].0 != x.0
      {
        FindNone(a, b[p].0);
        FindNone(a[1..], b[p].0);
        assert a[0].0 != b[p].0;
      }
      DistinctAppend(a[1..], b);
      assert (a + b)[1..] == a[1..] + b;
      FindNone(b, x.0);
      FindAppend(a[1..], b, x.0);
    }
  }

  /** Replacing a value: the key's value is the new one if the key was there, every other key keeps its value. */
  lemma {:induction false} FindReplace<K, V>(c: Chain<K, V>, k: K, v: V, k': K)
    ensures Find(Replace(c, k, v), k') ==
      if k' != k then Find(c, k') else if Find(c, k).Some? then Some(v) else None
    decreases |c|
  {
    if c != [] {
      if c[0].0 == k {
        FindCons((c[0].0, v), c[1..], k');
      } else {
        FindCons(c[0], Replace(c[1..], k, v), k');
        FindReplace(c[1..], k, v, k');
      }
    }
  }

  /** Replacing a value keeps every key where it was. */
  lemma {:induction false} ReplaceKeys<K, V>(c: Chain<K, V>, k: K, v: V)
    ensures forall p :: 0 <= p < |c| ==> Replace(c, k, v)[p].0 == c[p].0
    decreases |c|
  {
    if c != [] && c[0].0 != k {
      ReplaceKeys(c[1..], k, v);
    }
  }

  /** Replacing a value keeps the keys distinct. */
  lemma {:induction false} ReplaceDistinct<K, V>(c: Chain<K, V>, k: K, v: V)
    requires Distinct(c)
    ensures Distinct(Replace(c, k, v))
    decreases |c|
  {
    if c != [] {
      var r := Replace(c, k, v);
      if c[0].0 == k {
        assert r[1..] == c[1..];
      } else {
        assert r[1..] == Replace(c[1..], k, v);
        ReplaceDistinct(c[1..], k, v);
        FindReplace(c[1..], k, v, c[0].0);
      }
    }
  }

  /** Unlinking the first node with a key: in a chain without repeated keys the key is gone and every other key keeps its value. */
  lemma {:induction false} FindDelete<K, V>(c: Chain<K, V>, k: K, k': K)
    requires Distinct(c)
    ensures Find(Delete(c, k), k') == if k' == k then None else Find(c, k')
    decreases |c|
  {
    if c != [] {
      if c[0].0 == k {
        if k' != k {
          FindCons(c[0], c[1..], k');
          assert c == [c[0]] + c[1..];
        }
      } else {
        FindCons(c[0], Delete(c[1..], k), k');
        FindDelete(c[1..], k, k');
      }
    }
  }

  /** Unlinking a node leaves nodes of the chain, without repeated keys, one fewer when the key was there. */
  lemma {:induction false} DeleteNodes<K, V>(c: Chain<K, V>, k: K)
    requires Distinct(c)
    ensures forall e :: e in Delete(c, k) ==> e in c
    ensures Distinct(Delete(c, k))
    ensures |Delete(c, k)| == if Find(c, k).Some? then |c| - 1 else |c|
    decreases |c|
  {
    if c != [] && c[0].0 != k {
      DeleteNodes(c[1..], k);
      var d := Delete(c, k);
      assert d[1..] == Delete(c[1..], k);
      FindDelete(c[1..], k, c[0].0);
    }
  }

  // ---------------------------------------------------------------------
  // Tables
  // ---------------------------------------------------------------------

  /** A key's node can only be in the key's own bucket. */
  lemma NotElsewhere<K, V>(hash: K -> nat, t: seq<Chain<K, V>>, i: nat, k: K)
    requires |t| >= 1 && Placed(hash, t) && i < |t| && i != Slot(hash, k, |t|)
    ensures Find(t[i], k).None?
  {
    FindNone(t[i], k);
  }

  /** Replacing one chain changes the node count by the difference of the chains' lengths. */
  lemma {:induction false} FlattenUpdate<K, V>(t: seq<Chain<K, V>>, i: nat, c: Chain<K, V>)
    requires i < |t|
    ensures |Flatten(t[i := c])| == |Flatten(t)| - |t[i]| + |c|
    decreases |t|
  {
    var n := |t| - 1;
    var t' := t[i := c];
    assert t'[..n] == if i == n then t[..n] else t[..n][i := c];
    if i < n {
      FlattenUpdate(t[..n], i, c);
    }
  }

  /**
   * The nodes of the first `j` buckets, looked up in order, give a key's
   * value when its bucket is among them and nothing otherwise.
   */
  lemma {:induction false} FlattenFind<K, V>(hash: K -> nat, t: seq<Chain<K, V>>, j: nat, k: K)
    requires |t| >= 1 && Placed(hash, t) && j <= |t|
    ensures Find(Flatten(t[..j]), k) == if Slot(hash, k, |t|) < j then Find(t[Slot(hash, k, |t|)], k) else None
    decreases j
  {
    if j > 0 {
      assert t[..j][..j - 1] == t[..j - 1];
      FlattenFind(hash, t, j - 1, k);
      FindAppend(Flatten(t[..j - 1]), t[j - 1], k);
      if Slot(hash, k, |t|) != j - 1 {
        NotElsewhere(hash, t, j - 1, k);
      }
    }
  }

  /** The nodes of the first `j` buckets have distinct keys. */
  lemma {:induction false} FlattenDistinct<K, V>(hash: K -> nat, t: seq<Chain<K, V>>, j: nat)
    requires |t| >= 1 && Placed(hash, t) && j <= |t|
    requires forall i :: 0 <= i < |t| ==> Distinct(t[i])
    ensures Distinct(Flatten(t[..j]))
    decreases j
  {
    if j > 0 {
      assert t[..j][..j - 1] == t[..j - 1];
      FlattenDistinct(hash, t, j - 1);
      var c := t[j - 1];
      forall p | 0 <= p < |c|
        ensures Find(Flatten(t[..j - 1]), c[p].0).None?
      {
        FlattenFind(hash, t, j - 1, c[p].0);
      }
      DistinctAppend(Flatten(t[..j - 1]), c);
    }
  }

  /** Looking a key up in its bucket is looking it up among all the nodes. */
  lemma LookupFlatten<K, V>(hash: K -> nat, t: seq<Chain<K, V>>, k: K)
    requires |t| >= 1 && Placed(hash, t)
    ensures Find(t[Slot(hash, k, |t|)], k) == Find(Flatten(t), k)
  {
    assert t[..|t|] == t;
    FlattenFind(hash, t, |t|, k);
  }

  // ---------------------------------------------------------------------
  // Expansion
  // ---------------------------------------------------------------------

  /** None of the keys of `es` is in the table yet, and they are distinct. */
  predicate Fresh<K(==), V>(hash: K -> nat, t: seq<Chain<K, V>>, es: Chain<K, V>)
    requires |t| >= 1
  {
    Distinct(es) && forall p :: 0 <= p < |es| ==> Find(t[Slot(hash, es[p].0, |t|)], es[p].0).None?
  }

  /** Pushing a node keeps every node in its bucket, adds one node, and is found first. */
  lemma PushKeeps<K, V>(hash: K -> nat, t: seq<Chain<K, V>>, e: (K, V))
    requires |t| >= 1 && Placed(hash, t)
    ensures Placed(hash, Push(hash, t, e))
    ensures |Flatten(Push(hash, t, e))| == |Flatten(t)| + 1
    ensures forall k :: (Find(Push(hash, t, e)[Slot(hash, k, |t|)], k) ==
      if k == e.0 then Some(e.1) else Find(t[Slot(hash, k, |t|)], k))
  {
    var i := Slot(hash, e.0, |t|);
    var t': seq<Chain<K, V>> := Push(hash, t, e);
    forall j, p | 0 <= j < |t'| && 0 <= p < |t'[j]|
      ensures Slot(hash, t'[j][p].0, |t'|) == j
    {
      if j == i && p > 0 {
        assert t'[j][p] == t[j][p - 1];
      }
    }
    FlattenUpdate(t, i, [e] + t[i]);
    forall k
      ensures Find(t'[Slot(hash, k, |t|)], k) == if k == e.0 then Some(e.1) else Find(t[Slot(hash, k, |t|)], k)
    {
      FindCons(e, t[i], k);
    }
  }

  /** Pushing a node whose key is new keeps the chains free of repeated keys. */
  lemma PushDistinct<K, V>(hash: K -> nat, t: seq<Chain<K, V>>, e: (K, V))
    requires |t| >= 1 && forall i :: 0 <= i < |t| ==> Distinct(t[i])
    requires Find(t[Slot(hash, e.0, |t|)], e.0).None?
    ensures forall i :: 0 <= i < |t| ==> Distinct(Push(hash, t, e)[i])
  {
    var i := Slot(hash, e.0, |t|);
    assert ([e] + t[i])[1..] == t[i];
  }

  /**
   * Pushing fresh nodes one after the other: every node stays in its
   * bucket, the chains keep distinct keys, the count grows by the number
   * of nodes, and a key is found among the new nodes first, in the old
   * table otherwise.
   */
  lemma {:induction false} PushAllKeeps<K, V>(hash: K -> nat, t: seq<Chain<K, V>>, es: Chain<K, V>)
    requires |t| >= 1 && Placed(hash, t) && (forall i :: 0 <= i < |t| ==> Distinct(t[i]))
    requires Fresh(hash, t, es)
    ensures Placed(hash, PushAll(hash, t, es))
    ensures forall i :: 0 <= i < |t| ==> Distinct(PushAll(hash, t, es)[i])
    ensures |Flatten(PushAll(hash, t, es))| == |Flatten(t)| + |es|
    ensures forall k :: (Find(PushAll(hash, t, es)[Slot(hash, k, |t|)], k) ==
      if Find(es, k).Some? then Find(es, k) else Find(t[Slot(hash, k, |t|)], k))
    decreases |es|
  {
    if es != [] {
      var e := es[0];
      var t1 := Push(hash, t, e);
      PushKeeps(hash, t, e);
      PushDistinct(hash, t, e);
      FreshTail(hash, t, es);
      PushAllKeeps(hash, t1, es[1..]);
      forall k
        ensures Find(PushAll(hash, t, es)[Slot(hash, k, |t|)], k) ==
          if Find(es, k).Some? then Find(es, k) else Find(t[Slot(hash, k, |t|)], k)
      {
        FindCons(e, es[1..], k);
        assert es == [e] + es[1..];
      }
    }
  }

  /** After pushing the first fresh node, the others are still fresh. */
  lemma FreshTail<K, V>(hash: K -> nat, t: seq<Chain<K, V>>, es: Chain<K, V>)
    requires |t| >= 1 && Placed(hash, t) && es != [] && Fresh(hash, t, es)
    ensures Fresh(hash, Push(hash, t, es[0]), es[1..])
  {
    PushKeeps(hash, t, es[0]);
    FindNone(es[1..], es[0].0);
  }

  /**
   * `expandMap` doubles the table length and keeps the size, and every key
   * has the same value as before; the expanded map is well formed.
   */
  lemma ExpandKeeps<K, V>(hash: K -> nat, m: Map<K, V>)
    requires WellFormed(hash, m)
    ensures |Expand(hash, m).table| == CAP_MULTIPLIER * |m.table|
    ensures Expand(hash, m).size == m.size
    ensures WellFormed(hash, Expand(hash, m))
    ensures forall k :: Get(hash, Expand(hash, m), k) == Get(hash, m, k)
  {
    ExpandWellFormed(hash, m);
    forall k
      ensures Get(hash, Expand(hash, m), k) == Get(hash, m, k)
    {
      ExpandGet(hash, m, k);
    }
  }

  /** The nodes of a well-formed table, pushed into an empty one, are fresh there. */
  lemma ExpandFresh<K, V>(hash: K -> nat, m: Map<K, V>)
    requires WellFormed(hash, m)
    ensures Fresh(hash, EmptyTable(CAP_MULTIPLIER * |m.table|), Flatten(m.table))
  {
    assert m.table[..|m.table|] == m.table;
    FlattenDistinct(hash, m.table, |m.table|);
  }

  /** The expanded table is well formed, with as many nodes as before. */
  lemma ExpandWellFormed<K, V>(hash: K -> nat, m: Map<K, V>)
    requires WellFormed(hash, m)
    ensures WellFormed(hash, Expand(hash, m))
  {
    var e0: seq<Chain<K, V>> := EmptyTable(CAP_MULTIPLIER * |m.table|);
    ExpandFresh(hash, m);
    EmptyFlatten(e0);
    PushAllKeeps(hash, e0, Flatten(m.table));
  }

  /** A key has the same value in the expanded table. */
  lemma ExpandGet<K, V>(hash: K -> nat, m: Map<K, V>, k: K)
    requires WellFormed(hash, m)
    ensures Get(hash, Expand(hash, m), k) == Get(hash, m, k)
  {
    var e0: seq<Chain<K, V>> := EmptyTable(CAP_MULTIPLIER * |m.table|);
    ExpandFresh(hash, m);
    PushAllKeeps(hash, e0, Flatten(m.table));
    LookupFlatten(hash, m.table, k);
  }

  /** An empty table has no nodes. */
  lemma {:induction false} EmptyFlatten<K, V>(t: seq<Chain<K, V>>)
    requires forall i :: 0 <= i < |t| ==> t[i] == []
    ensures Flatten(t) == []
    decreases |t|
  {
    if t != [] {
      EmptyFlatten(t[..|t| - 1]);
    }
  }

  // ---------------------------------------------------------------------
  // makeMap, mapSet, mapGet, mapRemove
  // ---------------------------------------------------------------------

  /** `makeMap(len)`: a valid map of `len` buckets, size 0, in which every key is absent. */
  lemma MakeMapEmpty<K, V>(hash: K -> nat, len: nat)
    requires len >= 1
    ensures Valid(hash, MakeMap<K, V>(len))
    ensures |MakeMap<K, V>(len).table| == len && Size(MakeMap<K, V>(len)) == 0
    ensures forall k :: Get(hash, MakeMap<K, V>(len), k).None?
  {
    EmptyFlatten(MakeMap<K, V>(len).table);
  }

  /**
   * In a well-formed map, the values `Get` returns are exactly the nodes
   * of the table, whose keys are distinct, and the size counts them.
   */
  lemma Contents<K, V>(hash: K -> nat, m: Map<K, V>, k: K, v: V)
    requires WellFormed(hash, m)
    ensures Distinct(Flatten(m.table)) && Size(m) == |Flatten(m.table)|
    ensures Get(hash, m, k) == Some(v) <==> (k, v) in Flatten(m.table)
  {
    assert m.table[..|m.table|] == m.table;
    FlattenDistinct(hash, m.table, |m.table|);
    LookupFlatten(hash, m.table, k);
    if Get(hash, m, k) == Some(v) {
      FindIn(Flatten(m.table), k);
    }
    if (k, v) in Flatten(m.table) {
      FindDistinct(Flatten(m.table), k, v);
    }
  }

  /** Storing in a well-formed map keeps it well formed, with the same table length and one more node when the key was new. */
  lemma StoreWellFormed<K, V>(hash: K -> nat, m: Map<K, V>, k: K, v: V)
    requires WellFormed(hash, m)
    ensures WellFormed(hash, Store(hash, m, k, v))
    ensures |Store(hash, m, k, v).table| == |m.table|
    ensures Store(hash, m, k, v).size == if Get(hash, m, k).Some? then m.size else m.size + 1
  {
    var i := Slot(hash, k, |m.table|);
    var c := m.table[i];
    if Find(c, k).Some? {
      var c' := Replace(c, k, v);
      ReplaceKeys(c, k, v);
      ReplaceDistinct(c, k, v);
      FlattenUpdate(m.table, i, c');
    } else {
      var c' := [(k, v)] + c;
      assert c'[1..] == c;
      forall p | 1 <= p < |c'|
        ensures c'[p] == c[p - 1]
      {
      }
      FlattenUpdate(m.table, i, c');
    }
  }

  /** After storing, the key has the new value and every other key keeps its own. */
  lemma StoreGet<K, V>(hash: K -> nat, m: Map<K, V>, k: K, v: V, k': K)
    requires |m.table| >= 1
    ensures Get(hash, Store(hash, m, k, v), k') == if k' == k then Some(v) else Get(hash, m, k')
  {
    var i := Slot(hash, k, |m.table|);
    var c := m.table[i];
    if Slot(hash, k', |m.table|) == i {
      if Find(c, k).Some? {
        FindReplace(c, k, v, k');
      } else {
        FindCons((k, v), c, k');
      }
    }
  }

  /**
   * `mapSet(m, k, v)`: the map stays valid (so `size <= tlen`), `k` gets
   * `v`, every other key keeps its value, the size grows by one exactly
   * when `k` was new, and the table doubles exactly when it was full.
   */
  lemma SetSpec<K, V>(hash: K -> nat, m: Map<K, V>, k: K, v: V)
    requires Valid(hash, m)
    ensures Valid(hash, Set(hash, m, k, v))
    ensures Get(hash, Set(hash, m, k, v), k) == Some(v)
    ensures forall k' :: k' != k ==> Get(hash, Set(hash, m, k, v), k') == Get(hash, m, k')
    ensures Size(Set(hash, m, k, v)) == if Get(hash, m, k).Some? then Size(m) else Size(m) + 1
    ensures |Set(hash, m, k, v).table| == if Size(m) >= |m.table| then CAP_MULTIPLIER * |m.table| else |m.table|
  {
    var m1 := if m.size >= |m.table| then Expand(hash, m) else m;
    if m.size >= |m.table| {
      ExpandKeeps(hash, m);
    }
    assert WellFormed(hash, m1) && m1.size < |m1.table|;
    assert forall x :: Get(hash, m1, x) == Get(hash, m, x);
    StoreWellFormed(hash, m1, k, v);
    forall k' ensures Get(hash, Set(hash, m, k, v), k') == if k' == k then Some(v) else Get(hash, m, k') {
      StoreGet(hash, m1, k, v, k');
    }
  }

  /**
   * `mapGet` finds the value of a key exactly when the map holds a node
   * with that key and value; `NULL` for a key it does not hold.
   */
  lemma GetSpec<K, V>(hash: K -> nat, m: Map<K, V>, k: K)
    requires Valid(hash, m)
    ensures Get(hash, m, k).Some? ==> (k, Get(hash, m, k).value) in Flatten(m.table)
    ensures Get(hash, m, k).None? <==> forall v :: (k, v) !in Flatten(m.table)
  {
    if Get(hash, m, k).Some? {
      Contents(hash, m, k, Get(hash, m, k).value);
    } else {
      forall v ensures (k, v) !in Flatten(m.table) {
        Contents(hash, m, k, v);
      }
    }
  }

  /** Removing from a well-formed map keeps it well formed with one node fewer when the key was there. */
  lemma RemoveWellFormed<K, V>(hash: K -> nat, m: Map<K, V>, k: K)
    requires WellFormed(hash, m)
    ensures WellFormed(hash, Remove(hash, m, k).0)
    ensures |Remove(hash, m, k).0.table| == |m.table|
    ensures Remove(hash, m, k).0.size == if Get(hash, m, k).Some? then m.size - 1 else m.size
  {
    var i := Slot(hash, k, |m.table|);
    var c := m.table[i];
    if Find(c, k).Some? {
      var c' := Delete(c, k);
      DeleteNodes(c, k);
      forall p | 0 <= p < |c'|
        ensures Slot(hash, c'[p].0, |m.table|) == i
      {
        assert c'[p] in c;
      }
      FlattenUpdate(m.table, i, c');
    }
  }

  /** After removing, the key is absent and every other key keeps its value. */
  lemma RemoveGet<K, V>(hash: K -> nat, m: Map<K, V>, k: K, k': K)
    requires WellFormed(hash, m)
    ensures Get(hash, Remove(hash, m, k).0, k') == if k' == k then None else Get(hash, m, k')
  {
    var i := Slot(hash, k, |m.table|);
    if Slot(hash, k', |m.table|) == i && Find(m.table[i], k).Some? {
      FindDelete(m.table[i], k, k');
    }
  }

  /**
   * `mapRemove(m, k)` returns whether `k` was present; afterwards `k` is
   * absent, every other key keeps its value, the size drops by one when
   * `k` was present, and nothing changes when it was not.
   */
  lemma RemoveSpec<K, V>(hash: K -> nat, m: Map<K, V>, k: K)
    requires Valid(hash, m)
    ensures Remove(hash, m, k).1 <==> Get(hash, m, k).Some?
    ensures Valid(hash, Remove(hash, m, k).0)
    ensures Get(hash, Remove(hash, m, k).0, k).None?
    ensures forall k' :: k' != k ==> Get(hash, Remove(hash, m, k).0, k') == Get(hash, m, k')
    ensures Size(Remove(hash, m, k).0) == if Remove(hash, m, k).1 then Size(m) - 1 else Size(m)
    ensures !Remove(hash, m, k).1 ==> Remove(hash, m, k).0 == m
  {
    RemoveWellFormed(hash, m, k);
    forall k' ensures Get(hash, Remove(hash, m, k).0, k') == if k' == k then None else Get(hash, m, k') {
      RemoveGet(hash, m, k, k');
    }
  }
}

=== FILE: history.dfy ===
/**
 * The score history of the Wordle game (`history.c`): ten counters kept in
 * `scores.txt`, one per number of guesses from 1 to 9 and a last one for
 * 10 or more. After a win the file is read (all zeros when it is
 * missing), the counter of the game is incremented, the table is printed
 * and the file is written back.
 */
module History {
  import opened Common
  import opened CScan

  /** The number of counters; the last one collects every score from 10 up. */
  const UPPER_SCORE: nat := 10

  /** Ten counters, each a C `int`. */
  predicate ValidScores(scores: seq<int>) {
    |scores| == UPPER_SCORE && forall i :: 0 <= i < |scores| ==> InInt(scores[i])
  }

  /** The counters of a missing file. */
  function NoScores(): (scores: seq<int>)
    ensures ValidScores(scores) && forall i :: 0 <= i < UPPER_SCORE ==> scores[i] == 0
  {
    seq(UPPER_SCORE, _ => 0)
  }

  /** The counter a game won in `guesses` guesses belongs to. */
  function Bucket(guesses: nat): nat
    requires guesses >= 1
  {
    if guesses >= UPPER_SCORE then UPPER_SCORE - 1 else guesses - 1
  }

  /**
   * The increment of `updateScore`. One more game is recorded, in the
   * counter for its score (1 to 9 guesses in their own counter, 10 or more
   * in the last); no other counter changes.
   */
  function Update(scores: seq<int>, guesses: nat): (r: seq<int>)
    requires |scores| == UPPER_SCORE && guesses >= 1
    ensures |r| == UPPER_SCORE
    ensures Total(r) == Total(scores) + 1
    ensures 1 <= guesses < UPPER_SCORE ==> r[guesses - 1] == scores[guesses - 1] + 1
    ensures guesses >= UPPER_SCORE ==> r[UPPER_SCORE - 1] == scores[UPPER_SCORE - 1] + 1
    ensures forall i :: 0 <= i < UPPER_SCORE && i != Bucket(guesses) ==> r[i] == scores[i]
  {
    var b := Bucket(guesses);
    TotalUpdate(scores, b, scores[b] + 1);
    scores[b := scores[b] + 1]
  }

  /** The sum of the counters. */
  function Total(scores: seq<int>): int {
    if scores == [] then 0 else Total(scores[..|scores| - 1]) + scores[|scores| - 1]
  }

  /** Changing one counter changes the sum by the difference. */
  lemma {:induction false} TotalUpdate(scores: seq<int>, b: nat, v: int)
    requires b < |scores|
    ensures Total(scores[b := v]) == Total(scores) - scores[b] + v
    decreases |scores|
  {
    var last := |scores| - 1;
    assert scores[b := v][..last] == if b == last then scores[..last] else scores[..last][b := v];
    if b < last {
      TotalUpdate(scores[..last], b, v);
    }
  }

  /** The counters after a run of games, starting from a missing file. */
  function Record(games: seq<nat>): (scores: seq<int>)
    requires forall k :: 0 <= k < |games| ==> games[k] >= 1
    ensures |scores| == UPPER_SCORE
  {
    if games == [] then NoScores() else Update(Record(games[..|games| - 1]), games[|games| - 1])
  }

  /** The number of games of a run that fall in counter `b`. */
  function Won(games: seq<nat>, b: nat): nat
    requires forall k :: 0 <= k < |games| ==> games[k] >= 1
  {
    if games == [] then 0
    else Won(games[..|games| - 1], b) + (if Bucket(games[|games| - 1]) == b then 1 else 0)
  }

  /** Each counter holds the number of games won with its score. */
  lemma {:induction false} RecordCounts(games: seq<nat>, b: nat)
    requires forall k :: 0 <= k < |games| ==> games[k] >= 1
    requires b < UPPER_SCORE
    ensures Record(games)[b] == Won(games, b)
    decreases |games|
  {
    if games != [] {
      RecordCounts(games[..|games| - 1], b);
    }
  }

  // ---------------------------------------------------------------------
  // The file
  // ---------------------------------------------------------------------

  /** The file `updateScore` writes: the counters separated by spaces, then a newline. */
  function FileText(scores: seq<int>): string
    requires |scores| >= 1
  {
    if |scores| == 1 then IntText(scores[0]) + "\n" else IntText(scores[0]) + (" " + FileText(scores[1..]))
  }

  /** `n` conversions `%d` in a row; `None` when one of them fails or reads a value outside `int`. */
  function ReadInts(text: string, n: nat): (r: Option<seq<int>>)
    ensures r.Some? ==> |r.value| == n && forall i :: 0 <= i < n ==> InInt(r.value[i])
    decreases n
  {
    if n == 0 then Some([])
    else
      match ScanInt(text)
      case None => None
      case Some((v, rest)) =>
        if !InInt(v) then None
        else
          match ReadInts(rest, n - 1)
          case None => None
          case Some(vs) => Some([v] + vs)
  }

  /** The counters read from `scores.txt`, zeros when there is no such file. */
  function ReadScores(file: Option<string>): (r: Option<seq<int>>)
    ensures r.Some? ==> ValidScores(r.value)
    ensures file.None? ==> r == Some(NoScores())
  {
    match file
    case None => Some(NoScores())
    case Some(text) => ReadInts(text, UPPER_SCORE)
  }

  /** Reading the written counters back gives the counters. */
  lemma {:induction false} ReadFileText(scores: seq<int>)
    requires |scores| >= 1 && forall i :: 0 <= i < |scores| ==> InInt(scores[i])
    ensures ReadInts(FileText(scores), |scores|) == Some(scores)
    decreases |scores|
  {
    if |scores| == 1 {
      ReadFileTextOne(scores);
    } else {
      assert forall i :: 0 <= i < |scores| - 1 ==> scores[1..][i] == scores[i + 1];
      ReadFileText(scores[1..]);
      ReadFileTextCons(scores);
    }
  }

  /** A single counter is written with a newline and read back. */
  lemma ReadFileTextOne(scores: seq<int>)
    requires |scores| == 1 && InInt(scores[0])
    ensures ReadInts(FileText(scores), 1) == Some(scores)
  {
    ScanIntText(scores[0], "\n");
    ReadIntsCons(IntText(scores[0]) + "\n", scores[0], "\n", [], 0);
    assert [scores[0]] + [] == scores;
  }

  /** A counter written in front of the others is read in front of them. */
  lemma ReadFileTextCons(scores: seq<int>)
    requires |scores| >= 2 && InInt(scores[0])
    requires ReadInts(FileText(scores[1..]), |scores[1..]|) == Some(scores[1..])
    ensures ReadInts(FileText(scores), |scores|) == Some(scores)
  {
    FileTextFirst(scores);
    ReadStep(FileText(scores), |scores|, scores[0], FileText(scores[1..]), scores[1..]);
    assert [scores[0]] + scores[1..] == scores;
  }

  /** The file of two or more counters is the first one, a space, and the file of the others. */
  lemma FileTextFirst(scores: seq<int>)
    requires |scores| >= 2
    ensures FileText(scores) == IntText(scores[0]) + (" " + FileText(scores[1..]))
  {
  }

  /** A counter written before a space and the rest of the file is read first. */
  lemma ReadStep(text: string, n: nat, v: int, tail: string, vs: seq<int>)
    requires text == IntText(v) + (" " + tail) && n == |vs| + 1
    requires InInt(v) && ReadInts(tail, |vs|) == Some(vs)
    ensures ReadInts(text, n) == Some([v] + vs)
  {
    ScanIntText(v, " " + tail);
    ReadIntsAfterSpace(tail, |vs|);
    ReadIntsCons(text, v, " " + tail, vs, |vs|);
  }

  /** A first conversion that succeeds within range puts its value in front of the others. */
  lemma ReadIntsCons(text: string, v: int, after: string, vs: seq<int>, m: nat)
    requires ScanInt(text) == Some((v, after)) && InInt(v)
    requires ReadInts(after, m) == Some(vs)
    ensures ReadInts(text, m + 1) == Some([v] + vs)
  {
  }

  /** A leading space does not change what the conversions read. */
  lemma ReadIntsAfterSpace(text: string, n: nat)
    ensures ReadInts(" " + text, n) == ReadInts(text, n)
  {
    SkipSpaceThenInt(' ', text);
  }

  /** The file written is read back as the same counters. */
  lemma FileRoundTrip(scores: seq<int>)
    requires ValidScores(scores)
    ensures ReadScores(Some(FileText(scores))) == Some(scores)
  {
    ReadFileText(scores);
  }

  // ---------------------------------------------------------------------
  // The printed table
  // ---------------------------------------------------------------------

  /** `s` right-aligned in a field of `width` characters, as `%Nd` pads. */
  function PadLeft(s: string, width: nat): (r: string)
    ensures |r| == if |s| < width then width else |s|
    ensures r[|r| - |s|..] == s && forall i :: 0 <= i < |r| - |s| ==> r[i] == ' '
  {
    if |s| < width then seq(width - |s|, _ => ' ') + s else s
  }

  /** The mark after the score: `+` on the last line, a space elsewhere. */
  function Mark(i: nat): char {
    if i == UPPER_SCORE - 1 then '+' else ' '
  }

  /** Line `i` of the table, `%2d%c : %4d`. */
  function ReportLine(i: nat, v: int): string {
    PadLeft(IntText(i + 1), 2) + ([Mark(i)] + (" : " + PadLeft(IntText(v), 4)))
  }

  /** The ten lines printed. */
  function Report(scores: seq<int>): (lines: seq<string>)
    requires |scores| == UPPER_SCORE
    ensures |lines| == UPPER_SCORE
  {
    seq(UPPER_SCORE, i requires 0 <= i < UPPER_SCORE => ReportLine(i, scores[i]))
  }

  /** Leading spaces do not change what `%d` reads. */
  lemma {:induction false} ScanIntAfterSpaces(sp: string, s: string)
    requires forall i :: 0 <= i < |sp| ==> sp[i] == ' '
    ensures ScanInt(sp + s) == ScanInt(s)
    decreases |sp|
  {
    if sp == [] {
      assert sp + s == s;
    } else {
      assert sp + s == [sp[0]] + (sp[1..] + s);
      SkipSpaceThenInt(sp[0], sp[1..] + s);
      ScanIntAfterSpaces(sp[1..], s);
    }
  }

  /** A score of one or two digits fills the two-character field exactly. */
  lemma ScoreWidth(n: nat)
    requires 1 <= n <= UPPER_SCORE
    ensures |PadLeft(IntText(n), 2)| == 2
  {
    if n >= 10 {
      assert NatToDecimal(n) == NatToDecimal(n / 10) + [('0' as int + n % 10) as char];
    }
  }

  /** `%d` reads a padded number back, stopping at what follows it. */
  lemma PaddedReads(v: int, width: nat, rest: string)
    requires rest == [] || !IsDigit(rest[0])
    ensures ScanInt(PadLeft(IntText(v), width) + rest) == Some((v, rest))
  {
    var num := IntText(v);
    var padded := PadLeft(num, width);
    var sp := padded[..|padded| - |num|];
    assert padded == sp + num;
    assert padded + rest == sp + (num + rest);
    ScanIntText(v, rest);
    ScanIntAfterSpaces(sp, num + rest);
  }

  /**
   * Line `i` of the table reads as the score `i + 1`, then the mark (`+`
   * exactly on the last line), then ` : ` and the counter.
   */
  lemma ReportLineReads(i: nat, v: int)
    requires i < UPPER_SCORE
    ensures var line := ReportLine(i, v);
      |line| >= 6 && line[2] == (if i == UPPER_SCORE - 1 then '+' else ' ')
      && ScanInt(line) == Some((i + 1, line[2..]))
      && line[3..6] == " : "
      && ScanInt(line[6..]) == Some((v, []))
  {
    ReportLineScore(i, v);
    ReportLineCount(i, v);
  }

  /** The score and the mark at the head of a line of the table. */
  lemma ReportLineScore(i: nat, v: int)
    requires i < UPPER_SCORE
    ensures var line := ReportLine(i, v);
      |line| >= 6 && line[2] == Mark(i) && ScanInt(line) == Some((i + 1, line[2..]))
  {
    HeadWidth(i);
    ScoreReads(i, [Mark(i)] + (" : " + PadLeft(IntText(v), 4)));
    ReadBeforeRest(ReportLine(i, v), PadLeft(IntText(i + 1), 2), [Mark(i)] + (" : " + PadLeft(IntText(v), 4)), i + 1);
  }

  /** The separator and the counter at the end of a line of the table. */
  lemma ReportLineCount(i: nat, v: int)
    requires i < UPPER_SCORE
    ensures var line := ReportLine(i, v);
      |line| >= 6 && line[3..6] == " : " && ScanInt(line[6..]) == Some((v, []))
  {
    HeadWidth(i);
    CountReads(v);
    CountAfterSeparator(PadLeft(IntText(i + 1), 2), Mark(i), PadLeft(IntText(v), 4), v);
  }

  /** The score field of a line is two characters wide. */
  lemma HeadWidth(i: nat)
    requires i < UPPER_SCORE
    ensures |PadLeft(IntText(i + 1), 2)| == 2
  {
    ScoreWidth(i + 1);
  }

  /** The score field reads as the score, stopping at the mark. */
  lemma ScoreReads(i: nat, tail: string)
    requires i < UPPER_SCORE && |tail| >= 1 && (tail[0] == ' ' || tail[0] == '+')
    ensures ScanInt(PadLeft(IntText(i + 1), 2) + tail) == Some((i + 1, tail))
  {
    PaddedReads(i + 1, 2, tail);
  }

  /** The counter field alone reads as the counter. */
  lemma CountReads(v: int)
    ensures ScanInt(PadLeft(IntText(v), 4)) == Some((v, []))
  {
    assert PadLeft(IntText(v), 4) + [] == PadLeft(IntText(v), 4);
    PaddedReads(v, 4, []);
  }

  /** Whatever the two-character head and the mark, the counter is read from position 6. */
  lemma CountAfterSeparator(head: string, mark: char, value: string, v: int)
    requires |head| == 2 && ScanInt(value) == Some((v, []))
    ensures var line := head + ([mark] + (" : " + value));
      |line| >= 6 && line[3..6] == " : " && ScanInt(line[6..]) == Some((v, []))
  {
    Regroup(head, [mark], " : ", value);
    DropPrefix(head + [mark] + " : ", value);
  }

  /** What `%d` reads from the front of `head + tail`, seen from the whole line. */
  lemma ReadBeforeRest(line: string, head: string, tail: string, n: int)
    requires line == head + tail && ScanInt(head + tail) == Some((n, tail))
    requires |tail| >= 1
    ensures ScanInt(line) == Some((n, line[|head|..])) && line[|head|] == tail[0]
  {
    assert line[|head|..] == tail;
  }

  lemma Regroup<T>(a: seq<T>, b: seq<T>, c: seq<T>, d: seq<T>)
    ensures a + (b + (c + d)) == a + b + c + d
  {
  }

  lemma DropPrefix<T>(a: seq<T>, b: seq<T>)
    ensures (a + b)[|a|..] == b
  {
  }

  // ---------------------------------------------------------------------
  // updateScore
  // ---------------------------------------------------------------------

  /** What `updateScore` does with the file it finds. */
  datatype Outcome =
    | Updated(report: seq<string>, file: string)
    | Unreadable
    | Overflow

  /**
   * `updateScore`: read the counters (zeros when the file is missing),
   * count the game, print the table and rewrite the file. A file whose
   * counters cannot be read leaves them indeterminate in C and a counter
   * already at `INT_MAX` would overflow; both are reported here instead.
   */
  function UpdateScore(file: Option<string>, guesses: nat): (r: Outcome)
    requires guesses >= 1
    ensures file.None? ==> r.Updated?
    ensures r.Updated? ==> ReadScores(file).Some?
    ensures r.Updated? ==>
      var scores := ReadScores(file).value;
      ReadScores(Some(r.file)) == Some(Update(scores, guesses)) && r.report == Report(Update(scores, guesses))
  {
    match ReadScores(file)
    case None => Unreadable
    case Some(scores) =>
      if scores[Bucket(guesses)] == INT_MAX then Overflow
      else
        var updated := Update(scores, guesses);
        FileRoundTrip(updated);
        Updated(Report(updated), FileText(updated))
  }
}

=== FILE: input_line.dfy ===
/**
 * `readLine` of the employee database: one line of a stream, of any
 * length, in a buffer that doubles as it fills. The stream is its whole
 * text and a position in it.
 */
module InputLine {
  import opened Common

  /** Where the next line starts after the line from `pos`: past its newline, or at the end. */
  function NextLine(input: string, pos: nat): (next: nat)
    requires pos <= |input|
    ensures pos <= next <= |input|
  {
    var k := LineEnd(input, pos);
    if k < |input| then k + 1 else k
  }

  /**
   * The state of `readLine` after reading up to `i`: `line` holds the
   * characters since `pos`, none of them a newline, in a buffer of
   * `capacity` characters, a power of two.
   */
  predicate Reading(input: string, pos: nat, i: nat, line: string, capacity: nat) {
    && pos <= i <= |input|
    && line == input[pos..i]
    && (forall j :: pos <= j < i ==> input[j] != '\n')
    && 1 <= capacity && |line| <= capacity && (capacity == 1 || capacity < 2 * |line|)
  }

  /** One character other than a newline is appended, doubling the buffer when it is full. */
  lemma ReadingStep(input: string, pos: nat, i: nat, line: string, capacity: nat, capacity': nat)
    requires Reading(input, pos, i, line, capacity) && i < |input| && input[i] != '\n'
    requires capacity' == if |line| >= capacity then 2 * capacity else capacity
    ensures Reading(input, pos, i + 1, line + [input[i]], capacity')
  {
    SliceSnoc(input, pos, i);
  }

  /**
   * `readLine`: `None` at the end of the input; otherwise the characters
   * up to the next newline or the end, without the newline, and the
   * position after them (past the newline when there is one). An empty
   * line gives the empty string.
   */
  method ReadLine(input: string, pos: nat) returns (line: Option<string>, next: nat)
    requires pos <= |input|
    ensures line.None? <==> pos == |input|
    ensures line.None? ==> next == pos
    ensures line.Some? ==> '\n' !in line.value && pos < next <= |input|
    ensures line.Some? ==> (next <= |input| && input[pos..next] == line.value + "\n")
                           || (next == |input| && input[pos..] == line.value)
    ensures line.Some? ==> line.value == LinesFrom(input, pos)[0] && next == NextLine(input, pos)
  {
    if pos == |input| {
      return None, pos;
    }
    var buffer: string := [];
    var capacity: nat := 1;
    var i := pos;
    while i < |input| && input[i] != '\n'
      invariant Reading(input, pos, i, buffer, capacity)
      decreases |input| - i
    {
      var capacity' := if |buffer| >= capacity then 2 * capacity else capacity;
      ReadingStep(input, pos, i, buffer, capacity, capacity');
      capacity := capacity';
      buffer := buffer + [input[i]];
      i := i + 1;
    }
    LineEndIs(input, pos, i);
    if i < |input| {
      SliceSnoc(input, pos, i);
      next := i + 1;
    } else {
      next := i;
    }
    line := Some(buffer);
  }

  // ---------------------------------------------------------------------
  // Successive lines
  // ---------------------------------------------------------------------

  /** The lines that successive calls return from `pos` on, until `readLine` gives `None`. */
  function LinesFrom(input: string, pos: nat): (ls: seq<string>)
    requires pos <= |input|
    decreases |input| - pos
  {
    if pos == |input| then []
    else [input[pos..LineEnd(input, pos)]] + LinesFrom(input, NextLine(input, pos))
  }

  /** All the lines of a stream. */
  function Lines(input: string): seq<string> {
    LinesFrom(input, 0)
  }

  /** Each line followed by a newline. */
  function Unlines(ls: seq<string>): string {
    if ls == [] then [] else ls[0] + "\n" + Unlines(ls[1..])
  }

  /** The text from `pos`, with a newline added when it does not already end with one. */
  function Terminated(input: string, pos: nat): string
    requires pos <= |input|
  {
    if pos == |input| || input[|input| - 1] == '\n' then input[pos..] else input[pos..] + "\n"
  }

  /** The line from `pos` and its newline, then the rest. */
  lemma TerminatedStep(input: string, pos: nat)
    requires pos < |input|
    ensures Terminated(input, pos) == input[pos..LineEnd(input, pos)] + "\n" + Terminated(input, NextLine(input, pos))
  {
    var k := LineEnd(input, pos);
    if k < |input| {
      TerminatedAtNewline(input, pos, k);
    } else {
      assert input[|input| - 1] != '\n' by {
        LineEndFirst(input, pos, |input| - 1);
      }
      TerminatedLastLine(input, pos);
    }
  }

  /** A line ended by a newline at `k`, then the text after it. */
  lemma TerminatedAtNewline(input: string, pos: nat, k: nat)
    requires pos <= k < |input| && input[k] == '\n'
    ensures Terminated(input, pos) == input[pos..k] + "\n" + Terminated(input, k + 1)
  {
    var line, rest := input[pos..k], input[k + 1..];
    assert input[pos..] == line + "\n" + rest;
    if input[|input| - 1] != '\n' {
      assert (line + "\n" + rest) + "\n" == line + "\n" + (rest + "\n");
    }
  }

  /** A last line without a newline gets one, and nothing follows it. */
  lemma TerminatedLastLine(input: string, pos: nat)
    requires pos < |input| && input[|input| - 1] != '\n'
    ensures Terminated(input, pos) == input[pos..|input|] + "\n" + Terminated(input, |input|)
  {
    assert input[pos..|input|] == input[pos..];
  }

  /** The lines, each with its newline back, give the text again (with a newline added when the last line lacked one). */
  lemma {:induction false} LinesFromUnlines(input: string, pos: nat)
    requires pos <= |input|
    ensures Unlines(LinesFrom(input, pos)) == Terminated(input, pos)
    ensures NoNewlines(LinesFrom(input, pos))
    decreases |input| - pos
  {
    if pos < |input| {
      var k := LineEnd(input, pos);
      LinesFromUnlines(input, NextLine(input, pos));
      TerminatedStep(input, pos);
      var ls := LinesFrom(input, pos);
      assert ls[1..] == LinesFrom(input, NextLine(input, pos));
      assert '\n' !in ls[0] by {
        forall j | pos <= j < k
          ensures input[j] != '\n'
        {
          LineEndFirst(input, pos, j);
        }
      }
    }
  }

  /** Reading back the lines of `Unlines(ls)` gives `ls`. */
  lemma {:induction false} LinesOfUnlines(ls: seq<string>)
    requires NoNewlines(ls)
    ensures Lines(Unlines(ls)) == ls
    decreases |ls|
  {
    if ls != [] {
      var text := Unlines(ls);
      var l := ls[0];
      var rest := Unlines(ls[1..]);
      assert text == l + "\n" + rest;
      LineEndIs(text, 0, |l|);
      assert text[0..|l|] == l;
      assert NextLine(text, 0) == |l| + 1;
      LinesOfUnlines(ls[1..]);
      assert text[|l| + 1..] == rest;
      LinesShift(text, |l| + 1, 0);
    }
  }

  /** The lines of a text from `d + pos` are the lines of its tail from `d`, from `pos`. */
  lemma {:induction false} LinesShift(text: string, d: nat, pos: nat)
    requires d + pos <= |text|
    ensures LinesFrom(text, d + pos) == LinesFrom(text[d..], pos)
    decreases |text| - d - pos
  {
    if d + pos < |text| {
      var rest := text[d..];
      var next := NextLine(rest, pos);
      LineShift(text, d, pos);
      LinesShift(text, d, next);
      LinesStep(text, d + pos);
      LinesStep(rest, pos);
    }
  }

  /** The lines from `pos`: the one there, then those after it. */
  lemma LinesStep(input: string, pos: nat)
    requires pos < |input|
    ensures LinesFrom(input, pos) == [input[pos..LineEnd(input, pos)]] + LinesFrom(input, NextLine(input, pos))
  {
  }

  /** The line from `pos` and where the next one starts move with the text. */
  lemma LineShift(text: string, d: nat, pos: nat)
    requires d + pos < |text|
    ensures LineEnd(text, d + pos) == d + LineEnd(text[d..], pos)
    ensures text[d + pos..LineEnd(text, d + pos)] == text[d..][pos..LineEnd(text[d..], pos)]
    ensures NextLine(text, d + pos) == d + NextLine(text[d..], pos)
  {
    var rest := text[d..];
    var k := LineEnd(rest, pos);
    forall j | d + pos <= j < d + k
      ensures text[j] != '\n'
    {
      LineEndFirst(rest, pos, j - d);
    }
    LineEndIs(text, d + pos, d + k);
  }
}

=== FILE: javatext.dfy ===
/**
 * The two Java library string operations the Java programs depend on:
 * `String.split(" ")` and `Integer.parseInt`.
 */
module JavaText {
  import opened Common
  import CScan

  /** All fields of `s` between single spaces, empty ones included ("a  b" has three). */
  function Fields(s: string): (fs: seq<string>)
    ensures |fs| >= 1
    ensures forall i, j :: 0 <= i < |fs| && 0 <= j < |fs[i]| ==> fs[i][j] != ' '
  {
    if |s| == 0 then [""]
    else if s[0] == ' ' then [""] + Fields(s[1..])
    else
      var tail := Fields(s[1..]);
      [[s[0]] + tail[0]] + tail[1..]
  }

  /** The fields joined back with single spaces. */
  function JoinSpaces(fs: seq<string>): string {
    if |fs| == 0 then "" else if |fs| == 1 then fs[0] else fs[0] + " " + JoinSpaces(fs[1..])
  }

  /** Joining newline-free strings with spaces adds no newline. */
  lemma {:induction false} JoinNoNewline(ws: seq<string>)
    requires NoNewlines(ws)
    ensures '\n' !in JoinSpaces(ws)
    decreases |ws|
  {
    if |ws| > 1 {
      JoinNoNewline(ws[1..]);
      assert JoinSpaces(ws) == ws[0] + " " + JoinSpaces(ws[1..]);
    }
  }

  /** Joining the fields with spaces gives back the string they were cut from. */
  lemma {:induction false} FieldsRoundTrip(s: string)
    ensures JoinSpaces(Fields(s)) == s
  {
    if |s| > 0 {
      FieldsRoundTrip(s[1..]);
      var tail := Fields(s[1..]);
      if s[0] == ' ' {
        assert Fields(s) == [""] + tail;
        assert Fields(s)[1..] == tail;
      } else {
        if |tail| == 1 {
        } else {
          assert Fields(s)[1..] == tail[1..];
          assert JoinSpaces(tail) == tail[0] + " " + JoinSpaces(tail[1..]);
        }
      }
    }
  }

  /** `fs` without its trailing empty strings. */
  function DropTrailingEmpty(fs: seq<string>): (r: seq<string>)
    ensures |r| <= |fs| && r == fs[..|r|]
    ensures forall i :: |r| <= i < |fs| ==> fs[i] == ""
    ensures r == [] || r[|r| - 1] != ""
  {
    if |fs| == 0 then fs
    else if fs[|fs| - 1] == "" then DropTrailingEmpty(fs[..|fs| - 1])
    else fs
  }

  /**
   * `s.split(" ")`: the fields with trailing empty ones removed, except that
   * a string without any space splits into itself alone (so "" gives [""]
   * and " " gives no field at all).
   */
  function Split(s: string): (fs: seq<string>)
    ensures ' ' !in s ==> fs == [s]
    ensures ' ' in s ==> fs == DropTrailingEmpty(Fields(s))
  {
    if ' ' !in s then
      NoSpaceOneField(s);
      [s]
    else DropTrailingEmpty(Fields(s))
  }

  /** A string without spaces is its own only field. */
  lemma {:induction false} NoSpaceOneField(s: string)
    requires ' ' !in s
    ensures Fields(s) == [s]
  {
    if |s| > 0 {
      assert ' ' !in s[1..] by {
        forall i | 0 <= i < |s[1..]| ensures s[1..][i] != ' ' {
          assert s[1..][i] == s[i + 1];
        }
      }
      NoSpaceOneField(s[1..]);
      assert [s[0]] + s[1..] == s;
    }
  }

  /** Splitting text whose words are non-empty and space-free and joined by single spaces gives the words back. */
  lemma {:induction false} SplitJoined(ws: seq<string>)
    requires |ws| >= 1
    requires forall i :: 0 <= i < |ws| ==> |ws[i]| >= 1 && ' ' !in ws[i]
    ensures Split(JoinSpaces(ws)) == ws
    decreases |ws|
  {
    FieldsOfJoin(ws);
    if |ws| == 1 {
    } else {
      assert ' ' in JoinSpaces(ws) by {
        assert JoinSpaces(ws)[|ws[0]|] == ' ';
      }
    }
  }

  /** The fields of space-joined, space-free words are those words. */
  lemma {:induction false} FieldsOfJoin(ws: seq<string>)
    requires |ws| >= 1
    requires forall i :: 0 <= i < |ws| ==> ' ' !in ws[i]
    ensures Fields(JoinSpaces(ws)) == ws
    decreases |ws|
  {
    if |ws| == 1 {
      NoSpaceOneField(ws[0]);
    } else {
      FieldsOfJoin(ws[1..]);
      FieldsAppend(ws[0], JoinSpaces(ws[1..]));
      assert [ws[0]] + ws[1..] == ws;
    }
  }

  /** A space-free word followed by a space starts a new field after it. */
  lemma {:induction false} FieldsAppend(w: string, rest: string)
    requires ' ' !in w
    ensures Fields(w + " " + rest) == [w] + Fields(rest)
    decreases |w|
  {
    if |w| == 0 {
      assert w + " " + rest == [' '] + rest;
      assert (w + " " + rest)[1..] == rest;
    } else {
      assert ' ' !in w[1..] by {
        forall i | 0 <= i < |w[1..]| ensures w[1..][i] != ' ' {
          assert w[1..][i] == w[i + 1];
        }
      }
      FieldsAppend(w[1..], rest);
      assert (w + " " + rest)[1..] == w[1..] + " " + rest;
      assert [w[0]] + w[1..] == w;
    }
  }

  /**
   * `Integer.parseInt`: an optional `+` or `-`, then one or more decimal
   * digits, with a value in the `int` range; anything else raises
   * `NumberFormatException`, here `None`.
   */
  function ParseInt(s: string): (res: Option<int>)
    ensures res.Some? ==> InInt(res.value)
    ensures res.Some? ==> |s| >= 1 && forall i :: 0 < i < |s| ==> IsDigit(s[i])
  {
    if |s| == 0 then None
    else
      var neg := s[0] == '-';
      var digits := if s[0] == '-' || s[0] == '+' then s[1..] else s;
      if |digits| == 0 || exists i :: 0 <= i < |digits| && !IsDigit(digits[i]) then None
      else
        var v: int := DecimalValue(digits);
        var x := if neg then -v else v;
        if InInt(x) then Some(x) else None
  }

  /** `parseInt` reads back the decimal text of every `int`. */
  lemma ParseIntText(v: int)
    requires InInt(v)
    ensures ParseInt(CScan.IntText(v)) == Some(v)
  {
    DecimalRoundTrip(Abs(v));
    var digits := NatToDecimal(Abs(v));
    if v < 0 {
      assert CScan.IntText(v)[1..] == digits;
    }
  }
}

=== FILE: lexicon.dfy ===
/**
 * The word list of the Wordle game (`lexicon.c` with the `readLine` of
 * `io.c`): five-letter words read from a file, the secret word chosen from
 * a seed, the list sorted with merge sort and checked for duplicates, and
 * guesses looked up with binary search.
 */
module Lexicon {
  import opened Common

  /** Length of every word in the list. */
  const WORD_LEN: nat := 5
  /** Most words a list may hold. */
  const WORD_LIMIT: nat := 100000
  /** The prime multiplier of `chooseWord`. */
  const MULTIPLIER: int := 4611686018453

  /** Each element is not below the one before it. */
  predicate Sorted(s: seq<string>) {
    forall i :: 0 < i < |s| ==> !Less(s[i], s[i - 1])
  }

  /** No element is below an earlier one. */
  predicate Ordered(s: seq<string>) {
    forall i, j :: 0 <= i < j < |s| ==> !Less(s[j], s[i])
  }

  /** Sorted neighbours make the whole list ordered. */
  lemma {:induction false} SortedOrdered(s: seq<string>)
    requires Sorted(s)
    ensures Ordered(s)
    decreases |s|
  {
    if |s| > 1 {
      var t := s[1..];
      SortedOrdered(t);
      forall i, j | 0 <= i < j < |s| ensures !Less(s[j], s[i]) {
        if i == 0 && j > 1 {
          assert !Less(t[j - 1], t[0]) && !Less(s[1], s[0]);
          if Less(s[j], s[0]) {
            LessTotal(s[j], s[1]);
            if Less(s[j], s[1]) {
            } else if s[j] == s[1] {
            } else {
              LessTransitive(s[1], s[j], s[0]);
            }
          }
        } else if i > 0 {
          assert t[j - 1] == s[j] && t[i - 1] == s[i];
        }
      }
    }
  }

  // ---------------------------------------------------------------------
  // Merge sort
  // ---------------------------------------------------------------------

  /**
   * `merge`: repeatedly take the head of `left` when `right` is used up or
   * when it is strictly below the head of `right`; otherwise take the head
   * of `right`, so of two equal heads the right one goes first.
   */
  function Merge(left: seq<string>, right: seq<string>): (m: seq<string>)
    ensures multiset(m) == multiset(left) + multiset(right)
    ensures m != [] ==> (left != [] && m[0] == left[0]) || (right != [] && m[0] == right[0])
    ensures left != [] && right != [] && !Less(left[0], right[0]) ==> m[0] == right[0]
    decreases |left| + |right|
  {
    if right == [] then left
    else if left != [] && Less(left[0], right[0]) then
      assert left == [left[0]] + left[1..];
      [left[0]] + Merge(left[1..], right)
    else
      assert right == [right[0]] + right[1..];
      [right[0]] + Merge(left, right[1..])
  }

  /** Merging two sorted lists gives a sorted list. */
  lemma {:induction false} MergeSorted(left: seq<string>, right: seq<string>)
    requires Sorted(left) && Sorted(right)
    ensures Sorted(Merge(left, right))
    decreases |left| + |right|
  {
    if right == [] {
    } else if left != [] && Less(left[0], right[0]) {
      var rest := Merge(left[1..], right);
      MergeSorted(left[1..], right);
      var m := [left[0]] + rest;
      forall i | 0 < i < |m| ensures !Less(m[i], m[i - 1]) {
        if i == 1 {
          if |left| > 1 && rest[0] == left[1] {
          } else {
            assert rest[0] == right[0];
            LessTotal(left[0], right[0]);
          }
        } else {
          assert m[i] == rest[i - 1] && m[i - 1] == rest[i - 2];
        }
      }
    } else {
      var rest := Merge(left, right[1..]);
      MergeSorted(left, right[1..]);
      var m := [right[0]] + rest;
      forall i | 0 < i < |m| ensures !Less(m[i], m[i - 1]) {
        if i == 1 {
          if |right| > 1 && rest[0] == right[1] {
          } else {
            assert left != [] && rest[0] == left[0];
          }
        } else {
          assert m[i] == rest[i - 1] && m[i - 1] == rest[i - 2];
        }
      }
    }
  }

  /** `mergeSort`: sort both halves, then merge them. The result is a sorted permutation of the input. */
  function MergeSort(s: seq<string>): (r: seq<string>)
    ensures multiset(r) == multiset(s) && Sorted(r)
    decreases |s|
  {
    if |s| < 2 then s
    else
      var mid := |s| / 2;
      assert s == s[..mid] + s[mid..];
      var left, right := MergeSort(s[..mid]), MergeSort(s[mid..]);
      MergeSorted(left, right);
      Merge(left, right)
  }

  // ---------------------------------------------------------------------
  // Duplicates
  // ---------------------------------------------------------------------

  /** No word occurs twice. */
  predicate Distinct(s: seq<string>) {
    forall i, j :: 0 <= i < j < |s| ==> s[i] != s[j]
  }

  /** A list is free of duplicates exactly when no element occurs twice in its multiset. */
  lemma {:induction false} DistinctCounts(s: seq<string>)
    ensures Distinct(s) <==> forall x :: multiset(s)[x] <= 1
    decreases |s|
  {
    if s != [] {
      var t := s[1..];
      DistinctCounts(t);
      assert s == [s[0]] + t;
      assert multiset(s) == multiset{s[0]} + multiset(t);
      if Distinct(s) {
        assert forall k :: 0 <= k < |t| ==> t[k] == s[k + 1];
        assert s[0] !in t;
        assert Distinct(t) by {
          forall i, j | 0 <= i < j < |t| ensures t[i] != t[j] {
            assert t[i] == s[i + 1] && t[j] == s[j + 1];
          }
        }
      } else {
        var i, j :| 0 <= i < j < |s| && s[i] == s[j];
        if i == 0 {
          assert s[0] in t by { assert t[j - 1] == s[j]; }
          assert multiset(s)[s[0]] >= 2;
        } else {
          assert t[i - 1] == t[j - 1];
          assert !Distinct(t);
          var x :| multiset(t)[x] > 1;
          assert multiset(s)[x] > 1;
        }
      }
    }
  }

  /** Two neighbours are equal. */
  predicate AdjacentEqual(s: seq<string>) {
    exists i :: 0 <= i < |s| - 1 && s[i] == s[i + 1]
  }

  /** In a sorted list, duplicates are neighbours: some are equal exactly when two neighbours are. */
  lemma SortedDuplicates(s: seq<string>)
    requires Sorted(s)
    ensures AdjacentEqual(s) <==> !Distinct(s)
  {
    if !Distinct(s) {
      var i, j :| 0 <= i < j < |s| && s[i] == s[j];
      SortedOrdered(s);
      assert !Less(s[i + 1], s[i]) && !Less(s[j], s[i + 1]);
      LessTotal(s[i], s[i + 1]);
      assert s[i] == s[i + 1];
    }
  }

  /**
   * `sort`: merge sort the list, then report "Invalid word file" (here
   * `None`) when two neighbours are equal. This happens exactly when the
   * list holds a word twice, and the list is otherwise strictly increasing.
   */
  function Sort(words: seq<string>): (r: Option<seq<string>>)
    ensures r.Some? <==> Distinct(words)
    ensures r.Some? ==> multiset(r.value) == multiset(words) && Ordered(r.value) && Distinct(r.value)
  {
    var s := MergeSort(words);
    SortedDuplicates(s);
    SortedOrdered(s);
    DistinctCounts(s);
    DistinctCounts(words);
    if AdjacentEqual(s) then None else Some(s)
  }

  // ---------------------------------------------------------------------
  // Binary search
  // ---------------------------------------------------------------------

  /**
   * `binarySearch` over the indices `min..max` of `list`: compare the word
   * at the middle and go left or right; -1 once the range is empty. A
   * non-negative answer always holds the word.
   */
  function BinarySearch(list: seq<string>, min: int, max: int, word: string): (r: int)
    requires 0 <= min <= max + 1 <= |list|
    ensures r == -1 || (min <= r <= max && list[r] == word)
    decreases max - min + 1
  {
    if min > max then -1
    else
      var mid := (max + min) / 2;
      if list[mid] == word then mid
      else if Less(word, list[mid]) then BinarySearch(list, min, mid - 1, word)
      else BinarySearch(list, mid + 1, max, word)
  }

  /** A miss at the middle that sorts after the word leaves the search to the left part. */
  lemma SearchBelow(list: seq<string>, min: int, max: int, hi: int, word: string)
    requires 0 <= min <= max < |list| && hi == (max + min) / 2 - 1
    requires list[hi + 1] != word && Less(word, list[hi + 1])
    ensures BinarySearch(list, min, max, word) == BinarySearch(list, min, hi, word)
  {
  }

  /** A miss at the middle that sorts before the word leaves the search to the right part. */
  lemma SearchAbove(list: seq<string>, min: int, max: int, lo: int, word: string)
    requires 0 <= min <= max < |list| && lo == (max + min) / 2 + 1
    requires list[lo - 1] != word && !Less(word, list[lo - 1])
    ensures BinarySearch(list, min, max, word) == BinarySearch(list, lo, max, word)
  {
  }

  /** Two positions of an ordered range are in order. */
  lemma OrderedAt(list: seq<string>, lo: int, hi: int, i: int, j: int)
    requires 0 <= lo <= i <= j < hi <= |list| && Ordered(list[lo..hi])
    ensures !Less(list[j], list[i])
  {
    var range := list[lo..hi];
    assert range[i - lo] == list[i] && range[j - lo] == list[j];
    if i == j {
      LessIrreflexive(list[i]);
    }
  }

  /** A part of an ordered range is ordered. */
  lemma OrderedSub(list: seq<string>, lo: int, hi: int, a: int, b: int)
    requires 0 <= lo <= a <= b <= hi <= |list| && Ordered(list[lo..hi])
    ensures Ordered(list[a..b])
  {
    var sub := list[a..b];
    forall i, j | 0 <= i < j < |sub| ensures !Less(sub[j], sub[i]) {
      OrderedAt(list, lo, hi, a + i, a + j);
    }
  }

  /** A word is in a slice exactly when one of its positions holds it. */
  lemma InSlice(list: seq<string>, a: int, b: int, word: string)
    requires 0 <= a <= b <= |list|
    ensures word in list[a..b] <==> exists k :: a <= k < b && list[k] == word
  {
    var sub := list[a..b];
    if word in sub {
      var p :| 0 <= p < |sub| && sub[p] == word;
      assert list[a + p] == word;
    }
    if exists k :: a <= k < b && list[k] == word {
      var k :| a <= k < b && list[k] == word;
      assert sub[k - a] == word;
    }
  }

  /** On an ordered range, binary search misses only a word the range does not hold. */
  lemma {:induction false} BinarySearchFinds(list: seq<string>, min: int, max: int, word: string)
    requires 0 <= min <= max + 1 <= |list| && Ordered(list[min..max + 1])
    ensures BinarySearch(list, min, max, word) == -1 <==> word !in list[min..max + 1]
    decreases max - min + 1
  {
    if min <= max {
      var mid := (max + min) / 2;
      if list[mid] == word {
        FindsAtMiddle(list, min, max, word);
      } else if Less(word, list[mid]) {
        var end, hi := max + 1, mid - 1;
        BelowMiddle(list, min, end, hi, word);
        BinarySearchFinds(list, min, hi, word);
        FindsBelow(list, min, max, hi, word);
      } else {
        var end, lo := max + 1, mid + 1;
        AboveMiddle(list, min, end, mid, word);
        BinarySearchFinds(list, lo, max, word);
        FindsAbove(list, min, max, lo, word);
      }
    }
  }

  /** A hit at the middle is found, and the range holds the word. */
  lemma FindsAtMiddle(list: seq<string>, min: int, max: int, word: string)
    requires 0 <= min <= max < |list| && list[(max + min) / 2] == word
    ensures BinarySearch(list, min, max, word) != -1 && word in list[min..max + 1]
  {
    InSlice(list, min, max + 1, word);
  }

  /** If the search finds exactly what the left part holds, it finds exactly what the whole range holds. */
  lemma FindsBelow(list: seq<string>, min: int, max: int, hi: int, word: string)
    requires 0 <= min <= max < |list| && Ordered(list[min..max + 1]) && hi == (max + min) / 2 - 1
    requires list[hi + 1] != word && Less(word, list[hi + 1])
    requires BinarySearch(list, min, hi, word) == -1 <==> word !in list[min..hi + 1]
    ensures BinarySearch(list, min, max, word) == -1 <==> word !in list[min..max + 1]
  {
    var end := max + 1;
    SearchBelow(list, min, max, hi, word);
    BelowMiddle(list, min, end, hi, word);
  }

  /** If the search finds exactly what the right part holds, it finds exactly what the whole range holds. */
  lemma FindsAbove(list: seq<string>, min: int, max: int, lo: int, word: string)
    requires 0 <= min <= max < |list| && Ordered(list[min..max + 1]) && lo == (max + min) / 2 + 1
    requires list[lo - 1] != word && !Less(word, list[lo - 1])
    requires BinarySearch(list, lo, max, word) == -1 <==> word !in list[lo..max + 1]
    ensures BinarySearch(list, min, max, word) == -1 <==> word !in list[min..max + 1]
  {
    var end, mid := max + 1, lo - 1;
    SearchAbove(list, min, max, lo, word);
    AboveMiddle(list, min, end, mid, word);
  }

  /** A word below the middle of an ordered range `min..end` can only be in its left part, up to `hi`, which is ordered too. */
  lemma BelowMiddle(list: seq<string>, min: int, end: int, hi: int, word: string)
    requires 0 <= min <= hi + 1 < end <= |list| && Ordered(list[min..end]) && Less(word, list[hi + 1])
    ensures Ordered(list[min..hi + 1]) && (word in list[min..end] <==> word in list[min..hi + 1])
  {
    OrderedSub(list, min, end, min, hi + 1);
    InSlice(list, min, end, word);
    InSlice(list, min, hi + 1, word);
    forall k | hi + 1 <= k < end ensures list[k] != word {
      OrderedAt(list, min, end, hi + 1, k);
    }
  }

  /** A word above the middle of an ordered range `min..end` can only be in its right part, which is ordered too. */
  lemma AboveMiddle(list: seq<string>, min: int, end: int, mid: int, word: string)
    requires 0 <= min <= mid < end <= |list| && Ordered(list[min..end])
    requires list[mid] != word && !Less(word, list[mid])
    ensures Ordered(list[mid + 1..end]) && (word in list[min..end] <==> word in list[mid + 1..end])
  {
    LessTotal(word, list[mid]);
    OrderedSub(list, min, end, mid + 1, end);
    InSlice(list, min, end, word);
    InSlice(list, mid + 1, end, word);
    forall k | min <= k <= mid ensures list[k] != word {
      OrderedAt(list, min, end, k, mid);
    }
  }

  /**
   * `inList` as written: the search runs over the indices `0..numWords`,
   * one past the last word, so it can compare against the slot after the
   * list, `spare` (what the last, failed `readLine` left there).
   */
  function InListAsWritten(words: seq<string>, spare: string, word: string): (b: bool)
    ensures b ==> word in words + [spare]
  {
    var list := words + [spare];
    var r := BinarySearch(list, 0, |words|, word);
    assert r >= 0 ==> list[r] == word;
    r >= 0
  }

  /**
   * A word above every listed word, left in the slot after the list, is
   * found by `inList` as written although it is not in the list.
   */
  lemma InListAcceptsSpare(words: seq<string>, spare: string)
    requires Ordered(words) && forall i :: 0 <= i < |words| ==> Less(words[i], spare)
    ensures InListAsWritten(words, spare, spare) && spare !in words
  {
    var list := words + [spare];
    assert Ordered(list[0..|words| + 1]) by {
      assert list[0..|words| + 1] == list;
      forall i, j | 0 <= i < j < |list| ensures !Less(list[j], list[i]) {
        if j == |words| {
          LessTotal(list[i], spare);
        } else {
          assert list[i] == words[i] && list[j] == words[j];
        }
      }
    }
    BinarySearchFinds(list, 0, |words|, spare);
    assert list[0..|words| + 1][|words|] == spare;
    if spare in words {
      var k :| 0 <= k < |words| && words[k] == spare;
      LessIrreflexive(spare);
    }
  }

  /**
   * Binary search over a range whose last slot may be out of order still
   * finds a word held by the ordered part before it: the middle index stays
   * below `max` while the range has two or more slots.
   */
  lemma {:induction false} SearchWithSpare(list: seq<string>, min: int, max: int, word: string)
    requires 0 <= min <= max < |list| && Ordered(list[min..max]) && word in list[min..max]
    ensures BinarySearch(list, min, max, word) != -1
    decreases max - min
  {
    var mid := (max + min) / 2;
    InSlice(list, min, max, word);
    assert mid < max;
    if list[mid] != word {
      if Less(word, list[mid]) {
        var hi := mid - 1;
        SearchBelow(list, min, max, hi, word);
        BelowMiddle(list, min, max, hi, word);
        BinarySearchFinds(list, min, hi, word);
      } else {
        var lo := mid + 1;
        SearchAbove(list, min, max, lo, word);
        AboveMiddle(list, min, max, mid, word);
        SearchWithSpare(list, lo, max, word);
      }
    }
  }

  /**
   * On an ordered list, `inList` as written accepts every listed word, and
   * a word other than the spare one exactly when it is listed: only the
   * spare slot's content can be accepted wrongly.
   */
  lemma InListSpareAgrees(words: seq<string>, spare: string, word: string)
    requires Ordered(words)
    ensures word in words ==> InListAsWritten(words, spare, word)
    ensures word != spare ==> (InListAsWritten(words, spare, word) <==> word in words)
  {
    var list := words + [spare];
    if word in words {
      assert list[0..|words|] == words;
      SearchWithSpare(list, 0, |words|, word);
    }
  }

  /** `inList` searching the indices of the words only: on an ordered list it holds exactly for the listed words. */
  function InList(words: seq<string>, word: string): (b: bool)
    ensures b ==> word in words
    ensures Ordered(words) ==> (b <==> word in words)
  {
    var r := BinarySearch(words, 0, |words| - 1, word);
    if Ordered(words) then
      assert words[0..|words|] == words;
      BinarySearchFinds(words, 0, |words| - 1, word);
      r >= 0
    else r >= 0
  }

  // ---------------------------------------------------------------------
  // Choosing the word
  // ---------------------------------------------------------------------

  /**
   * `chooseWord` as written: `(seed % numWords) * MULTIPLIER % numWords`
   * with C's remainder, which keeps the sign of a negative seed. The
   * product stays well inside a `long` because `numWords` is at most
   * 100000.
   */
  function ChooseIndexAsWritten(seed: int, n: nat): (i: int)
    requires InLong(seed) && 0 < n <= WORD_LIMIT
    ensures seed >= 0 ==> 0 <= i < n
    ensures -(n as int) < i < n
  {
    var p := TruncRem(seed, n) * MULTIPLIER;
    assert InLong(p) by {
      assert Abs(TruncRem(seed, n)) < n;
      MulAbsBound(TruncRem(seed, n), n, MULTIPLIER);
    }
    TruncRem(p, n)
  }

  /** A product of a number of magnitude below `n` with a positive `m` is below `n * m` in magnitude. */
  lemma MulAbsBound(a: int, n: nat, m: nat)
    requires Abs(a) < n && m > 0
    ensures Abs(a * m) < n * m
  {
    assert Abs(a * m) == Abs(a) * m;
    assert Abs(a) * m < n * m;
  }

  /** A seed of -1 with two words picks index -1, before the start of the list. */
  lemma NegativeSeedIndex()
    ensures ChooseIndexAsWritten(-1, 2) == -1
  {
    assert TruncRem(-1, 2) == -1;
    assert TruncRem(-MULTIPLIER, 2) == -1;
  }

  /** `chooseWord` with non-negative remainders: every seed picks an index of the list. */
  function ChooseIndex(seed: int, n: nat): (i: nat)
    requires 0 < n
    ensures i < n
  {
    (seed % n) * MULTIPLIER % n
  }

  /** For the seeds the clock gives, both versions of `chooseWord` pick the same word. */
  lemma ChooseIndexAgrees(seed: int, n: nat)
    requires InLong(seed) && 0 < n <= WORD_LIMIT && seed >= 0
    ensures ChooseIndexAsWritten(seed, n) == ChooseIndex(seed, n)
  {
    var q := TruncRem(seed, n);
    assert q == seed % n by {
      DivModNat(seed, n);
    }
    DivModNat(q * MULTIPLIER, n);
  }

  // ---------------------------------------------------------------------
  // Reading the word file
  // ---------------------------------------------------------------------

  /** What one `readLine` call ends with. */
  datatype LineRead =
    | Word(word: string, rest: string)  // `n` letters read and the rest of the line dropped
    | AtEnd(partial: string)            // the input ended within the first `n` characters
    | BadChar                           // a character other than `a`-`z` among the first `n`
    | Hangs                             // the loop dropping the rest of the line never ends

  /** The number of leading lower-case letters of `s`, up to `n`. */
  function LetterRun(s: string, n: nat): (k: nat)
    ensures k <= n && k <= |s|
    ensures forall i :: 0 <= i < k ==> IsAsciiLower(s[i])
    ensures k < n && k < |s| ==> !IsAsciiLower(s[k])
  {
    if n == 0 || s == [] || !IsAsciiLower(s[0]) then 0
    else
      var k := 1 + LetterRun(s[1..], n - 1);
      assert forall i :: 1 <= i < k ==> s[i] == s[1..][i - 1];
      k
  }

  /** The index of the first newline of `s`, if any. */
  function NewlineIndex(s: string): (j: Option<nat>)
    ensures j.None? <==> '\n' !in s
    ensures j.Some? ==> j.value < |s| && s[j.value] == '\n' && '\n' !in s[..j.value]
  {
    if s == [] then None
    else if s[0] == '\n' then Some(0)
    else
      match NewlineIndex(s[1..])
      case None => None
      case Some(j) =>
        assert s[..j + 1] == [s[0]] + s[1..][..j];
        Some(j + 1)
  }

  /**
   * `readLine` as written: `n` lower-case letters, then every character up
   * to the newline is dropped. With no newline left, `fgetc` keeps
   * returning `EOF` and that loop never ends.
   */
  function ReadLineAsWritten(s: string, n: nat): (r: LineRead)
  {
    var k := LetterRun(s, n);
    if k < n then (if k == |s| then AtEnd(s[..k]) else BadChar)
    else
      match NewlineIndex(s[n..])
      case Some(j) => Word(s[..n], s[n..][j + 1..])
      case None => Hangs
  }

  /** A last word without a newline after it hangs `readLine` as written. */
  lemma LastLineHangs(w: string)
    requires |w| == WORD_LEN && forall i :: 0 <= i < |w| ==> IsAsciiLower(w[i])
    ensures ReadLineAsWritten(w, WORD_LEN) == Hangs
  {
    assert w[WORD_LEN..] == [];
  }

  /**
   * `readLine` with the end of the input also ending the dropped rest of
   * the line. A word read is exactly `n` letters taken from the front of
   * the input, and at least one character is consumed.
   */
  function ReadLine(s: string, n: nat): (r: LineRead)
    requires n > 0
    ensures r.Word? ==> n <= |s| && r.word == s[..n] && |r.rest| < |s|
    ensures r.Word? ==> forall i :: 0 <= i < n ==> IsAsciiLower(r.word[i])
    ensures r.AtEnd? ==> |r.partial| < n && r.partial == s
    ensures !r.Hangs?
  {
    var k := LetterRun(s, n);
    if k < n then (if k == |s| then AtEnd(s[..k]) else BadChar)
    else
      match NewlineIndex(s[n..])
      case Some(j) => Word(s[..n], s[n..][j + 1..])
      case None => Word(s[..n], [])
  }

  /** Both versions of `readLine` agree on every line that ends with a newline. */
  lemma ReadLineAgrees(s: string, n: nat)
    requires n > 0 && !ReadLineAsWritten(s, n).Hangs?
    ensures ReadLineAsWritten(s, n) == ReadLine(s, n)
  {
  }

  /** A word of `n` letters followed by a newline reads as that word, and what follows the newline stays unread. */
  lemma ReadLineWord(w: string, rest: string)
    requires |w| == WORD_LEN && forall i :: 0 <= i < |w| ==> IsAsciiLower(w[i])
    ensures ReadLine(w + "\n" + rest, WORD_LEN) == Word(w, rest)
  {
    var s := w + "\n" + rest;
    assert s[..WORD_LEN] == w;
    assert s[WORD_LEN..] == "\n" + rest;
    assert LetterRun(s, WORD_LEN) == WORD_LEN by {
      assert forall i :: 0 <= i < WORD_LEN ==> s[i] == w[i];
      LetterRunFull(s, WORD_LEN);
    }
  }

  /** When the first `n` characters are letters, the run of letters is `n` long. */
  lemma {:induction false} LetterRunFull(s: string, n: nat)
    requires n <= |s| && forall i :: 0 <= i < n ==> IsAsciiLower(s[i])
    ensures LetterRun(s, n) == n
    decreases n
  {
    if n > 0 {
      assert forall i :: 0 <= i < n - 1 ==> s[1..][i] == s[i + 1];
      LetterRunFull(s[1..], n - 1);
    }
  }

  /** The end of reading the word file. */
  datatype Loaded =
    | Loaded(words: seq<string>, spare: string)  // the words in file order, and what the last `readLine` left in the next slot
    | InvalidFile                                // "Invalid word file"

  /**
   * The loop of `readWords` with the words read so far: a word read when
   * the list is already full, a bad character, or an empty file makes the
   * file invalid.
   */
  function ReadFrom(s: string, words: seq<string>): (r: Loaded)
    requires |words| <= WORD_LIMIT
    ensures r.Loaded? ==> |words| <= |r.words| <= WORD_LIMIT && 0 < |r.words| && r.words[..|words|] == words && |r.spare| < WORD_LEN
    decreases |s|
  {
    match ReadLine(s, WORD_LEN)
    case Word(w, rest) =>
      if |words| == WORD_LIMIT then InvalidFile
      else
        var r := ReadFrom(rest, words + [w]);
        assert r.Loaded? ==> r.words[..|words|] == r.words[..|words| + 1][..|words|];
        r
    case AtEnd(partial) => if words == [] then InvalidFile else Loaded(words, partial)
    case BadChar => InvalidFile
  }

  /** `readWords`: the file's words, each of `WORD_LEN` lower-case letters. */
  function ReadWords(s: string): (r: Loaded)
  {
    ReadFrom(s, [])
  }

  /** A well-formed word file: each word followed by a newline. */
  function WordFile(ws: seq<string>): string {
    if ws == [] then [] else ws[0] + "\n" + WordFile(ws[1..])
  }

  /** Words of exactly `WORD_LEN` lower-case letters. */
  predicate ValidWords(ws: seq<string>) {
    forall k :: 0 <= k < |ws| ==> |ws[k]| == WORD_LEN && forall i :: 0 <= i < WORD_LEN ==> IsAsciiLower(ws[k][i])
  }

  /** The loop of `readWords` over well-formed lines appends them in order, and a short unfinished last line ends up in the spare slot. */
  lemma {:induction false} ReadFromFile(ws: seq<string>, tail: string, words: seq<string>)
    requires ValidWords(ws) && |words| + |ws| <= WORD_LIMIT && words + ws != []
    requires |tail| < WORD_LEN && forall i :: 0 <= i < |tail| ==> IsAsciiLower(tail[i])
    ensures ReadFrom(WordFile(ws) + tail, words) == Loaded(words + ws, tail)
    decreases |ws|
  {
    if ws == [] {
      assert WordFile(ws) + tail == tail;
      assert words + ws == words;
      ReadFromTail(tail, words);
    } else {
      assert ValidWords(ws[1..]) by {
        assert forall k :: 0 <= k < |ws| - 1 ==> ws[1..][k] == ws[k + 1];
      }
      ReadFromFile(ws[1..], tail, words + [ws[0]]);
      ReadFromFileStep(ws, tail, words);
    }
  }

  /** The step of `ReadFromFile`: the first line is a word, and the rest of the file reads as the rest of the words. */
  lemma ReadFromFileStep(ws: seq<string>, tail: string, words: seq<string>)
    requires ws != [] && |words| < WORD_LIMIT
    requires |ws[0]| == WORD_LEN && forall i :: 0 <= i < WORD_LEN ==> IsAsciiLower(ws[0][i])
    requires ReadFrom(WordFile(ws[1..]) + tail, words + [ws[0]]) == Loaded(words + [ws[0]] + ws[1..], tail)
    ensures ReadFrom(WordFile(ws) + tail, words) == Loaded(words + ws, tail)
  {
    var w := ws[0];
    var rest := WordFile(ws[1..]) + tail;
    WordFileCons(ws, tail);
    ReadLineWord(w, rest);
    ReadFromWord(w + "\n" + rest, w, rest, words);
    AppendFirst(words, ws);
  }

  /** A word file followed by a tail starts with its first line. */
  lemma WordFileCons(ws: seq<string>, tail: string)
    requires ws != []
    ensures WordFile(ws) + tail == ws[0] + "\n" + (WordFile(ws[1..]) + tail)
  {
  }

  /** A whole word read while there is room is appended and reading goes on after it. */
  lemma ReadFromWord(s: string, w: string, rest: string, words: seq<string>)
    requires |words| < WORD_LIMIT && ReadLine(s, WORD_LEN) == Word(w, rest)
    ensures ReadFrom(s, words) == ReadFrom(rest, words + [w])
  {
  }

  /** A short unfinished last line ends the file and becomes the spare word. */
  lemma ReadFromTail(tail: string, words: seq<string>)
    requires 0 < |words| <= WORD_LIMIT
    requires |tail| < WORD_LEN && forall i :: 0 <= i < |tail| ==> IsAsciiLower(tail[i])
    ensures ReadFrom(tail, words) == Loaded(words, tail)
  {
    assert LetterRun(tail, WORD_LEN) == |tail| by {
      LetterRunFull(tail, |tail|);
      LetterRunShort(tail, WORD_LEN);
    }
  }

  /** A string of fewer than `n` letters is read to its end. */
  lemma {:induction false} LetterRunShort(s: string, n: nat)
    requires |s| < n && forall i :: 0 <= i < |s| ==> IsAsciiLower(s[i])
    ensures LetterRun(s, n) == |s|
    decreases |s|
  {
    if s != [] {
      assert forall i :: 0 <= i < |s| - 1 ==> s[1..][i] == s[i + 1];
      LetterRunShort(s[1..], n - 1);
    }
  }

  /** A word file of one to `WORD_LIMIT` well-formed lines loads those words, in file order, with an empty spare slot. */
  lemma ReadWordFile(ws: seq<string>)
    requires ValidWords(ws) && 0 < |ws| <= WORD_LIMIT
    ensures ReadWords(WordFile(ws)) == Loaded(ws, "")
  {
    ReadFromFile(ws, "", []);
    assert WordFile(ws) + "" == WordFile(ws);
  }

  /** More than `WORD_LIMIT` well-formed lines make the file invalid, whatever follows them. */
  lemma {:induction false} TooManyWords(ws: seq<string>, tail: string, words: seq<string>)
    requires ValidWords(ws) && |words| <= WORD_LIMIT < |words| + |ws|
    ensures ReadFrom(WordFile(ws) + tail, words) == InvalidFile
    decreases |ws|
  {
    var rest := WordFile(ws[1..]) + tail;
    assert WordFile(ws) + tail == ws[0] + "\n" + rest;
    ReadLineWord(ws[0], rest);
    if |words| < WORD_LIMIT {
      TooManyWords(ws[1..], tail, words + [ws[0]]);
    }
  }
}

=== FILE: lightsout.dfy ===
/**
 * The "lights out" game of the three operating-systems exercises: a 5 x 5
 * board of lights (`*` on, `.` off), a move that toggles a cell and its
 * orthogonal neighbours, and a single-level undo.
 *
 * The first variant is a message-queue server that reads the starting board
 * from a file and answers `move r c`, `undo` and `report` requests; the
 * second and third are command-line programs over a board in shared memory.
 * The third adds a bounds check to `move` and a `test` command that repeats
 * a move. The queues, the shared memory and the semaphore are left out: each
 * request is one atomic step from a game state to a reply and a new state.
 */
module LightsOut {
  import opened Common
  import opened CScan

  /** Rows and columns of the board. */
  const GRID_SIZE: nat := 5

  /** The size of the server's command buffer, terminator included, as declared. */
  const MAX_COMMAND: nat := 6

  /** The smallest buffer that holds every command the server knows, `report` and its terminator. */
  const COMMAND_BUFFER: nat := 7

  type Board = seq<seq<char>>

  /** Five rows of five cells. */
  predicate IsGrid(b: Board) {
    |b| == GRID_SIZE && forall r :: 0 <= r < GRID_SIZE ==> |b[r]| == GRID_SIZE
  }

  predicate IsLight(ch: char) { ch == '*' || ch == '.' }

  /** A board whose every cell is a light, as the board file and the reset programs guarantee. */
  predicate Lights(b: Board) {
    IsGrid(b) && forall r, c :: 0 <= r < GRID_SIZE && 0 <= c < GRID_SIZE ==> IsLight(b[r][c])
  }

  predicate OnGrid(r: int, c: int) { 0 <= r < GRID_SIZE && 0 <= c < GRID_SIZE }

  /** `invertLight` on one cell: `.` becomes `*`, anything else becomes `.`. */
  function Invert(ch: char): (r: char)
    ensures IsLight(r)
    ensures ch == '.' <==> r == '*'
  {
    if ch == '.' then '*' else '.'
  }

  /** On lights, inverting twice is the identity; on other characters it is not. */
  lemma InvertTwice(ch: char)
    ensures Invert(Invert(ch)) == ch <==> IsLight(ch)
  {
  }

  /** `invertLight(row, column)`: one cell inverted, every other cell kept. */
  function InvertLight(b: Board, row: int, col: int): (r: Board)
    requires IsGrid(b) && OnGrid(row, col)
    ensures IsGrid(r)
    ensures forall i, j :: OnGrid(i, j) ==> r[i][j] == if i == row && j == col then Invert(b[i][j]) else b[i][j]
  {
    b[row := b[row][col := Invert(b[row][col])]]
  }

  /** Cell `(i, j)` is `(row, col)` or one of its orthogonal neighbours. */
  predicate InPlus(row: int, col: int, i: int, j: int) {
    (i == row && (j == col || j == col - 1 || j == col + 1))
    || (j == col && (i == row - 1 || i == row + 1))
  }

  /**
   * The board change of a move at `(row, col)`: the cell and each neighbour
   * that lies on the board are inverted; nothing else changes.
   */
  function Toggle(b: Board, row: int, col: int): (r: Board)
    requires IsGrid(b) && OnGrid(row, col)
    ensures IsGrid(r)
  {
    seq(GRID_SIZE, i requires 0 <= i < GRID_SIZE =>
      seq(GRID_SIZE, j requires 0 <= j < GRID_SIZE => if InPlus(row, col, i, j) then Invert(b[i][j]) else b[i][j]))
  }

  /**
   * The body of `move(row, column)` as written: invert the cell, then each
   * of the four neighbours, skipping a neighbour when the cell is on the
   * corresponding edge.
   */
  function InvertSteps(b: Board, row: int, col: int): (r: Board)
    requires IsGrid(b) && OnGrid(row, col)
    ensures IsGrid(r)
  {
    var b1 := InvertLight(b, row, col);
    var b2 := if row != 0 then InvertLight(b1, row - 1, col) else b1;
    var b3 := if col != 0 then InvertLight(b2, row, col - 1) else b2;
    var b4 := if row != GRID_SIZE - 1 then InvertLight(b3, row + 1, col) else b3;
    if col != GRID_SIZE - 1 then InvertLight(b4, row, col + 1) else b4
  }

  /** The edge tests of `move` invert exactly the cells of the plus that lie on the board. */
  lemma InvertStepsToggle(b: Board, row: int, col: int)
    requires IsGrid(b) && OnGrid(row, col)
    ensures InvertSteps(b, row, col) == Toggle(b, row, col)
  {
    SameCells(InvertSteps(b, row, col), Toggle(b, row, col));
  }

  /** Two boards with the same cells are the same board. */
  lemma SameCells(a: Board, b: Board)
    requires IsGrid(a) && IsGrid(b)
    requires forall i, j :: OnGrid(i, j) ==> a[i][j] == b[i][j]
    ensures a == b
  {
    forall i | 0 <= i < GRID_SIZE
      ensures a[i] == b[i]
    {
      assert forall j :: 0 <= j < GRID_SIZE ==> a[i][j] == b[i][j];
    }
  }

  /** A move keeps a board of lights a board of lights. */
  lemma ToggleKeepsLights(b: Board, row: int, col: int)
    requires Lights(b) && OnGrid(row, col)
    ensures Lights(Toggle(b, row, col))
  {
  }

  /** The same move twice leaves a board of lights as it was. */
  lemma ToggleTwice(b: Board, row: int, col: int)
    requires Lights(b) && OnGrid(row, col)
    ensures Toggle(Toggle(b, row, col), row, col) == b
  {
    var t := Toggle(Toggle(b, row, col), row, col);
    forall i, j | OnGrid(i, j)
      ensures t[i][j] == b[i][j]
    {
      InvertTwice(b[i][j]);
    }
    SameCells(t, b);
  }

  /** Moves commute: the order in which two moves are made does not matter. */
  lemma ToggleCommutes(b: Board, r1: int, c1: int, r2: int, c2: int)
    requires Lights(b) && OnGrid(r1, c1) && OnGrid(r2, c2)
    ensures Toggle(Toggle(b, r1, c1), r2, c2) == Toggle(Toggle(b, r2, c2), r1, c1)
  {
    var x := Toggle(Toggle(b, r1, c1), r2, c2);
    var y := Toggle(Toggle(b, r2, c2), r1, c1);
    forall i, j | OnGrid(i, j)
      ensures x[i][j] == y[i][j]
    {
      InvertTwice(b[i][j]);
    }
    SameCells(x, y);
  }

  // ---------------------------------------------------------------------
  // The game state: the board, the board before the last move, the undo flag
  // ---------------------------------------------------------------------

  datatype Game = Game(board: Board, previous: Board, canUndo: bool)

  predicate ValidGame(g: Game) { IsGrid(g.board) && IsGrid(g.previous) }

  /** The state after `move(row, column)`: the previous board saved, the move made, undo allowed. */
  function Move(g: Game, row: int, col: int): (r: Game)
    requires ValidGame(g) && OnGrid(row, col)
    ensures ValidGame(r) && r.canUndo && r.previous == g.board
    ensures forall i, j :: OnGrid(i, j) && !InPlus(row, col, i, j) ==> r.board[i][j] == g.board[i][j]
  {
    Game(Toggle(g.board, row, col), g.board, true)
  }

  /** `undo()`: restore the previous board once; refused, with no change, when not allowed. */
  function Undo(g: Game): (r: (bool, Game))
    requires ValidGame(g)
    ensures ValidGame(r.1) && !r.1.canUndo
    ensures !r.0 ==> r.1 == g
  {
    if g.canUndo then (true, Game(g.previous, g.previous, false)) else (false, g)
  }

  /** A move followed by an undo gives back the board, and a second undo is refused. */
  lemma MoveThenUndo(g: Game, row: int, col: int)
    requires ValidGame(g) && OnGrid(row, col)
    ensures Undo(Move(g, row, col)).0 && Undo(Move(g, row, col)).1.board == g.board
    ensures !Undo(Undo(Move(g, row, col)).1).0
  {
  }

  /** A request the server acts on: a move on the grid, an undo, or a report, which changes nothing. */
  datatype Action = MoveAt(row: int, col: int) | UndoLast | ReportBoard

  predicate ActionOk(a: Action) {
    a.MoveAt? ==> OnGrid(a.row, a.col)
  }

  /** The game after one request. */
  function Apply(g: Game, a: Action): (r: Game)
    requires ValidGame(g) && ActionOk(a)
    ensures ValidGame(r)
  {
    match a
    case MoveAt(row, col) => Move(g, row, col)
    case UndoLast => Undo(g).1
    case ReportBoard => g
  }

  /** The game after a history of requests, applied in order. */
  function Replay(g: Game, acts: seq<Action>): (r: Game)
    requires ValidGame(g) && forall k :: 0 <= k < |acts| ==> ActionOk(acts[k])
    ensures ValidGame(r)
    decreases |acts|
  {
    if |acts| == 0 then g else Apply(Replay(g, acts[..|acts| - 1]), acts[|acts| - 1])
  }

  /** Some move in the history is followed only by reports. */
  predicate MovedSinceUndo(acts: seq<Action>) {
    exists k :: 0 <= k < |acts| && acts[k].MoveAt? && forall m :: k < m < |acts| ==> acts[m].ReportBoard?
  }

  /**
   * Starting as the server does, with undo not allowed, an undo succeeds
   * exactly when some move came after the last undo; reports in between do
   * not matter.
   */
  lemma {:induction false} UndoAllowed(g: Game, acts: seq<Action>)
    requires ValidGame(g) && !g.canUndo && forall k :: 0 <= k < |acts| ==> ActionOk(acts[k])
    ensures Undo(Replay(g, acts)).0 <==> MovedSinceUndo(acts)
    decreases |acts|
  {
    if |acts| > 0 {
      var n := |acts| - 1;
      var front := acts[..n];
      assert forall k :: 0 <= k < |front| ==> front[k] == acts[k];
      UndoAllowed(g, front);
      match acts[n]
      case MoveAt(_, _) =>
        assert acts[n].MoveAt?;
      case UndoLast =>
        UndoEndsMoves(acts);
      case ReportBoard =>
        ReportKeepsMoves(acts, front);
    }
  }

  /** A history ending in an undo has no move after its last undo. */
  lemma UndoEndsMoves(acts: seq<Action>)
    requires |acts| > 0 && acts[|acts| - 1].UndoLast?
    ensures !MovedSinceUndo(acts)
  {
    var n := |acts| - 1;
    forall k | 0 <= k < |acts| && acts[k].MoveAt?
      ensures !(forall m :: k < m < |acts| ==> acts[m].ReportBoard?)
    {
      assert k < n && !acts[n].ReportBoard?;
    }
  }

  /** A report at the end of a history does not change whether a move came after the last undo. */
  lemma ReportKeepsMoves(acts: seq<Action>, front: seq<Action>)
    requires |acts| > 0 && acts[|acts| - 1].ReportBoard? && front == acts[..|acts| - 1]
    ensures MovedSinceUndo(acts) <==> MovedSinceUndo(front)
  {
    if MovedSinceUndo(acts) {
      var k :| 0 <= k < |acts| && acts[k].MoveAt? && forall m :: k < m < |acts| ==> acts[m].ReportBoard?;
      assert front[k].MoveAt?;
    }
    if MovedSinceUndo(front) {
      var k :| 0 <= k < |front| && front[k].MoveAt? && forall m :: k < m < |front| ==> front[m].ReportBoard?;
      assert forall m :: k < m < |acts| ==> acts[m].ReportBoard?;
    }
  }

  // ---------------------------------------------------------------------
  // The report and the board file
  // ---------------------------------------------------------------------

  /** Where cell `(i, j)` sits in the report and in the board file: rows of five cells and a newline. */
  function Pos(i: int, j: int): int { i * (GRID_SIZE + 1) + j }

  /** The first `n` rows of the report, each row followed by a newline. */
  function ReportRows(b: Board, n: nat): (s: string)
    requires IsGrid(b) && n <= GRID_SIZE
    ensures |s| == Pos(n, 0)
    ensures forall i, j :: 0 <= i < n && 0 <= j < GRID_SIZE ==> s[Pos(i, j)] == b[i][j]
    ensures forall i :: 0 <= i < n ==> s[Pos(i, GRID_SIZE)] == '\n'
  {
    if n == 0 then []
    else
      var front := ReportRows(b, n - 1);
      var last := n - 1;
      var line := b[last] + "\n";
      var s := front + line;
      assert forall i, j :: 0 <= i < last && 0 <= j <= GRID_SIZE ==> s[Pos(i, j)] == front[Pos(i, j)];
      assert forall j :: 0 <= j <= GRID_SIZE ==> s[Pos(last, j)] == line[j];
      s
  }

  /** `report`: five lines of five cells, each line ended by a newline. */
  function Report(b: Board): (s: string)
    requires IsGrid(b)
    ensures |s| == 30
    ensures forall i, j :: OnGrid(i, j) ==> s[Pos(i, j)] == b[i][j]
    ensures forall i :: 0 <= i < GRID_SIZE ==> s[Pos(i, GRID_SIZE)] == '\n'
  {
    ReportRows(b, GRID_SIZE)
  }

  /** Row `row` of the board file: five lights and a newline, from `text[Pos(row, 0)]` on. */
  predicate RowOk(text: string, row: nat) {
    |text| >= Pos(row + 1, 0)
    && (forall j :: 0 <= j < GRID_SIZE ==> IsLight(text[Pos(row, j)]))
    && text[Pos(row, GRID_SIZE)] == '\n'
  }

  /** Row `row` of an accepted board file. */
  function RowAt(text: string, row: nat): (r: seq<char>)
    requires RowOk(text, row)
    ensures |r| == GRID_SIZE && forall j :: 0 <= j < GRID_SIZE ==> r[j] == text[Pos(row, j)] && IsLight(r[j])
  {
    text[Pos(row, 0)..Pos(row, GRID_SIZE)]
  }

  /** The rows `0..n` of the board file, read one character at a time. */
  function ReadRows(text: string, n: nat): (r: Option<Board>)
    requires n <= GRID_SIZE
    ensures r.Some? <==> forall row :: 0 <= row < n ==> RowOk(text, row)
    ensures r.Some? ==> |r.value| == n && forall i :: 0 <= i < n ==> RowOk(text, i) && r.value[i] == RowAt(text, i)
  {
    if n == 0 then Some([])
    else
      match ReadRows(text, n - 1)
      case None => None
      case Some(rows) => if RowOk(text, n - 1) then Some(rows + [RowAt(text, n - 1)]) else None
  }

  /**
   * The board-file check of the first variant's `main`: five rows, each of
   * five `*` or `.` followed by a newline; anything after the fifth row is
   * not read. `None` is the "Invalid input file" exit.
   */
  function ReadBoardFile(text: string): (r: Option<Board>)
    ensures r.Some? <==> forall row :: 0 <= row < GRID_SIZE ==> RowOk(text, row)
    ensures r.Some? ==> Lights(r.value)
    ensures r.Some? ==> forall i, j :: OnGrid(i, j) ==> RowOk(text, i) && r.value[i][j] == text[Pos(i, j)]
  {
    ReadRows(text, GRID_SIZE)
  }

  /** An accepted board file starts with the report of the board it holds. */
  lemma BoardFileIsReport(text: string)
    requires ReadBoardFile(text).Some?
    ensures text[..30] == Report(ReadBoardFile(text).value)
  {
    var b := ReadBoardFile(text).value;
    var rep := Report(b);
    assert RowOk(text, GRID_SIZE - 1);
    forall k | 0 <= k < 30
      ensures text[k] == rep[k]
    {
      var i := k / 6;
      var j := k % 6;
      assert k == Pos(i, j);
      assert RowOk(text, i);
    }
  }

  /** The report of a board of lights, as a board file, reads back as that board. */
  lemma ReportIsBoardFile(b: Board, rest: string)
    requires Lights(b)
    ensures ReadBoardFile(Report(b) + rest) == Some(b)
  {
    var text := Report(b) + rest;
    forall row | 0 <= row < GRID_SIZE
      ensures RowOk(text, row)
    {
      assert forall j :: 0 <= j < GRID_SIZE ==> text[Pos(row, j)] == b[row][j];
    }
    var r := ReadBoardFile(text).value;
    SameCells(r, b);
  }

  // ---------------------------------------------------------------------
  // The first variant: the message-queue server
  // ---------------------------------------------------------------------

  /** The request fields `sscanf(request, "%s %d %d")` fills: the command and what follows it. */
  function RequestCommand(request: string): Option<(string, string)> {
    ScanWord(request, |request| + 1)
  }

  /** The row and column read after a `move` command. */
  function MoveArgs(rest: string): Option<(int, int)> {
    match ScanInt(rest)
    case None => None
    case Some((row, after)) =>
      match ScanInt(after)
      case None => None
      case Some((col, _)) => Some((row, col))
  }

  /**
   * A request the server can handle without undefined behaviour when its
   * command buffer has `size` bytes: a command that fits with its
   * terminator and, for `move`, a row and column that were read and lie on
   * the board (the server does not check them; the client only checks their
   * first characters).
   */
  predicate ServableIn(request: string, size: nat) {
    RequestCommand(request).Some?
    && |RequestCommand(request).value.0| < size
    && (RequestCommand(request).value.0 == "move" ==>
          MoveArgs(RequestCommand(request).value.1).Some?
          && OnGrid(MoveArgs(RequestCommand(request).value.1).value.0, MoveArgs(RequestCommand(request).value.1).value.1))
  }

  /**
   * The declared six-byte buffer cannot hold `report`: `%s` writes its
   * terminator one byte past the end. Seven bytes hold every command.
   */
  lemma ReportOverflowsCommand(request: string)
    requires RequestCommand(request).Some? && RequestCommand(request).value.0 == "report"
    ensures !ServableIn(request, MAX_COMMAND)
    ensures ServableIn(request, COMMAND_BUFFER)
  {
  }

  /**
   * One request to the server, with a command buffer large enough for
   * `report`: `move` and a successful `undo` reply `success`, a refused
   * `undo` replies `error`, `report` replies with the board, and any other
   * command gets an empty reply and changes nothing.
   */
  function Serve(g: Game, request: string): (r: (string, Game))
    requires ValidGame(g) && ServableIn(request, COMMAND_BUFFER)
    ensures ValidGame(r.1)
    ensures var cmd := RequestCommand(request).value.0;
      (cmd != "move" && cmd != "undo" && cmd != "report" <==> r.0 == "")
      && (cmd != "move" && cmd != "undo" ==> r.1 == g)
      && (cmd == "report" ==> r.0 == Report(g.board))
      && (cmd == "undo" ==> (r.0 == "success\n" <==> g.canUndo))
  {
    var cmd := RequestCommand(request).value.0;
    var rest := RequestCommand(request).value.1;
    if cmd == "move" then
      var (row, col) := MoveArgs(rest).value;
      ("success\n", Move(g, row, col))
    else if cmd == "undo" then
      var (ok, h) := Undo(g);
      (if ok then "success\n" else "error\n", h)
    else if cmd == "report" then
      (Report(g.board), g)
    else
      ("", g)
  }

  /** The server answers `move r c` by moving at `(r, c)`. */
  lemma ServeMove(g: Game, request: string, sp: string, row: int, col: int)
    requires ValidGame(g) && OnGrid(row, col)
    requires forall i :: 0 <= i < |sp| ==> IsCSpace(sp[i])
    requires request == sp + "move" + MoveText(row, col)
    ensures ServableIn(request, COMMAND_BUFFER)
    ensures Serve(g, request) == ("success\n", Move(g, row, col))
  {
    assert RequestCommand(request) == Some(("move", MoveText(row, col))) by {
      ScanWordReads(sp, "move", MoveText(row, col), |request| + 1);
    }
    MoveArgsRead(row, col);
  }

  /** The arguments a client appends to `move`: a space and the row, a space and the column. */
  function MoveText(row: int, col: int): string {
    " " + (IntText(row) + (" " + IntText(col)))
  }

  /** `%d %d` reads back the row and the column. */
  lemma MoveArgsRead(row: int, col: int)
    ensures MoveArgs(MoveText(row, col)) == Some((row, col))
  {
    var after := " " + IntText(col);
    SkipSpaceThenInt(' ', IntText(row) + after);
    ScanIntText(row, after);
    SkipSpaceThenInt(' ', IntText(col));
    assert IntText(col) + [] == IntText(col);
    ScanIntText(col, []);
  }

  // ---------------------------------------------------------------------
  // The second and third variants: one command per run
  // ---------------------------------------------------------------------

  /**
   * How a run ends: the output written and the state left in shared memory,
   * `error` (printed, exit status 1, shared memory untouched), a usage
   * failure on standard error, or `strcmp` on a missing `argv[1]`, which
   * is undefined behaviour.
   */
  datatype Outcome = Done(output: string, game: Game) | Error | UsageFailure | NullArgument

  /** The character `*argv[k]` reads: the first one, or the terminator of an empty argument. */
  function Lead(arg: string): char {
    if arg == [] then NUL else arg[0]
  }

  /** A coordinate argument the second variant accepts: its first character is `0`..`4`. */
  predicate CoordOk(arg: string) { '0' <= Lead(arg) <= '4' }

  /** The coordinate `*argv[k] - '0'`. */
  function Coord(arg: string): int {
    Lead(arg) as int - '0' as int
  }

  /**
   * The second variant's `main`, given `argv[1..]`: `move` needs two more
   * arguments whose first characters are `0`..`4`, `undo` and `report` none;
   * anything else is an error. `argv[1]` is compared without a check, so
   * with no argument at all `strcmp` reads a null pointer.
   */
  function Command2(g: Game, args: seq<string>): (r: Outcome)
    requires ValidGame(g)
    ensures !r.UsageFailure?
    ensures r.NullArgument? <==> |args| == 0
    ensures r.Done? ==> ValidGame(r.game)
    ensures r.Done? && args[0] == "move" ==> |args| == 3 && CoordOk(args[1]) && CoordOk(args[2])
    ensures |args| >= 1 && args[0] != "move" && args[0] != "undo" && args[0] != "report" ==> r.Error?
    ensures |args| >= 1 && args[0] == "undo" ==> (r.Done? <==> |args| == 1 && g.canUndo)
  {
    if |args| == 0 then NullArgument
    else
      var cmd := args[0];
      if cmd == "move" then
        if |args| != 3 || !CoordOk(args[1]) || !CoordOk(args[2]) then Error
        else Done("success\n", Move(g, Coord(args[1]), Coord(args[2])))
      else if cmd == "undo" then
        if |args| != 1 then Error
        else
          var (ok, h) := Undo(g);
          if ok then Done("success\n", h) else Error
      else if cmd == "report" then
        if |args| != 1 then Error else Done(Report(g.board), g)
      else Error
  }

  /** Only the first character of a coordinate matters: `move 3x 41` moves at `(3, 4)`. */
  lemma Command2FirstCharacter(g: Game, a: string, b: string)
    requires ValidGame(g) && |a| >= 1 && |b| >= 1 && CoordOk(a) && CoordOk(b)
    ensures Command2(g, ["move", a, b]) == Command2(g, ["move", [a[0]], [b[0]]])
    ensures Command2(g, ["move", a, b]) == Done("success\n", Move(g, a[0] as int - '0' as int, b[0] as int - '0' as int))
  {
  }

  /** The third variant's bounds-checked `move`: off the board it is refused and nothing changes. */
  function CheckedMove(g: Game, row: int, col: int): (r: (bool, Game))
    requires ValidGame(g)
    ensures r.0 <==> OnGrid(row, col)
    ensures !r.0 ==> r.1 == g
    ensures r.0 ==> r.1 == Move(g, row, col)
  {
    if !OnGrid(row, col) then (false, g) else (true, Move(g, row, col))
  }

  /** `n` moves at the same cell, one after the other. */
  function Repeat(g: Game, n: int, row: int, col: int): (r: Game)
    requires ValidGame(g) && OnGrid(row, col)
    ensures ValidGame(r)
    ensures n <= 0 ==> r == g
    decreases n
  {
    if n <= 0 then g else Move(Repeat(g, n - 1, row, col), row, col)
  }

  /**
   * `test(n, r, c)` makes the same move `n` times: on a board of lights an
   * even number of moves leaves the board as it was and an odd number equals
   * one move; after at least one move, undo is allowed and restores the
   * board before the last move.
   */
  lemma {:induction false} RepeatParity(g: Game, n: int, row: int, col: int)
    requires ValidGame(g) && Lights(g.board) && OnGrid(row, col) && n >= 0
    ensures Lights(Repeat(g, n, row, col).board)
    ensures Repeat(g, n, row, col).board == Flip(g.board, n % 2 == 1, row, col)
    ensures n >= 1 ==> Repeat(g, n, row, col).canUndo
    ensures n >= 1 ==> Repeat(g, n, row, col).previous == Flip(g.board, n % 2 == 0, row, col)
    decreases n
  {
    if n > 0 {
      RepeatParity(g, n - 1, row, col);
      var prev := Repeat(g, n - 1, row, col);
      assert (n - 1) % 2 == 1 <==> !(n % 2 == 1);
      FlipStep(g.board, (n - 1) % 2 == 1, row, col);
      ToggleKeepsLights(prev.board, row, col);
    }
  }

  /** The board after an odd (`odd`) or even number of moves at one cell. */
  function Flip(b: Board, odd: bool, row: int, col: int): (r: Board)
    requires IsGrid(b) && OnGrid(row, col)
    ensures IsGrid(r)
  {
    if odd then Toggle(b, row, col) else b
  }

  /** One more move switches the parity. */
  lemma FlipStep(b: Board, odd: bool, row: int, col: int)
    requires Lights(b) && OnGrid(row, col)
    ensures Toggle(Flip(b, odd, row, col), row, col) == Flip(b, !odd, row, col)
  {
    if odd {
      ToggleTwice(b, row, col);
    }
  }

  /** `test`: refused off the board, otherwise `n` moves. */
  function Test(g: Game, n: int, row: int, col: int): (r: (bool, Game))
    requires ValidGame(g)
    ensures r.0 <==> OnGrid(row, col)
    ensures !r.0 || n <= 0 ==> r.1 == g
  {
    if !OnGrid(row, col) then (false, g) else (true, Repeat(g, n, row, col))
  }

  /** C's `char` is signed: a byte from 128 up reads as a negative number. */
  function SignedChar(ch: char): int
    requires ch as int < 256
  {
    if ch as int < 128 then ch as int else ch as int - 256
  }

  /** Arguments arrive as bytes. */
  predicate ByteArgs(args: seq<string>) {
    forall k, i :: 0 <= k < |args| && 0 <= i < |args[k]| ==> args[k][i] as int < 256
  }

  /**
   * The third variant's `main`, given `argv[1..]`: no command is a usage
   * failure; `move` needs two more arguments and lets the bounds check of
   * `move` reject bad coordinates; `test` needs three and passes the
   * character code of the first character of its count argument as `n`.
   */
  function Command3(g: Game, args: seq<string>): (r: Outcome)
    requires ValidGame(g) && ByteArgs(args)
    ensures r.UsageFailure? <==> |args| == 0
    ensures r.Done? ==> ValidGame(r.game)
    ensures |args| >= 1 && args[0] == "move" ==>
      (r.Done? <==> |args| == 3 && OnGrid(Coord(args[1]), Coord(args[2])))
    ensures |args| >= 1 && args[0] == "test" ==>
      (r.Done? <==> |args| == 4 && OnGrid(Coord(args[2]), Coord(args[3])))
    ensures |args| >= 1 && args[0] != "move" && args[0] != "undo" && args[0] != "report" && args[0] != "test" ==> r.Error?
  {
    if |args| == 0 then UsageFailure
    else
      var cmd := args[0];
      if cmd == "move" then
        if |args| != 3 then Error
        else
          var (ok, h) := CheckedMove(g, Coord(args[1]), Coord(args[2]));
          if ok then Done("success\n", h) else Error
      else if cmd == "undo" then
        if |args| != 1 then Error
        else
          var (ok, h) := Undo(g);
          if ok then Done("success\n", h) else Error
      else if cmd == "report" then
        if |args| != 1 then Error else Done(Report(g.board), g)
      else if cmd == "test" then
        if |args| != 4 then Error
        else
          var n := if args[1] == [] then 0 else SignedChar(args[1][0]);
          var (ok, h) := Test(g, n, Coord(args[2]), Coord(args[3]));
          if ok then Done("", h) else Error
      else Error
  }

  /**
   * `test 3 r c` makes 51 moves (the code of `3`), not 3. Since the codes of
   * the digits have the parity of the digits, the board ends as the digit
   * count would leave it, except that `0` makes 48 moves instead of none.
   */
  lemma TestCountIsCharacterCode(g: Game, args: seq<string>, d: char)
    requires ValidGame(g) && Lights(g.board) && ByteArgs(args) && '0' <= d <= '9'
    requires |args| == 4 && args[0] == "test" && args[1] == [d] && OnGrid(Coord(args[2]), Coord(args[3]))
    ensures Command3(g, args) == Done("", Repeat(g, d as int, Coord(args[2]), Coord(args[3])))
    ensures Command3(g, args).game.board == Repeat(g, d as int - '0' as int, Coord(args[2]), Coord(args[3])).board
  {
    assert SignedChar(d) == d as int;
    SameParity(g, d as int, d as int - '0' as int, Coord(args[2]), Coord(args[3]));
  }

  /** Counts of the same parity leave a board of lights the same. */
  lemma SameParity(g: Game, m: int, n: int, row: int, col: int)
    requires ValidGame(g) && Lights(g.board) && OnGrid(row, col) && m >= 0 && n >= 0 && (m - n) % 2 == 0
    ensures Repeat(g, m, row, col).board == Repeat(g, n, row, col).board
  {
    RepeatParity(g, m, row, col);
    RepeatParity(g, n, row, col);
    assert m % 2 == n % 2;
  }
}

=== FILE: maxsum.dfy ===
/**
 * The maximum contiguous sum programs of the operating-systems exercises.
 * The input is a list of integers. Each of `workers` workers maximises over
 * part of the subarrays, and the results are combined.
 *
 * - `maxsum.c` (processes with a pipe) and `Maxsum.java` (threads) give
 *   worker `w` the subarrays whose start index is `w` modulo `workers`. The
 *   parent starts from 0, so it reports the maximum sum clamped at 0.
 *   Java's `int` running sums wrap to 32 bits, so it reports the clamped
 *   maximum of the wrapped sums; C's overflow is undefined and excluded.
 * - `maxsum-sem.c` hands out end indices one at a time through a counter
 *   guarded by semaphores. Each worker maximises the sums of the subarrays
 *   ending at its indices, and the global maximum starts from `INT_MIN`, so
 *   it is the exact maximum.
 *
 * Processes, threads, the pipe and the semaphores are left out. The workers
 * run one after another, and the nondeterministic hand-out of end indices
 * is a parameter saying which worker received each index.
 */
module Maxsum {
  import opened Common
  import opened CScan
  import JavaText

  // ---------------------------------------------------------------------
  // Sums and the maximum contiguous sum
  // ---------------------------------------------------------------------

  /** The sum of `v[a..b]`. */
  function Sum(v: seq<int>, a: nat, b: nat): int
    requires a <= b <= |v|
    decreases b
  {
    if a == b then 0 else Sum(v, a, b - 1) + v[b - 1]
  }

  /** The sum of `v[a..e]`, both ends included, as the suffix loops of `maxsum-sem.c` see it. */
  function SumThrough(v: seq<int>, a: nat, e: nat): int
    requires a <= e < |v|
  {
    Sum(v, a, e + 1)
  }

  /** Taking the first element off the front of a sum. */
  lemma {:induction false} SumFront(v: seq<int>, a: nat, b: nat)
    requires a < b <= |v|
    ensures Sum(v, a, b) == v[a] + Sum(v, a + 1, b)
    decreases b
  {
    if a + 1 < b {
      SumFront(v, a, b - 1);
    }
  }

  /** No subarray sums to more than `m`. */
  predicate UpperBound(v: seq<int>, m: int) {
    forall a, b :: 0 <= a < b <= |v| ==> Sum(v, a, b) <= m
  }

  /** Some non-empty subarray sums to exactly `m`. */
  predicate Attained(v: seq<int>, m: int) {
    exists a, b :: 0 <= a < b <= |v| && Sum(v, a, b) == m
  }

  /** `m` is the maximum contiguous sum of `v`. */
  predicate IsMaxSum(v: seq<int>, m: int) {
    UpperBound(v, m) && Attained(v, m)
  }

  /** `m` is the maximum contiguous sum of `v` clamped at 0, which is 0 for an empty list. */
  predicate IsClampedMaxSum(v: seq<int>, m: int) {
    m >= 0 && UpperBound(v, m) && (m == 0 || Attained(v, m))
  }

  /** The maximum is unique. */
  lemma MaxSumUnique(v: seq<int>, m: int, n: int)
    requires IsMaxSum(v, m) && IsMaxSum(v, n)
    ensures m == n
  {
    var a, b :| 0 <= a < b <= |v| && Sum(v, a, b) == m;
    var c, d :| 0 <= c < d <= |v| && Sum(v, c, d) == n;
  }

  /** Clamping the maximum at 0: the clamped maximum is the larger of 0 and the maximum. */
  lemma ClampedIsMaxOfZero(v: seq<int>, m: int, n: int)
    requires IsMaxSum(v, m)
    ensures IsClampedMaxSum(v, n) <==> n == if m > 0 then m else 0
  {
    if IsClampedMaxSum(v, n) && n != 0 {
      var a, b :| 0 <= a < b <= |v| && Sum(v, a, b) == n;
      var c, d :| 0 <= c < d <= |v| && Sum(v, c, d) == m;
    }
  }

  /** The smallest element of a non-empty list. */
  function Minimum(v: seq<int>): (r: int)
    requires |v| >= 1
    ensures forall k :: 0 <= k < |v| ==> r <= v[k]
    ensures exists k :: 0 <= k < |v| && v[k] == r
  {
    if |v| == 1 then v[0]
    else
      var m := Minimum(v[1..]);
      assert forall k :: 1 <= k < |v| ==> v[k] == v[1..][k - 1];
      if v[0] < m then v[0] else m
  }

  // ---------------------------------------------------------------------
  // The 32-bit running sums
  // ---------------------------------------------------------------------

  /** The number of distinct 32-bit values. */
  const INT_MODULUS: int := 0x1_0000_0000

  /** Java's `int` arithmetic: `x` reduced into the 32-bit two's-complement range. */
  function WrapInt(x: int): (r: int)
    ensures InInt(r)
    ensures InInt(x) ==> r == x
  {
    (x - INT_MIN) % INT_MODULUS + INT_MIN
  }

  /** Subtracting a multiple of the modulus keeps the residue. */
  lemma ModShift(s: int, q: int)
    ensures (s - INT_MODULUS * q) % INT_MODULUS == s % INT_MODULUS
  {
    var t := s - INT_MODULUS * q;
    assert s == INT_MODULUS * (s / INT_MODULUS) + s % INT_MODULUS;
    assert t == INT_MODULUS * (t / INT_MODULUS) + t % INT_MODULUS;
    var d := s / INT_MODULUS - q - t / INT_MODULUS;
    assert d * INT_MODULUS == t % INT_MODULUS - s % INT_MODULUS;
    MultipleRange(d, INT_MODULUS);
  }

  /** Wrapping after every addition gives the wrapped exact sum, so `sum += x` on an `int` keeps the exact sum modulo 2^32. */
  lemma WrapAdd(x: int, y: int)
    ensures WrapInt(WrapInt(x) + y) == WrapInt(x + y)
  {
    var t := x - INT_MIN;
    assert t % INT_MODULUS == t - INT_MODULUS * (t / INT_MODULUS);
    ModShift(t + y, t / INT_MODULUS);
  }

  /** Every subarray sum fits an `int`: in C the running sums overflow, which is undefined, otherwise. */
  predicate SumsInInt(v: seq<int>) {
    forall a, b :: 0 <= a < b <= |v| ==> InInt(Sum(v, a, b))
  }

  /** The value a worker's `int sum` holds for `v[a..b]`: exact in C, wrapped to 32 bits in Java. */
  function WorkerSum(v: seq<int>, a: nat, b: nat, java: bool): int
    requires a <= b <= |v|
  {
    if java then WrapInt(Sum(v, a, b)) else Sum(v, a, b)
  }

  /** `m` is the largest of 0 and every subarray sum as the workers compute it. */
  predicate IsClampedWorkerMax(v: seq<int>, m: int, java: bool) {
    && m >= 0
    && (forall a, b :: 0 <= a < b <= |v| ==> WorkerSum(v, a, b, java) <= m)
    && (m == 0 || exists a, b :: 0 <= a < b <= |v| && WorkerSum(v, a, b, java) == m)
  }

  /** When no sum overflows (and always for the C workers) the workers' maximum is the clamped maximum sum. */
  lemma ExactWorkerMax(v: seq<int>, m: int, java: bool)
    requires java ==> SumsInInt(v)
    ensures IsClampedWorkerMax(v, m, java) <==> IsClampedMaxSum(v, m)
  {
    assert forall a, b :: 0 <= a < b <= |v| ==> WorkerSum(v, a, b, java) == Sum(v, a, b);
  }

  /** `[INT_MAX, 1]`: the sum of both wraps to `INT_MIN`, so Java reports `INT_MAX` where the maximum sum is `INT_MAX + 1`. */
  lemma JavaWrapsPastIntMax()
    ensures IsClampedWorkerMax([INT_MAX, 1], INT_MAX, true)
    ensures IsClampedMaxSum([INT_MAX, 1], INT_MAX + 1)
  {
    var v := [INT_MAX, 1];
    assert Sum(v, 0, 1) == INT_MAX && Sum(v, 1, 2) == 1 && Sum(v, 0, 2) == INT_MAX + 1;
    assert WrapInt(INT_MAX + 1) == INT_MIN;
    assert WorkerSum(v, 0, 1, true) == INT_MAX;
  }

  // ---------------------------------------------------------------------
  // Residues modulo the number of workers
  // ---------------------------------------------------------------------

  /** A non-zero multiple of `n` is at least `n` away from 0. */
  lemma MultipleRange(d: int, n: int)
    requires n >= 1
    ensures d >= 1 ==> d * n >= n
    ensures d <= -1 ==> d * n <= -n
  {
    if d >= 1 {
      assert d * n == (d - 1) * n + n;
    } else if d <= -1 {
      assert d * n == (d + 1) * n - n;
    }
  }

  /** Adding the modulus keeps the residue. */
  lemma ResidueStep(i: nat, n: nat)
    requires n >= 1
    ensures (i + n) % n == i % n
  {
    var q := i / n;
    var q' := (i + n) / n;
    assert i == q * n + i % n;
    assert i + n == q' * n + (i + n) % n;
    var d := q' - q - 1;
    assert d * n == q' * n - q * n - n;
    MultipleRange(d, n);
  }

  /** Two indices with the same residue less than the modulus apart are equal. */
  lemma SameResidue(i: nat, a: nat, n: nat)
    requires n >= 1 && i <= a < i + n && a % n == i % n
    ensures a == i
  {
    var d := a / n - i / n;
    assert a == (a / n) * n + a % n;
    assert i == (i / n) * n + i % n;
    assert d * n == (a / n) * n - (i / n) * n;
    MultipleRange(d, n);
  }

  // ---------------------------------------------------------------------
  // The strided workers of maxsum.c and Maxsum.java
  // ---------------------------------------------------------------------

  /**
   * What worker `w` of `workers` reports: the larger of the list minimum and
   * every sum of a subarray whose start is `w` modulo `workers`.
   */
  predicate StridedMax(v: seq<int>, w: nat, workers: nat, r: int, java: bool)
    requires |v| >= 1 && workers >= 1
  {
    && r >= Minimum(v)
    && (forall a, b :: 0 <= a < b <= |v| && a % workers == w ==> WorkerSum(v, a, b, java) <= r)
    && (r == Minimum(v) || exists a, b :: 0 <= a < b <= |v| && a % workers == w && WorkerSum(v, a, b, java) == r)
  }

  /** The smallest element, as the workers find it before they start. */
  method SmallestValue(v: seq<int>) returns (r: int)
    requires |v| >= 1
    ensures r == Minimum(v)
  {
    r := v[0];
    var i := 0;
    while i < |v|
      invariant 0 <= i <= |v|
      invariant forall k :: 0 <= k < i ==> r <= v[k]
      invariant exists k :: 0 <= k < |v| && r == v[k]
    {
      if v[i] < r {
        r := v[i];
      }
      i := i + 1;
    }
  }

  /**
   * One start index: the running sums of `v[i..j]` raise `r` to the best of
   * them. The Java `sum += v[j]` wraps to 32 bits.
   */
  method SumsFrom(v: seq<int>, i: nat, r0: int, java: bool) returns (r: int)
    requires i < |v|
    ensures r >= r0
    ensures forall b :: i < b <= |v| ==> WorkerSum(v, i, b, java) <= r
    ensures r == r0 || exists b :: i < b <= |v| && WorkerSum(v, i, b, java) == r
  {
    r := r0;
    var sum := 0;
    var j := i;
    while j < |v|
      invariant i <= j <= |v|
      invariant sum == WorkerSum(v, i, j, java)
      invariant r >= r0
      invariant forall b :: i < b <= j ==> WorkerSum(v, i, b, java) <= r
      invariant r == r0 || exists b :: i < b <= j && WorkerSum(v, i, b, java) == r
    {
      if java {
        WrapAdd(Sum(v, i, j), v[j]);
        sum := WrapInt(sum + v[j]);
      } else {
        sum := sum + v[j];
      }
      if sum > r {
        r := sum;
      }
      j := j + 1;
    }
  }

  /**
   * A worker of `maxsum.c` and `Maxsum.java`: start from the smallest element,
   * then raise the maximum by every sum of a subarray starting at
   * `w`, `w + workers`, `w + 2 * workers`, ...
   */
  method StridedWorker(v: seq<int>, w: nat, workers: nat, java: bool) returns (r: int)
    requires |v| >= 1 && w < workers
    ensures StridedMax(v, w, workers, r, java)
  {
    r := SmallestValue(v);
    var i := w;
    assert i % workers == w;
    while i < |v|
      invariant w <= i && i % workers == w
      invariant r >= Minimum(v)
      invariant forall a, b :: 0 <= a < i && a < b <= |v| && a % workers == w ==> WorkerSum(v, a, b, java) <= r
      invariant r == Minimum(v) || exists a, b :: 0 <= a < b <= |v| && a % workers == w && WorkerSum(v, a, b, java) == r
    {
      var r' := SumsFrom(v, i, r, java);
      forall a, b | 0 <= a < i + workers && a < b <= |v| && a % workers == w
        ensures WorkerSum(v, a, b, java) <= r'
      {
        if a >= i {
          SameResidue(i, a, workers);
        }
      }
      ResidueStep(i, workers);
      r := r';
      i := i + workers;
    }
  }

  /** What a strided worker leaves in its `maxSum`: `StridedMax`, or 0 for a Java thread on an empty list. */
  predicate WorkerResult(v: seq<int>, w: nat, workers: nat, r: int, java: bool)
    requires workers >= 1
  {
    && (|v| == 0 ==> r == 0)
    && (|v| >= 1 ==> StridedMax(v, w, workers, r, java))
  }

  /** `maxima[k]` is what strided worker `k` found, for every worker so far. */
  predicate WorkerResults(v: seq<int>, workers: nat, maxima: seq<int>, java: bool)
    requires workers >= 1
  {
    forall k :: 0 <= k < |maxima| ==> WorkerResult(v, k, workers, maxima[k], java)
  }

  /** One more worker's result extends the list. */
  lemma WorkerResultsSnoc(v: seq<int>, workers: nat, maxima: seq<int>, r: int, java: bool)
    requires workers >= 1 && WorkerResults(v, workers, maxima, java)
    requires WorkerResult(v, |maxima|, workers, r, java)
    ensures WorkerResults(v, workers, maxima + [r], java)
  {
    var next := maxima + [r];
    assert forall k :: 0 <= k < |maxima| ==> next[k] == maxima[k];
  }

  /** The worker of `Maxsum.java`: on an empty list `vList.get(0)` throws, and the thread's result stays 0. */
  method JavaWorker(v: seq<int>, w: nat, workers: nat) returns (r: int)
    requires w < workers
    ensures |v| == 0 ==> r == 0
    ensures |v| >= 1 ==> StridedMax(v, w, workers, r, true)
  {
    if |v| == 0 {
      r := 0;
    } else {
      r := StridedWorker(v, w, workers, true);
    }
  }

  /**
   * The workers one after another, and the parent's combination: starting
   * from 0, the largest worker result. `maxima[w]` is what worker `w`
   * found. Because the start residues cover every index, the result is the
   * largest of 0 and every subarray sum as the workers compute it. The C
   * workers' sums must fit an `int`; Java reads only `int` values.
   */
  method CombineStrided(v: seq<int>, workers: nat, java: bool) returns (m: int, maxima: seq<int>)
    requires workers >= 1
    requires !java ==> |v| >= 1 && SumsInInt(v)
    requires java ==> forall k :: 0 <= k < |v| ==> InInt(v[k])
    ensures IsClampedWorkerMax(v, m, java)
    ensures |maxima| == workers && WorkerResults(v, workers, maxima, java)
    ensures m >= 0 && (forall w :: 0 <= w < workers ==> maxima[w] <= m) && (m == 0 || m in maxima)
  {
    m := 0;
    maxima := [];
    var w := 0;
    while w < workers
      invariant 0 <= w <= workers
      invariant m >= 0
      invariant forall a, b :: 0 <= a < b <= |v| && a % workers < w ==> WorkerSum(v, a, b, java) <= m
      invariant m == 0 || exists a, b :: 0 <= a < b <= |v| && WorkerSum(v, a, b, java) == m
      invariant |maxima| == w && WorkerResults(v, workers, maxima, java)
      invariant (forall k :: 0 <= k < w ==> maxima[k] <= m) && (m == 0 || m in maxima)
    {
      var r;
      if java {
        r := JavaWorker(v, w, workers);
      } else {
        r := StridedWorker(v, w, workers, false);
      }
      if |v| >= 1 && r > Minimum(v) {
        var a, b :| 0 <= a < b <= |v| && a % workers == w && WorkerSum(v, a, b, java) == r;
      } else if |v| >= 1 {
        var k :| 0 <= k < |v| && v[k] == Minimum(v);
        assert Sum(v, k, k + 1) == v[k];
        assert WorkerSum(v, k, k + 1, java) == r;
      }
      if r > m {
        m := r;
      }
      WorkerResultsSnoc(v, workers, maxima, r, java);
      maxima := maxima + [r];
      w := w + 1;
    }
  }

  // ---------------------------------------------------------------------
  // Reading the list (maxsum.c, Maxsum.java)
  // ---------------------------------------------------------------------

  /** `while (scanf("%d", &v) == 1)`: every integer up to the first text that is not one. */
  function ScanValues(text: string): (vs: seq<int>)
    decreases |text|
  {
    match ScanInt(text)
    case None => []
    case Some((x, rest)) => [x] + ScanValues(rest)
  }

  /** Integers written one per line. */
  function ValuesText(vs: seq<int>): string {
    if vs == [] then [] else IntText(vs[0]) + ("\n" + ValuesText(vs[1..]))
  }

  /** Reading back integers written one per line gives the same list. */
  lemma {:induction false} ScanValuesText(vs: seq<int>)
    ensures ScanValues(ValuesText(vs)) == vs
    decreases |vs|
  {
    if vs != [] {
      var tail := ValuesText(vs[1..]);
      var text := IntText(vs[0]) + ("\n" + tail);
      assert ValuesText(vs) == text;
      ScanIntText(vs[0], "\n" + tail);
      ScanValuesStep(text, vs[0], "\n" + tail);
      ScanIntNewline(tail);
      ScanValuesText(vs[1..]);
      assert vs == [vs[0]] + vs[1..];
    }
  }

  /** One integer read, then the rest of the list. */
  lemma ScanValuesStep(text: string, x: int, rest: string)
    requires ScanInt(text) == Some((x, rest))
    ensures ScanValues(text) == [x] + ScanValues(rest)
  {
  }

  /** A leading newline is white space to `%d`. */
  lemma ScanIntNewline(s: string)
    ensures ScanValues("\n" + s) == ScanValues(s)
  {
    assert ("\n" + s)[1..] == s;
    assert ScanInt("\n" + s) == ScanInt(s);
  }

  /** The initial capacity of the value list in `maxsum.c`. */
  const INITIAL_CAPACITY: nat := 5

  /** A capacity reachable from the initial one by doubling. */
  predicate Doubled(cap: nat) {
    cap == INITIAL_CAPACITY || (cap % 2 == 0 && cap >= 2 * INITIAL_CAPACITY && Doubled(cap / 2))
  }

  /**
   * `readList` of `maxsum.c`: the values are stored in input order, and the
   * capacity starts at 5 and doubles whenever the list is full. The capacity
   * never falls short of the count and never exceeds twice what is needed.
   */
  method ReadList(input: seq<int>) returns (list: seq<int>, cap: nat)
    ensures list == input
    ensures |list| <= cap && Doubled(cap)
    ensures cap == INITIAL_CAPACITY || cap < 2 * |list|
  {
    cap := INITIAL_CAPACITY;
    list := [];
    var k := 0;
    while k < |input|
      invariant 0 <= k <= |input|
      invariant list == input[..k]
      invariant |list| <= cap && Doubled(cap)
      invariant cap == INITIAL_CAPACITY || cap <= 2 * (|list| - 1)
    {
      if |list| >= cap {
        cap := cap * 2;
      }
      list := list + [input[k]];
      k := k + 1;
    }
    assert input[..k] == input;
  }

  // ---------------------------------------------------------------------
  // Command-line arguments
  // ---------------------------------------------------------------------

  /** The settings the arguments select. */
  datatype Config = Config(workers: nat, report: bool)

  /**
   * What a run prints: the usage message, the size error, or the maximum,
   * after the `report` lines: the maximum each worker found, in worker
   * order, one per worker that prints, and none without `report`.
   */
  datatype Outcome = Usage | TooManyValues | MaximumSum(sum: int, reports: seq<int>)

  /** `sscanf(argv[1], "%d", ...)` reads a value that fits an `int`, or none at all. */
  predicate CArgsDefined(args: seq<string>) {
    |args| >= 1 && ScanInt(args[0]).Some? ==> InInt(ScanInt(args[0]).value.0)
  }

  /**
   * The argument checks of `maxsum.c` and `maxsum-sem.c` (`args` is `argv`
   * without the program name): one or two arguments, the first read by
   * `%d` as at least 1 with any text after the number ignored, and the
   * second, if present, exactly `report`.
   */
  function CArgs(args: seq<string>): (r: Option<Config>)
    requires CArgsDefined(args)
    ensures r.Some? ==> r.value.workers >= 1 && InInt(r.value.workers)
    ensures r.Some? ==> 1 <= |args| <= 2 && (r.value.report <==> |args| == 2)
    ensures r.Some? && |args| == 2 ==> args[1] == "report"
    ensures r.Some? ==> ScanInt(args[0]).Some? && ScanInt(args[0]).value.0 == r.value.workers
  {
    if |args| < 1 || |args| > 2 then None
    else match ScanInt(args[0])
      case None => None
      case Some((n, _)) =>
        if n < 1 then None
        else if |args| == 2 && args[1] != "report" then None
        else Some(Config(n, |args| == 2))
  }

  /**
   * The argument checks of `Maxsum.java`: one or two arguments, the first a
   * whole `Integer.parseInt` number of at least 1, the second, if present,
   * exactly `report`.
   */
  function JavaArgs(args: seq<string>): (r: Option<Config>)
    ensures r.Some? ==> r.value.workers >= 1 && InInt(r.value.workers)
    ensures r.Some? ==> 1 <= |args| <= 2 && (r.value.report <==> |args| == 2)
    ensures r.Some? && |args| == 2 ==> args[1] == "report"
    ensures r.Some? ==> JavaText.ParseInt(args[0]) == Some(r.value.workers as int)
  {
    if |args| < 1 || |args| > 2 then None
    else match JavaText.ParseInt(args[0])
      case None => None
      case Some(n) =>
        if n < 1 then None
        else if |args| == 2 && args[1] != "report" then None
        else Some(Config(n, |args| == 2))
  }

  /** The arguments a user writes for a configuration. */
  function ConfigArgs(c: Config): seq<string> {
    [IntText(c.workers)] + (if c.report then ["report"] else [])
  }

  /** Both argument parsers accept exactly the arguments written for a valid configuration. */
  lemma ConfigArgsRoundTrip(c: Config)
    requires c.workers >= 1 && InInt(c.workers)
    ensures CArgsDefined(ConfigArgs(c)) && CArgs(ConfigArgs(c)) == Some(c)
    ensures JavaArgs(ConfigArgs(c)) == Some(c)
  {
    ScanIntText(c.workers, []);
    assert IntText(c.workers) + [] == IntText(c.workers);
    JavaText.ParseIntText(c.workers);
  }

  /** A count followed by other text: `%d` reads the number and ignores the rest; `parseInt` rejects it. */
  lemma TrailingTextDialects(n: int, junk: string)
    requires n >= 1 && InInt(n) && junk != [] && !IsDigit(junk[0])
    ensures CArgsDefined([IntText(n) + junk]) && CArgs([IntText(n) + junk]) == Some(Config(n, false))
    ensures JavaArgs([IntText(n) + junk]) == None
  {
    ScanIntText(n, junk);
    var s := IntText(n) + junk;
    assert s[|IntText(n)|] == junk[0];
  }

  /**
   * `maxsum.c`: the arguments, then the strided workers and the parent's
   * combination. An empty list is excluded: the workers would start from
   * `vList[0]`, which was never written. So are sums that overflow an `int`,
   * whose behaviour C leaves undefined.
   */
  method MaxsumProcesses(args: seq<string>, input: seq<int>) returns (out: Outcome)
    requires CArgsDefined(args)
    requires CArgs(args).Some? ==> |input| >= 1 && SumsInInt(input)
    ensures out.Usage? <==> CArgs(args).None?
    ensures !out.TooManyValues?
    ensures out.MaximumSum? ==> IsClampedMaxSum(input, out.sum)
    ensures out.MaximumSum? ==> var c := CArgs(args).value;
      && (!c.report ==> out.reports == [])
      && (c.report ==> (|out.reports| == c.workers
            && forall w :: 0 <= w < c.workers ==> StridedMax(input, w, c.workers, out.reports[w], false)))
  {
    var config := CArgs(args);
    if config.None? {
      return Usage;
    }
    var v, _ := ReadList(input);
    var m, maxima := CombineStrided(v, config.value.workers, false);
    ExactWorkerMax(v, m, false);
    out := MaximumSum(m, if config.value.report then maxima else []);
  }

  /**
   * `Maxsum.java`: the same computation with threads over the `int` values
   * `nextInt` reads; an empty list reports 0. The running sums wrap to 32
   * bits, so the result is the clamped maximum only when no sum overflows.
   */
  method MaxsumThreads(args: seq<string>, input: seq<int>) returns (out: Outcome)
    requires forall k :: 0 <= k < |input| ==> InInt(input[k])
    ensures out.Usage? <==> JavaArgs(args).None?
    ensures !out.TooManyValues?
    ensures out.MaximumSum? ==> IsClampedWorkerMax(input, out.sum, true)
    ensures out.MaximumSum? && SumsInInt(input) ==> IsClampedMaxSum(input, out.sum)
    ensures out.MaximumSum? ==> var c := JavaArgs(args).value;
      && (!c.report || |input| == 0 ==> out.reports == [])
      && (c.report && |input| >= 1 ==> (|out.reports| == c.workers
            && forall w :: 0 <= w < c.workers ==> StridedMax(input, w, c.workers, out.reports[w], true)))
  {
    var config := JavaArgs(args);
    if config.None? {
      return Usage;
    }
    var m, maxima := CombineStrided(input, config.value.workers, true);
    if SumsInInt(input) {
      ExactWorkerMax(input, m, true);
    }
    out := MaximumSum(m, if config.value.report && |input| >= 1 then maxima else []);
  }

  // ---------------------------------------------------------------------
  // maxsum-sem.c: the hand-out counter
  // ---------------------------------------------------------------------

  /**
   * The shared state of `getWork`: the next index to hand out, the number
   * of values stored so far and whether the input is exhausted. The
   * `readCount` semaphore holds `vCount - readIndex`.
   */
  datatype WorkState = WorkState(readIndex: nat, vCount: nat, inputRead: bool)

  predicate ValidWork(s: WorkState) { s.readIndex <= s.vCount }

  /** What a call of `getWork` does: hand out an index, report the end (-1), or block on `readCount`. */
  datatype Work = Index(i: nat) | Finished | Blocked

  /** One call of `getWork`, atomic under `workLock`. */
  function GetWork(s: WorkState): (r: (Work, WorkState))
    requires ValidWork(s)
    ensures ValidWork(r.1)
    ensures r.0.Finished? <==> s.inputRead && s.readIndex == s.vCount
    ensures r.0.Blocked? <==> !s.inputRead && s.readIndex == s.vCount
    ensures r.0.Index? ==> r.0.i == s.readIndex < s.vCount && r.1 == s.(readIndex := s.readIndex + 1)
    ensures !r.0.Index? ==> r.1 == s
  {
    if s.inputRead && s.readIndex == s.vCount then (Finished, s)
    else if s.readIndex == s.vCount then (Blocked, s)
    else (Index(s.readIndex), s.(readIndex := s.readIndex + 1))
  }

  /** `readList` stores one more value and posts `readCount`. */
  function StoreValue(s: WorkState): (r: WorkState)
    requires ValidWork(s) && !s.inputRead
    ensures ValidWork(r) && r.vCount == s.vCount + 1 && r.readIndex == s.readIndex
  {
    s.(vCount := s.vCount + 1)
  }

  /** Once the input is exhausted, the indices still to be handed out, in the order `getWork` gives them. */
  function Drain(s: WorkState): (r: seq<nat>)
    requires ValidWork(s) && s.inputRead
    decreases s.vCount - s.readIndex
  {
    match GetWork(s)
    case (Index(i), s') => [i] + Drain(s')
    case _ => []
  }

  /** After the input ends, `getWork` hands out every remaining index once, in increasing order, then -1. */
  lemma {:induction false} DrainInOrder(s: WorkState)
    requires ValidWork(s) && s.inputRead
    ensures |Drain(s)| == s.vCount - s.readIndex
    ensures forall k :: 0 <= k < |Drain(s)| ==> Drain(s)[k] == s.readIndex + k
    decreases s.vCount - s.readIndex
  {
    if s.readIndex < s.vCount {
      DrainInOrder(s.(readIndex := s.readIndex + 1));
    }
  }

  /** Each hand-out is an index whose value is already stored, never handed out before. */
  lemma HandOutIsFresh(s: WorkState, given: set<nat>)
    requires ValidWork(s) && forall i :: i in given <==> i < s.readIndex
    ensures GetWork(s).0.Index? ==> GetWork(s).0.i !in given && GetWork(s).0.i < s.vCount
    ensures GetWork(s).0.Index? ==> forall i :: i in given + {GetWork(s).0.i} <==> i < GetWork(s).1.readIndex
  {
  }

  // ---------------------------------------------------------------------
  // maxsum-sem.c: the workers
  // ---------------------------------------------------------------------

  /** The indices among `who` handed to worker `w`, in hand-out order: `who[e]` is the worker that received `e`. */
  function EndsOf(who: seq<nat>, w: nat): (ends: seq<nat>)
    ensures forall p :: 0 <= p < |ends| ==> ends[p] < |who| && who[ends[p]] == w
    ensures forall e :: 0 <= e < |who| && who[e] == w ==> e in ends
    ensures forall p, q :: 0 <= p < q < |ends| ==> ends[p] < ends[q]
  {
    if who == [] then []
    else
      var last := |who| - 1;
      var before := EndsOf(who[..last], w);
      assert forall e :: 0 <= e < last ==> who[..last][e] == who[e];
      if who[last] == w then before + [last] else before
  }

  /**
   * What a worker of `maxsum-sem.c` reports for the end indices it received:
   * the largest sum of a subarray ending at one of them, or `INT_MIN` when it
   * received none.
   */
  predicate SuffixMax(v: seq<int>, ends: seq<nat>, r: int)
    requires forall p :: 0 <= p < |ends| ==> ends[p] < |v|
  {
    && r >= INT_MIN
    && (forall p, a :: 0 <= p < |ends| && 0 <= a <= ends[p] ==> SumThrough(v, a, ends[p]) <= r)
    && (r == INT_MIN || exists p, a :: 0 <= p < |ends| && 0 <= a <= ends[p] && SumThrough(v, a, ends[p]) == r)
  }

  /** One end index: the suffix sums `v[i..e]` for `i` from `e` down to 0 raise `r` to the best of them. */
  method SuffixSums(v: seq<int>, e: nat, r0: int) returns (r: int)
    requires e < |v|
    ensures r >= r0
    ensures forall a :: 0 <= a <= e ==> SumThrough(v, a, e) <= r
    ensures r == r0 || exists a :: 0 <= a <= e && SumThrough(v, a, e) == r
  {
    r := r0;
    var sum := 0;
    var i: int := e;
    while i >= 0
      invariant -1 <= i <= e
      invariant sum == Sum(v, i + 1, e + 1)
      invariant r >= r0
      invariant forall a :: i < a <= e ==> SumThrough(v, a, e) <= r
      invariant r == r0 || exists a :: i < a <= e && SumThrough(v, a, e) == r
    {
      SumFront(v, i, e + 1);
      sum := sum + v[i];
      assert SumThrough(v, i, e) == sum;
      if sum > r {
        r := sum;
      }
      i := i - 1;
    }
  }

  /** `workerRoutine`: from `INT_MIN`, the best suffix sum of every end index received. */
  method SuffixWorker(v: seq<int>, ends: seq<nat>) returns (r: int)
    requires forall p :: 0 <= p < |ends| ==> ends[p] < |v|
    ensures SuffixMax(v, ends, r)
  {
    r := INT_MIN;
    var n := 0;
    while n < |ends|
      invariant 0 <= n <= |ends|
      invariant SuffixMax(v, ends[..n], r)
    {
      var r' := SuffixSums(v, ends[n], r);
      assert forall p :: 0 <= p < n ==> ends[..n + 1][p] == ends[..n][p];
      r := r';
      n := n + 1;
    }
    assert ends[..n] == ends;
  }

  // ---------------------------------------------------------------------
  // maxsum-sem.c: reading the list into a fixed array
  // ---------------------------------------------------------------------

  /** The size of the fixed value array. */
  const MAX_VALUES: nat := 500000

  /** What `readList` leaves: the values stored at indices `0 .. |values| - 1`, or the size error. */
  datatype Stored = Stored(values: seq<int>) | TooMany

  /**
   * `readList` as written: before storing value number `k` (counting from
   * 0) it fails only when `k > MAX_VALUES`, so the value at index
   * `MAX_VALUES`, one past the end of the array, is still written.
   */
  function ReadValuesAsWritten(input: seq<int>, k: nat): (r: Stored)
    requires k <= |input|
    ensures r.Stored? <==> k == |input| || |input| <= MAX_VALUES + 1
    ensures r.Stored? ==> r.values == input[k..]
    decreases |input| - k
  {
    if k == |input| then Stored([])
    else if k > MAX_VALUES then TooMany
    else
      match ReadValuesAsWritten(input, k + 1)
      case TooMany => TooMany
      case Stored(rest) => Stored([input[k]] + rest)
  }

  /** `MAX_VALUES + 1` values pass the check, so the last is written at index `MAX_VALUES`, outside the array. */
  lemma GuardLetsOneTooMany(input: seq<int>)
    requires |input| == MAX_VALUES + 1
    ensures ReadValuesAsWritten(input, 0).Stored?
    ensures |ReadValuesAsWritten(input, 0).values| - 1 == MAX_VALUES
  {
  }

  /**
   * `readList` with the check it evidently intends, `vCount >= MAX_VALUES`:
   * the input is stored when it fits the array and is a size error otherwise.
   */
  function ReadValues(input: seq<int>, k: nat): (r: Stored)
    requires k <= |input|
    ensures r.Stored? <==> k == |input| || |input| <= MAX_VALUES
    ensures r.Stored? ==> r.values == input[k..]
    decreases |input| - k
  {
    if k == |input| then Stored([])
    else if k >= MAX_VALUES then TooMany
    else
      match ReadValues(input, k + 1)
      case TooMany => TooMany
      case Stored(rest) => Stored([input[k]] + rest)
  }

  /** With the corrected check every stored index lies inside the array. */
  lemma StoredIndicesFit(input: seq<int>)
    requires ReadValues(input, 0).Stored?
    ensures |ReadValues(input, 0).values| <= MAX_VALUES
  {
  }

  /**
   * `maxsum-sem.c` with the corrected size check: the arguments, the values,
   * then the workers. `who[e]` is the worker that `getWork` handed end index
   * `e` to; the global maximum starts at `INT_MIN` and is not clamped.
   * Sums that overflow an `int` are undefined in C and are excluded.
   */
  method MaxsumSemaphores(args: seq<string>, input: seq<int>, who: seq<nat>) returns (out: Outcome)
    requires CArgsDefined(args)
    requires forall k :: 0 <= k < |input| ==> InInt(input[k])
    requires CArgs(args).Some? && |input| <= MAX_VALUES ==> SumsInInt(input)
    requires |who| == |input|
    requires CArgs(args).Some? ==> forall e :: 0 <= e < |who| ==> who[e] < CArgs(args).value.workers
    ensures out.Usage? <==> CArgs(args).None?
    ensures out.TooManyValues? <==> CArgs(args).Some? && |input| > MAX_VALUES
    ensures out.MaximumSum? && |input| == 0 ==> out.sum == INT_MIN
    ensures out.MaximumSum? && |input| >= 1 ==> IsMaxSum(input, out.sum)
    ensures out.MaximumSum? ==> var c := CArgs(args).value;
      && (!c.report ==> out.reports == [])
      && (c.report ==> (|out.reports| == c.workers
            && forall w :: 0 <= w < c.workers ==> SuffixMax(input, EndsOf(who, w), out.reports[w])))
  {
    var config := CArgs(args);
    if config.None? {
      return Usage;
    }
    var stored := ReadValues(input, 0);
    if stored.TooMany? {
      return TooManyValues;
    }
    assert input[0..] == input;
    var v := stored.values;
    var m, maxima := SemWorkers(v, who, config.value.workers);
    if |v| >= 1 {
      assert Sum(v, 0, 1) == v[0];
      assert v[0] <= m;
    }
    out := MaximumSum(m, if config.value.report then maxima else []);
  }

  /** `maxima[k]` is what semaphore worker `k` found over the end indices it was handed. */
  predicate SemResults(v: seq<int>, who: seq<nat>, maxima: seq<int>)
    requires |who| == |v|
  {
    forall k :: 0 <= k < |maxima| ==> SuffixMax(v, EndsOf(who, k), maxima[k])
  }

  /** One more worker's result extends the list. */
  lemma SemResultsSnoc(v: seq<int>, who: seq<nat>, maxima: seq<int>, r: int)
    requires |who| == |v| && SemResults(v, who, maxima)
    requires SuffixMax(v, EndsOf(who, |maxima|), r)
    ensures SemResults(v, who, maxima + [r])
  {
    var next := maxima + [r];
    assert forall k :: 0 <= k < |maxima| ==> next[k] == maxima[k];
  }

  /**
   * The workers of `maxsum-sem.c` one after another, each over the end
   * indices it was handed, and the global maximum from `INT_MIN`.
   * `maxima[w]` is what worker `w` found.
   */
  method SemWorkers(v: seq<int>, who: seq<nat>, workers: nat) returns (m: int, maxima: seq<int>)
    requires |who| == |v| && forall e :: 0 <= e < |who| ==> who[e] < workers
    ensures m >= INT_MIN && UpperBound(v, m)
    ensures m == INT_MIN || Attained(v, m)
    ensures |maxima| == workers && SemResults(v, who, maxima)
    ensures (forall w :: 0 <= w < workers ==> maxima[w] <= m) && (m == INT_MIN || m in maxima)
  {
    m := INT_MIN;
    maxima := [];
    var w := 0;
    while w < workers
      invariant 0 <= w <= workers
      invariant m >= INT_MIN
      invariant forall a, e :: 0 <= a <= e < |v| && who[e] < w ==> SumThrough(v, a, e) <= m
      invariant m == INT_MIN || Attained(v, m)
      invariant |maxima| == w && SemResults(v, who, maxima)
      invariant (forall k :: 0 <= k < w ==> maxima[k] <= m) && (m == INT_MIN || m in maxima)
    {
      var ends := EndsOf(who, w);
      var r := SuffixWorker(v, ends);
      if r != INT_MIN {
        var p, a :| 0 <= p < |ends| && 0 <= a <= ends[p] && SumThrough(v, a, ends[p]) == r;
        assert Sum(v, a, ends[p] + 1) == r;
      }
      forall a, e | 0 <= a <= e < |v| && who[e] == w
        ensures SumThrough(v, a, e) <= r
      {
        var p :| 0 <= p < |ends| && ends[p] == e;
      }
      if r > m {
        m := r;
      }
      SemResultsSnoc(v, who, maxima, r);
      maxima := maxima + [r];
      w := w + 1;
    }
    forall a, b | 0 <= a < b <= |v|
      ensures Sum(v, a, b) <= m
    {
      assert SumThrough(v, a, b - 1) <= m;
    }
  }
}

=== FILE: numerals.dfy ===
/**
 * The number component of the calculator, in its two builds: base 10
 * (`number10.c`) and base 25 (`number25.c`, digits `0`-`9` then `A`-`O`).
 * Standard input is the string still unread; `getchar` at its end gives
 * `EOF`, and `ungetc` leaves the character at the front of what is returned
 * as unread.
 */
module Numerals {
  import opened Common
  import opened Operation

  /** Exit status for input that is not a number where one is expected. */
  const FAIL_INPUT: nat := 102

  /** The two builds of the number component. */
  datatype Base = Ten | TwentyFive

  function Radix(base: Base): (b: nat)
    ensures 10 <= b <= 25
  {
    match base
    case Ten => 10
    case TwentyFive => 25
  }

  /** The characters `skipSpace` reads past: space, tab, carriage return, vertical tab and form feed, but not `\n`. */
  predicate IsBlank(c: char) {
    c == ' ' || c == '\t' || c == '\r' || c == VT || c == FF
  }

  /** Every character of `b` is a blank. */
  predicate AllBlank(b: string) {
    forall j :: 0 <= j < |b| ==> IsBlank(b[j])
  }

  /** `skipSpace`: what is left after the blanks at the front of the input. */
  function SkipSpace(s: string): (t: string)
    ensures |t| <= |s| && (t == [] || !IsBlank(t[0]))
  {
    if s != [] && IsBlank(s[0]) then SkipSpace(s[1..]) else s
  }

  /** `skipSpace` drops exactly the blanks at the front: what it leaves is a suffix, and all it dropped were blanks. */
  lemma {:induction false} SkipSpaceDropsBlanks(s: string)
    ensures var t := SkipSpace(s); t == s[|s| - |t|..] && AllBlank(s[..|s| - |t|])
  {
    if s != [] && IsBlank(s[0]) {
      SkipSpaceDropsBlanks(s[1..]);
      var t := SkipSpace(s[1..]);
      assert s[1..][|s| - 1 - |t|..] == s[|s| - |t|..];
      assert s[..|s| - |t|] == [s[0]] + s[1..][..|s| - 1 - |t|];
    }
  }

  /** Blanks in front of the input make no difference to `skipSpace`. */
  lemma {:induction false} SkipBlanks(b: string, rest: string)
    requires AllBlank(b)
    ensures SkipSpace(b + rest) == SkipSpace(rest)
    decreases |b|
  {
    if b == [] {
      assert b + rest == rest;
    } else {
      assert (b + rest)[1..] == b[1..] + rest;
      SkipBlanks(b[1..], rest);
    }
  }

  /** Input that does not start with a blank is left as it is. */
  lemma SkipNone(s: string)
    requires s == [] || !IsBlank(s[0])
    ensures SkipSpace(s) == s
  {
  }

  /** The first-character check of `parseValue`, the same in both builds: `0`-`9` or `A`-`O`. */
  predicate StartChar(c: char) {
    ('0' <= c <= '9') || ('A' <= c <= 'O')
  }

  /** The characters the digit loop of each build reads as digits. */
  predicate IsDigitOf(base: Base, c: char) {
    match base
    case Ten => '0' <= c <= '9'
    case TwentyFive => ('0' <= c <= '9') || ('A' <= c <= 'O')
  }

  /** Every character of `ds` is a digit of the build. */
  predicate AllDigits(base: Base, ds: string) {
    forall j :: 0 <= j < |ds| ==> IsDigitOf(base, ds[j])
  }

  /** The value of a digit: `0`-`9` are 0 to 9 and `A`-`O` are 10 to 24. */
  function DigitValue(c: char): (d: nat)
    requires StartChar(c)
    ensures d < 25
  {
    if c <= '9' then c as int - '0' as int else c as int - 'A' as int + 10
  }

  /** The digit `printDigit` writes for a value below 25. */
  function DigitChar(d: nat): (c: char)
    requires d < 25
    ensures StartChar(c) && DigitValue(c) == d
    ensures d < 10 <==> '0' <= c <= '9'
  {
    if d <= 9 then ('0' as int + d) as char else ('A' as int + d - 10) as char
  }

  /** Each digit character stands for one value: `DigitChar` undoes `DigitValue`. */
  lemma DigitCharValue(c: char)
    requires StartChar(c)
    ensures DigitChar(DigitValue(c)) == c
  {
  }

  /** The outcome of reading a number: its value and the unread input, or the program's exit with a status. */
  datatype Parse = Parsed(value: int, rest: string) | Failed(code: nat)

  /**
   * Any integer reduced to the `long` it wraps to in 64-bit two's complement
   * arithmetic (signed overflow is undefined in C; this is what the
   * generated code gives).
   */
  function WrapAny(x: int): (w: int)
    ensures InLong(w) && (InLong(x) ==> w == x)
  {
    (x - LONG_MIN) % TWO_64 + LONG_MIN
  }

  /**
   * One digit of the loop: `value * base + digit`, either with the unchecked
   * `*=` and `+=` of `number10.c` (`wrapping`) or with the checked `times`
   * and `plus` of `number25.c`. The base is positive, so `times` never
   * reaches its trapping case here.
   */
  function Step(base: Base, wrapping: bool, acc: int, d: nat): (r: Checked)
    requires InLong(acc) && d < 25
    ensures r.Value? ==> InLong(r.v)
    ensures !wrapping ==> r == if InLong(acc * Radix(base)) && InLong(acc * Radix(base) + d)
      then Value(acc * Radix(base) + d) else Exit(FAIL_OVERFLOW)
  {
    if wrapping then Value(WrapAny(WrapAny(acc * Radix(base)) + d))
    else
      match Times(acc, Radix(base))
      case Exit(c) => Exit(c)
      case Value(p) => Plus(p, d)
  }

  /**
   * The digit loop of `parseValue` from the value `acc` on: while the next
   * character is a digit, fold it in and skip the blanks after it. It stops
   * at the first character that is not a digit, which stays unread.
   */
  function Accumulate(base: Base, wrapping: bool, u: string, acc: int): (r: Parse)
    requires InLong(acc)
    ensures r.Parsed? ==> InLong(r.value) && (r.rest == [] || !IsDigitOf(base, r.rest[0])) && |r.rest| <= |u|
    ensures r.Failed? ==> r.code == FAIL_OVERFLOW && !wrapping
    decreases |u|
  {
    if u == [] || !IsDigitOf(base, u[0]) then Parsed(acc, u)
    else
      match Step(base, wrapping, acc, DigitValue(u[0]))
      case Exit(c) => Failed(c)
      case Value(v) => Accumulate(base, wrapping, SkipSpace(u[1..]), v)
  }

  /** The input `-` followed by `u`, or `u` alone. */
  function Signed(negative: bool, u: string): string {
    if negative then "-" + u else u
  }

  /** The end of `parseValue`: a parsed value is negated with the unchecked `value *= -1` when a `-` came first. */
  function ApplySign(negative: bool, r: Parse): (r': Parse)
    requires r.Parsed? ==> InLong(r.value)
    ensures r'.Parsed? ==> InLong(r'.value)
  {
    match r
    case Failed(c) => Failed(c)
    case Parsed(v, rest) => Parsed(if negative then Wrap(v * -1) else v, rest)
  }

  /**
   * `parseValue`: skip blanks, take an optional `-` (the next character is
   * read without skipping), check the first character, run the digit loop
   * and apply the sign.
   */
  function ParseWith(base: Base, wrapping: bool, s: string): (r: Parse)
    ensures r.Parsed? ==> InLong(r.value) && |r.rest| <= |s|
    ensures r.Failed? ==> r.code == FAIL_INPUT || (r.code == FAIL_OVERFLOW && !wrapping)
  {
    var t := SkipSpace(s);
    var negative := t != [] && t[0] == '-';
    var u := if negative then t[1..] else t;
    if u == [] || !StartChar(u[0]) then Failed(FAIL_INPUT)
    else ApplySign(negative, Accumulate(base, wrapping, u, 0))
  }

  /** `parseValue` of `number10.c` as written: digits are folded in with unchecked arithmetic. */
  function ParseValue10AsWritten(s: string): (r: Parse)
    ensures r.Parsed? || r == Failed(FAIL_INPUT)
  {
    ParseWith(Ten, true, s)
  }

  /** `parseValue` of `number10.c` with its digits folded in through `times` and `plus`, as `number25.c` does. */
  function ParseValue10(s: string): (r: Parse)
    ensures r.Parsed? ==> InLong(r.value)
  {
    ParseWith(Ten, false, s)
  }

  /** `parseValue` of `number25.c`. */
  function ParseValue25(s: string): (r: Parse)
    ensures r.Parsed? ==> InLong(r.value)
  {
    ParseWith(TwentyFive, false, s)
  }

  /** Input that after its blanks and optional `-` does not start with `0`-`9` or `A`-`O` ends the program with status 102. */
  lemma NotANumber(base: Base, wrapping: bool, b: string, negative: bool, u: string)
    requires AllBlank(b) && (u == [] || (!StartChar(u[0]) && !IsBlank(u[0]) && (!negative ==> u[0] != '-')))
    ensures ParseWith(base, wrapping, b + Signed(negative, u)) == Failed(FAIL_INPUT)
  {
    SkipBlanks(b, Signed(negative, u));
    if negative {
      assert Signed(negative, u)[1..] == u;
    }
  }

  /** In base 10 a letter `A`-`O` passes the first-character check but is no digit: the value is 0 and the letter stays unread. */
  lemma LetterReadsAsZero(wrapping: bool, c: char, rest: string)
    requires 'A' <= c <= 'O'
    ensures ParseWith(Ten, wrapping, [c] + rest) == Parsed(0, [c] + rest)
  {
    var s := [c] + rest;
    assert s[0] == c;
    SkipNone(s);
    assert Accumulate(Ten, wrapping, s, 0) == Parsed(0, s);
  }

  /** How `parseValue` starts when no blank comes first: the characters after the optional `-` are read from 0, and the sign is applied. */
  lemma ParseStart(base: Base, wrapping: bool, negative: bool, u: string)
    requires u != [] && StartChar(u[0])
    ensures ParseWith(base, wrapping, Signed(negative, u)) == ApplySign(negative, Accumulate(base, wrapping, u, 0))
  {
    var s := Signed(negative, u);
    if negative {
      assert s[0] == '-' && s[1..] == u;
    }
    SkipNone(s);
  }

  /** One digit of the loop: when the step gives `v`, and no blank follows the digit, the loop goes on from `v`. */
  lemma AccumulateOne(base: Base, wrapping: bool, u: string, acc: int, v: int)
    requires u != [] && IsDigitOf(base, u[0]) && InLong(acc)
    requires Step(base, wrapping, acc, DigitValue(u[0])) == Value(v)
    requires |u| == 1 || !IsBlank(u[1])
    ensures Accumulate(base, wrapping, u, acc) == Accumulate(base, wrapping, u[1..], v)
  {
    SkipNone(u[1..]);
  }

  /**
   * Blanks after a run of digits are skipped: inserting blanks between the
   * digits of a number and what follows them does not change what the loop
   * reads, so `1 2` reads as 12.
   */
  lemma {:induction false} BlanksAfterDigits(base: Base, wrapping: bool, ds: string, b: string, rest: string, acc: int)
    requires InLong(acc) && ds != [] && AllDigits(base, ds) && AllBlank(b)
    ensures Accumulate(base, wrapping, ds + b + rest, acc) == Accumulate(base, wrapping, ds + rest, acc)
    decreases |ds|
  {
    var u, u' := ds + b + rest, ds + rest;
    assert u[0] == ds[0] && u'[0] == ds[0] && IsDigitOf(base, ds[0]);
    var r := Step(base, wrapping, acc, DigitValue(ds[0]));
    if r.Value? {
      if |ds| == 1 {
        assert u[1..] == b + rest && u'[1..] == rest;
        SkipBlanks(b, rest);
      } else {
        assert u[1..] == ds[1..] + b + rest && u'[1..] == ds[1..] + rest;
        assert u[1] == ds[1] && u'[1] == ds[1] && IsDigitOf(base, ds[1]);
        SkipNone(u[1..]);
        SkipNone(u'[1..]);
        BlanksAfterDigits(base, wrapping, ds[1..], b, rest, r.v);
      }
    }
  }

  /**
   * The value of the digits `ds` folded in from `acc` on, most significant
   * first, in exact arithmetic: the number the digit loop means to compute.
   */
  function Horner(base: Base, acc: int, ds: string): (h: int)
    requires AllDigits(base, ds)
    ensures acc >= 0 ==> h >= acc
    decreases |ds|
  {
    if ds == [] then acc
    else
      assert IsDigitOf(base, ds[0]);
      Horner(base, acc * Radix(base) + DigitValue(ds[0]), ds[1..])
  }

  /** A digit on the right multiplies what came before by the base and adds its value. */
  lemma {:induction false} HornerSnoc(base: Base, acc: int, ds: string, c: char)
    requires AllDigits(base, ds) && IsDigitOf(base, c)
    ensures AllDigits(base, ds + [c])
    ensures Horner(base, acc, ds + [c]) == Horner(base, acc, ds) * Radix(base) + DigitValue(c)
    decreases |ds|
  {
    if ds == [] {
      assert ds + [c] == [c];
    } else {
      assert (ds + [c])[1..] == ds[1..] + [c];
      assert IsDigitOf(base, ds[0]);
      HornerSnoc(base, acc * Radix(base) + DigitValue(ds[0]), ds[1..], c);
    }
  }

  /** A step that stays in the `long` range is exact in both builds. */
  lemma StepExact(base: Base, wrapping: bool, acc: int, d: nat)
    requires 0 <= acc && d < 25 && acc * Radix(base) + d <= LONG_MAX
    ensures Step(base, wrapping, acc, d) == Value(acc * Radix(base) + d)
  {
    MulMono(0, acc, Radix(base));
  }

  /**
   * While the exact value stays a `long`, the digit loop computes it, in
   * both builds: no step overflows, wraps or exits, and it reads on into
   * what follows the digits.
   */
  lemma {:induction false} AccumulatePrefix(base: Base, wrapping: bool, ds: string, rest: string, acc: int)
    requires 0 <= acc <= LONG_MAX && AllDigits(base, ds) && Horner(base, acc, ds) <= LONG_MAX
    requires rest == [] || !IsBlank(rest[0])
    ensures Accumulate(base, wrapping, ds + rest, acc) == Accumulate(base, wrapping, rest, Horner(base, acc, ds))
    decreases |ds|
  {
    if ds == [] {
      assert ds + rest == rest;
    } else {
      var u := ds + rest;
      assert u[0] == ds[0] && IsDigitOf(base, ds[0]);
      var v := acc * Radix(base) + DigitValue(ds[0]);
      assert AllDigits(base, ds[1..]);
      assert Horner(base, acc, ds) == Horner(base, v, ds[1..]) >= v;
      StepExact(base, wrapping, acc, DigitValue(ds[0]));
      assert u[1..] == ds[1..] + rest;
      if |ds| > 1 {
        assert u[1] == ds[1] && IsDigitOf(base, ds[1]);
      } else {
        assert ds[1..] + rest == rest;
      }
      AccumulateOne(base, wrapping, u, acc, v);
      AccumulatePrefix(base, wrapping, ds[1..], rest, v);
    }
  }

  /** The checked loop exits with status 100 as soon as the exact value leaves the `long` range. */
  lemma {:induction false} AccumulateOverflows(base: Base, ds: string, rest: string, acc: int)
    requires 0 <= acc <= LONG_MAX && AllDigits(base, ds) && Horner(base, acc, ds) > LONG_MAX
    ensures Accumulate(base, false, ds + rest, acc) == Failed(FAIL_OVERFLOW)
    decreases |ds|
  {
    var u := ds + rest;
    assert u[0] == ds[0] && IsDigitOf(base, ds[0]);
    var v := acc * Radix(base) + DigitValue(ds[0]);
    if v <= LONG_MAX {
      assert AllDigits(base, ds[1..]) && Horner(base, acc, ds) == Horner(base, v, ds[1..]);
      assert |ds| > 1;
      AccumulateDigit(base, ds, rest, acc, v);
      AccumulateOverflows(base, ds[1..], rest, v);
    } else {
      StepOverflows(base, u, acc);
    }
  }

  /** A first digit that keeps the exact value a `long` is folded in, and the loop reads on from the next digit. */
  lemma AccumulateDigit(base: Base, ds: string, rest: string, acc: int, v: int)
    requires |ds| > 1 && AllDigits(base, ds) && 0 <= acc
    requires v == acc * Radix(base) + DigitValue(ds[0]) && v <= LONG_MAX
    ensures Accumulate(base, false, ds + rest, acc) == Accumulate(base, false, ds[1..] + rest, v)
  {
    var u := ds + rest;
    assert u[0] == ds[0] && u[1] == ds[1] && IsDigitOf(base, ds[1]);
    assert u[1..] == ds[1..] + rest;
    StepExact(base, false, acc, DigitValue(ds[0]));
    AccumulateOne(base, false, u, acc, v);
  }

  /** A digit that takes the exact value past `LONG_MAX` ends the checked loop with status 100. */
  lemma StepOverflows(base: Base, u: string, acc: int)
    requires u != [] && IsDigitOf(base, u[0]) && 0 <= acc <= LONG_MAX
    requires acc * Radix(base) + DigitValue(u[0]) > LONG_MAX
    ensures Accumulate(base, false, u, acc) == Failed(FAIL_OVERFLOW)
  {
    MulMono(0, acc, Radix(base));
  }

  /**
   * What `parseValue` makes of a numeral whose value is a `long`: an
   * optional `-`, digits, and something that is neither a digit nor a
   * blank. Both builds, with checked or unchecked arithmetic, give the exact
   * value and leave what follows the digits unread.
   */
  lemma ParseNumeral(base: Base, wrapping: bool, negative: bool, ds: string, tail: string)
    requires ds != [] && AllDigits(base, ds) && Horner(base, 0, ds) <= LONG_MAX
    requires tail == [] || (!IsDigitOf(base, tail[0]) && !IsBlank(tail[0]))
    ensures ParseWith(base, wrapping, Signed(negative, ds + tail)) ==
      Parsed(if negative then -Horner(base, 0, ds) else Horner(base, 0, ds), tail)
  {
    assert (ds + tail)[0] == ds[0] && IsDigitOf(base, ds[0]);
    ParseStart(base, wrapping, negative, ds + tail);
    AccumulatePrefix(base, wrapping, ds, tail, 0);
  }

  /** With checked arithmetic a numeral whose value is not a `long` ends the program with status 100. */
  lemma ParseNumeralOverflows(base: Base, negative: bool, ds: string, tail: string)
    requires ds != [] && AllDigits(base, ds) && Horner(base, 0, ds) > LONG_MAX
    ensures ParseWith(base, false, Signed(negative, ds + tail)) == Failed(FAIL_OVERFLOW)
  {
    assert (ds + tail)[0] == ds[0] && IsDigitOf(base, ds[0]);
    ParseStart(base, false, negative, ds + tail);
    AccumulateOverflows(base, ds, tail, 0);
  }

  // ---------------------------------------------------------------------
  // Printing
  // ---------------------------------------------------------------------

  /** `printDigit`: the digits of a positive value, most significant first; nothing for 0. */
  function Digits(base: Base, n: nat): (ds: string)
    ensures AllDigits(base, ds) && (n > 0 ==> ds != [])
    decreases n
  {
    if n == 0 then []
    else
      var c := DigitChar(n % Radix(base));
      assert IsDigitOf(base, c);
      Digits(base, n / Radix(base)) + [c]
  }

  /** The digits `printValue` writes for a magnitude: `0` for zero, otherwise those of `printDigit`. */
  function Numeral(base: Base, m: nat): (ds: string)
    ensures ds != [] && AllDigits(base, ds)
  {
    if m == 0 then "0" else Digits(base, m)
  }

  /** How `printValue` of each build writes `LONG_MIN`. */
  function LongMinText(base: Base): string {
    match base
    case Ten => "-9223372036854775808"
    case TwentyFive => "-64IE1FOCNN5G78\n"
  }

  /**
   * `printValue`: `LONG_MIN` has its own text (the program then exits with
   * success); otherwise an optional `-`, the digits of the magnitude (`0`
   * for zero), and `\n`. Base 10 negates with `val *= -1`, base 25 with
   * `times(val, -1)`, which cannot fail here.
   */
  function PrintValue(base: Base, v: int): (text: string)
    requires InLong(v)
    ensures v != LONG_MIN ==> |text| >= 2 && text[|text| - 1] == '\n' && (v < 0 <==> text[0] == '-')
  {
    if v == LONG_MIN then LongMinText(base)
    else
      var m := if v >= 0 then v else if base == Ten then -v else Times(v, -1).v;
      Signed(v < 0, Numeral(base, m) + "\n")
  }

  /** The digits `printDigit` writes have exactly the value printed: reading them back gives `n`. */
  lemma {:induction false} DigitsValue(base: Base, n: nat)
    ensures Horner(base, 0, Digits(base, n)) == n
    decreases n
  {
    if n > 0 {
      var b := Radix(base);
      DigitsValue(base, n / b);
      DivModNat(n, b);
      var c := DigitChar(n % b);
      assert IsDigitOf(base, c);
      HornerSnoc(base, 0, Digits(base, n / b), c);
    }
  }

  /** The digits `printValue` writes for a magnitude are worth that magnitude. */
  lemma NumeralValue(base: Base, m: nat)
    ensures Horner(base, 0, Numeral(base, m)) == m
  {
    if m == 0 {
      assert Numeral(base, m)[1..] == [];
    } else {
      DigitsValue(base, m);
    }
  }

  /** Both builds print the magnitude of a negative value: `val *= -1` and `times(val, -1)` agree on it. */
  lemma PrintMagnitude(base: Base, v: int)
    requires InLong(v) && v != LONG_MIN
    ensures PrintValue(base, v) == Signed(v < 0, Numeral(base, Abs(v)) + "\n")
  {
    if v < 0 && base == TwentyFive {
      assert Times(v, -1) == Value(-v);
    }
  }

  /**
   * What `printValue` writes, `parseValue` reads back: for every `long`
   * but `LONG_MIN`, in both builds and with checked or unchecked arithmetic,
   * the value printed is the value read, and the newline stays unread.
   */
  lemma PrintParse(base: Base, wrapping: bool, v: int)
    requires InLong(v) && v != LONG_MIN
    ensures ParseWith(base, wrapping, PrintValue(base, v)) == Parsed(v, "\n")
  {
    PrintMagnitude(base, v);
    NumeralValue(base, Abs(v));
    ParseNumeral(base, wrapping, v < 0, Numeral(base, Abs(v)), "\n");
  }

  /**
   * `LONG_MIN`'s own base-25 text is not read back: its digits stand for
   * 2^63, which the checked loop rejects with status 100 before the `-` is
   * applied.
   */
  lemma LongMinNotReadBack()
    ensures ParseValue25(LongMinText(TwentyFive)) == Failed(FAIL_OVERFLOW)
  {
    LongMinBase25();
    DigitsValue(TwentyFive, -LONG_MIN);
    ParseNumeralOverflows(TwentyFive, true, Digits(TwentyFive, -LONG_MIN), "\n");
  }

  /**
   * `parseValue` of `number10.c` as written reads 2^63 as `LONG_MIN`: the
   * last digit's `value += digit` wraps around, where the checked loop
   * exits with status 100.
   */
  lemma ParseValue10Wraps()
    ensures ParseValue10AsWritten("9223372036854775808\n") == Parsed(LONG_MIN, "\n")
    ensures ParseValue10("9223372036854775808\n") == Failed(FAIL_OVERFLOW)
  {
    DecimalText();
    var ds := Digits(Ten, -LONG_MIN);
    DigitsValue(Ten, -LONG_MIN);
    ParseNumeralOverflows(Ten, false, ds, "\n");
    UncheckedLastDigit(-LONG_MIN, 922337203685477580, ds);
  }

  /** The input of the counterexample is the decimal numeral of 2^63 and a newline. */
  lemma DecimalText()
    ensures Signed(false, Digits(Ten, -LONG_MIN) + "\n") == "9223372036854775808\n"
  {
    DecimalDigitsOfMin();
  }

  /** The unchecked loop on the digits of 2^63: the first eighteen are exact, the last one wraps. */
  lemma UncheckedLastDigit(n: nat, q: nat, ds: string)
    requires n == -LONG_MIN && q == 922337203685477580 && ds == Digits(Ten, n)
    ensures ParseWith(Ten, true, Signed(false, ds + "\n")) == Parsed(LONG_MIN, "\n")
  {
    var front := Digits(Ten, q);
    DigitsSnoc(Ten, n, q, 8, front, '8', front + ['8']);
    DigitsValue(Ten, q);
    assert IsDigitOf(Ten, ds[0]);
    ParseStart(Ten, true, false, ds + "\n");
    assert ds + "\n" == front + ['8', '\n'];
    AccumulatePrefix(Ten, true, front, ['8', '\n'], 0);
    LastDigitLoop(q);
  }

  /** The last digit of 2^63: `value * 10` is still a `long`, `value + 8` wraps around to `LONG_MIN`. */
  lemma LastDigitLoop(q: nat)
    requires q == 922337203685477580
    ensures Accumulate(Ten, true, ['8', '\n'], q) == Parsed(LONG_MIN, "\n")
  {
    var p := q * Radix(Ten);
    assert p == 9223372036854775800 && InLong(p);
    assert WrapAny(p) == p;
    assert (p + 8 - LONG_MIN) % TWO_64 == 0;
    assert Step(Ten, true, q, 8) == Value(LONG_MIN);
    AccumulateOne(Ten, true, ['8', '\n'], q, LONG_MIN);
    assert ['8', '\n'][1..] == "\n";
  }

  /** One more digit on the right: the digits of `n == q * base + d` are those of `q` followed by the digit for `d`. */
  lemma DigitsSnoc(base: Base, n: nat, q: nat, d: nat, ds: string, c: char, ds': string)
    requires n == q * Radix(base) + d && n > 0 && d < Radix(base) && Digits(base, q) == ds
    requires StartChar(c) && DigitValue(c) == d && ds' == ds + [c]
    ensures Digits(base, n) == ds'
  {
    DivModNat(n, Radix(base));
    DivModUnique(n, Radix(base), q, d);
    DigitCharValue(c);
  }

  /** Quotient and remainder are determined by the division equation. */
  lemma DivModUnique(n: nat, b: nat, q: nat, d: nat)
    requires b > 0 && n == q * b + d && d < b
    ensures n / b == q && n % b == d
  {
    DivModNat(n, b);
    if n / b > q {
      MulMono(q + 1, n / b, b);
      assert false;
    } else if n / b < q {
      MulMono(n / b + 1, q, b);
      assert false;
    }
  }

  /** `LONG_MIN`'s own text in base 10 is its decimal numeral, without the newline. */
  lemma LongMinDecimal()
    ensures LongMinText(Ten) == "-" + Digits(Ten, -LONG_MIN)
  {
    DecimalDigitsOfMin();
  }

  /** All decimal digits of 2^63. */
  lemma DecimalDigitsOfMin()
    ensures Digits(Ten, -LONG_MIN) == "9223372036854775808"
  {
    DecimalNumeral1(9, 92, 922, 9223, 92233);
    DecimalNumeral2(92233, 922337, 9223372, 92233720, 922337203, 9223372036);
    DecimalNumeral3(9223372036, 92233720368, 922337203685, 9223372036854, 92233720368547, 922337203685477);
    DecimalNumeral4(922337203685477, 9223372036854775, 92233720368547758, 922337203685477580, 9223372036854775808);
  }

  /** `LONG_MIN`'s own text in base 25 is the base-25 numeral of -2^63. */
  lemma LongMinBase25()
    ensures LongMinText(TwentyFive) == Signed(true, Digits(TwentyFive, -LONG_MIN) + "\n")
  {
    Base25DigitsOfMin();
  }

  /** All base-25 digits of 2^63. */
  lemma Base25DigitsOfMin()
    ensures Digits(TwentyFive, -LONG_MIN) == "64IE1FOCNN5G78"
  {
    Base25Numeral1(6, 154, 3868, 96714, 2417851);
    Base25Numeral2(2417851, 60446290, 1511157274, 37778931862, 944473296573, 23611832414348);
    Base25Numeral3(23611832414348, 590295810358705, 14757395258967641, 368934881474191032, 9223372036854775808);
  }

  /** Digits 1 to 5 of the decimal numeral of 2^63. */
  lemma DecimalNumeral1(n1: nat, n2: nat, n3: nat, n4: nat, n5: nat)
    requires n1 == 9 && n2 == n1 * 10 + 2 && n3 == n2 * 10 + 2 && n4 == n3 * 10 + 3 && n5 == n4 * 10 + 3
    ensures Digits(Ten, n5) == "92233"
  {
    DigitsSnoc(Ten, n1, 0, 9, "", '9', "9");
    DigitsSnoc(Ten, n2, n1, 2, "9", '2', "92");
    DigitsSnoc(Ten, n3, n2, 2, "92", '2', "922");
    DigitsSnoc(Ten, n4, n3, 3, "922", '3', "9223");
    DigitsSnoc(Ten, n5, n4, 3, "9223", '3', "92233");
  }

  /** Digits 6 to 10 of the decimal numeral of 2^63. */
  lemma DecimalNumeral2(n5: nat, n6: nat, n7: nat, n8: nat, n9: nat, n10: nat)
    requires Digits(Ten, n5) == "92233" && n6 == n5 * 10 + 7 && n7 == n6 * 10 + 2 && n8 == n7 * 10 + 0 && n9 == n8 * 10 + 3 && n10 == n9 * 10 + 6
    ensures Digits(Ten, n10) == "9223372036"
  {
    DigitsSnoc(Ten, n6, n5, 7, "92233", '7', "922337");
    DigitsSnoc(Ten, n7, n6, 2, "922337", '2', "9223372");
    DigitsSnoc(Ten, n8, n7, 0, "9223372", '0', "92233720");
    DigitsSnoc(Ten, n9, n8, 3, "92233720", '3', "922337203");
    DigitsSnoc(Ten, n10, n9, 6, "922337203", '6', "9223372036");
  }

  /** Digits 11 to 15 of the decimal numeral of 2^63. */
  lemma DecimalNumeral3(n10: nat, n11: nat, n12: nat, n13: nat, n14: nat, n15: nat)
    requires Digits(Ten, n10) == "9223372036" && n11 == n10 * 10 + 8 && n12 == n11 * 10 + 5 && n13 == n12 * 10 + 4 && n14 == n13 * 10 + 7 && n15 == n14 * 10 + 7
    ensures Digits(Ten, n15) == "922337203685477"
  {
    DigitsSnoc(Ten, n11, n10, 8, "9223372036", '8', "92233720368");
    DigitsSnoc(Ten, n12, n11, 5, "92233720368", '5', "922337203685");
    DigitsSnoc(Ten, n13, n12, 4, "922337203685", '4', "9223372036854");
    DigitsSnoc(Ten, n14, n13, 7, "9223372036854", '7', "92233720368547");
    DigitsSnoc(Ten, n15, n14, 7, "92233720368547", '7', "922337203685477");
  }

  /** Digits 16 to 19 of the decimal numeral of 2^63. */
  lemma DecimalNumeral4(n15: nat, n16: nat, n17: nat, n18: nat, n19: nat)
    requires Digits(Ten, n15) == "922337203685477" && n16 == n15 * 10 + 5 && n17 == n16 * 10 + 8 && n18 == n17 * 10 + 0 && n19 == n18 * 10 + 8
    ensures Digits(Ten, n19) == "9223372036854775808"
  {
    DigitsSnoc(Ten, n16, n15, 5, "922337203685477", '5', "9223372036854775");
    DigitsSnoc(Ten, n17, n16, 8, "9223372036854775", '8', "92233720368547758");
    DigitsSnoc(Ten, n18, n17, 0, "92233720368547758", '0', "922337203685477580");
    DigitsSnoc(Ten, n19, n18, 8, "922337203685477580", '8', "9223372036854775808");
  }

  /** Digits 1 to 5 of the base-25 numeral of 2^63. */
  lemma Base25Numeral1(n1: nat, n2: nat, n3: nat, n4: nat, n5: nat)
    requires n1 == 6 && n2 == n1 * 25 + 4 && n3 == n2 * 25 + 18 && n4 == n3 * 25 + 14 && n5 == n4 * 25 + 1
    ensures Digits(TwentyFive, n5) == "64IE1"
  {
    DigitsSnoc(TwentyFive, n1, 0, 6, "", '6', "6");
    DigitsSnoc(TwentyFive, n2, n1, 4, "6", '4', "64");
    DigitsSnoc(TwentyFive, n3, n2, 18, "64", 'I', "64I");
    DigitsSnoc(TwentyFive, n4, n3, 14, "64I", 'E', "64IE");
    DigitsSnoc(TwentyFive, n5, n4, 1, "64IE", '1', "64IE1");
  }

  /** Digits 6 to 10 of the base-25 numeral of 2^63. */
  lemma Base25Numeral2(n5: nat, n6: nat, n7: nat, n8: nat, n9: nat, n10: nat)
    requires Digits(TwentyFive, n5) == "64IE1" && n6 == n5 * 25 + 15 && n7 == n6 * 25 + 24 && n8 == n7 * 25 + 12 && n9 == n8 * 25 + 23 && n10 == n9 * 25 + 23
    ensures Digits(TwentyFive, n10) == "64IE1FOCNN"
  {
    DigitsSnoc(TwentyFive, n6, n5, 15, "64IE1", 'F', "64IE1F");
    DigitsSnoc(TwentyFive, n7, n6, 24, "64IE1F", 'O', "64IE1FO");
    DigitsSnoc(TwentyFive, n8, n7, 12, "64IE1FO", 'C', "64IE1FOC");
    DigitsSnoc(TwentyFive, n9, n8, 23, "64IE1FOC", 'N', "64IE1FOCN");
    DigitsSnoc(TwentyFive, n10, n9, 23, "64IE1FOCN", 'N', "64IE1FOCNN");
  }

  /** Digits 11 to 14 of the base-25 numeral of 2^63. */
  lemma Base25Numeral3(n10: nat, n11: nat, n12: nat, n13: nat, n14: nat)
    requires Digits(TwentyFive, n10) == "64IE1FOCNN" && n11 == n10 * 25 + 5 && n12 == n11 * 25 + 16 && n13 == n12 * 25 + 7 && n14 == n13 * 25 + 8
    ensures Digits(TwentyFive, n14) == "64IE1FOCNN5G78"
  {
    DigitsSnoc(TwentyFive, n11, n10, 5, "64IE1FOCNN", '5', "64IE1FOCNN5");
    DigitsSnoc(TwentyFive, n12, n11, 16, "64IE1FOCNN5", 'G', "64IE1FOCNN5G");
    DigitsSnoc(TwentyFive, n13, n12, 7, "64IE1FOCNN5G", '7', "64IE1FOCNN5G7");
    DigitsSnoc(TwentyFive, n14, n13, 8, "64IE1FOCNN5G7", '8', "64IE1FOCNN5G78");
  }
}

=== FILE: operation.dfy ===
/**
 * The checked arithmetic of the calculator: `plus`, `minus`, `times` and
 * `divide` on 64-bit `long` values, each of which ends the program with
 * exit status 100 on overflow (and `divide` with 101 on a zero divisor)
 * instead of returning a wrong value.
 */
module Operation {
  import opened Common

  /** Exit status for a result outside the `long` range. */
  const FAIL_OVERFLOW: nat := 100
  /** Exit status for a division by zero. */
  const FAIL_DIVIDE_BY_ZERO: nat := 101

  /** 2^64, the modulus of 64-bit two's complement arithmetic. */
  const TWO_64: int := 0x1_0000_0000_0000_0000

  /** The result of a checked operation: a value, or the program's exit with a status. */
  datatype Checked = Value(v: int) | Exit(code: nat)

  /**
   * The 64-bit two's complement wrap-around of a sum or difference of two
   * `long` values, which is what `a + b` and `a - b` give on the machine.
   */
  function Wrap(x: int): (w: int)
    requires LONG_MIN - TWO_64 <= x <= LONG_MAX + TWO_64
    ensures InLong(w) && (w - x) % TWO_64 == 0
    ensures InLong(x) ==> w == x
  {
    if x > LONG_MAX then x - TWO_64 else if x < LONG_MIN then x + TWO_64 else x
  }

  /**
   * `plus` as written: the machine sum, rejected when two positives give a
   * negative result or two negatives a positive one. Two negatives can also
   * wrap to exactly 0: `LONG_MIN + LONG_MIN` slips through.
   */
  function PlusAsWritten(a: int, b: int): (r: Checked)
    requires InLong(a) && InLong(b)
    ensures !(a == LONG_MIN && b == LONG_MIN) ==> r == if InLong(a + b) then Value(a + b) else Exit(FAIL_OVERFLOW)
    ensures r.Value? ==> InLong(r.v)
    ensures r.Exit? ==> r.code == FAIL_OVERFLOW
  {
    var result := Wrap(a + b);
    if a > 0 && b > 0 && result < 0 then Exit(FAIL_OVERFLOW)
    else if a < 0 && b < 0 && result > 0 then Exit(FAIL_OVERFLOW)
    else Value(result)
  }

  /** `LONG_MIN + LONG_MIN` is -2^64; it wraps to 0, and `plus` as written returns that as the sum. */
  lemma PlusMissesMinMin()
    ensures PlusAsWritten(LONG_MIN, LONG_MIN) == Value(0) && !InLong(LONG_MIN + LONG_MIN)
  {
  }

  /**
   * `plus` with the negative case rejecting a wrapped result of 0 too: the
   * sum is rejected exactly when it leaves the `long` range.
   */
  function Plus(a: int, b: int): (r: Checked)
    requires InLong(a) && InLong(b)
    ensures r == if InLong(a + b) then Value(a + b) else Exit(FAIL_OVERFLOW)
  {
    var result := Wrap(a + b);
    if a > 0 && b > 0 && result < 0 then Exit(FAIL_OVERFLOW)
    else if a < 0 && b < 0 && result >= 0 then Exit(FAIL_OVERFLOW)
    else Value(result)
  }

  /**
   * `minus` as written: the machine difference, rejected when a negative
   * minus a positive gives a positive result or a positive minus a negative
   * a negative one. Zero minus `LONG_MIN` is neither and slips through.
   */
  function MinusAsWritten(a: int, b: int): (r: Checked)
    requires InLong(a) && InLong(b)
    ensures !(a == 0 && b == LONG_MIN) ==> r == if InLong(a - b) then Value(a - b) else Exit(FAIL_OVERFLOW)
    ensures r.Value? ==> InLong(r.v)
    ensures r.Exit? ==> r.code == FAIL_OVERFLOW
  {
    var result := Wrap(a - b);
    if a < 0 && b > 0 && result > 0 then Exit(FAIL_OVERFLOW)
    else if a > 0 && b < 0 && result < 0 then Exit(FAIL_OVERFLOW)
    else Value(result)
  }

  /** `0 - LONG_MIN` is 2^63, which wraps to `LONG_MIN`, and `minus` as written returns that. */
  lemma MinusMissesZeroMin()
    ensures MinusAsWritten(0, LONG_MIN) == Value(LONG_MIN) && !InLong(0 - LONG_MIN)
  {
  }

  /**
   * `minus` with the second case starting at `a >= 0`: the difference is
   * rejected exactly when it leaves the `long` range.
   */
  function Minus(a: int, b: int): (r: Checked)
    requires InLong(a) && InLong(b)
    ensures r == if InLong(a - b) then Value(a - b) else Exit(FAIL_OVERFLOW)
  {
    var result := Wrap(a - b);
    if a < 0 && b > 0 && result > 0 then Exit(FAIL_OVERFLOW)
    else if a >= 0 && b < 0 && result < 0 then Exit(FAIL_OVERFLOW)
    else Value(result)
  }

  /** A natural number is above the quotient `x / y` exactly when its product with `y` is above `x`. */
  lemma AboveQuotient(n: nat, x: nat, y: nat)
    requires y > 0
    ensures n > x / y <==> n * y > x
  {
    DivModNat(x, y);
    var d := x / y;
    if n > d {
      MulMono(d + 1, n, y);
      assert (d + 1) * y == d * y + y;
    } else {
      MulMono(n, d, y);
    }
  }

  /** Multiplying by a natural number keeps the order. */
  lemma MulMono(a: int, b: int, c: nat)
    requires a <= b
    ensures a * c <= b * c
  {
    var k := b - a;
    assert b * c == a * c + k * c;
  }

  /** The product of two numbers, through their magnitudes and the sign rule. */
  lemma ProductSign(a: int, b: int)
    ensures a * b == if (a < 0) == (b < 0) then Abs(a) * Abs(b) else -(Abs(a) * Abs(b))
  {
  }

  /**
   * The status a shell reports for a program killed by `SIGFPE` (signal 8):
   * 128 plus the signal number. No exit status of the calculator's own is
   * this high.
   */
  const KILLED_BY_SIGFPE: nat := 136

  /**
   * `times` as written: four sign cases, each comparing `a` with `LONG_MAX`
   * or `LONG_MIN` divided by `b`. For `a > 0` and `b == -1` the guard itself
   * computes `LONG_MIN / -1`, whose quotient 2^63 is not a `long`: the
   * division traps (it raises `SIGFPE` on x86-64) and kills the program.
   */
  function TimesAsWritten(a: int, b: int): (r: Checked)
    requires InLong(a) && InLong(b)
    ensures r == Exit(KILLED_BY_SIGFPE) <==> a > 0 && b == -1
    ensures r.Exit? ==> r.code == FAIL_OVERFLOW || r.code == KILLED_BY_SIGFPE
    ensures r.Value? ==> r.v == a * b
  {
    if a > 0 && b > 0 && a > TruncDiv(LONG_MAX, b) then Exit(FAIL_OVERFLOW)
    else if a < 0 && b < 0 && a < TruncDiv(LONG_MAX, b) then Exit(FAIL_OVERFLOW)
    else if a < 0 && b > 0 && a < TruncDiv(LONG_MIN, b) then Exit(FAIL_OVERFLOW)
    else if a > 0 && b < 0 && !InLong(TruncDiv(LONG_MIN, b)) then Exit(KILLED_BY_SIGFPE)
    else if a > 0 && b < 0 && a > TruncDiv(LONG_MIN, b) then Exit(FAIL_OVERFLOW)
    else Value(a * b)
  }

  /** Every positive number times -1 kills `times` as written, though the product is always a `long`. */
  lemma TimesMinusOneTraps(a: int)
    requires 0 < a <= LONG_MAX
    ensures TimesAsWritten(a, -1) == Exit(KILLED_BY_SIGFPE) && InLong(a * -1)
  {
  }

  /**
   * `times` with the guard of the `a > 0, b < 0` case skipped for `b == -1`,
   * where it is not needed: the product is rejected exactly when it leaves
   * the `long` range.
   */
  function Times(a: int, b: int): (r: Checked)
    requires InLong(a) && InLong(b)
    ensures r == if InLong(a * b) then Value(a * b) else Exit(FAIL_OVERFLOW)
  {
    ProductSign(a, b);
    if a > 0 && b > 0 then
      AboveQuotient(a, LONG_MAX, b);
      if a > TruncDiv(LONG_MAX, b) then Exit(FAIL_OVERFLOW) else Value(a * b)
    else if a < 0 && b < 0 then
      AboveQuotient(-a, LONG_MAX, -b);
      if a < TruncDiv(LONG_MAX, b) then Exit(FAIL_OVERFLOW) else Value(a * b)
    else if a < 0 && b > 0 then
      AboveQuotient(-a, -LONG_MIN, b);
      if a < TruncDiv(LONG_MIN, b) then Exit(FAIL_OVERFLOW) else Value(a * b)
    else if a > 0 && b < 0 && b != -1 then
      AboveQuotient(a, -LONG_MIN, -b);
      if a > TruncDiv(LONG_MIN, b) then Exit(FAIL_OVERFLOW) else Value(a * b)
    else
      Value(a * b)
  }

  /** Apart from the trap, `times` as written and the corrected `times` agree. */
  lemma TimesAgree(a: int, b: int)
    requires InLong(a) && InLong(b) && !(a > 0 && b == -1)
    ensures TimesAsWritten(a, b) == Times(a, b)
  {
    var _ := Times(a, b);
  }

  /**
   * `divide`: a zero divisor exits 101, `LONG_MIN / -1` exits 100, and
   * otherwise the quotient is truncated toward zero, which is then always a
   * `long`.
   */
  function Divide(a: int, b: int): (r: Checked)
    requires InLong(a) && InLong(b)
    ensures b == 0 <==> r == Exit(FAIL_DIVIDE_BY_ZERO)
    ensures b != 0 ==> r == if InLong(TruncDiv(a, b)) then Value(TruncDiv(a, b)) else Exit(FAIL_OVERFLOW)
  {
    if b == 0 then Exit(FAIL_DIVIDE_BY_ZERO)
    else if a == LONG_MIN && b == -1 then Exit(FAIL_OVERFLOW)
    else
      QuotientInRange(a, b);
      Value(TruncDiv(a, b))
  }

  /** A truncated quotient of `long` values is a `long` except for `LONG_MIN / -1`. */
  lemma QuotientInRange(a: int, b: int)
    requires InLong(a) && InLong(b) && b != 0
    ensures InLong(TruncDiv(a, b)) <==> !(a == LONG_MIN && b == -1)
  {
    var q := TruncDiv(a, b);
    if Abs(b) >= 2 {
      assert Abs(q) == Abs(a) / Abs(b);
      AboveQuotient(Abs(a) / 2, Abs(a), Abs(b));
      DivModNat(Abs(a), 2);
      assert Abs(q) <= Abs(a) / 2 by {
        if Abs(q) > Abs(a) / 2 {
          AboveQuotient(Abs(q), Abs(a), Abs(b));
          MulMono(2, Abs(b), Abs(q));
        }
      }
    }
  }
}

=== FILE: stash.dfy ===
/**
 * `stash`, the toy shell: each command line is cut into words at every
 * single space, then run as the built-in `cd` or `exit`, ignored when its
 * first word is empty, or launched as an external program, in the
 * background when its last word is `&`.
 *
 * The processes themselves (fork, execvp, wait) and the prompt loop are
 * left out; what a line asks the shell to do is an `Action`.
 */
module Stash {
  import opened Common
  import CScan
  import opened JavaText

  /** The size of the command buffer; `fgets` stores at most one character less. */
  const MAX_COMMAND_LENGTH: nat := 1024

  /** The reply to a malformed built-in or a failed `cd`. */
  const INVALID: string := "Invalid command\n"

  // ---------------------------------------------------------------------
  // Reading a line
  // ---------------------------------------------------------------------

  /** The shorter of two lengths. */
  function Min(a: nat, b: nat): nat {
    if a <= b then a else b
  }

  /**
   * What `fgets(line, MAX_COMMAND_LENGTH, stdin)` stores: the input up to
   * and including its first newline, but never more than
   * `MAX_COMMAND_LENGTH - 1` characters.
   */
  function Fgets(input: string): (line: string)
    ensures |line| <= MAX_COMMAND_LENGTH - 1 && |line| <= |input|
    ensures line == input[..|line|]
  {
    var k := LineEnd(input, 0);
    input[..Min(if k < |input| then k + 1 else k, MAX_COMMAND_LENGTH - 1)]
  }

  /** A line holding a newline reaches it through `LineEnd`. */
  lemma NewlineFound(line: string)
    requires '\n' in line
    ensures LineEnd(line, 0) < |line|
  {
    var j :| 0 <= j < |line| && line[j] == '\n';
    if LineEnd(line, 0) == |line| {
      LineEndFirst(line, 0, j);
    }
  }

  /**
   * The buffer holds a newline exactly when the input has one among its
   * first `MAX_COMMAND_LENGTH - 1` characters; a longer line leaves none,
   * and `parseCommand` would then read past what was stored.
   */
  lemma FgetsNewline(input: string)
    ensures '\n' in Fgets(input) <==> LineEnd(input, 0) < |input| && LineEnd(input, 0) < MAX_COMMAND_LENGTH - 1
  {
    var line := Fgets(input);
    var k := LineEnd(input, 0);
    if k < |input| && k < MAX_COMMAND_LENGTH - 1 {
      assert line[k] == '\n';
    }
    if '\n' in line {
      var j :| 0 <= j < |line| && line[j] == '\n';
      assert input[j] == '\n';
      if j < k {
        LineEndFirst(input, 0, j);
      }
    }
  }

  // ---------------------------------------------------------------------
  // parseCommand
  // ---------------------------------------------------------------------

  /** The number of spaces among the first `i` characters. */
  function SpacesBefore(line: string, i: nat): nat
    requires i <= |line|
  {
    if i == 0 then 0 else SpacesBefore(line, i - 1) + (if line[i - 1] == ' ' then 1 else 0)
  }

  /** No word holds a space. */
  predicate NoSpaces(words: seq<string>) {
    forall i :: 0 <= i < |words| ==> ' ' !in words[i]
  }

  /** The words of a line: the fields between single spaces of the text before its first newline. */
  function Words(line: string): (words: seq<string>)
    requires '\n' in line
    ensures |words| >= 1
  {
    NewlineFound(line);
    Fields(line[..LineEnd(line, 0)])
  }

  /** `ws` with `c` added to its last word. */
  function Extend(ws: seq<string>, c: char): (r: seq<string>)
    requires |ws| >= 1
    ensures |r| == |ws|
  {
    ws[..|ws| - 1] + [ws[|ws| - 1] + [c]]
  }

  /** A new empty word puts one more space at the end of the joined text. */
  lemma {:induction false} JoinNewWord(ws: seq<string>)
    requires |ws| >= 1
    ensures JoinSpaces(ws + [""]) == JoinSpaces(ws) + " "
    decreases |ws|
  {
    if |ws| > 1 {
      assert (ws + [""])[1..] == ws[1..] + [""];
      JoinNewWord(ws[1..]);
    }
  }

  /** A character added to the last word is added to the end of the joined text. */
  lemma {:induction false} JoinExtend(ws: seq<string>, c: char)
    requires |ws| >= 1
    ensures JoinSpaces(Extend(ws, c)) == JoinSpaces(ws) + [c]
    decreases |ws|
  {
    if |ws| > 1 {
      assert Extend(ws, c)[1..] == Extend(ws[1..], c);
      JoinExtend(ws[1..], c);
    }
  }

  /**
   * The state of `parseCommand` after `idx` characters: the words so far,
   * one more than the spaces seen, joined by single spaces, give back the
   * characters read.
   */
  predicate Splitting(line: string, idx: nat, words: seq<string>) {
    && idx <= |line|
    && |words| == 1 + SpacesBefore(line, idx)
    && NoSpaces(words)
    && JoinSpaces(words) == line[..idx]
  }

  /** A space ends the current word and starts an empty one. */
  lemma SpaceStep(line: string, idx: nat, words: seq<string>)
    requires Splitting(line, idx, words) && idx < |line| && line[idx] == ' '
    ensures Splitting(line, idx + 1, words + [""])
  {
    JoinNewWord(words);
    assert line[..idx + 1] == line[..idx] + " ";
  }

  /** Any other character joins the current word. */
  lemma LetterStep(line: string, idx: nat, words: seq<string>)
    requires Splitting(line, idx, words) && idx < |line| && line[idx] != ' '
    ensures Splitting(line, idx + 1, Extend(words, line[idx]))
  {
    JoinExtend(words, line[idx]);
    assert line[..idx + 1] == line[..idx] + [line[idx]];
    forall i | 0 <= i < |words|
      ensures ' ' !in Extend(words, line[idx])[i]
    {
      if i == |words| - 1 {
        assert Extend(words, line[idx])[i] == words[i] + [line[idx]];
      }
    }
  }

  /** Words with the shape `parseCommand` promises are the fields of the line. */
  lemma SplittingIsWords(line: string, words: seq<string>)
    requires '\n' in line
    requires Splitting(line, LineEnd(line, 0), words)
    ensures words == Words(line)
  {
    FieldsOfJoin(words);
  }

  /**
   * `parseCommand`: every space before the newline ends a word, so the line
   * has one word more than it has spaces, and consecutive spaces give
   * empty words. The text must hold a newline, as `fgets` leaves it for a
   * short enough line, and no terminator before it.
   */
  method ParseCommand(line: string) returns (words: seq<string>)
    requires '\n' in line
    requires forall j :: 0 <= j < LineEnd(line, 0) ==> line[j] != NUL
    ensures |words| == 1 + SpacesBefore(line, LineEnd(line, 0))
    ensures NoSpaces(words) && JoinSpaces(words) == line[..LineEnd(line, 0)]
    ensures words == Words(line)
  {
    NewlineFound(line);
    var idx := 0;
    words := [""];
    while line[idx] != '\n'
      invariant idx <= LineEnd(line, 0)
      invariant Splitting(line, idx, words)
      decreases LineEnd(line, 0) - idx
    {
      if line[idx] == ' ' {
        SpaceStep(line, idx, words);
        words := words + [""];
      } else {
        LetterStep(line, idx, words);
        words := Extend(words, line[idx]);
      }
      idx := idx + 1;
    }
    if idx < LineEnd(line, 0) {
      LineEndFirst(line, 0, idx);
    }
    SplittingIsWords(line, words);
  }

  // ---------------------------------------------------------------------
  // The built-ins and external commands
  // ---------------------------------------------------------------------

  /** What a command line asks of the shell. */
  datatype Action =
    | Ignore                                    // an empty first word: prompt again
    | Invalid                                   // `Invalid command`
    | ChangeDirectory(dir: string)              // `chdir(dir)`
    | ExitShell(status: int)                    // `exit(status)`
    | Launch(argv: seq<string>, background: bool)

  /**
   * `sscanf(word, "%d", ...)` is defined: a value it reads for `exit` lies
   * in the `int` range (the actions carry the value read, unbounded).
   */
  predicate ExitDefined(words: seq<string>) {
    |words| == 2 && words[0] == "exit" && CScan.ScanInt(words[1]).Some? ==> InInt(CScan.ScanInt(words[1]).value.0)
  }

  /**
   * `runExit`: exactly two words, the second starting (after white space)
   * with an integer, exits with that status; anything else is invalid.
   */
  function RunExit(words: seq<string>): (a: Action)
    ensures a.ExitShell? || a == Invalid
    ensures a.ExitShell? <==> |words| == 2 && CScan.ScanInt(words[1]).Some?
    ensures a.ExitShell? ==> CScan.ScanInt(words[1]).value.0 == a.status
  {
    if |words| == 2 then
      match CScan.ScanInt(words[1])
      case Some((status, _)) => ExitShell(status)
      case None => Invalid
    else Invalid
  }

  /** `runCd`: exactly two words change to the directory named by the second. */
  function RunCd(words: seq<string>): (a: Action)
    ensures a.ChangeDirectory? <==> |words| == 2
    ensures a.ChangeDirectory? ==> a.dir == words[1]
    ensures !a.ChangeDirectory? ==> a == Invalid
  {
    if |words| == 2 then ChangeDirectory(words[1]) else Invalid
  }

  /**
   * `runCommand`: a last word `&` runs the program in the background and is
   * not passed to it; the other words are the program's argument list.
   */
  function RunCommand(words: seq<string>): (a: Action)
    requires |words| >= 1
    ensures a.Launch?
    ensures a.background <==> words[|words| - 1] == "&"
    ensures a.argv + (if a.background then ["&"] else []) == words
  {
    if words[|words| - 1] == "&" then Launch(words[..|words| - 1], true) else Launch(words, false)
  }

  /** `main`'s choice among the built-ins, the empty line and an external command. */
  function Dispatch(words: seq<string>): (a: Action)
    requires |words| >= 1
    ensures a == Ignore <==> words[0] == ""
  {
    if words[0] == "cd" then RunCd(words)
    else if words[0] == "exit" then RunExit(words)
    else if words[0] == "" then Ignore
    else RunCommand(words)
  }

  /** The conditions under which a line is handled without undefined behaviour. */
  predicate LineDefined(line: string) {
    && '\n' in line
    && (forall j :: 0 <= j < LineEnd(line, 0) ==> line[j] != NUL)
    && ExitDefined(Words(line))
  }

  /** One pass of `main`'s loop once `fgets` has stored `line`: parse it and act on it. */
  method Step(line: string) returns (a: Action)
    requires LineDefined(line)
    ensures a == Dispatch(Words(line))
    ensures a.ExitShell? ==> InInt(a.status)
  {
    var words := ParseCommand(line);
    a := Dispatch(words);
  }

  /** The text `%d` prints holds no newline. */
  lemma IntTextOneLine(v: int)
    ensures '\n' !in CScan.IntText(v)
  {
    var digits := NatToDecimal(if v < 0 then -v else v);
    assert forall i :: 0 <= i < |digits| ==> digits[i] != '\n';
  }

  /** `printf("[%d done]\n", p)` for each child `p` that `wait` returned before the foreground one. */
  function DoneLines(reaped: seq<int>): (out: string)
    ensures out == [] <==> reaped == []
    ensures out != [] ==> out[0] == '['
    ensures multiset(out)['\n'] == |reaped|
  {
    if reaped == [] then []
    else
      IntTextOneLine(reaped[0]);
      var line := "[" + CScan.IntText(reaped[0]) + " done]\n";
      assert multiset(line)['\n'] == 1;
      line + DoneLines(reaped[1..])
  }

  /**
   * What the shell prints for an action: `Invalid command` for a bad
   * built-in or a `cd` that fails, `[pid]` for a background launch, and
   * `[p done]` for every other child `wait` returns before a foreground
   * one. `fork` and `wait` choose `pid` and `reaped`.
   */
  function Reply(a: Action, chdirFails: bool, pid: int, reaped: seq<int>): (out: string)
    ensures out == INVALID <==> a == Invalid || (a.ChangeDirectory? && chdirFails)
    ensures !a.Launch? && out != INVALID ==> out == ""
    ensures a.Launch? && a.background ==> out == "[" + CScan.IntText(pid) + "]\n"
    ensures a.Launch? && !a.background ==> multiset(out)['\n'] == |reaped| && (out == "" <==> reaped == [])
  {
    if a == Invalid || (a.ChangeDirectory? && chdirFails) then INVALID
    else if a.Launch? && a.background then
      var out := "[" + CScan.IntText(pid) + "]\n";
      assert out[0] != INVALID[0];
      out
    else if a.Launch? then
      var out := DoneLines(reaped);
      assert out != [] ==> out[0] != INVALID[0];
      out
    else ""
  }

  // ---------------------------------------------------------------------
  // Properties of whole lines
  // ---------------------------------------------------------------------

  /** A line is ignored exactly when it is empty or starts with a space. */
  lemma IgnoredLine(line: string)
    requires LineDefined(line)
    ensures Dispatch(Words(line)) == Ignore <==> line[0] == '\n' || line[0] == ' '
  {
    NewlineFound(line);
    var k := LineEnd(line, 0);
    var text := line[..k];
    if k > 0 {
      assert line[0] == text[0];
    }
  }

  /** The line typed as space-separated words (free of spaces and newlines) and a newline. */
  function CommandLine(ws: seq<string>): (line: string)
    requires NoNewlines(ws)
    ensures '\n' in line
  {
    JoinSpaces(ws) + "\n"
  }

  /** Typing words separated by single spaces gives those words back. */
  lemma LineOfWords(ws: seq<string>)
    requires |ws| >= 1 && NoSpaces(ws) && NoNewlines(ws)
    ensures Words(CommandLine(ws)) == ws
  {
    var text := JoinSpaces(ws);
    JoinNoNewline(ws);
    LineEndIs(CommandLine(ws), 0, |text|);
    assert CommandLine(ws)[..|text|] == text;
    FieldsOfJoin(ws);
  }

  /** The decimal text of an integer holds no space or newline. */
  lemma IntTextPlain(v: int)
    ensures ' ' !in CScan.IntText(v) && '\n' !in CScan.IntText(v) && NUL !in CScan.IntText(v)
  {
    var d := NatToDecimal(Abs(v));
    if v < 0 {
      assert forall i :: 1 <= i < |CScan.IntText(v)| ==> CScan.IntText(v)[i] == d[i - 1];
    }
  }

  /** `exit` followed by a status in the `int` range exits with that status. */
  lemma ExitLine(status: int)
    requires InInt(status)
    ensures Dispatch(Words(CommandLine(["exit", CScan.IntText(status)]))) == ExitShell(status)
  {
    IntTextPlain(status);
    LineOfWords(["exit", CScan.IntText(status)]);
    CScan.ScanIntText(status, []);
    assert CScan.IntText(status) + [] == CScan.IntText(status);
  }

  /** `exit` with any other number of words is invalid, whatever the words are. */
  lemma ExitArity(ws: seq<string>)
    requires |ws| >= 1 && ws[0] == "exit" && |ws| != 2
    ensures Dispatch(ws) == Invalid
  {
  }

  /** `sscanf` reads only a leading integer: `exit 3x` still exits, with status 3. */
  lemma ExitIgnoresTrailingText(status: int, junk: string)
    requires InInt(status) && junk != [] && !IsDigit(junk[0])
    ensures RunExit(["exit", CScan.IntText(status) + junk]) == ExitShell(status)
  {
    CScan.ScanIntText(status, junk);
  }

  /** `cd` changes directory exactly when it has one argument. */
  lemma CdArity(ws: seq<string>)
    requires |ws| >= 1 && ws[0] == "cd"
    ensures Dispatch(ws) == if |ws| == 2 then ChangeDirectory(ws[1]) else Invalid
  {
  }

  /** A command whose last word is `&` runs in the background without that word. */
  lemma BackgroundLine(ws: seq<string>)
    requires |ws| >= 2 && NoSpaces(ws) && NoNewlines(ws)
    requires ws[0] != "cd" && ws[0] != "exit" && ws[0] != "" && ws[|ws| - 1] == "&"
    ensures Dispatch(Words(CommandLine(ws))) == Launch(ws[..|ws| - 1], true)
  {
    LineOfWords(ws);
  }

  /** A space after the `&` makes an empty last word: the command runs in the foreground with `&` as an argument. */
  lemma TrailingSpaceForeground(ws: seq<string>)
    requires |ws| >= 1 && NoSpaces(ws) && NoNewlines(ws)
    requires ws[0] != "cd" && ws[0] != "exit" && ws[0] != ""
    ensures Dispatch(Words(CommandLine(ws + [""]))) == Launch(ws + [""], false)
  {
    assert NoSpaces(ws + [""]) && NoNewlines(ws + [""]) by {
      assert forall i :: 0 <= i < |ws| ==> (ws + [""])[i] == ws[i];
    }
    LineOfWords(ws + [""]);
  }

  // ---------------------------------------------------------------------
  // The word array main keeps
  // ---------------------------------------------------------------------

  /** One pass of `main`'s loop as written: an action, or undefined behaviour. */
  datatype Pass = Acts(action: Action) | Undefined

  /**
   * One pass of `main`'s loop as written. `main` allocates `words` with room
   * for one pointer, and `parseCommand` grows it with `realloc` but keeps
   * the result in its own parameter, so `main` goes on with its old pointer.
   * `capacity` is how many pointers the allocator can fit in that block
   * without moving it (at least the one asked for). A line with more words
   * makes `realloc` move the array and free the old block, which `main`
   * then reads (`words[0]`) and `runCommand` reallocates again.
   */
  function StepAsWritten(line: string, capacity: nat): (p: Pass)
    requires LineDefined(line) && capacity >= 1
    ensures p.Undefined? <==> |Words(line)| > capacity
    ensures p.Acts? ==> p.action == Dispatch(Words(line))
  {
    var words := Words(line);
    if |words| > capacity then Undefined else Acts(Dispatch(words))
  }

  /** Joining NUL-free words with spaces adds no NUL. */
  lemma {:induction false} JoinNoNul(ws: seq<string>)
    requires forall i :: 0 <= i < |ws| ==> NUL !in ws[i]
    ensures NUL !in JoinSpaces(ws)
    decreases |ws|
  {
    if |ws| > 1 {
      JoinNoNul(ws[1..]);
      assert JoinSpaces(ws) == ws[0] + " " + JoinSpaces(ws[1..]);
    }
  }

  /**
   * Any command with more words than the block holds reaches freed memory as
   * written, while `Step`, which acts on the words `parseCommand` stored,
   * carries it out.
   */
  lemma GrownArrayIsStale(ws: seq<string>, capacity: nat)
    requires |ws| > capacity >= 1 && NoSpaces(ws) && NoNewlines(ws) && ExitDefined(ws)
    requires forall i :: 0 <= i < |ws| ==> NUL !in ws[i]
    ensures LineDefined(CommandLine(ws))
    ensures StepAsWritten(CommandLine(ws), capacity) == Undefined
    ensures Dispatch(Words(CommandLine(ws))) == Dispatch(ws)
  {
    LineOfWords(ws);
    JoinNoNul(ws);
    JoinNoNewline(ws);
    var line := CommandLine(ws);
    LineEndIs(line, 0, |JoinSpaces(ws)|);
    forall j | 0 <= j < LineEnd(line, 0)
      ensures line[j] != NUL
    {
      assert line[j] == JoinSpaces(ws)[j];
    }
  }
}

=== FILE: state24.dfy ===
/**
 * The 24-bit state shared by the Base64 encoder and decoder: up to three
 * bytes, filled either 8 bits at a time from raw bytes or 6 bits at a time
 * from encoding characters, and emptied as bytes or as characters. The
 * encoding alphabet is Table 1 of section 4 of RFC 4648.
 */
module State24 {
  type byte = bv8

  /** Bytes a state can hold, characters a full state makes, and the two group widths. */
  const STATE_CAPACITY: nat := 3
  const STATE_CHARS: nat := 4
  const BITS_IN_BYTE: nat := 8
  const BITS_IN_CHAR: nat := 6

  /** Three bytes, most significant first, and the number of bits loaded so far. */
  datatype State = State(b0: byte, b1: byte, b2: byte, bitCount: nat)

  /** `initState`: all bytes zero, no bits loaded. */
  function InitState(): (s: State)
    ensures s.bitCount == 0 && Bytes(s) == [0, 0, 0]
  {
    State(0, 0, 0, 0)
  }

  /** The three bytes in order. */
  function Bytes(s: State): (bs: seq<byte>)
    ensures |bs| == STATE_CAPACITY
  {
    [s.b0, s.b1, s.b2]
  }

  /** Byte `i` of `s`. */
  function ByteAt(s: State, i: nat): byte
    requires i < STATE_CAPACITY
  {
    if i == 0 then s.b0 else if i == 1 then s.b1 else s.b2
  }

  /** `validChar`: `isalnum` in the C locale, `+` or `/`. */
  predicate ValidChar(ch: char) {
    ('A' <= ch <= 'Z') || ('a' <= ch <= 'z') || ('0' <= ch <= '9') || ch == '+' || ch == '/'
  }

  /** `convertChar`: the 6-bit value of an encoding character; any other character maps like `/`. */
  function ConvertChar(ch: char): (v: byte)
    ensures v < 64
    ensures ch == '/' ==> v == 63
    ensures !ValidChar(ch) ==> v == 63
  {
    if 'A' <= ch <= 'Z' then (ch as int - 'A' as int) as byte
    else if 'a' <= ch <= 'z' then (ch as int - 'a' as int + 26) as byte
    else if '0' <= ch <= '9' then (ch as int - '0' as int + 52) as byte
    else if ch == '+' then 62
    else 63
  }

  /** `convertByte`: the encoding character of a 6-bit value; anything from 63 up maps to `/`. */
  function ConvertByte(b: byte): (ch: char)
    ensures ValidChar(ch)
  {
    if b < 26 then ('A' as int + b as int) as char
    else if b < 52 then ('a' as int + b as int - 26) as char
    else if b < 62 then ('0' as int + b as int - 52) as char
    else if b == 62 then '+'
    else '/'
  }

  /** The two conversions are inverse bijections between the 64 values and the 64 characters. */
  lemma ConvertInverse()
    ensures forall b: byte :: b < 64 ==> ConvertChar(ConvertByte(b)) == b
    ensures forall ch :: ValidChar(ch) ==> ConvertByte(ConvertChar(ch)) == ch
  {
    forall b: byte | b < 64 ensures ConvertChar(ConvertByte(b)) == b {
      ConvertByteInverse(b);
    }
    forall ch | ValidChar(ch) ensures ConvertByte(ConvertChar(ch)) == ch {
      ConvertCharInverse(ch);
    }
  }

  /** A value's character converts back to the value. */
  lemma ConvertByteInverse(b: byte)
    requires b < 64
    ensures ConvertChar(ConvertByte(b)) == b
  {
    var ch := ConvertByte(b);
    if b < 26 {
      assert 'A' <= ch <= 'Z';
    } else if b < 52 {
      assert 'a' <= ch <= 'z';
    } else if b < 62 {
      assert '0' <= ch <= '9';
    }
  }

  /** An encoding character's value converts back to the character. */
  lemma ConvertCharInverse(ch: char)
    requires ValidChar(ch)
    ensures ConvertByte(ConvertChar(ch)) == ch
  {
    if 'A' <= ch <= 'Z' {
      UpperInverse(ch);
    } else if 'a' <= ch <= 'z' {
      LowerInverse(ch);
    } else if '0' <= ch <= '9' {
      DigitInverse(ch);
    }
  }

  /** `ConvertCharInverse` for the upper-case letters (values 0 to 25). */
  lemma UpperInverse(ch: char)
    requires 'A' <= ch <= 'Z'
    ensures ConvertByte(ConvertChar(ch)) == ch
  {
    var n := ch as int - 'A' as int;
    assert ConvertChar(ch) == n as byte;
    assert (n as byte) as int == n;
    assert 0 <= n < 26;
  }

  /** `ConvertCharInverse` for the lower-case letters (values 26 to 51). */
  lemma LowerInverse(ch: char)
    requires 'a' <= ch <= 'z'
    ensures ConvertByte(ConvertChar(ch)) == ch
  {
    var n := ch as int - 'a' as int + 26;
    assert ConvertChar(ch) == n as byte;
    assert (n as byte) as int == n;
    assert 26 <= n < 52;
  }

  /** `ConvertCharInverse` for the digits (values 52 to 61). */
  lemma DigitInverse(ch: char)
    requires '0' <= ch <= '9'
    ensures ConvertByte(ConvertChar(ch)) == ch
  {
    var n := ch as int - '0' as int + 52;
    assert ConvertChar(ch) == n as byte;
    assert (n as byte) as int == n;
    assert 52 <= n < 62;
  }

  /** `addByte`: the byte goes to index `bitCount / 8` and 8 bits are counted. */
  function AddByte(s: State, b: byte): (t: State)
    requires s.bitCount + BITS_IN_BYTE <= 24
    ensures t.bitCount == s.bitCount + BITS_IN_BYTE
    ensures var i := ByteSlot(s.bitCount);
      forall j :: 0 <= j < STATE_CAPACITY ==> ByteAt(t, j) == if j == i then b else ByteAt(s, j)
  {
    var i := ByteSlot(s.bitCount);
    var t := if i == 0 then s.(b0 := b) else if i == 1 then s.(b1 := b) else s.(b2 := b);
    t.(bitCount := s.bitCount + BITS_IN_BYTE)
  }

  /** The byte the next `addByte` writes: `bitCount / 8`, one of the three when there is room. */
  function ByteSlot(bitCount: nat): (i: nat)
    requires bitCount + BITS_IN_BYTE <= 24
    ensures i < STATE_CAPACITY && i * BITS_IN_BYTE <= bitCount < (i + 1) * BITS_IN_BYTE
  {
    bitCount / BITS_IN_BYTE
  }

  /** Four 6-bit values, the first taken from the most significant bits. */
  datatype Groups = Groups(g0: byte, g1: byte, g2: byte, g3: byte)

  /** Group `i` of `q`. */
  function Group(q: Groups, i: nat): byte
    requires i < STATE_CHARS
  {
    if i == 0 then q.g0 else if i == 1 then q.g1 else if i == 2 then q.g2 else q.g3
  }

  /** `q` with group `i` replaced by `x`. */
  function Put(q: Groups, i: nat, x: byte): (r: Groups)
    requires i < STATE_CHARS
    ensures forall j :: 0 <= j < STATE_CHARS ==> Group(r, j) == if j == i then x else Group(q, j)
  {
    if i == 0 then q.(g0 := x) else if i == 1 then q.(g1 := x) else if i == 2 then q.(g2 := x) else q.(g3 := x)
  }

  /** The four 6-bit groups of a state's bytes, as `getChars` cuts them. */
  function Sextets(s: State): (q: Groups)
    ensures forall i :: 0 <= i < STATE_CHARS ==> Group(q, i) < 64
  {
    Groups((s.b0 & 0xFC) >> 2,
           ((s.b0 & 0x03) << 4) | ((s.b1 & 0xF0) >> 4),
           ((s.b1 & 0x0F) << 2) | ((s.b2 & 0xC0) >> 6),
           s.b2 & 0x3F)
  }

  /**
   * `addChar`: the 6-bit value of `ch` is or-ed into the next free bits and
   * 6 bits are counted; seen as four 6-bit groups, exactly group
   * `bitCount / 6` receives the value.
   */
  function AddChar(s: State, ch: char): (t: State)
    requires s.bitCount + BITS_IN_CHAR <= 24
    ensures t.bitCount == s.bitCount + BITS_IN_CHAR
  {
    AddSextet(s, ConvertChar(ch))
  }

  /** Seen as four 6-bit groups, `addChar` or-s the character's value into group `bitCount / 6` and leaves the others alone. */
  lemma AddCharGroups(s: State, ch: char)
    requires s.bitCount + BITS_IN_CHAR <= 24
    ensures var k := Slot(s.bitCount);
      Sextets(AddChar(s, ch)) == Put(Sextets(s), k, Group(Sextets(s), k) | ConvertChar(ch))
  {
    AddSextetGroups(s, ConvertChar(ch));
  }

  /** The group the next character goes to: `bitCount / 6`, one of the four when there is room. */
  function Slot(bitCount: nat): (k: nat)
    requires bitCount + BITS_IN_CHAR <= 24
    ensures k < STATE_CHARS && k * BITS_IN_CHAR <= bitCount < (k + 1) * BITS_IN_CHAR
  {
    bitCount / BITS_IN_CHAR
  }

  /** The bit work of `addChar` once the character is converted to its 6-bit value `v`. */
  function AddSextet(s: State, v: byte): (t: State)
    requires s.bitCount + BITS_IN_CHAR <= 24 && v < 64
    ensures t.bitCount == s.bitCount + BITS_IN_CHAR
  {
    var k := Slot(s.bitCount);
    var n := s.bitCount + BITS_IN_CHAR;
    if k == 0 then Or0(s, v, n)
    else if k == 1 then Or1(s, v, n)
    else if k == 2 then Or2(s, v, n)
    else Or3(s, v, n)
  }

  /** Each of the four positions of the next free group, one at a time. */
  lemma AddSextetAt0(s: State, v: byte, k: nat)
    requires s.bitCount + BITS_IN_CHAR <= 24 && v < 64 && k == Slot(s.bitCount) == 0
    ensures Sextets(AddSextet(s, v)) == Put(Sextets(s), k, Group(Sextets(s), k) | v)
  {
    assert AddSextet(s, v) == Or0(s, v, s.bitCount + BITS_IN_CHAR);
  }

  lemma AddSextetAt1(s: State, v: byte, k: nat)
    requires s.bitCount + BITS_IN_CHAR <= 24 && v < 64 && k == Slot(s.bitCount) == 1
    ensures Sextets(AddSextet(s, v)) == Put(Sextets(s), k, Group(Sextets(s), k) | v)
  {
    assert AddSextet(s, v) == Or1(s, v, s.bitCount + BITS_IN_CHAR);
  }

  lemma AddSextetAt2(s: State, v: byte, k: nat)
    requires s.bitCount + BITS_IN_CHAR <= 24 && v < 64 && k == Slot(s.bitCount) == 2
    ensures Sextets(AddSextet(s, v)) == Put(Sextets(s), k, Group(Sextets(s), k) | v)
  {
    assert AddSextet(s, v) == Or2(s, v, s.bitCount + BITS_IN_CHAR);
  }

  lemma AddSextetAt3(s: State, v: byte, k: nat)
    requires s.bitCount + BITS_IN_CHAR <= 24 && v < 64 && k == Slot(s.bitCount) == 3
    ensures Sextets(AddSextet(s, v)) == Put(Sextets(s), k, Group(Sextets(s), k) | v)
  {
    assert AddSextet(s, v) == Or3(s, v, s.bitCount + BITS_IN_CHAR);
  }

  /** `AddSextet` or-s `v` into group `bitCount / 6` and leaves the others alone. */
  lemma AddSextetGroups(s: State, v: byte)
    requires s.bitCount + BITS_IN_CHAR <= 24 && v < 64
    ensures var k := Slot(s.bitCount);
      Sextets(AddSextet(s, v)) == Put(Sextets(s), k, Group(Sextets(s), k) | v)
  {
    var k := Slot(s.bitCount);
    if k == 0 {
      AddSextetAt0(s, v, k);
    } else if k == 1 {
      AddSextetAt1(s, v, k);
    } else if k == 2 {
      AddSextetAt2(s, v, k);
    } else {
      AddSextetAt3(s, v, k);
    }
  }

  /** Group 0 is the top six bits of the first byte. */
  function Or0(s: State, v: byte, n: nat): (t: State)
    requires v < 64
    ensures t.bitCount == n
    ensures Sextets(t) == Put(Sextets(s), 0, Group(Sextets(s), 0) | v)
  {
    s.(bitCount := n, b0 := s.b0 | (v << 2))
  }

  /** Group 1 is the low two bits of the first byte and the high four of the second. */
  function Or1(s: State, v: byte, n: nat): (t: State)
    requires v < 64
    ensures t.bitCount == n
    ensures Sextets(t) == Put(Sextets(s), 1, Group(Sextets(s), 1) | v)
  {
    s.(bitCount := n, b0 := s.b0 | ((v & 0x30) >> 4), b1 := s.b1 | ((v & 0x0F) << 4))
  }

  /** Group 2 is the low four bits of the second byte and the high two of the third. */
  function Or2(s: State, v: byte, n: nat): (t: State)
    requires v < 64
    ensures t.bitCount == n
    ensures Sextets(t) == Put(Sextets(s), 2, Group(Sextets(s), 2) | v)
  {
    s.(bitCount := n, b1 := s.b1 | ((v & 0x3C) >> 2), b2 := s.b2 | ((v & 0x03) << 6))
  }

  /** Group 3 is the low six bits of the third byte. */
  function Or3(s: State, v: byte, n: nat): (t: State)
    requires v < 64
    ensures t.bitCount == n
    ensures Sextets(t) == Put(Sextets(s), 3, Group(Sextets(s), 3) | v)
  {
    s.(bitCount := n, b2 := s.b2 | v)
  }

  /** `getBytes`: the `bitCount / 8` whole bytes loaded, and the emptied state. */
  function GetBytes(s: State): (res: (seq<byte>, State))
    requires s.bitCount <= 24
    ensures |res.0| == s.bitCount / 8 && res.0 == Bytes(s)[..|res.0|]
    ensures res.1 == InitState()
  {
    var n := s.bitCount / BITS_IN_BYTE;
    ([s.b0, s.b1, s.b2][..n], InitState())
  }

  /** `getChars`: one character per started group of 6 loaded bits, and the emptied state. */
  function GetChars(s: State): (res: (string, State))
    requires s.bitCount <= 24
    ensures |res.0| == (s.bitCount + 5) / 6
    ensures forall i :: 0 <= i < |res.0| ==> res.0[i] == ConvertByte(Group(Sextets(s), i)) && ValidChar(res.0[i])
    ensures res.1 == InitState()
  {
    var count := s.bitCount / BITS_IN_CHAR + (if s.bitCount % BITS_IN_CHAR != 0 then 1 else 0);
    var q := Sextets(s);
    (seq(count, i requires 0 <= i < count => ConvertByte(Group(q, i))), InitState())
  }

  /** A fresh state after adding the bytes `bs` in order. */
  function AddBytes(bs: seq<byte>): (s: State)
    requires |bs| <= STATE_CAPACITY
    ensures s.bitCount == 8 * |bs|
  {
    if bs == [] then InitState() else AddByte(AddBytes(bs[..|bs| - 1]), bs[|bs| - 1])
  }

  /** A fresh state after adding the characters `cs` in order. */
  function AddChars(cs: string): (s: State)
    requires |cs| <= STATE_CHARS
    ensures s.bitCount == 6 * |cs|
  {
    if cs == [] then InitState() else AddChar(AddChars(cs[..|cs| - 1]), cs[|cs| - 1])
  }

  /** The 6-bit values of the characters added to a fresh state fill its first groups; the rest stay zero. */
  lemma {:induction false} AddCharsSextets(cs: string)
    requires |cs| <= STATE_CHARS
    ensures forall i :: 0 <= i < |cs| ==> Group(Sextets(AddChars(cs)), i) == ConvertChar(cs[i])
    ensures forall i :: |cs| <= i < STATE_CHARS ==> Group(Sextets(AddChars(cs)), i) == 0
  {
    if cs != [] {
      var init := cs[..|cs| - 1];
      AddCharsSextets(init);
      AddCharGroups(AddChars(init), cs[|cs| - 1]);
      assert forall i :: 0 <= i < |init| ==> init[i] == cs[i];
    }
  }

  /** A state's bytes are determined by its four 6-bit groups. */
  lemma SextetsInjective(s: State, t: State)
    requires Sextets(s) == Sextets(t)
    ensures s.b0 == t.b0 && s.b1 == t.b1 && s.b2 == t.b2
  {
    Uncut(s);
    Uncut(t);
  }

  /** The bytes rebuilt from their 6-bit groups. */
  lemma Uncut(s: State)
    ensures var q := Sextets(s);
      s.b0 == (q.g0 << 2) | (q.g1 >> 4)
      && s.b1 == ((q.g1 & 0x0F) << 4) | (q.g2 >> 2)
      && s.b2 == ((q.g2 & 0x03) << 6) | q.g3
  {
  }

  /**
   * The characters of one to three bytes, added back to a fresh state,
   * give those bytes back: 1 byte makes 2 characters, 2 make 3 and 3 make 4.
   */
  lemma StateRoundTrip(bs: seq<byte>)
    requires 1 <= |bs| <= STATE_CAPACITY
    ensures |GetChars(AddBytes(bs)).0| == |bs| + 1
    ensures GetBytes(AddChars(GetChars(AddBytes(bs)).0)).0 == bs
  {
    var s := AddBytes(bs);
    var t := AddChars(GetChars(s).0);
    CharCounts(|bs|);
    RoundTripSextets(bs);
    SextetsInjective(t, s);
    GetBytesSame(t, s);
    GetBytesAdded(bs);
  }

  /** `n` bytes make `n + 1` characters, and `n + 1` characters hold `n` whole bytes. */
  lemma CharCounts(n: nat)
    requires 1 <= n <= STATE_CAPACITY
    ensures (8 * n + 5) / 6 == n + 1 && (6 * (n + 1)) / 8 == n
  {
  }

  /** States with the same bytes and the same number of whole bytes give the same `getBytes`. */
  lemma GetBytesSame(s: State, t: State)
    requires s.b0 == t.b0 && s.b1 == t.b1 && s.b2 == t.b2
    requires s.bitCount <= 24 && t.bitCount <= 24 && s.bitCount / 8 == t.bitCount / 8
    ensures GetBytes(s).0 == GetBytes(t).0
  {
  }

  /** `getBytes` on a fresh state gives back the bytes added to it. */
  lemma GetBytesAdded(bs: seq<byte>)
    requires |bs| <= STATE_CAPACITY
    ensures GetBytes(AddBytes(bs)).0 == bs
  {
    var s := AddBytes(bs);
    AddBytesContents(bs);
    assert s.bitCount / 8 == |bs|;
    BytesPrefix(s, bs);
  }

  /** A state whose first bytes are `bs` lists them first. */
  lemma BytesPrefix(s: State, bs: seq<byte>)
    requires |bs| <= STATE_CAPACITY && forall i :: 0 <= i < |bs| ==> ByteAt(s, i) == bs[i]
    ensures Bytes(s)[..|bs|] == bs
  {
    forall i | 0 <= i < |bs| ensures Bytes(s)[..|bs|][i] == bs[i] {
      assert Bytes(s)[i] == ByteAt(s, i);
    }
  }

  /** Re-adding the characters of a fresh state's bytes rebuilds its 6-bit groups. */
  lemma RoundTripSextets(bs: seq<byte>)
    requires 1 <= |bs| <= STATE_CAPACITY
    ensures Sextets(AddChars(GetChars(AddBytes(bs)).0)) == Sextets(AddBytes(bs))
  {
    var s := AddBytes(bs);
    var cs := GetChars(s).0;
    var t := AddChars(cs);
    AddCharsSextets(cs);
    ConvertInverse();
    AddBytesContents(bs);
    assert ByteAt(s, 1) == s.b1 && ByteAt(s, 2) == s.b2;
    TailSextetsZero(s, |bs|);
    forall i | 0 <= i < STATE_CHARS ensures Group(Sextets(t), i) == Group(Sextets(s), i) {
    }
    GroupsExt(Sextets(t), Sextets(s));
  }

  /** Groups that agree at every index are equal. */
  lemma GroupsExt(q: Groups, r: Groups)
    requires forall i :: 0 <= i < STATE_CHARS ==> Group(q, i) == Group(r, i)
    ensures q == r
  {
    assert Group(q, 0) == Group(r, 0) && Group(q, 1) == Group(r, 1);
    assert Group(q, 2) == Group(r, 2) && Group(q, 3) == Group(r, 3);
  }

  /** A fresh state holds the added bytes in order and zeros after them. */
  lemma {:induction false} AddBytesContents(bs: seq<byte>)
    requires |bs| <= STATE_CAPACITY
    ensures forall i :: 0 <= i < |bs| ==> ByteAt(AddBytes(bs), i) == bs[i]
    ensures forall i :: |bs| <= i < STATE_CAPACITY ==> ByteAt(AddBytes(bs), i) == 0
  {
    if bs != [] {
      var init := bs[..|bs| - 1];
      AddBytesContents(init);
      assert forall i :: 0 <= i < |init| ==> init[i] == bs[i];
    }
  }

  /** With only the first `n` bytes loaded, the 6-bit groups past the `n + 1`-th are zero. */
  lemma TailSextetsZero(s: State, n: nat)
    requires 1 <= n <= 3
    requires n <= 1 ==> s.b1 == 0
    requires n <= 2 ==> s.b2 == 0
    ensures forall i :: n + 1 <= i < STATE_CHARS ==> Group(Sextets(s), i) == 0
  {
  }
}

=== FILE: text.dfy ===
/**
 * The text value of the hash map program: `parseText` reads a quoted
 * string with escapes out of a command, `equals` compares two values and
 * `hash` is Jenkins' one-at-a-time hash in 32-bit unsigned arithmetic.
 */
module Text {
  import opened Common

  /** The values a map holds: a text, or a value of another kind (its `print` method differs). */
  datatype Value = TextValue(val: string) | OtherValue(kind: nat)

  /** What scanning an initialization string ends in. */
  datatype TextScan =
    | NoQuote                       // no `"` at all: `NULL`
    | Unterminated                  // an opening `"` and no closing one
    | Scanned(value: string, used: nat)

  /** The character a backslash escape stands for, when `c` may follow a backslash. */
  function Unescape(c: char): (r: Option<char>) {
    if c == '"' then Some('"')
    else if c == 'n' then Some('\n')
    else if c == 't' then Some('\t')
    else if c == '\\' then Some('\\')
    else None
  }

  /**
   * The loop of `parseText` inside the quotes, from index `i`, with `acc`
   * stored so far: a recognised escape stores one character for two, any
   * other character (a lone backslash included) is stored as it is, and
   * the closing quote ends the value with `used` just past it.
   */
  function ReadQuoted(init: string, i: nat, acc: string): TextScan
    requires i <= |init|
    decreases |init| - i
  {
    if i == |init| then Unterminated
    else if init[i] == '"' then Scanned(acc, i + 1)
    else if init[i] == '\\' && i + 1 < |init| && Unescape(init[i + 1]).Some? then
      ReadQuoted(init, i + 2, acc + [Unescape(init[i + 1]).value])
    else ReadQuoted(init, i + 1, acc + [init[i]])
  }

  /** The loop of `parseText` before the opening quote: every character is skipped. */
  function SkipToQuote(init: string, i: nat): TextScan
    requires i <= |init|
    decreases |init| - i
  {
    if i == |init| then NoQuote
    else if init[i] == '"' then ReadQuoted(init, i + 1, [])
    else SkipToQuote(init, i + 1)
  }

  /** Reading inside the quotes ends at the end of the string or just past a closing quote. */
  lemma {:induction false} ReadQuotedEnds(init: string, i: nat, acc: string)
    requires i <= |init|
    ensures ReadQuoted(init, i, acc) != NoQuote
    ensures ReadQuoted(init, i, acc).Scanned? ==>
      i < ReadQuoted(init, i, acc).used <= |init| && init[ReadQuoted(init, i, acc).used - 1] == '"'
    decreases |init| - i
  {
    if i < |init| && init[i] != '"' {
      if init[i] == '\\' && i + 1 < |init| && Unescape(init[i + 1]).Some? {
        ReadQuotedEnds(init, i + 2, acc + [Unescape(init[i + 1]).value]);
      } else {
        ReadQuotedEnds(init, i + 1, acc + [init[i]]);
      }
    }
  }

  /** A value is found only past a quote, and ends just past the closing one. */
  lemma {:induction false} SkipToQuoteEnds(init: string, i: nat)
    requires i <= |init|
    ensures SkipToQuote(init, i).Scanned? ==>
      i < SkipToQuote(init, i).used <= |init| && init[SkipToQuote(init, i).used - 1] == '"'
    decreases |init| - i
  {
    if i < |init| {
      if init[i] == '"' {
        ReadQuotedEnds(init, i + 1, []);
      } else {
        SkipToQuoteEnds(init, i + 1);
      }
    }
  }

  /**
   * `parseText(init, &n)` as written. An opening quote with no closing
   * one leaves the stored value without its terminator, which
   * `strlen(str)` then reads past: `Unterminated` is that undefined
   * behaviour.
   */
  function ParseTextAsWritten(init: string): (r: TextScan)
    requires '\0' !in init
    ensures r.Scanned? ==> 0 < r.used <= |init| && init[r.used - 1] == '"'
  {
    SkipToQuoteEnds(init, 0);
    SkipToQuote(init, 0)
  }

  /** `parseText` as intended: `None` (`NULL`) when there is no quoted value, also when the quote is never closed. */
  function ParseText(init: string): (r: Option<(string, nat)>)
    requires '\0' !in init
    ensures r.Some? ==> ParseTextAsWritten(init) == Scanned(r.value.0, r.value.1)
    ensures r.None? <==> !ParseTextAsWritten(init).Scanned?
  {
    match ParseTextAsWritten(init)
    case Scanned(value, used) => Some((value, used))
    case _ => None
  }

  /** Before the opening quote, scanning skips to the first quote. */
  lemma {:induction false} SkipTo(init: string, i: nat, j: nat)
    requires i <= j <= |init| && forall k :: i <= k < j ==> init[k] != '"'
    ensures SkipToQuote(init, i) == SkipToQuote(init, j)
    decreases j - i
  {
    if i < j {
      SkipTo(init, i + 1, j);
    }
  }

  /** A string with no quote at all gives `NULL`, and one with a quote does not. */
  lemma NoQuoteNull(init: string)
    requires '\0' !in init
    ensures ParseTextAsWritten(init) == NoQuote <==> '"' !in init
  {
    if '"' in init {
      var j :| 0 <= j < |init| && init[j] == '"';
      var k := FirstQuote(init, j);
      SkipTo(init, 0, k);
      ReadQuotedEnds(init, k + 1, []);
    } else {
      SkipTo(init, 0, |init|);
    }
  }

  /** The first quote at or before `j`. */
  function FirstQuote(init: string, j: nat): (k: nat)
    requires j < |init| && init[j] == '"'
    ensures k <= j && init[k] == '"' && forall m :: 0 <= m < k ==> init[m] != '"'
  {
    if exists m :: 0 <= m < j && init[m] == '"' then
      var m :| 0 <= m < j && init[m] == '"';
      FirstQuote(init, m)
    else j
  }

  /** Inside the quotes, characters that are neither quote nor backslash are stored as they are. */
  lemma {:induction false} ReadPlain(init: string, i: nat, j: nat, acc: string)
    requires i <= j <= |init|
    requires forall k :: i <= k < j ==> init[k] != '"' && init[k] != '\\'
    ensures ReadQuoted(init, i, acc) == ReadQuoted(init, j, acc + init[i..j])
    decreases j - i
  {
    if i < j {
      ReadPlain(init, i + 1, j, acc + [init[i]]);
      assert acc + [init[i]] + init[i + 1..j] == acc + init[i..j];
    } else {
      assert acc + init[i..j] == acc;
    }
  }

  /**
   * An opening quote whose value runs to the end of the string without a
   * closing quote: undefined as written, `NULL` as intended.
   */
  lemma UnclosedQuote(s: string)
    requires '\0' !in s && forall k :: 0 <= k < |s| ==> s[k] != '"' && s[k] != '\\'
    ensures ParseTextAsWritten("\"" + s) == Unterminated
    ensures ParseText("\"" + s) == None
  {
    var init := "\"" + s;
    assert init[0] == '"' && '\0' !in init;
    ReadPlain(init, 1, |init|, []);
  }

  /** The letter that follows a backslash to stand for `c`, when `c` needs one: quote, newline, tab and backslash. */
  function EscapeCode(c: char): Option<char>
  {
    if c == '"' then Some('"')
    else if c == '\n' then Some('n')
    else if c == '\t' then Some('t')
    else if c == '\\' then Some('\\')
    else None
  }

  /** A backslash and the code letter read back as the character; a character without a code is neither quote nor backslash. */
  lemma EscapeCodeInverse(c: char)
    ensures EscapeCode(c).Some? ==> Unescape(EscapeCode(c).value) == Some(c)
    ensures EscapeCode(c).None? ==> c != '"' && c != '\\'
  {
  }

  /** The escaped form of one character. */
  function EscapeChar(c: char): (e: string)
    ensures 1 <= |e| <= 2
  {
    if EscapeCode(c).Some? then ['\\', EscapeCode(c).value] else [c]
  }

  /** The characters of `s`, each escaped. */
  function EscapeAll(s: string): (e: string)
  {
    if s == [] then [] else EscapeChar(s[0]) + EscapeAll(s[1..])
  }

  /** `s` written as a quoted value that `parseText` reads back. */
  function Quoted(s: string): string {
    "\"" + EscapeAll(s) + "\""
  }

  /** Reading the escaped characters stores exactly the original characters and stops at the closing quote after them. */
  lemma {:induction false} ReadEscaped(init: string, i: nat, s: string, rest: string, acc: string)
    requires i <= |init| && init[i..] == EscapeAll(s) + rest && rest != [] && rest[0] == '"'
    ensures ReadQuoted(init, i, acc) == Scanned(acc + s, i + |EscapeAll(s)| + 1)
    decreases |s|
  {
    if s == [] {
      assert init[i] == rest[0];
      assert acc + s == acc;
    } else {
      var e, t := EscapeChar(s[0]), EscapeAll(s[1..]);
      EscapeAllCons(s);
      SplitThree(init, i, EscapeAll(s), e, t, rest);
      var j := i + |e|;
      ReadEscaped(init, j, s[1..], rest, acc + [s[0]]);
      AppendFirst(acc, s);
      ReadOneEscaped(init, i, s[0], acc);
    }
  }

  /** The escaped text of a non-empty string: its first character escaped, then the rest. */
  lemma EscapeAllCons(s: string)
    requires s != []
    ensures EscapeAll(s) == EscapeChar(s[0]) + EscapeAll(s[1..])
  {
  }

  /** A slice holding `x + rest`, where `x` is `e + t`, splits at the end of `e`. */
  lemma SplitThree(init: string, i: nat, x: string, e: string, t: string, rest: string)
    requires i <= |init| && init[i..] == x + rest && x == e + t
    ensures i + |e| + |t| + |rest| == |init|
    ensures init[i..i + |e|] == e
    ensures init[i + |e|..] == t + rest
    ensures |x| == |e| + |t|
  {
    assert x + rest == e + (t + rest);
    SplitAt(init, i, e, t + rest);
  }

  /** A slice that starts with `e` splits into `e` and what follows it. */
  lemma SplitAt(init: string, i: nat, e: string, t: string)
    requires i <= |init| && init[i..] == e + t
    ensures i + |e| <= |init| && init[i..i + |e|] == e && init[i + |e|..] == t
  {
    assert init[i..][..|e|] == e;
    assert init[i..][|e|..] == t;
  }

  /** One escaped character is read back as that character. */
  lemma ReadOneEscaped(init: string, i: nat, c: char, acc: string)
    requires i + |EscapeChar(c)| < |init| && init[i..i + |EscapeChar(c)|] == EscapeChar(c)
    ensures ReadQuoted(init, i, acc) == ReadQuoted(init, i + |EscapeChar(c)|, acc + [c])
  {
    var e := EscapeChar(c);
    EscapeCodeInverse(c);
    assert init[i] == e[0];
    if |e| == 2 {
      assert init[i + 1] == e[1];
    }
  }

  /** Escaping adds no terminator. */
  lemma {:induction false} NoNulEscaped(s: string)
    requires '\0' !in s
    ensures '\0' !in EscapeAll(s)
    decreases |s|
  {
    if s != [] {
      NoNulEscaped(s[1..]);
    }
  }

  /**
   * Every text, written quoted with its escapes, reads back as itself,
   * with `n` just past the closing quote, whatever follows.
   */
  lemma ParseQuoted(s: string, rest: string)
    requires '\0' !in s && '\0' !in rest
    ensures '\0' !in Quoted(s) + rest
    ensures ParseText(Quoted(s) + rest) == Some((s, |Quoted(s)|))
  {
    var init := Quoted(s) + rest;
    assert init[0] == '"';
    assert init[1..] == EscapeAll(s) + ("\"" + rest);
    ReadEscaped(init, 1, s, "\"" + rest, []);
    assert [] + s == s;
    NoNulEscaped(s);
    assert '\0' !in init;
  }

  /** A scan result moved `d` characters to the right. */
  function Shifted(r: TextScan, d: nat): TextScan {
    if r.Scanned? then Scanned(r.value, r.used + d) else r
  }

  /** Reading inside the quotes depends only on what follows. */
  lemma {:induction false} ReadSuffix(init: string, d: nat, tail: string, i: nat, acc: string)
    requires d <= |init| && init[d..] == tail && i <= |tail|
    ensures ReadQuoted(init, d + i, acc) == Shifted(ReadQuoted(tail, i, acc), d)
    decreases |tail| - i
  {
    if i < |tail| {
      assert init[d + i] == tail[i];
      if i + 1 < |tail| {
        assert init[d + i + 1] == tail[i + 1];
      }
      if tail[i] != '"' {
        if tail[i] == '\\' && i + 1 < |tail| && Unescape(tail[i + 1]).Some? {
          ReadSuffix(init, d, tail, i + 2, acc + [Unescape(tail[i + 1]).value]);
        } else {
          ReadSuffix(init, d, tail, i + 1, acc + [tail[i]]);
        }
      }
    }
  }

  /** Skipping to the quote in a suffix is skipping in the suffix itself. */
  lemma {:induction false} SkipSuffix(init: string, d: nat, tail: string, i: nat)
    requires d <= |init| && init[d..] == tail && i <= |tail|
    ensures SkipToQuote(init, d + i) == Shifted(SkipToQuote(tail, i), d)
    decreases |tail| - i
  {
    if i < |tail| {
      assert init[d + i] == tail[i];
      if tail[i] == '"' {
        ReadSuffix(init, d, tail, i + 1, []);
      } else {
        SkipSuffix(init, d, tail, i + 1);
      }
    }
  }

  /** Characters before the opening quote are skipped: they only move `n`. */
  lemma SkipsPrefix(p: string, t: string)
    requires '"' !in p && '\0' !in p && '\0' !in t
    ensures '\0' !in p + t
    ensures ParseText(p + t) == if ParseText(t).Some? then Some((ParseText(t).value.0, ParseText(t).value.1 + |p|)) else None
  {
    var init := p + t;
    assert init[|p|..] == t;
    SkipTo(init, 0, |p|);
    SkipSuffix(init, |p|, t, 0);
  }

  // ---------------------------------------------------------------------
  // equals and hash
  // ---------------------------------------------------------------------

  /** The byte at index `i` of the C string holding `s`: past the end, the terminating NUL. */
  function CharAt(s: string, i: nat): char {
    if i < |s| then s[i] else '\0'
  }

  /** `strcmp` from index `i` on: the sign of the first difference, or 0 once both strings reach a NUL together. */
  function StrcmpFrom(a: string, b: string, i: nat): int
    decreases |a| - i
  {
    var x, y := CharAt(a, i), CharAt(b, i);
    if x != y then (if x < y then -1 else 1)
    else if x == '\0' then 0
    else StrcmpFrom(a, b, i + 1)
  }

  /** `equals(a, b)` for a text `a`: `b` is a text too, and `strcmp` finds the two strings equal. */
  predicate Equals(a: string, b: Value) {
    b.TextValue? && StrcmpFrom(a, b.val, 0) == 0
  }

  /** On strings without a NUL, `strcmp` from `i` finds no difference exactly when the two tails are the same. */
  lemma {:induction false} StrcmpSame(a: string, b: string, i: nat)
    requires '\0' !in a && '\0' !in b && i <= |a| && i <= |b|
    ensures StrcmpFrom(a, b, i) == 0 <==> a[i..] == b[i..]
    decreases |a| - i
  {
    if i < |a| && i < |b| && a[i] == b[i] {
      StrcmpSame(a, b, i + 1);
      assert a[i..] == [a[i]] + a[i + 1..];
      assert b[i..] == [b[i]] + b[i + 1..];
    } else if i < |a| && i < |b| {
      assert a[i..][0] != b[i..][0];
    } else if i < |a| {
      assert a[i] != '\0';
    } else if i < |b| {
      assert b[i] != '\0';
      assert CharAt(a, i) != CharAt(b, i);
      assert |a[i..]| == 0 < |b[i..]|;
    }
  }

  /** A C `char`: a byte. */
  predicate IsByte(c: char) {
    c as int < 256
  }

  /** A `char` converted to `unsigned int` where `char` is signed: bytes from 0x80 up are negative and wrap around. */
  function Widen(c: char): (w: bv32)
    requires IsByte(c)
  {
    if c as int < 128 then c as int as bv32 else (c as int + 0xFFFF_FF00) as bv32
  }

  /** One step of the loop: add the character, then mix. */
  function Mix(h: bv32, c: char): bv32
    requires IsByte(c)
  {
    var h1 := h + Widen(c);
    var h2 := h1 + (h1 << 10);
    h2 ^ (h2 >> 6)
  }

  /** The loop over the whole string, as a left fold. */
  function MixAll(s: string): bv32
    requires forall i :: 0 <= i < |s| ==> IsByte(s[i])
  {
    if s == [] then 0 else Mix(MixAll(s[..|s| - 1]), s[|s| - 1])
  }

  /** The final avalanche. */
  function Finish(h: bv32): bv32 {
    var h1 := h + (h << 3);
    var h2 := h1 ^ (h1 >> 11);
    h2 + (h2 << 15)
  }

  /** Jenkins' one-at-a-time hash of a string of bytes. */
  function OneAtATime(s: string): bv32
    requires forall i :: 0 <= i < |s| ==> IsByte(s[i])
  {
    Finish(MixAll(s))
  }

  /** `hash`: the loop over the characters and the final mixing, in 32-bit unsigned arithmetic. */
  method Hash(s: string) returns (h: bv32)
    requires forall i :: 0 <= i < |s| ==> IsByte(s[i])
    ensures h == OneAtATime(s)
  {
    var i := 0;
    h := 0;
    while i != |s|
      invariant 0 <= i <= |s|
      invariant h == MixAll(s[..i])
    {
      assert s[..i + 1][..i] == s[..i];
      h := Mix(h, s[i]);
      i := i + 1;
    }
    assert s[..i] == s;
    h := Finish(h);
  }

  /**
   * On texts without a NUL, `equals` holds exactly when the strings are the
   * same, so texts that `equals` matches hash alike and the map finds a key
   * by any equal text; and `equals` is symmetric on texts.
   */
  lemma EqualsHash(a: string, b: Value)
    requires b.TextValue? && '\0' !in a && '\0' !in b.val
    requires forall i :: 0 <= i < |a| ==> IsByte(a[i])
    ensures Equals(a, b) <==> a == b.val
    ensures Equals(a, b) ==> OneAtATime(a) == OneAtATime(b.val)
    ensures Equals(a, b) <==> Equals(b.val, TextValue(a))
  {
    StrcmpSame(a, b.val, 0);
    StrcmpSame(b.val, a, 0);
    assert a[0..] == a && b.val[0..] == b.val;
  }
}

=== FILE: wordle.dfy ===
/**
 * The guessing loop of `wordle.c`'s `main`: read a guess with `%7s`,
 * stop on the target, reject over-long guesses and words outside the
 * list, stop on `quit` or end of input, and otherwise print the coloured
 * guess and count it.
 */
module Wordle {
  import opened Common
  import opened CScan
  import opened Lexicon
  import opened Feedback

  /** The width of the `%7s` conversion the guesses are read with. */
  const GUESS_WIDTH: nat := 7

  /** The bytes of `char guess[WORD_LEN + 1]` as the program declares it. */
  const GUESS_DECLARED: nat := WORD_LEN + 1

  /** The bytes `%7s` may store: seven characters and the terminator. */
  const GUESS_NEEDED: nat := GUESS_WIDTH + 1

  /** One line of output. The colour escapes around the letters are not modelled. */
  datatype Line =
    | Invalid
    | Colored(letters: string, colors: seq<Color>)
    | Garbled(letters: string)
    | Reveal(word: string)
    | Solved(count: nat)

  /** The text of a line, without its newline. */
  function LineText(line: Line): string {
    match line
    case Invalid => "Invalid guess"
    case Colored(letters, _) => letters
    case Garbled(letters) => letters
    case Reveal(word) => "The word was \"" + word + "\""
    case Solved(n) => "Solved in " + NatToDecimal(n) + (if n == 1 then " guess" else " guesses")
  }

  /**
   * How a game ends: solved after `guesses` counted guesses, given up,
   * still looping when the fuel ran out, or with a guess stored past the end
   * of the `guess` array, after which the behaviour is undefined. The lines
   * are those of the rounds; the closing line is added by `Transcript`.
   */
  datatype Game =
    | Won(lines: seq<Line>, guesses: nat)
    | Revealed(lines: seq<Line>)
    | Running(lines: seq<Line>)
    | Overflowed(lines: seq<Line>)

  /** All lines printed: the rounds' lines, then the result. */
  function Transcript(g: Game, word: string): seq<Line> {
    match g
    case Won(lines, n) => lines + [Solved(n)]
    case Revealed(lines) => lines + [Reveal(word)]
    case Running(lines) => lines
    case Overflowed(lines) => lines
  }

  function Prepend(line: Line, g: Game): (r: Game)
    ensures r.lines == [line] + g.lines
    ensures r.Won? == g.Won? && r.Revealed? == g.Revealed? && r.Overflowed? == g.Overflowed? && r.Running? == g.Running?
    ensures r.Won? ==> r.guesses == g.guesses
  {
    match g
    case Won(lines, n) => Won([line] + lines, n)
    case Revealed(lines) => Revealed([line] + lines)
    case Running(lines) => Running([line] + lines)
    case Overflowed(lines) => Overflowed([line] + lines)
  }

  /** The number of coloured guesses among the lines. */
  function FeedbackCount(lines: seq<Line>): nat {
    if lines == [] then 0 else (if lines[0].Colored? then 1 else 0) + FeedbackCount(lines[1..])
  }

  /** What a game needs: an ordered list of five-letter words holding the target. */
  predicate Setup(words: seq<string>, word: string) {
    ValidWords(words) && Ordered(words) && word in words
  }

  /** `%*s`: skip white space and then one whole word. */
  function SkipToken(s: string): (r: string)
    ensures |r| <= |s|
    ensures r == [] || IsCSpace(r[0])
    ensures (forall i :: 0 <= i < |s| ==> IsCSpace(s[i])) ==> r == []
  {
    var t := SkipSpace(s);
    t[|TakeWord(t, |t| + 1)|..]
  }

  /** A listed word is a five-letter word. */
  lemma ListedLength(words: seq<string>, g: string)
    requires ValidWords(words) && g in words
    ensures |g| == WORD_LEN
  {
    var k :| 0 <= k < |words| && words[k] == g;
  }

  /** One round of the loop: the game ends, or a line is printed and the loop goes on with the word read and the rest of the input. */
  datatype Step =
    | Stop(game: Game)
    | Next(line: Line, guess: string, rest: string, counted: bool)

  /** The coloured line of a listed guess. */
  function ColourLine(words: seq<string>, word: string, g: string): (line: Line)
    requires Setup(words, word) && g in words
    ensures line.Colored? && line.letters == g
    ensures |g| == |word| && line.colors == RefColors(g, word)
  {
    ListedLength(words, g);
    ListedLength(words, word);
    Colored(g, RefColors(g, word))
  }

  /**
   * A round as written, with a `guess` array of `buffer` bytes: the program
   * declares `GUESS_DECLARED`, and a word read with its terminator past
   * that size is written beyond the array, which is undefined behaviour.
   * At end of input `scanf` leaves `guess` as it was, and the tests that
   * follow see the previous guess again; a word of more than six characters
   * makes `%*s` skip the following word, whatever it is. `inList` also
   * accepts the word in the slot after the list (`spare`, an unfinished last
   * line of the word file); such a guess is shorter than a word, and the
   * colouring loop prints five characters from a buffer that holds fewer:
   * the line is `Garbled`, and the guess is counted.
   */
  function RoundAsWritten(buffer: nat, words: seq<string>, spare: string, word: string, guess: string, input: string, guesses: nat): (r: Step)
    requires Setup(words, word)
  {
    var scan := ScanWord(input, GUESS_WIDTH);
    var g := if scan.Some? then scan.value.0 else guess;
    var rest := if scan.Some? then scan.value.1 else [];
    if scan.Some? && |g| + 1 > buffer then Stop(Overflowed([]))
    else if g == word then Stop(Won([], guesses + 1))
    else if |g| > WORD_LEN then
      Next(Invalid, g, if |g| > WORD_LEN + 1 then SkipToken(rest) else rest, false)
    else if g == "quit" || scan.None? then Stop(Revealed([]))
    else if !InListAsWritten(words, spare, g) then Next(Invalid, g, rest, false)
    else if g in words then Next(ColourLine(words, word, g), g, rest, true)
    else Next(Garbled(g), g, rest, true)
  }

  /**
   * A round with both defects removed: end of input is tested before the
   * guess is looked at, and `%*s` runs only when the over-long word really
   * continues past the seven characters read. Every round that goes on has
   * read input; only listed guesses other than the target are counted.
   */
  function Round(words: seq<string>, word: string, input: string, guesses: nat): (r: Step)
    requires Setup(words, word)
    ensures r.Next? ==> |r.rest| < |input|
  {
    var scan := ScanWord(input, GUESS_WIDTH);
    if scan.None? then Stop(Revealed([]))
    else
      var (g, rest) := scan.value;
      if g == word then Stop(Won([], guesses + 1))
      else if |g| > WORD_LEN then
        Next(Invalid, g, if |g| > WORD_LEN + 1 && rest != [] && !IsCSpace(rest[0]) then SkipToken(rest) else rest, false)
      else if g == "quit" then Stop(Revealed([]))
      else if !InList(words, g) then Next(Invalid, g, rest, false)
      else Next(ColourLine(words, word, g), g, rest, true)
  }

  /**
   * A round as written ends the game with no line of its own, or prints one
   * line: an invalid guess, which is not counted, or a coloured one, which is.
   * The word read overflows the `guess` array exactly when it does not fit
   * with its terminator; with the declared array, that is every word of six
   * or seven characters.
   */
  lemma RoundAsWrittenSpec(buffer: nat, words: seq<string>, spare: string, word: string, guess: string, input: string, guesses: nat)
    requires Setup(words, word)
    ensures var r := RoundAsWritten(buffer, words, spare, word, guess, input, guesses);
      var scan := ScanWord(input, GUESS_WIDTH);
      && (r.Stop? && r.game.Overflowed? <==> scan.Some? && |scan.value.0| + 1 > buffer)
      && (buffer == GUESS_DECLARED ==> (r.Stop? && r.game.Overflowed? <==> scan.Some? && |scan.value.0| > WORD_LEN))
      && (r.Stop? ==> r.game == Won([], guesses + 1) || r.game == Revealed([]) || r.game == Overflowed([]))
      && (r.Next? ==> |r.rest| <= |input| && (r.counted ==> r.line.Colored? || r.line.Garbled?) && (!r.counted ==> r.line == Invalid))
      && (r.Next? && r.line.Garbled? ==> r.guess == spare && spare !in words && spare != word)
  {
  }

  /**
   * A corrected round ends the game with no line of its own, or reads input
   * and prints one line: a counted guess is a listed word other than the
   * target, shown with its colours; anything else is an invalid guess.
   */
  lemma RoundSpec(words: seq<string>, word: string, input: string, guesses: nat)
    requires Setup(words, word)
    ensures var r := Round(words, word, input, guesses);
      && (r.Stop? ==> r.game == Won([], guesses + 1) || r.game == Revealed([]))
      && (r.Next? && r.counted ==>
            r.guess in words && r.guess != word && |r.guess| == |word| && r.line == Colored(r.guess, RefColors(r.guess, word)))
      && (r.Next? && !r.counted ==> r.line == Invalid)
  {
  }

  /** The loop as written, run for at most `fuel` rounds. */
  function PlayAsWritten(buffer: nat, fuel: nat, words: seq<string>, spare: string, word: string, guess: string, input: string, guesses: nat): (r: Game)
    requires Setup(words, word)
    ensures r.Running? ==> |r.lines| <= fuel
    decreases fuel
  {
    if fuel == 0 then Running([])
    else
      match RoundAsWritten(buffer, words, spare, word, guess, input, guesses)
      case Stop(game) => game
      case Next(line, g, rest, counted) =>
        Prepend(line, PlayAsWritten(buffer, fuel - 1, words, spare, word, g, rest, guesses + (if counted then 1 else 0)))
  }

  /** The corrected loop. It always ends. */
  function Play(words: seq<string>, word: string, input: string, guesses: nat): (r: Game)
    requires Setup(words, word)
    ensures !r.Running?
    decreases |input|
  {
    match Round(words, word, input, guesses)
    case Stop(game) => game
    case Next(line, _, rest, counted) =>
      Prepend(line, Play(words, word, rest, guesses + (if counted then 1 else 0)))
  }

  /** A round that goes on prints its line before the lines of the rest of the game. */
  lemma PlayNext(words: seq<string>, word: string, input: string, guesses: nat, r: Step, n: nat)
    requires Setup(words, word) && Round(words, word, input, guesses) == r
    requires r.Next? && n == guesses + (if r.counted then 1 else 0)
    ensures Play(words, word, input, guesses) == Prepend(r.line, Play(words, word, r.rest, n))
  {
  }

  /** A round as written that goes on prints its line before the lines of the rest of the game. */
  lemma PlayAsWrittenNext(buffer: nat, fuel: nat, words: seq<string>, spare: string, word: string, guess: string, input: string, guesses: nat, r: Step, n: nat)
    requires Setup(words, word) && fuel > 0 && RoundAsWritten(buffer, words, spare, word, guess, input, guesses) == r
    requires r.Next? && n == guesses + (if r.counted then 1 else 0)
    ensures PlayAsWritten(buffer, fuel, words, spare, word, guess, input, guesses) == Prepend(r.line, PlayAsWritten(buffer, fuel - 1, words, spare, word, r.guess, r.rest, n))
  {
  }

  lemma FeedbackCountCons(line: Line, lines: seq<Line>)
    ensures FeedbackCount([line] + lines) == (if line.Colored? then 1 else 0) + FeedbackCount(lines)
  {
    assert ([line] + lines)[1..] == lines;
  }

  /**
   * A won game counts one guess per coloured line plus the winning one:
   * invalid guesses are not counted.
   */
  lemma {:induction false} PlayCounts(words: seq<string>, word: string, input: string, guesses: nat)
    requires Setup(words, word)
    ensures var r := Play(words, word, input, guesses);
      r.Won? ==> r.guesses == guesses + FeedbackCount(r.lines) + 1
    decreases |input|
  {
    var r := Round(words, word, input, guesses);
    if r.Next? {
      var n := guesses + (if r.counted then 1 else 0);
      PlayNext(words, word, input, guesses, r, n);
      PlayCounts(words, word, r.rest, n);
      FeedbackCountCons(r.line, Play(words, word, r.rest, n).lines);
    }
  }

  /** A coloured line shows a listed word other than the target, coloured against the target. */
  predicate FaithfulLine(words: seq<string>, word: string, l: Line) {
    l.Colored? ==> l.letters in words && l.letters != word && |l.letters| == |word| && l.colors == RefColors(l.letters, word)
  }

  /** Every coloured line of a game is the colouring of a listed word other than the target. */
  lemma {:induction false} PlayColours(words: seq<string>, word: string, input: string, guesses: nat)
    requires Setup(words, word)
    ensures forall l :: l in Play(words, word, input, guesses).lines ==> FaithfulLine(words, word, l)
    decreases |input|
  {
    var r := Round(words, word, input, guesses);
    if r.Next? {
      var n := guesses + (if r.counted then 1 else 0);
      PlayNext(words, word, input, guesses, r, n);
      PlayColours(words, word, r.rest, n);
    }
  }

  /**
   * The input holds no word longer than a guess, so no over-long branch is
   * ever taken, and never the spare slot's word, so `inList` as written
   * answers as the corrected one does.
   */
  predicate ShortWords(input: string, spare: string)
    decreases |input|
  {
    match ScanWord(input, GUESS_WIDTH)
    case None => true
    case Some((w, rest)) => |w| <= WORD_LEN && w != spare && ShortWords(rest, spare)
  }

  /** On input without over-long words a round as written does what the corrected round does. */
  lemma RoundAgrees(buffer: nat, words: seq<string>, spare: string, word: string, guess: string, input: string, guesses: nat)
    requires Setup(words, word) && buffer >= GUESS_DECLARED && ShortWords(input, spare) && |guess| <= WORD_LEN && guess != word
    ensures RoundAsWritten(buffer, words, spare, word, guess, input, guesses) == Round(words, word, input, guesses)
    ensures var r := Round(words, word, input, guesses);
      r.Next? ==> |r.guess| <= WORD_LEN && r.guess != word && ShortWords(r.rest, spare)
  {
    var scan := ScanWord(input, GUESS_WIDTH);
    if scan.Some? {
      InListSpareAgrees(words, spare, scan.value.0);
    }
  }

  /** The guess count after a round that goes on. */
  function Counted(r: Step, guesses: nat): (n: nat)
    requires r.Next?
    ensures r.counted <==> n == guesses + 1
    ensures !r.counted <==> n == guesses
  {
    guesses + (if r.counted then 1 else 0)
  }

  /**
   * On input without over-long words, the loop as written behaves like the
   * corrected one, given one round of fuel per input character and a
   * previous guess that neither wins nor is over-long.
   */
  lemma {:induction false} PlayAgrees(buffer: nat, fuel: nat, words: seq<string>, spare: string, word: string, guess: string, input: string, guesses: nat)
    requires Setup(words, word) && buffer >= GUESS_DECLARED
    ensures ShortWords(input, spare) && fuel > |input| && |guess| <= WORD_LEN && guess != word ==>
      PlayAsWritten(buffer, fuel, words, spare, word, guess, input, guesses) == Play(words, word, input, guesses)
    decreases |input|, 1
  {
    if ShortWords(input, spare) && fuel > |input| && |guess| <= WORD_LEN && guess != word {
      RoundAgrees(buffer, words, spare, word, guess, input, guesses);
      var r := Round(words, word, input, guesses);
      if r.Next? {
        SameNextSamePlay(buffer, fuel, words, spare, word, guess, input, guesses, r);
        PlayAgreesNext(buffer, fuel, words, spare, word, r.guess, r.rest, Counted(r, guesses));
      } else {
        SameStopSamePlay(buffer, fuel, words, spare, word, guess, input, guesses, r);
      }
    }
  }

  /**
   * The inductive step of `PlayAgrees`, for a round that goes on: the rest
   * of the game as written agrees with the corrected rest, on the shorter
   * input that round leaves.
   */
  lemma {:induction false} PlayAgreesNext(buffer: nat, fuel: nat, words: seq<string>, spare: string, word: string,
                                          guess: string, rest: string, guesses: nat)
    requires Setup(words, word) && buffer >= GUESS_DECLARED && fuel > |rest| + 1
    requires ShortWords(rest, spare) && |guess| <= WORD_LEN && guess != word
    ensures PlayAsWritten(buffer, fuel - 1, words, spare, word, guess, rest, guesses) == Play(words, word, rest, guesses)
    decreases |rest| + 1, 0
  {
    var less := fuel - 1;
    PlayAgrees(buffer, less, words, spare, word, guess, rest, guesses);
  }

  /** When a round as written and a corrected round both go on alike, each game is that round's line followed by the rest of it. */
  lemma SameNextSamePlay(buffer: nat, fuel: nat, words: seq<string>, spare: string, word: string, guess: string, input: string, guesses: nat, r: Step)
    requires Setup(words, word)
    ensures && fuel > 0 && RoundAsWritten(buffer, words, spare, word, guess, input, guesses) == r && Round(words, word, input, guesses) == r && r.Next?
            ==> && PlayAsWritten(buffer, fuel, words, spare, word, guess, input, guesses)
                   == Prepend(r.line, PlayAsWritten(buffer, fuel - 1, words, spare, word, r.guess, r.rest, Counted(r, guesses)))
                && Play(words, word, input, guesses) == Prepend(r.line, Play(words, word, r.rest, Counted(r, guesses)))
  {
    if fuel > 0 && RoundAsWritten(buffer, words, spare, word, guess, input, guesses) == r && Round(words, word, input, guesses) == r && r.Next? {
      PlayAsWrittenNext(buffer, fuel, words, spare, word, guess, input, guesses, r, Counted(r, guesses));
      PlayNext(words, word, input, guesses, r, Counted(r, guesses));
    }
  }

  /** When a round as written and a corrected round both end the game alike, the games agree. */
  lemma SameStopSamePlay(buffer: nat, fuel: nat, words: seq<string>, spare: string, word: string, guess: string, input: string, guesses: nat, r: Step)
    requires Setup(words, word) && fuel > 0
    requires RoundAsWritten(buffer, words, spare, word, guess, input, guesses) == r && Round(words, word, input, guesses) == r
    requires r.Stop?
    ensures PlayAsWritten(buffer, fuel, words, spare, word, guess, input, guesses) == Play(words, word, input, guesses)
  {
  }

  /** At the end of the input, a round as written sees the previous guess again. */
  lemma StaleRound(words: seq<string>, spare: string, word: string, guess: string, input: string, guesses: nat)
    requires Setup(words, word) && |guess| > WORD_LEN
    requires forall i :: 0 <= i < |input| ==> IsCSpace(input[i])
    ensures RoundAsWritten(GUESS_NEEDED, words, spare, word, guess, input, guesses) == Next(Invalid, guess, [], false)
  {
    ListedLength(words, word);
  }

  /**
   * Finding: once only white space is left, a previous guess longer than
   * five characters is seen again on every round, each printing
   * `Invalid guess`: the loop as written never ends.
   */
  lemma {:induction false} StaleGuessHangs(fuel: nat, words: seq<string>, spare: string, word: string, guess: string, input: string, guesses: nat)
    requires Setup(words, word) && |guess| > WORD_LEN
    requires forall i :: 0 <= i < |input| ==> IsCSpace(input[i])
    ensures PlayAsWritten(GUESS_NEEDED, fuel, words, spare, word, guess, input, guesses).Running?
    ensures |PlayAsWritten(GUESS_NEEDED, fuel, words, spare, word, guess, input, guesses).lines| == fuel
    decreases fuel
  {
    if fuel > 0 {
      var less := fuel - 1;
      StaleGuessHangs(less, words, spare, word, guess, [], guesses);
      StaleStep(fuel, words, spare, word, guess, input, guesses);
    }
  }

  /** One more round on white space adds one more `Invalid guess` line to a game still running. */
  lemma StaleStep(fuel: nat, words: seq<string>, spare: string, word: string, guess: string, input: string, guesses: nat)
    requires Setup(words, word) && |guess| > WORD_LEN && fuel > 0
    requires forall i :: 0 <= i < |input| ==> IsCSpace(input[i])
    requires PlayAsWritten(GUESS_NEEDED, fuel - 1, words, spare, word, guess, [], guesses).Running?
    requires |PlayAsWritten(GUESS_NEEDED, fuel - 1, words, spare, word, guess, [], guesses).lines| == fuel - 1
    ensures PlayAsWritten(GUESS_NEEDED, fuel, words, spare, word, guess, input, guesses).Running?
    ensures |PlayAsWritten(GUESS_NEEDED, fuel, words, spare, word, guess, input, guesses).lines| == fuel
  {
    StaleRound(words, spare, word, guess, input, guesses);
    PlayAsWrittenNext(GUESS_NEEDED, fuel, words, spare, word, guess, input, guesses, Next(Invalid, guess, [], false), guesses);
  }


  /** The corrected loop gives up at the end of the input, whatever was read before. */
  lemma EndOfInputReveals(words: seq<string>, word: string, input: string, guesses: nat)
    requires Setup(words, word)
    requires forall i :: 0 <= i < |input| ==> IsCSpace(input[i])
    ensures Play(words, word, input, guesses) == Revealed([])
  {
  }

  /** A word of six or seven characters followed only by white space is read whole and rejected. */
  lemma OverlongRound(words: seq<string>, spare: string, word: string, guess: string, t: string, tail: string, guesses: nat)
    requires Setup(words, word)
    requires WORD_LEN < |t| <= GUESS_WIDTH && forall i :: 0 <= i < |t| ==> !IsCSpace(t[i])
    requires |tail| > 0 && forall i :: 0 <= i < |tail| ==> IsCSpace(tail[i])
    ensures var r := RoundAsWritten(GUESS_NEEDED, words, spare, word, guess, t + tail, guesses);
      r.Next? && r.guess == t && forall i :: 0 <= i < |r.rest| ==> IsCSpace(r.rest[i])
  {
    ListedLength(words, word);
    TakeWordExact(t, tail, GUESS_WIDTH);
    assert SkipSpace(t + tail) == t + tail;
    assert (t + tail)[|t|..] == tail;
  }

  /** Finding, from the start: a last word of six or seven characters makes the loop as written run forever. */
  lemma OverlongLastWordHangs(fuel: nat, words: seq<string>, spare: string, word: string, guess: string, t: string, tail: string, guesses: nat)
    requires Setup(words, word)
    requires WORD_LEN < |t| <= GUESS_WIDTH && forall i :: 0 <= i < |t| ==> !IsCSpace(t[i])
    requires |tail| > 0 && forall i :: 0 <= i < |tail| ==> IsCSpace(tail[i])
    ensures PlayAsWritten(GUESS_NEEDED, fuel, words, spare, word, guess, t + tail, guesses).Running?
  {
    if fuel > 0 {
      OverlongRound(words, spare, word, guess, t, tail, guesses);
      var r := RoundAsWritten(GUESS_NEEDED, words, spare, word, guess, t + tail, guesses);
      StaleGuessHangs(fuel - 1, words, spare, word, t, r.rest, guesses);
    }
  }

  /**
   * Finding: `guess` is declared with room for five characters and the
   * terminator, but `%7s` stores up to seven and the terminator; a word of
   * six or seven characters writes past the array, and the game as written
   * has no defined outcome from there. With room for eight bytes no round
   * overflows, and the corrected round only rejects such a word.
   */
  lemma OverlongOverflows(words: seq<string>, spare: string, word: string, guess: string, t: string, tail: string, guesses: nat)
    requires Setup(words, word)
    requires WORD_LEN < |t| <= GUESS_WIDTH && forall i :: 0 <= i < |t| ==> !IsCSpace(t[i])
    requires tail == [] || IsCSpace(tail[0])
    ensures RoundAsWritten(GUESS_DECLARED, words, spare, word, guess, t + tail, guesses) == Stop(Overflowed([]))
    ensures PlayAsWritten(GUESS_DECLARED, |t + tail| + 1, words, spare, word, guess, t + tail, guesses) == Overflowed([])
    ensures !RoundAsWritten(GUESS_NEEDED, words, spare, word, guess, t + tail, guesses).Stop?
    ensures var r := Round(words, word, t + tail, guesses); r.Next? && r.line == Invalid && !r.counted
  {
    ListedLength(words, word);
    ScanWordReads([], t, tail, GUESS_WIDTH);
    assert [] + t + tail == t + tail;
  }

  /** What `%7s` leaves after a seven-character word followed by white space and another word. */
  lemma SevenLetterScan(t: string, after: string)
    requires |t| == GUESS_WIDTH && forall i :: 0 <= i < |t| ==> !IsCSpace(t[i])
    requires after == [] || IsCSpace(after[0])
    ensures ScanWord(t + after, GUESS_WIDTH) == Some((t, after))
  {
    ScanWordReads([], t, after, GUESS_WIDTH);
    assert [] + t + after == t + after;
  }

  /** `%*s` skips the white space and the whole word that follows it. */
  lemma SkipTokenWord(sp: char, u: string, rest: string)
    requires IsCSpace(sp)
    requires |u| > 0 && forall i :: 0 <= i < |u| ==> !IsCSpace(u[i])
    requires rest == [] || IsCSpace(rest[0])
    ensures SkipToken([sp] + u + rest) == rest
  {
    var after := [sp] + u + rest;
    assert after[1..] == u + rest;
    assert SkipSpace(after) == u + rest;
    TakeWordExact(u, rest, |u + rest| + 1);
    assert (u + rest)[|u|..] == rest;
  }

  /**
   * Finding: a word of exactly seven characters is read whole by `%7s`,
   * yet the round as written still runs `%*s`, which skips the NEXT word:
   * the guess after it is never looked at. The corrected round leaves it
   * to be read.
   */
  lemma SevenLetterWordSkipsNext(words: seq<string>, spare: string, word: string, guess: string, t: string, sp: char, u: string, rest: string, guesses: nat)
    requires Setup(words, word)
    requires |t| == GUESS_WIDTH && forall i :: 0 <= i < |t| ==> !IsCSpace(t[i])
    requires IsCSpace(sp)
    requires |u| > 0 && forall i :: 0 <= i < |u| ==> !IsCSpace(u[i])
    requires rest == [] || IsCSpace(rest[0])
    ensures RoundAsWritten(GUESS_NEEDED, words, spare, word, guess, t + [sp] + u + rest, guesses) == Next(Invalid, t, rest, false)
    ensures Round(words, word, t + [sp] + u + rest, guesses) == Next(Invalid, t, [sp] + u + rest, false)
  {
    ListedLength(words, word);
    SevenLetterScan(t, [sp] + u + rest);
    assert t + ([sp] + u + rest) == t + [sp] + u + rest;
    SkipTokenWord(sp, u, rest);
  }

  /**
   * Finding: when the word file ends with an unfinished line `spare` that
   * sorts after every word, the guess `spare` is accepted by the round as
   * written, printed garbled and counted; the corrected round rejects it.
   */
  lemma SpareGuessAccepted(words: seq<string>, spare: string, word: string, guess: string, rest: string, guesses: nat)
    requires Setup(words, word)
    requires 0 < |spare| <= WORD_LEN && (forall i :: 0 <= i < |spare| ==> IsAsciiLower(spare[i])) && spare != "quit"
    requires forall i :: 0 <= i < |words| ==> Less(words[i], spare)
    requires rest == [] || IsCSpace(rest[0])
    ensures RoundAsWritten(GUESS_DECLARED, words, spare, word, guess, spare + rest, guesses) == Next(Garbled(spare), spare, rest, true)
    ensures Round(words, word, spare + rest, guesses) == Next(Invalid, spare, rest, false)
  {
    var input := spare + rest;
    ScanWordReads([], spare, rest, GUESS_WIDTH);
    assert [] + spare + rest == input;
    InListAcceptsSpare(words, spare);
    GarbledRound(words, spare, word, guess, input, guesses, spare, rest);
    UnlistedRound(words, word, input, guesses, spare, rest);
  }

  /** A round as written that reads an unlisted guess `inList` accepts prints it garbled and counts it. */
  lemma GarbledRound(words: seq<string>, spare: string, word: string, guess: string, input: string, guesses: nat,
                     g: string, rest: string)
    requires Setup(words, word) && ScanWord(input, GUESS_WIDTH) == Some((g, rest))
    requires |g| <= WORD_LEN && g != "quit" && g !in words && InListAsWritten(words, spare, g)
    ensures RoundAsWritten(GUESS_DECLARED, words, spare, word, guess, input, guesses) == Next(Garbled(g), g, rest, true)
  {
  }

  /** A corrected round that reads an unlisted guess rejects it without counting it. */
  lemma UnlistedRound(words: seq<string>, word: string, input: string, guesses: nat, g: string, rest: string)
    requires Setup(words, word) && ScanWord(input, GUESS_WIDTH) == Some((g, rest))
    requires |g| <= WORD_LEN && g != "quit" && g !in words
    ensures Round(words, word, input, guesses) == Next(Invalid, g, rest, false)
  {
  }
}

=== FILE: words_file.dfy ===
/**
 * The optional `words` file of the two word servers and the dictionary it
 * yields. The C server reads white-space separated tokens of at most 26
 * characters (`%26s`); the Java server reads whole lines with a `Scanner`.
 * A missing file gives no dictionary at all, which switches the run check off.
 */
module WordsFile {
  import opened Common
  import opened Board
  import CScan

  /** Width of the C loader's `%26s` conversion. */
  const TOKEN_WIDTH: nat := 26

  /** What one `%26s` conversion can store: 1 to 26 characters, none of them white space. */
  predicate IsToken(w: string) {
    1 <= |w| <= TOKEN_WIDTH && forall j :: 0 <= j < |w| ==> !IsCSpace(w[j])
  }

  /** One `%26s` conversion: the next token and the text after it, or `None` when only white space is left. */
  function NextToken(text: string): (res: Option<(string, string)>)
    ensures res.Some? ==> IsToken(res.value.0) && |res.value.1| < |text|
  {
    var t := CScan.SkipSpace(text);
    if t == [] then None
    else
      var w := CScan.TakeWord(t, TOKEN_WIDTH);
      assert |w| >= 1 by {
        assert !IsCSpace(t[0]);
      }
      Some((w, t[|w|..]))
  }

  /** The tokens the C loader's `fscanf("%26s")` loop stores, in file order. */
  function CWords(text: string): seq<string>
    decreases |text|
  {
    match NextToken(text)
    case None => []
    case Some((w, rest)) => [w] + CWords(rest)
  }

  /** Every stored word is a token: 1 to 26 characters, no white space. */
  lemma {:induction false} CWordsTokens(text: string)
    ensures forall w :: w in CWords(text) ==> IsToken(w)
    decreases |text|
  {
    var next := NextToken(text);
    if next.Some? {
      var rest := next.value.1;
      CWordsTokens(rest);
      assert CWords(text) == [next.value.0] + CWords(rest);
    }
  }

  /** Text that is white space only holds no token, and any other text holds one. */
  lemma CWordsEmpty(text: string)
    ensures CWords(text) == [] <==> forall i :: 0 <= i < |text| ==> IsCSpace(text[i])
  {
    if CScan.SkipSpace(text) != [] {
      assert !IsCSpace(text[|text| - |CScan.SkipSpace(text)|]);
    }
  }

  /** Words written one after another, word `i` followed by the white-space character `seps[i]`. */
  function Separated(ws: seq<string>, seps: string): string
    requires |seps| == |ws|
  {
    if ws == [] then "" else ws[0] + [seps[0]] + Separated(ws[1..], seps[1..])
  }

  /** A file of short space-free words, each followed by white space, loads as those words. */
  lemma {:induction false} CWordsRoundTrip(ws: seq<string>, seps: string)
    requires |seps| == |ws| && forall i :: 0 <= i < |seps| ==> IsCSpace(seps[i])
    requires forall i :: 0 <= i < |ws| ==> IsToken(ws[i])
    ensures CWords(Separated(ws, seps)) == ws
    decreases |ws|
  {
    if ws != [] {
      var w, tail := ws[0], Separated(ws[1..], seps[1..]);
      var text := Separated(ws, seps);
      assert text == w + ([seps[0]] + tail) by {
        assert text == w + [seps[0]] + tail;
      }
      calc {
        CWords(text);
        { CWordsCons(w, [seps[0]] + tail); }
        [w] + CWords([seps[0]] + tail);
        { CWordsSkipSpace(seps[0], tail); }
        [w] + CWords(tail);
        { CWordsRoundTrip(ws[1..], seps[1..]); }
        [w] + ws[1..];
        ws;
      }
    }
  }

  /** A token followed by white space or the end is the first token, and the rest follows. */
  lemma CWordsCons(w: string, rest: string)
    requires IsToken(w)
    requires rest == [] || IsCSpace(rest[0])
    ensures CWords(w + rest) == [w] + CWords(rest)
  {
    NextTokenOf(w, rest);
  }

  /** A token followed by white space is read whole, and the white space is left unread. */
  lemma NextTokenOf(w: string, rest: string)
    requires IsToken(w)
    requires rest == [] || IsCSpace(rest[0])
    ensures NextToken(w + rest) == Some((w, rest))
  {
    assert CScan.SkipSpace(w + rest) == w + rest;
    CScan.TakeWordExact(w, rest, TOKEN_WIDTH);
    assert (w + rest)[|w|..] == rest;
  }

  /** Leading white space does not change the tokens. */
  lemma CWordsSkipSpace(ch: char, text: string)
    requires IsCSpace(ch)
    ensures CWords([ch] + text) == CWords(text)
  {
    assert ([ch] + text)[1..] == text;
  }

  /**
   * A word longer than 26 characters is not rejected by the C loader: it is
   * cut into 26-character pieces, the first of which becomes a dictionary
   * word of its own.
   */
  lemma CLongWordSplits(w: string)
    requires TOKEN_WIDTH < |w| <= 2 * TOKEN_WIDTH
    requires forall i :: 0 <= i < |w| ==> !IsCSpace(w[i])
    ensures CWords(w) == [w[..TOKEN_WIDTH], w[TOKEN_WIDTH..]]
  {
    var head, tail := w[..TOKEN_WIDTH], w[TOKEN_WIDTH..];
    NextTokenLong(w);
    CWordsStep(w);
    CWordsOfToken(tail);
  }

  /** A token alone is stored as one word. */
  lemma CWordsOfToken(t: string)
    requires IsToken(t)
    ensures CWords(t) == [t]
  {
    assert t == t + [];
    CWordsCons(t, []);
  }

  /** A run of more than 26 non-space characters yields its first 26 as the next token. */
  lemma NextTokenLong(w: string)
    requires TOKEN_WIDTH < |w| <= 2 * TOKEN_WIDTH
    requires forall i :: 0 <= i < |w| ==> !IsCSpace(w[i])
    ensures NextToken(w) == Some((w[..TOKEN_WIDTH], w[TOKEN_WIDTH..]))
    ensures IsToken(w[TOKEN_WIDTH..])
  {
    var tail := w[TOKEN_WIDTH..];
    forall j | 0 <= j < |tail|
      ensures !IsCSpace(tail[j])
    {
      assert tail[j] == w[TOKEN_WIDTH + j];
    }
    assert CScan.SkipSpace(w) == w;
    var r := CScan.TakeWord(w, TOKEN_WIDTH);
    assert !IsCSpace(w[|r|]);
  }

  /** When there is a next token, the stored words are it and those after it. */
  lemma CWordsStep(text: string)
    requires NextToken(text).Some?
    ensures CWords(text) == [NextToken(text).value.0] + CWords(NextToken(text).value.1)
  {
  }

  /** The line terminators `Scanner.nextLine` recognises: `\n`, `\r`, U+2028, U+2029 and U+0085 (and `\r\n` as one). */
  predicate IsLineSeparator(ch: char) {
    ch == '\n' || ch == '\r' || ch == '\U{2028}' || ch == '\U{2029}' || ch == '\U{85}'
  }

  /** The index of the first line terminator in `s`, or `|s|` when there is none. */
  function LineEnd(s: string): (i: nat)
    ensures i <= |s|
    ensures forall j :: 0 <= j < i ==> !IsLineSeparator(s[j])
    ensures i < |s| ==> IsLineSeparator(s[i])
  {
    if s == [] || IsLineSeparator(s[0]) then 0 else 1 + LineEnd(s[1..])
  }

  /**
   * The lines the Java loader's `hasNextLine`/`nextLine` loop adds, in file
   * order: the text between terminators, a final line without terminator
   * included, and nothing after a final terminator.
   */
  function JavaLines(text: string): (ls: seq<string>)
    ensures forall i, j :: 0 <= i < |ls| && 0 <= j < |ls[i]| ==> !IsLineSeparator(ls[i][j])
    ensures ls == [] <==> text == []
    decreases |text|
  {
    if text == [] then []
    else
      var i := LineEnd(text);
      if i == |text| then [text]
      else
        var k := if text[i] == '\r' && i + 1 < |text| && text[i + 1] == '\n' then 2 else 1;
        [text[..i]] + JavaLines(text[i + k..])
  }

  /** Lines written one after another, each followed by `\n`. */
  function NewlineTerminated(ls: seq<string>): string {
    if ls == [] then "" else ls[0] + "\n" + NewlineTerminated(ls[1..])
  }

  /** A file of lines, each ended by `\n`, loads as those lines, empty ones and spaces included. */
  lemma {:induction false} JavaLinesRoundTrip(ls: seq<string>)
    requires forall i, j :: 0 <= i < |ls| && 0 <= j < |ls[i]| ==> !IsLineSeparator(ls[i][j])
    ensures JavaLines(NewlineTerminated(ls)) == ls
    decreases |ls|
  {
    if ls != [] {
      var l, tail := ls[0], NewlineTerminated(ls[1..]);
      var text := NewlineTerminated(ls);
      assert text == l + ("\n" + tail);
      LineEndPrefix(l, "\n" + tail);
      assert text[..|l|] == l;
      assert text[|l| + 1..] == tail;
      JavaLinesRoundTrip(ls[1..]);
      assert [l] + ls[1..] == ls;
    }
  }

  /** The first terminator after a terminator-free prefix is found right after it. */
  lemma {:induction false} LineEndPrefix(l: string, rest: string)
    requires forall j :: 0 <= j < |l| ==> !IsLineSeparator(l[j])
    requires rest != [] && IsLineSeparator(rest[0])
    ensures LineEnd(l + rest) == |l|
    decreases |l|
  {
    if l == [] {
      assert l + rest == rest;
    } else {
      assert (l + rest)[1..] == l[1..] + rest;
      LineEndPrefix(l[1..], rest);
    }
  }

  /** The C server's dictionary from the `words` file, if there is one. */
  function CDictionary(file: Option<string>): (dict: Dictionary)
    ensures dict.NoWordsFile? <==> file.None?
    ensures file.Some? ==> dict.list == CWords(file.value)
  {
    match file
    case None => NoWordsFile
    case Some(text) => Words(CWords(text))
  }

  /** The Java server's dictionary from the `words` file, if there is one. */
  function JavaDictionary(file: Option<string>): (dict: Dictionary)
    ensures dict.NoWordsFile? <==> file.None?
    ensures file.Some? ==> dict.list == JavaLines(file.value)
  {
    match file
    case None => NoWordsFile
    case Some(text) => Words(JavaLines(text))
  }

  /**
   * The two loaders disagree on a line of two words: the C loader stores
   * the two words, the Java loader the whole line as one entry.
   */
  lemma LoadersDisagreeOn(a: string, b: string)
    requires IsToken(a) && IsToken(b)
    requires forall j :: 0 <= j < |a| ==> !IsLineSeparator(a[j])
    requires forall j :: 0 <= j < |b| ==> !IsLineSeparator(b[j])
    ensures CDictionary(Some(a + " " + b + "\n")) == Words([a, b])
    ensures JavaDictionary(Some(a + " " + b + "\n")) == Words([a + " " + b])
  {
    var text := a + " " + b + "\n";
    calc {
      CWords(text);
      { assert text == a + ([' '] + (b + "\n")); CWordsCons(a, [' '] + (b + "\n")); }
      [a] + CWords([' '] + (b + "\n"));
      { CWordsSkipSpace(' ', b + "\n"); }
      [a] + CWords(b + "\n");
      { CWordsCons(b, "\n"); }
      [a] + ([b] + CWords("\n"));
      { assert "\n" == ['\n'] + []; CWordsSkipSpace('\n', []); }
      [a, b];
    }
    var line := a + " " + b;
    assert forall j :: 0 <= j < |line| ==> !IsLineSeparator(line[j]) by {
      forall j | 0 <= j < |line|
        ensures !IsLineSeparator(line[j])
      {
        if j < |a| {
          assert line[j] == a[j];
        } else if j > |a| {
          assert line[j] == b[j - |a| - 1];
        }
      }
    }
    JavaLinesRoundTrip([line]);
    assert NewlineTerminated([line]) == text by {
      assert NewlineTerminated([line][1..]) == "";
    }
  }

  /** The line `ab cd` as an instance: two words in C, one line in Java. */
  lemma LoadersDisagree()
    ensures CDictionary(Some("ab cd\n")) == Words(["ab", "cd"])
    ensures JavaDictionary(Some("ab cd\n")) == Words(["ab cd"])
  {
    LoadersDisagreeOn("ab", "cd");
    assert "ab" + " " + "cd" + "\n" == "ab cd\n";
    assert "ab" + " " + "cd" == "ab cd";
  }
}
